=== FILE: README.md ===
# CXEMA accounting core in Dafny

CXEMA is a small web application for an agency that runs client projects. A
project has an agreed price, an agency fee percentage and a budget of expense
items in groups. An item is either a single total or a quantity times a unit
price. It may have one sub-level of child items, a billing adjustment (a
discount, a credit from a previous period or a carry to the next) and an extra
profit. The client pays against a payment plan, and the actual payments are
recorded as facts. Around that ledger the application computes:

- each project's financials and the effective expense rows, where a parent
  item stands for its children;
- a day-by-day cash settlement. Each payment pays expenses first, then the
  agency fee, then the extra profit. It yields the monthly "in pocket" money.
- the "life" projector. It puts each month's pocket money in a savings bucket
  and draws a fixed monthly target from the current bucket first, then from
  older ones, newest first.
- the overview snapshot of active projects, the discount summary by
  organisation, the estimate page data and the full registry export;
- a two-way exchange with a spreadsheet. Publishing writes an estimate block
  and a payment block. Importing reads them back, proposes changes in a
  preview held under a single-use token, and applies them on confirmation.
- backups: archive naming, listing, pruning and restoring, plus a scheduler
  that decides when the next automatic backup is due.

Each module mirrors one source file. The pure helpers are functions with
lemmas. Code that works by changing state is modelled as methods:
- the cash settlement loop;
- the savings buckets;
- the overview, discount, estimate and export accumulators;
- the project store;
- the preview and OAuth caches;
- the import loops;
- the backup directory, database and scheduler.

Each such method is proved against a specification function, and the
properties of the source are proved about those functions. `Wrappers`,
`Collections`, `Sorting`, `Text` and `Calendar` hold the shared pieces. These
are results, sums over sequences, a stable insertion sort, string stripping,
splitting and number formatting, and dates.

Money is `real` and exact. Clocks, random tokens, generated stable ids, the
database's fresh ids and the text-to-number and text-to-date parsers are
parameters.

## Model

| member | source | states |
|---|---|---|
| Models.ParseItemMode | backend/app/models.py:15-17 | only "SINGLE_TOTAL" and "QTY_PRICE" name a mode; a parsed mode's stored value is the text; any other text names none |
| Models.ItemModeRoundTrip | backend/app/models.py:15-17 | reading back a mode's stored value gives the same mode |
| Models.ParseAdjustmentType | backend/app/models.py:20-23 | only the three stored values name an adjustment type, and a parsed type's value is the text |
| Models.AdjustmentTypeRoundTrip | backend/app/models.py:20-23 | reading back an adjustment type's stored value gives the same type |
| Models.Fee | backend/app/utils.py:176 | the agency fee of an amount is that amount times the rate, so never negative for a positive amount at a non-negative rate; its value is pinned down by Financials.FinancialsOf and CashEngine.AgencyIsRateOfInflow |
| Models.NewProject | backend/app/models.py:36-49 | a new project gets price and expected totals 0, agency fee percent 10 and no client name, email, phone or closing date |
| Models.NewItem | backend/app/models.py:75-92 | a new item is SINGLE_TOTAL with base total 0, extra profit off and 0, in the estimate, with no parent, quantity, unit price or planned date |
| Models.NewAdjustment | backend/app/models.py:114-117 | a new adjustment is a DISCOUNT with zero prices and an empty reason |
| Models.ParseFrequency | backend/app/backup_scheduler.py:25 | only "OFF", "DAILY", "WEEKLY" and "MONTHLY" name a backup frequency |
| Models.DefaultSettings | backend/app/backup_scheduler.py:58-64 | the created settings row is OPERATIONAL at 6 percent, backs up WEEKLY and has no last backup time |
| BackupScheduler.NormalizeFrequency | backend/app/backup_scheduler.py:21-27 | the result is always one of the four stored values: a member gives its value, non-empty text gives its stripped upper case when that is a value, and nothing, empty text or anything else gives "WEEKLY" |
| BackupScheduler.StoredValueIsNormal | backend/app/backup_scheduler.py:24-27 | each stored value normalises to itself |
| BackupScheduler.NormalizeIdempotent | backend/app/backup_scheduler.py:21-27 | normalising a normalised value changes nothing |
| BackupScheduler.FrequencyField | backend/app/backup_scheduler.py:76 | a missing column reads as nothing, a stored one as its member |
| BackupScheduler.AddMonth | backend/app/backup_scheduler.py:30-37 | the result is one month index later, with the same time of day and the day clamped to the new month's length, and it is strictly later |
| BackupScheduler.AddMonthIsMonthShift | backend/app/backup_scheduler.py:30-37 | the scheduler's next month equals the backup router's month shift by one |
| BackupScheduler.NextDue | backend/app/backup_scheduler.py:45-51 | the next due time is strictly after the last backup; for "MONTHLY" it is `AddMonth` of it; for any other frequency it has the same time of day and lies 1 day ("DAILY") or 7 days later on the day axis |
| BackupScheduler.NextDueDetermined | backend/app/backup_scheduler.py:45-51 | for a daily or weekly step, any well-formed time with the same time of day and the right day count is the next due time |
| BackupScheduler.IsDue | backend/app/backup_scheduler.py:40-51 | never due when "OFF", always due with no last backup, otherwise due exactly when `now` has reached the next due time, which is strictly after the last backup |
| BackupScheduler.IsDueMonotone | backend/app/backup_scheduler.py:40-51 | once due, a backup stays due at every later time |
| BackupScheduler.NotDueRightAfterBackup | backend/app/backup_scheduler.py:40-51 | right after a backup at `now`, none is due at `now` |
| BackupScheduler.UnknownFrequencyIsWeekly | backend/app/backup_scheduler.py:51 | a frequency outside the four values behaves as weekly |
| BackupScheduler.SettingsRow | backend/app/backup_scheduler.py:54-68 | the stored row when there is one, else a WEEKLY row without a last backup |
| BackupScheduler.Scheduler.GetOrCreateSettings | backend/app/backup_scheduler.py:54-68 | returns the stored row or stores and returns the default row |
| BackupScheduler.Scheduler.RunBackupCycle | backend/app/backup_scheduler.py:71-82 | prunes; saves a copy exactly when one is due and then records `now`; the resulting directory and row are stated exactly, and afterwards no backup is due at `now` |
| Backup.PathName | backend/app/routers/backup.py:61 | the last path component never contains `/` and is never `.` |
| Backup.SafeCopyName | backend/app/routers/backup.py:60-64 | a copy name is accepted exactly when it is non-empty, holds no `/` and is not `.`; it is then returned unchanged, otherwise BACKUP_COPY_INVALID |
| Backup.Stamp | backend/app/routers/backup.py:676 | numbers within their widths give fields of widths 4, 2, 2, 2, 2, 2 |
| Backup.StampValues | backend/app/routers/backup.py:676 | each number reads back from its zero-padded field |
| Backup.StampBack | backend/app/routers/backup.py:676 | digit fields of the right widths are the stamp of the numbers they spell |
| Backup.FieldsOf | backend/app/routers/backup.py:676 | the fields of a valid time have the widths of `%Y%m%d-%H%M%S` |
| Backup.NameFieldsJoin | backend/app/routers/backup.py:39 | the fields cut out of a name of the archive shape spell that name again |
| Backup.NameFieldsOf | backend/app/routers/backup.py:39 | fields of the right widths are cut back out of the name they spell |
| Backup.TimeOfValues | backend/app/routers/backup.py:72 | only a real date and time of day is produced |
| Backup.TimeOf | backend/app/routers/backup.py:67-74 | only a real date and time of day is produced from digit fields |
| Backup.ParseNameTimestamp | backend/app/routers/backup.py:67-74 | a parsed archive name yields a real date and time |
| Backup.TimeOfFieldsOf | backend/app/routers/backup.py:67-74 | formatting a valid time and reading its fields back gives the time |
| Backup.FieldsOfTimeOf | backend/app/routers/backup.py:67-74 | fields that spell a time are that time's formatted fields |
| Backup.ParsedNameIsBackupName | backend/app/routers/backup.py:67-74 | a name that yields a time is exactly the archive name of that time |
| Backup.NameTimestampRoundTrip | backend/app/routers/backup.py:674-679 | the archive name of every valid time reads back as that time |
| Backup.MonthShift | backend/app/routers/backup.py:77-82 | the result is `delta` month indices away, with the same time of day and the day clamped to the target month's length |
| Backup.Cutoff | backend/app/routers/backup.py:121 | the pruning cut-off lies strictly before `now` |
| Backup.NewerOrSamePreorder | backend/app/routers/backup.py:101 | the newest-first comparison is a total preorder, so the listing is sortable |
| Backup.CopiesMembers | backend/app/routers/backup.py:85-103 | the listing has one entry per backup file, and its entries are exactly the files' copies |
| Backup.CopiesNewestFirst | backend/app/routers/backup.py:101 | the listing is ordered newest first |
| Backup.Latest | backend/app/routers/backup.py:107-111 | no copy exactly when the directory has no backup file; otherwise a listed copy at least as new as every other |
| Backup.ResolveCopy | backend/app/routers/backup.py:106-117 | `latest` gives the newest copy's name when there is a copy and BACKUP_COPY_NOT_FOUND when there is none; another name gives BACKUP_COPY_INVALID unless it is safe, and a safe name resolves to itself exactly when a file of that name exists, else BACKUP_COPY_NOT_FOUND |
| Backup.PruneSplit | backend/app/routers/backup.py:120-131 | the files pruning deletes and the files it keeps are all the files |
| Backup.OlderCount | backend/app/routers/backup.py:120-131 | the number of listed copies older than the cut-off is the number of files pruning deletes |
| Backup.WithFile | backend/app/routers/backup.py:684-685 | writing a file adds it and replaces only a file of the same name |
| Backup.FreshCopySurvives | backend/app/routers/backup.py:682-687 | a copy saved at `now` is a backup file dated `now`, so the prune that follows keeps it |
| Backup.CountOlder | backend/app/routers/backup.py:123-131 | the loop counts exactly the listed copies older than the cut-off |
| Backup.BackupStore.CollectCopies | backend/app/routers/backup.py:88-100 | the loop builds a copy for each backup file, in the order the files are found |
| Backup.BackupStore.ListCopies | backend/app/routers/backup.py:85-103 | returns the listing the specification function defines |
| Backup.BackupStore.Prune | backend/app/routers/backup.py:120-131 | deletes exactly the copies older than the cut-off and returns how many it deleted |
| Backup.BackupStore.Save | backend/app/routers/backup.py:682-687 | names the archive by `now`, writes it, prunes, and the new copy is still in the directory |
| Backup.FilterPayload | backend/app/routers/backup.py:280-302 | keeps exactly the selected projects, their groups, payments and links, their items whose group is kept, and those items' adjustments; every list shrinks to a sub-multiset; the rest is unchanged |
| Backup.DeleteProjects | backend/app/routers/backup.py:305-338 | removes exactly the projects, groups, items, payments and links of the given projects and the adjustments of their items; the settings stay |
| Backup.InsertPayload | backend/app/routers/backup.py:341-443 | adds every payload record; with the settings included, a present payload settings row becomes the row |
| Backup.RestoreReplacesProjects | backend/app/routers/backup.py:803-810 | after a restore, projects with a payload id are exactly the payload's and the others are as before; full mode takes the payload's settings, partial mode keeps the old ones |
| Backup.IdEntries | backend/app/routers/backup.py:776 | the kept entries are non-empty and already stripped |
| Backup.ParseIds | backend/app/routers/backup.py:776-778 | the set holds exactly the entries' integer values; any entry that is not an integer gives none |
| Backup.ParseProjectIds | backend/app/routers/backup.py:772-780 | missing or empty text gives PROJECT_IDS_REQUIRED_FOR_PARTIAL; PROJECT_IDS_INVALID exactly when some non-blank entry is not an integer; PROJECT_IDS_EMPTY exactly when no entry is left; otherwise a non-empty set of exactly the entries' values |
| Backup.ParseIdTexts | backend/app/routers/backup.py:776 | ids written in decimal parse back as the set of those ids |
| Backup.IdListRoundTrip | backend/app/routers/backup.py:772-780 | a non-empty comma-separated id list reads back as the set of its ids |
| Backup.SelectedPayload | backend/app/routers/backup.py:771-781 | full mode takes the whole payload; partial mode fails exactly when the id list does and otherwise narrows the payload to those ids |
| Backup.ProjectTitles | backend/app/routers/backup.py:796 | one title per payload project, in order |
| Backup.Database.Restore | backend/app/routers/backup.py:761-812 | fails exactly when the id list does, and then changes nothing; a dry run changes nothing; the summary reports the counts, titles and schema version of the selected payload; otherwise the tables become the restored ones |
| Calendar.DaysInMonth | backend/app/backup_scheduler.py:36 | a month has 28 to 31 days: 29 exactly in a leap February, 28 in any other February, 30 exactly in April, June, September and November |
| Calendar.NextDay | backend/app/routers/life.py:25-26 | the day after a date is a valid date, later than it, and no valid date lies between them |
| Calendar.AddDays | backend/app/backup_scheduler.py:46-48 | adding `n` days keeps the time of day, gives a well-formed date exactly `n` further along the day axis (`toordinal`), moves strictly forward for a positive count and changes nothing for zero |
| Calendar.DaysBeforeNextYear | backend/app/backup_scheduler.py:46-48 | each year takes up 365 days of the day axis, 366 in a leap year |
| Calendar.QuotientStep | backend/app/backup_scheduler.py:46-48 | stepping past a multiple of 4, 100 or 400 raises the quotient by one, any other step keeps it |
| Calendar.YearLengthByQuotients | backend/app/backup_scheduler.py:46-48 | a year's length is 365 plus its leap-day count from the quotients by 4, 100 and 400 |
| Calendar.DaysBeforeYearFormula | backend/app/backup_scheduler.py:46-48 | the year-by-year day count equals the closed form `365 * k + k / 4 - k / 100 + k / 400` for `k` years |
| Calendar.DaysBeforeNextMonth | backend/app/backup_scheduler.py:46-48 | each month starts on the day axis where the previous month ends |
| Calendar.DaysBeforeDecember | backend/app/backup_scheduler.py:46-48 | the months before December and its 31 days fill the year |
| Calendar.DaysBeforeMonthGrows | backend/app/backup_scheduler.py:46-48 | a month ends no later in the year than any later month starts |
| Calendar.DaysBeforeYearGrows | backend/app/backup_scheduler.py:46-48 | a year ends no later on the day axis than any later year starts |
| Calendar.MonthEndOrdinal | backend/app/backup_scheduler.py:46-48 | the first of the next month is one day after the last day of a month before December |
| Calendar.YearEndOrdinal | backend/app/backup_scheduler.py:46-48 | 1 January is one day after 31 December of the year before |
| Calendar.NextDayOrdinal | backend/app/backup_scheduler.py:46-48 | the next day is exactly one further along the day axis |
| Calendar.OrdinalStep | backend/app/backup_scheduler.py:46-48 | a day after a date `n - 1` days on from `t` is `n` days on from `t` |
| Calendar.DayOrdinalIncreases | backend/app/backup_scheduler.py:46-48 | a strictly later well-formed date lies strictly further along the day axis |
| Calendar.DayOrdinalOrders | backend/app/backup_scheduler.py:46-48 | the day axis orders well-formed dates exactly as date comparison does, in both directions |
| Calendar.DayOrdinalInjective | backend/app/backup_scheduler.py:46-48 | two well-formed dates at the same point of the day axis are the same date |
| Calendar.DateLeTotal | backend/app/utils.py:119-124 | date comparison is total and antisymmetric |
| Calendar.SortedDates | backend/app/utils.py:119-124 | the sorted dates are exactly the set's dates, each once |
| Calendar.SortedDatesAscending | backend/app/utils.py:119-124 | the sorted dates ascend strictly |
| MonthKeys.SplitYearMonth | backend/app/routers/life.py:34 | a key reads as a year and month only when it splits into exactly two parts on `-` |
| MonthKeys.NextMonth | backend/app/routers/life.py:40-44 | the next month of a month 1..12 is a month 1..12 one month index later |
| MonthKeys.PrevMonth | backend/app/routers/life.py:33-37 | the previous month of a month 1..12 is a month 1..12 one month index earlier |
| MonthKeys.NextPrevMonthInverse | backend/app/routers/life.py:33-44 | stepping forward then back, or back then forward, returns the same month |
| MonthKeys.MonthKeyToStart | backend/app/routers/life.py:47-58 | accepts exactly the stripped keys that split into a year 1900..2100 and a month 1..12 and returns that month's first day; malformed keys and out-of-range keys get their own error, each exactly when its condition holds |
| MonthKeys.MonthEnd | backend/app/routers/life.py:23-26 | the last day of a month is in that month and the day after it is the first of the next month |
| MonthKeyLaws.SplitFormatted | backend/app/routers/life.py:34 | `year-month` written with any zero padding reads back as that year and month |
| MonthKeyLaws.SplitMonthKey | backend/app/routers/life.py:29-34 | a key the code formats reads back as its year and month |
| MonthKeyLaws.MonthNextStep | backend/app/routers/life.py:40-44 | on a canonical key, the next key is the key of the next month |
| MonthKeyLaws.MonthPrevStep | backend/app/routers/life.py:33-37 | on a canonical key of a year after 0, the previous key is the key of the previous month |
| MonthKeyLaws.NextPrevInverse | backend/app/routers/life.py:33-44 | the next and previous keys undo each other on canonical keys |
| MonthKeyLaws.AcceptedWhenInRange | backend/app/routers/life.py:47-58 | a key whose stripped text splits into an in-range year and month is accepted as that month's first day |
| MonthKeyLaws.MonthKeyToStartAccepts | backend/app/routers/life.py:47-58 | every canonical key of a year 1900..2100 is accepted and names its month |
| MonthKeyLaws.MonthKeyOrder | backend/app/routers/life.py:127 | canonical keys compare as strings exactly as their months compare, and equal keys are equal months |
| EffectiveRows.IdsOf | backend/app/utils.py:31 | every listed item's id is among the collected ids |
| EffectiveRows.IdsOfMembers | backend/app/utils.py:31 | every collected id belongs to a listed item |
| EffectiveRows.TopLevelMembers | backend/app/utils.py:35-40 | an item is top level exactly when it is listed and its parent id is null or names no listed item |
| EffectiveRows.ChildrenMembers | backend/app/utils.py:35-38 | the items filed under a parent are exactly the listed items whose parent id is that listed id |
| EffectiveRows.ChildDates | backend/app/utils.py:48 | the child dates are exactly the planned dates some child has |
| EffectiveRows.LatestDate | backend/app/utils.py:49 | `max` of the child dates is one of them and no listed date is after it |
| EffectiveRows.RowFor | backend/app/utils.py:44-53 | with children the row's base and extra are the sums over the children (extra only where enabled); without, the item's own figures; an explicit parent date is kept |
| EffectiveRows.RowDateIsLatest | backend/app/utils.py:49 | an undated parent with children gets no date iff no child has one, otherwise a date some child has and no child date is later |
| EffectiveRows.EffectiveRowsOf | backend/app/utils.py:26-63 | one row per top-level item, in input order, each row carrying that item |
| EffectiveRows.EffectiveParentItems | backend/app/utils.py:26-63 | the two loops of the resolver compute exactly the specified rows |
| EffectiveRows.PartitionByParent | backend/app/utils.py:35-40 | the partition loop yields the top-level items in order and files every child under its parent id in order |
| EffectiveRows.RowStep | backend/app/utils.py:43-62 | each pass of the row loop appends the next top-level item's row built from its filed children |
| EffectiveRows.FileChild | backend/app/utils.py:37-38 | filing a child extends only its parent's list |
| EffectiveRows.FileTopLevel | backend/app/utils.py:39-40 | filing a top-level item extends only the top level |
| EffectiveRows.PartitionStep | backend/app/utils.py:35-40 | one more item extends exactly one of the two kinds of list |
| EffectiveRows.RowItemsAreTopLevel | backend/app/utils.py:28-29 | a listed item heads an accounting row iff its parent id is null or names no listed item |
| EffectiveRows.ChildOfExactlyOne | backend/app/utils.py:36-38 | with unique ids a child is filed under exactly one listed item |
| EffectiveRows.GrandchildContributesNothing | backend/app/utils.py:28-29 | a grandchild is neither a row nor filed under any row's item, so it contributes nothing |
| EffectiveRows.ProjectItemsMembers | backend/app/utils.py:105-107 | the project query selects exactly the project's items |
| CashEngine.AddAt | backend/app/utils.py:94 | adding to a date's ledger entry raises that date by the amount and leaves every other date as it was |
| CashEngine.AddPayments | backend/app/utils.py:89-103 | the payment loops touch only the inflow and agency claim ledgers |
| CashEngine.PaymentsKeepSign | backend/app/utils.py:89-103 | positive amounts only are recorded, so the ledgers stay non-negative (positive for inflow) and dated up to the as-of date |
| CashEngine.PaymentKeepsSign | backend/app/utils.py:92-95 | one recorded payment keeps the ledgers' sign and date bound |
| CashEngine.PayLedgerIsSum | backend/app/utils.py:89-103 | a date's inflow is the sum of the counted positive payments dated that day |
| CashEngine.AgencyLedgerIsSum | backend/app/utils.py:95-103 | a date's agency claim is the sum of `amount * rate` over the counted payments of that day |
| CashEngine.AgencyIsRateOfInflow | backend/app/utils.py:86-103 | on every date the agency claim is the agency rate times that date's inflow |
| CashEngine.AgencyOfPayment | backend/app/utils.py:95 | one payment's claim is the rate times its counted amount |
| CashEngine.AddRows | backend/app/utils.py:108-117 | the row loop touches only the expense and extra claim ledgers |
| CashEngine.RowsKeepSign | backend/app/utils.py:108-117 | only positive bases and extras due by the as-of date are recorded, so those ledgers keep their sign and date bound |
| CashEngine.RowKeepsSign | backend/app/utils.py:109-117 | one row keeps the ledgers' sign and date bound |
| CashEngine.AddAtKeepsSign | backend/app/utils.py:114 | adding a positive amount on a date up to the as-of date keeps a ledger positive, non-negative and dated up to it |
| CashEngine.ExpenseLedgersAreSums | backend/app/utils.py:108-117 | a date's expense and extra claims are the sums over the rows due that day (defaulting to the creation date) |
| CashEngine.Settle | backend/app/utils.py:135-150 | one date conserves money, pays expenses before agency before extra, keeps balances non-negative, and leaves either an empty wallet or nothing pending |
| CashEngine.AtNonNegative | backend/app/utils.py:135-138 | every ledger entry of a non-negative book is non-negative |
| CashEngine.StepKeepsBuckets | backend/app/utils.py:134-156 | one date keeps the balances non-negative and every bucket's in-pocket equal to agency plus extra and positive |
| CashEngine.StepKeys | backend/app/utils.py:152-156 | one date writes at most the bucket of its own month |
| CashEngine.ReplayKeepsBuckets | backend/app/utils.py:134-156 | the whole loop keeps the balances non-negative and the buckets well formed |
| CashEngine.ReplayKeys | backend/app/utils.py:152-153 | every bucket is the month of some replayed date |
| CashEngine.BucketsArePaid | backend/app/utils.py:152-156 | a month's bucket holds exactly the agency and extra paid on the replayed dates of that month |
| CashEngine.StepPaysBucket | backend/app/utils.py:152-156 | one date adds what it paid to its own month's bucket and nothing to the others |
| CashEngine.Conservation | backend/app/utils.py:134-150 | after any prefix of dates the inflow equals wallet plus everything paid, and each pending balance equals its claims minus what was paid to it |
| CashEngine.NoInflowStep | backend/app/utils.py:140-152 | with an empty wallet and no inflow a date pays nothing and writes no bucket |
| CashEngine.NoInflowNoBuckets | backend/app/utils.py:128-158 | with no inflow at all the result is empty |
| CashEngine.BucketsOfBook | backend/app/utils.py:119-158 | buckets are well formed, each the month of an event date up to the as-of date, and none without events |
| CashEngine.EventDateUpTo | backend/app/utils.py:119-124 | every sorted date is an event date up to the as-of date |
| CashEngine.EventsWellFormed | backend/app/utils.py:86-117 | with a non-negative rate the recorded events are non-negative and dated up to the as-of date |
| CashEngine.ProjectEventsWellFormed | backend/app/utils.py:65-117 | the same for a project with a non-negative fee percent |
| CashEngine.RecordPayments | backend/app/utils.py:89-103 | the payment loop computes exactly the specified ledgers |
| CashEngine.RecordRows | backend/app/utils.py:108-117 | the row loop computes exactly the specified ledgers |
| CashEngine.ReplayDates | backend/app/utils.py:128-158 | the date loop computes exactly the specified replay |
| CashEngine.ReplayPrefix | backend/app/utils.py:134 | replaying one more date is one more step |
| CashEngine.BuildProjectEvents | backend/app/utils.py:73-117 | the event recording of a project computes exactly the specified book |
| CashEngine.RecordEvents | backend/app/utils.py:86-117 | the three recording loops compute exactly the specified book |
| CashEngine.ProjectPocketMonthlyComponents | backend/app/utils.py:65-158 | the method computes exactly the specified month buckets |
| Financials.CostIsBasePlusExtra | backend/app/utils.py:165-169 | the expenses total is the base sum plus the extra sum |
| Financials.FinancialsOf | backend/app/utils.py:160-187 | expenses are base plus extra, the agency fee is price times percent over 100 (non-negative for non-negative inputs), in-pocket is fee plus extra, diff is price minus expenses |
| Financials.RowTotals | backend/app/utils.py:163-169 | the accumulation loop sums base plus extra and extra alone over the rows |
| Financials.ComputeProjectFinancials | backend/app/utils.py:160-187 | a missing project gives all-zero figures, a present one the specified figures over its effective rows |
| Financials.FinancialsFromRows | backend/app/utils.py:171-187 | the same, given the rows |
| Financials.SpentPartition | backend/app/utils.py:197-202 | the base due by a date plus the base due after it is the whole base |
| Financials.SpentWhenAllDue | backend/app/utils.py:197-203 | when every row is due, the breakdown is the whole base and the whole extra |
| Financials.ExpenseBreakdownToDate | backend/app/utils.py:189-205 | spent base and extra are the sums over the project's rows that are undated or due by the date |
| Financials.DueTotals | backend/app/utils.py:195-205 | the loop sums the rows due by the date |
| Financials.IsProjectActive | backend/app/utils.py:207-212 | active iff created on or before the date and not closed before it |
| Financials.ActiveIsInterval | backend/app/utils.py:207-212 | a project active on two dates is active on every date between |
| Financials.PaymentsSplit | backend/app/utils.py:214-233 | the payments up to a date plus those after it are all the project's payments |
| Financials.ReceivedPlusPlanned | backend/app/utils.py:214-233 | received-to-date plus planned-after-date counts each planned payment exactly once |
| Discounts.OrgKey | backend/app/routers/discounts.py:40 | the organisation is the stripped client name, or "—" when the name is missing or blank; never empty |
| Discounts.EntryLePreorder | backend/app/routers/discounts.py:54-61 | the entry order (organisation, project title, date text, item id) is a total preorder |
| Discounts.SortEntries | backend/app/routers/discounts.py:54-61 | the sorted entries are a permutation of the entries, in entry order |
| Discounts.StrLeIsTotalOrder | backend/app/routers/discounts.py:64 | text comparison is a total order |
| Discounts.CounterpartiesOf | backend/app/routers/discounts.py:62-65 | one counterparty per organisation key, strictly ascending by name, each with that organisation's total |
| Discounts.CounterpartyOf | backend/app/routers/discounts.py:62-65 | every organisation key appears as a counterparty with its total |
| Discounts.ProjectEntriesStep | backend/app/routers/discounts.py:32-52 | one more row appends its entry exactly when it is listed |
| Discounts.AddRow | backend/app/routers/discounts.py:33-52 | one row pass appends the row's entry when it is due and discounted, and keeps the organisation totals equal to the totals of the entries |
| Discounts.CollectProject | backend/app/routers/discounts.py:30-52 | one project's pass appends its listed rows' entries and keeps the totals in step |
| Discounts.EntriesStep | backend/app/routers/discounts.py:30-31 | one more project appends that project's entries |
| Discounts.DiscountSummary | backend/app/routers/discounts.py:20-73 | the method computes exactly the specified summary |
| Discounts.ProjectEntriesMembers | backend/app/routers/discounts.py:32-52 | a project's entries are exactly the entries of its listed rows |
| Discounts.EntriesMembers | backend/app/routers/discounts.py:30-52 | the found entries are exactly the entries of the listed rows of the listed projects |
| Discounts.ListedRow | backend/app/routers/discounts.py:35-39 | a listed row has a discount and is not due after the report date |
| Discounts.EntriesFiltered | backend/app/routers/discounts.py:35-39 | every found entry has a discount and is not dated after the report date |
| Discounts.SummaryLemma | backend/app/routers/discounts.py:20-73 | the report date defaults to today; the entries are the found entries permuted into entry order; the total is their sum; the counterparties are the per-organisation sums |
| Discounts.CounterpartiesCover | backend/app/routers/discounts.py:62-65 | one counterparty per organisation with entries, in name order, and no other |
| Discounts.CounterpartiesAreOrgSums | backend/app/routers/discounts.py:41-65 | each counterparty's total is the sum of its organisation's discounts |
| Estimate.FmtPlain | backend/app/routers/estimate.py:29-33 | the stripped text, or "—" when missing or blank; never empty |
| Estimate.OrgKeyIsFmtPlain | backend/app/routers/estimate.py:29-33 | the discount summary's organisation key is the estimate's plain form of the client name |
| Estimate.BaseTotalsCompared | backend/app/routers/estimate.py:45-51 | the estimate's base agrees with the resolver's whenever a quantity is present or the item is not priced per unit, and differs only for a QTY_PRICE item with a unit price and no quantity |
| Estimate.QueryOrders | backend/app/routers/estimate.py:68-77 | the item order (group, id) and the plan order (date, id) are total preorders |
| Estimate.ProjectItems | backend/app/routers/estimate.py:68-72 | exactly the project's items, in query order |
| Estimate.ProjectPlans | backend/app/routers/estimate.py:73-77 | exactly the project's planned payments, in query order |
| Estimate.PaymentRowsOf | backend/app/routers/estimate.py:129-139 | one payment row per planned payment |
| Estimate.RowsStep | backend/app/routers/estimate.py:91-125 | one more item appends its row exactly when it is included |
| Estimate.SumStep | backend/app/routers/estimate.py:100 | adding one more term to a running sum adds its value |
| Estimate.ExpenseRows | backend/app/routers/estimate.py:89-125 | the expense loop lists exactly the included items' rows and sums their row totals |
| Estimate.PaymentRows | backend/app/routers/estimate.py:127-139 | the payment loop lists and sums every planned payment, whatever its date |
| Estimate.EstimatePayloadFor | backend/app/routers/estimate.py:61-158 | the loops compute exactly the payload EstimateLemma characterises, or PROJECT_NOT_FOUND |
| Estimate.RowsLemma | backend/app/routers/estimate.py:91-93 | one row per included item, in item order |
| Estimate.RowOfLemma | backend/app/routers/estimate.py:94-108 | a discount comes only from an enabled adjustment, extra profit only when enabled, a row is a sub-item iff its parent is a listed item, and the row total is base plus extra minus discount |
| Estimate.SubitemLemma | backend/app/routers/estimate.py:104-108 | with the project's lookups, a row is a sub-item exactly when its parent is one of the project's items |
| Estimate.RowsAreIncludedItems | backend/app/routers/estimate.py:91-93 | every row is that of an included item of the project |
| Estimate.EstimateLemma | backend/app/routers/estimate.py:54-158 | missing project iff PROJECT_NOT_FOUND; otherwise the header carries the project's id, title, price total and its client name, email and phone (empty when missing), one row per included item, the expenses total is the rows' sum, the plan total is every planned payment's sum, and the balance is their difference |
| Exports.MonthText | backend/app/routers/exports.py:37-43 | the month text is empty exactly when there is no date |
| Exports.MonthTextReadsBack | backend/app/routers/exports.py:37-43 | a date's month text reads back as its year and month |
| Exports.OpLePreorder | backend/app/routers/exports.py:204-211 | the operation sort key (date with undated last, project title, source text, item title) is a total preorder |
| Exports.AppendPayments | backend/app/routers/exports.py:106-160 | a payment loop appends one income row per payment whose project exists, in payment order |
| Exports.AppendItems | backend/app/routers/exports.py:162-202 | the item loop appends one expense row per item whose project and group exist, in item order |
| Exports.CollectOps | backend/app/routers/exports.py:104-202 | actual payments, then planned payments, then items |
| Exports.OperationRows | backend/app/routers/exports.py:104-214 | the operations sheet is the collected rows, stably sorted by the operation key |
| Exports.PaymentOpsAre | backend/app/routers/exports.py:106-160 | the i-th payment row is that of the i-th payment whose project exists |
| Exports.ItemOpsAre | backend/app/routers/exports.py:162-202 | the i-th item row is that of the i-th item whose project and group exist |
| Exports.PaymentOpsFacts | backend/app/routers/exports.py:106-160 | every payment row is dated balanced income, and the impacts sum to the kept payments' amounts |
| Exports.ItemOpsFacts | backend/app/routers/exports.py:162-202 | every item row is a balanced expense whose impact is its negated total |
| Exports.OperationsOrder | backend/app/routers/exports.py:204-211 | the sheet is sorted by the key: undated rows come after all dated ones, dated rows in date order |
| Exports.OperationsContent | backend/app/routers/exports.py:104-211 | the sheet is a permutation of the collected rows: every kept payment and item once, every row balanced |
| Exports.OperationsBalance | backend/app/routers/exports.py:125-195 | the impacts add up to the kept payments minus the item row totals |
| Exports.SourceTextOrder | backend/app/routers/exports.py:118-208 | the source texts sort planned payments before actual payments before items |
| Exports.ProjectRowsOf | backend/app/routers/exports.py:261-278 | one project row per project |
| Exports.ProjectRowLemma | backend/app/routers/exports.py:233-278 | a row's received column is all the project's payments, which is what the overview reports as received plus planned plus later actual payments; pocket is fee plus extra, balance price minus expenses; discount and USN read absent keys and are zero |
| Exports.Accumulate | backend/app/routers/exports.py:280-291 | one project adds one to the count and its cell to every column sum |
| Exports.CaseFoldPreorder | backend/app/routers/exports.py:309 | the case-folded text order is a total preorder |
| Exports.OrgNamesOf | backend/app/routers/exports.py:309 | every organisation exactly once, in case-insensitive order |
| Exports.OrgStep | backend/app/routers/exports.py:280-291 | one more row updates only its organisation's totals and appends a new organisation to the insertion order |
| Exports.AddToOrg | backend/app/routers/exports.py:280-291 | one pass of the rollup updates the row's organisation's totals and insertion order |
| Exports.ProjectRowFor | backend/app/routers/exports.py:261-278 | the method builds exactly the specified project row |
| Exports.ProjectLoop | backend/app/routers/exports.py:261-291 | the project loop yields the project rows and the organisation totals of those rows |
| Exports.OrgSheet | backend/app/routers/exports.py:309-325 | one organisation row per name, carrying its totals |
| Exports.Rollups | backend/app/routers/exports.py:216-325 | the project sheet and the organisation sheet are the specified rows |
| Exports.ExportRegistry | backend/app/routers/exports.py:58-325 | the three sheets' rows are the specified rows |
| Exports.OrgKeys | backend/app/routers/exports.py:248-291 | the totals have a key for exactly the organisations of the rows, each once in insertion order |
| Exports.OrgTotalsAreSums | backend/app/routers/exports.py:280-291 | an organisation's totals count its projects and sum each column over them |
| Collections.DistinctPermutation | backend/app/routers/exports.py:309 | sorting the distinct keys keeps them distinct |
| Collections.AtMostOnce | backend/app/routers/exports.py:309 | a value occurs at most once in a list without repetitions |
| Exports.OrgRowsLemma | backend/app/routers/exports.py:309-325 | every project's organisation has a row, and each row counts and sums its organisation's projects |
| Exports.ZeroTotals | backend/app/routers/exports.py:288-289 | a column zero in every row sums to zero for every organisation |
| Exports.MissingColumnsZero | backend/app/routers/exports.py:272-289 | the discount and USN columns of the organisation sheet are zero |
| LifeDraw.AddTo | backend/app/routers/life.py:161 | adding to a balance creates its month's bucket when missing and keeps every other bucket |
| LifeDraw.AddToLemma | backend/app/routers/life.py:159-161 | a positive deposit keeps the savings healthy and raises exactly one balance by the amount |
| LifeDraw.SnapshotLemma | backend/app/routers/life.py:97-105 | the snapshot keeps exactly the positive balances, and is the savings themselves when they are healthy |
| LifeDraw.Descending | backend/app/routers/life.py:170 | the reversed sort lists exactly the given months |
| LifeDraw.DescendingOrder | backend/app/routers/life.py:170 | the reversed sort descends strictly |
| LifeDraw.TakesAppend | backend/app/routers/life.py:187-189 | one more take adds its amount to the taken total, to the reserve when from another month, and to its own balance's usage |
| LifeDraw.TakeOneLemma | backend/app/routers/life.py:178-189 | one project's take keeps balances positive, the need between zero and its old value, conserves money, touches only that bucket, and drains the balance when the need stays open |
| LifeDraw.TakeActive | backend/app/routers/life.py:180-189 | a take that draws, `min(available, need)`, leaves both sides non-negative and conserves money |
| LifeDraw.ConservesTrans | backend/app/routers/life.py:171-191 | conservation composes over successive takes |
| LifeDraw.DrainPidsStop | backend/app/routers/life.py:178-179 | a met need stops the draw of a bucket's remaining projects |
| LifeDraw.DrainPidsLemma | backend/app/routers/life.py:177-189 | a bucket's projects in ascending id order conserve money, and an open need at the end means each was drawn to nothing |
| LifeDraw.DrainBucketLemma | backend/app/routers/life.py:171-191 | one bucket keeps the savings healthy, changes no other bucket, conserves money, and is gone when the need stays open |
| LifeDraw.DropEmpty | backend/app/routers/life.py:190-191 | a bucket drawn to nothing is removed |
| LifeDraw.KeepBucket | backend/app/routers/life.py:190-191 | a bucket with balances left stays |
| LifeDraw.DrainOrderStop | backend/app/routers/life.py:172-173 | a met need stops the draw of the remaining buckets |
| LifeDraw.DrainOrderLemma | backend/app/routers/life.py:171-191 | the buckets in consume order conserve money, and an open need at the end means each was removed |
| LifeDraw.OrderStep | backend/app/routers/life.py:171 | one more bucket in front of the rest keeps those guarantees |
| LifeDraw.ReserveBounds | backend/app/routers/life.py:195-199 | the reserve is non-negative and part of what was drawn |
| LifeDraw.NoReserveFromOwnMonth | backend/app/routers/life.py:195-199 | takes all from the source month are no reserve |
| LifeDraw.ConsumeOrderCovers | backend/app/routers/life.py:170 | the current month comes first, then every older bucket, newest first |
| LifeDraw.DrawMonthLemma | backend/app/routers/life.py:163-191 | a month's draw keeps savings healthy, covers target minus the open need, lowers each balance by exactly what was drawn from it, and falls short only when no bucket of this month or older is left |
| LifeDraw.ReserveAfterCurrent | backend/app/routers/life.py:170-199 | the reserve is drawn only once the current month's bucket is used up, and never exceeds what was covered |
| LifeRun.SetupOf | backend/app/routers/life.py:107-112 | an accepted setup starts the selected and the source month on day 1 and ends at the source month's last day; a rejected selected key is reported with its reason |
| LifeRun.SetupOfCanonical | backend/app/routers/life.py:107-112 | for a canonical key after January 1900 the source month is the month before |
| LifeRun.SetupOfJanuary1900 | backend/app/routers/life.py:47-109 | January 1900 is rejected, because its source month is out of range |
| LifeRun.AddMonthlyHealthy | backend/app/routers/life.py:121-125 | adding one project's positive month buckets keeps the inflow healthy |
| LifeRun.InflowFromHealthy | backend/app/routers/life.py:119-125 | the project loop keeps the inflow healthy |
| LifeRun.InflowHealthy | backend/app/routers/life.py:117-125 | the inflow has only positive balances and no empty month |
| LifeRun.DepositFromLemma | backend/app/routers/life.py:159-161 | depositing distinct projects raises each balance by its inflow and keeps the savings healthy |
| LifeRun.DepositLemma | backend/app/routers/life.py:158-161 | a month's deposit raises that month's balances by its inflow and nothing else |
| LifeRun.TimelineOf | backend/app/routers/life.py:143-147 | the timeline runs without gaps from the first inflow month to the source month, or is that first month alone when it is later |
| LifeRun.RunLemma | backend/app/routers/life.py:158-201 | the timeline loop keeps savings healthy, and the selected draw covers target minus its open need and conserves money |
| LifeRun.RunReachesSelected | backend/app/routers/life.py:158-201 | on a contiguous timeline ending just before the selected month, the loop reaches the selected month |
| LifeRun.BucketTotalNonNegative | backend/app/routers/life.py:206 | a bucket's total is non-negative |
| LifeRun.MonthsTotalNonNegative | backend/app/routers/life.py:206 | the total over months is non-negative |
| LifeRun.SavingsTotalNonNegative | backend/app/routers/life.py:206 | the savings total is non-negative |
| LifeRun.RowKeyLeTotalOrder | backend/app/routers/life.py:209-216 | the (project, month) order of keys is total |
| LifeRun.ProjectsById | backend/app/routers/life.py:115 | every looked-up project carries the id it is stored under |
| LifeRun.KeyBeforePreorder | backend/app/routers/life.py:218-229 | the breakdown sort key (current first, then newest reserve month, then title) is a total preorder |
| LifeRun.OrderedKeys | backend/app/routers/life.py:231 | the ordered keys are exactly the breakdown keys, in sort-key order |
| LifeRun.RowsFromKeys | backend/app/routers/life.py:231-258 | every row comes from one of the keys |
| LifeRun.RowOfKey | backend/app/routers/life.py:232-257 | a row carries its key's project, month and title, and is current exactly for the source month |
| LifeRun.RowsSorted | backend/app/routers/life.py:231 | rows of sorted keys are in row order |
| LifeRun.RowsBalance | backend/app/routers/life.py:235-240 | every row closes at opening minus used and shows some positive figure |
| LifeRun.LedgersBalance | backend/app/routers/life.py:167-200 | what the selected month drew from each balance is its fall from before to after |
| LifeRun.ReportLemma | backend/app/routers/life.py:193-272 | covered is what the selected takes drew, between zero and the target; the gap is the rest; the reserve is the older buckets' part and at most covered; the savings total is non-negative; rows balance and are in order |
| LifeRun.LifeForLemma | backend/app/routers/life.py:92-272 | for a non-negative target the answer's figures are those of a good run, and with no inflow at all nothing is covered and the gap is the target |
| LifeRun.LifeReachesSelected | backend/app/routers/life.py:143-201 | for a canonical key after January 1900 the loop reaches the selected month when the first inflow month is not later than the source month |
| LifeRun.InflowReachesSelected | backend/app/routers/life.py:143-201 | a run whose first month precedes the selected one stops at the selected month |
| Life.AddProjectMonthly | backend/app/routers/life.py:121-125 | the month loop adds exactly the project's positive pocket amounts |
| Life.InflowFromStep | backend/app/routers/life.py:119-125 | one more project adds its monthly amounts to the table built so far |
| Life.AddProjectInflow | backend/app/routers/life.py:119-125 | one pass of the project loop advances the specified inflow by one project |
| Life.CollectInflow | backend/app/routers/life.py:117-125 | the project loop computes exactly the specified inflow table |
| Life.BuildTimeline | backend/app/routers/life.py:143-147 | the while loop builds exactly the contiguous timeline |
| Life.DepositMonth | backend/app/routers/life.py:159-161 | the deposit loop computes exactly the specified deposit |
| Life.CopySavingsState | backend/app/routers/life.py:97-105 | the copy loop computes exactly the snapshot of positive balances |
| Life.SnapshotExt | backend/app/routers/life.py:97-105 | a table holding exactly the non-empty positive parts is the snapshot |
| Life.DrainPidsStep | backend/app/routers/life.py:177-189 | one project's turn advances the bucket draw by one project |
| Life.TakeFrom | backend/app/routers/life.py:178-189 | one project's turn computes exactly the specified take |
| Life.DrainBucketPids | backend/app/routers/life.py:177-189 | the project loop of a bucket computes exactly the specified draw |
| Life.DrainOneBucket | backend/app/routers/life.py:172-191 | one bucket of the consume order computes exactly the specified draw |
| Life.DrainMonth | backend/app/routers/life.py:163-191 | one month's draw computes exactly the specified draw |
| Life.RunTimeline | backend/app/routers/life.py:150-201 | the timeline loop computes exactly the specified run |
| Life.AddBucketKeys | backend/app/routers/life.py:212-214 | the keys gain exactly the bucket's projects in that month |
| Life.CollectBreakdownKeys | backend/app/routers/life.py:209-216 | the key loops collect exactly the breakdown keys |
| Life.RowsFromStep | backend/app/routers/life.py:231-258 | one more key appends its row when it has one |
| Life.Breakdown | backend/app/routers/life.py:208-258 | the breakdown is the rows of the keys in sort-key order |
| Life.BuildRows | backend/app/routers/life.py:231-258 | the row loop computes exactly the specified rows |
| Life.RowsAccumulate | backend/app/routers/life.py:239-258 | a skipped key adds no row and a kept key adds its row |
| Life.BuildRow | backend/app/routers/life.py:232-257 | one key's row is exactly the specified row or none |
| Life.MonthSetupOf | backend/app/routers/life.py:107-112 | the method computes exactly the specified month setup or error |
| Life.SelectedFigures | backend/app/routers/life.py:193-205 | covered is target minus the open need and the reserve is the older buckets' part when the selected month was reached, both zero otherwise |
| Life.ReportRun | backend/app/routers/life.py:203-272 | the method computes exactly the specified report |
| Life.LifeForMonth | backend/app/routers/life.py:92-272 | the method computes exactly the specified answer |
| SelectedMonth.ShortKeyLength | backend/app/routers/life.py:29-58 | a key without the month's leading zero is one character shorter than the canonical key |
| SelectedMonth.ShortKeyAccepted | backend/app/routers/life.py:47-58 | a key without the leading zero is accepted as its month's first day |
| SelectedMonth.GeneratedForShortKey | backend/app/routers/life.py:33-163 | the month generated for such a key is its canonical key |
| SelectedMonth.NonCanonicalSelectedNeverMatches | backend/app/routers/life.py:154-165 | as written, an accepted key without the leading zero never equals the generated key, while the comparison by month matches |
| SelectedMonth.SelectedMatchesAccepted | backend/app/routers/life.py:154-165 | by month, a generated key matches an accepted key exactly when it names the same month, and the month after its previous month always matches |
| Overview.FiguresList | backend/app/routers/overview.py:32-48 | one set of figures per active project |
| Overview.Lines | backend/app/routers/overview.py:50-60 | one line per active project |
| Overview.CollectActive | backend/app/routers/overview.py:19-22 | the loop keeps exactly the active projects, in order |
| Overview.ReadFigures | backend/app/routers/overview.py:33-41 | received, planned, expected and extra profit are read exactly as specified |
| Overview.TotalsStep | backend/app/routers/overview.py:43-60 | one more project adds its line and its figures to the totals |
| Overview.AddLine | backend/app/routers/overview.py:43-60 | one pass adds the project's figures to the totals and appends its line |
| Overview.Snapshot | backend/app/routers/overview.py:16-76 | the method computes exactly the specified snapshot |
| Overview.TotalsAreSums | backend/app/routers/overview.py:43-70 | the totals count the active projects and sum the lines' figures; total pocket is agency plus extra, and total agency is 10% of total received |
| Overview.SnapshotLemma | backend/app/routers/overview.py:16-76 | exactly the active projects, in order; each line's agency is 10% of received, its pocket agency plus extra, its remaining never negative and the unreceived part of what is expected; the totals are the lines' sums |
| Overview.OverviewMapLemma | backend/app/routers/overview.py:78-101 | the map has one leaf per listed project, in order, and its figure nodes carry the snapshot totals |
| Projects.RefreshBase | backend/app/routers/projects.py:131-137 | a QTY_PRICE item without quantity or unit price is refused with its error, otherwise the stored base becomes the derived base total; a SINGLE_TOTAL item is unchanged |
| Projects.RefreshedBaseIsCurrent | backend/app/routers/projects.py:131-137 | after a successful refresh the stored base is current, and refreshing again changes nothing |
| Projects.ValidateParent | backend/app/routers/projects.py:140-164 | no parent or an acceptable parent passes; each error (self reference, missing parent, other group, nested parent, item that has children) is reported exactly when its condition holds, in the source's order |
| Projects.InsertKeepsStableIds | backend/app/models.py:71-73 | inserting an item under a stable id that is free in its project keeps stable ids unique per project |
| Projects.ReplaceKeepsStableIds | backend/app/models.py:71-73 | rewriting an item with the same project and stable id keeps stable ids unique per project |
| Projects.ItemDiscount | backend/app/routers/projects.py:193-208 | an item without adjustment shows the discount off and zero, one with an adjustment shows its stored fields |
| Projects.ApplyDiscount | backend/app/routers/projects.py:173-190 | the item's adjustment is created or updated to the given discount fields, every other adjustment is untouched |
| Projects.UpdatedAdjustments | backend/app/routers/projects.py:388-397 | a patch without discount fields leaves the adjustments alone; otherwise only the item's adjustment changes |
| Projects.CreatedItem | backend/app/routers/projects.py:313-339 | project, group, mode, parent and QTY_PRICE inputs are checked in that order (PROJECT_NOT_FOUND, GROUP_NOT_FOUND, ITEM_MODE_INVALID, the parent error, QTY_PRICE_REQUIRES_QTY_AND_UNIT_PRICE), and success holds exactly when all pass; the item carries the stable id, quantity, unit price, extra profit, planned date and, for SINGLE_TOTAL, the requested base; the base is current, and a child is left out of the estimate |
| Projects.CreateKeepsRules | backend/app/routers/projects.py:313-353 | storing a created item under a fresh id keeps one-level nesting, filing and stable-id uniqueness |
| Projects.UpdatedItem | backend/app/routers/projects.py:354-387 | ITEM_NOT_FOUND, GROUP_NOT_FOUND, ITEM_WITH_SUBITEMS_CANNOT_CHANGE_GROUP and ITEM_MODE_INVALID in that order, and success exactly when the group, mode, parent and QTY_PRICE inputs pass; every given field replaces the stored one and every other is kept, a SINGLE_TOTAL base is the given or stored one, a child leaves the estimate, and the base is current |
| Projects.UpdateKeepsRules | backend/app/routers/projects.py:354-403 | storing an updated item keeps one-level nesting and filing |
| Projects.RemainingItems | backend/app/routers/projects.py:404-413 | the remaining items are stored items, unchanged |
| Projects.RemainingAdjustments | backend/app/models.py:97-102 | the remaining adjustments belong to remaining items, unchanged |
| Projects.DeleteKeepsRules | backend/app/routers/projects.py:404-413 | an item stays exactly when it is neither the deleted item nor one of its children, and the rules still hold afterwards |
| Collections.KeepWhere | backend/app/models.py:51-54 | the kept entries are exactly the entries whose value passes the test, each unchanged; the delete cascades keep the rows outside the deleted group or project with it |
| Projects.DeleteGroupKeepsRules | backend/app/models.py:57-66 | an item stays exactly when it is outside the group, and the rules still hold afterwards |
| Projects.DeleteProjectKeepsRules | backend/app/routers/projects.py:254-260 | an item stays exactly when it is outside the project, and the rules still hold afterwards |
| Projects.RowsAt | backend/app/routers/projects.py:465-473 | one stored row per requested id, in that order |
| Projects.RowsAtCovers | backend/app/routers/projects.py:465-473 | looking up every key yields exactly the table's rows |
| Projects.RowsOf | backend/app/routers/projects.py:465-473 | a table's rows are exactly its stored rows |
| Projects.PaymentLeTotal | backend/app/routers/projects.py:472 | ordering by pay date then id is a total preorder |
| Projects.RowLeTotal | backend/app/routers/projects.py:547 | the fact listing's date-then-id order is a total preorder |
| Projects.PlanListing | backend/app/routers/projects.py:465-473 | the plan listing holds exactly the project's plans dated after today, sorted by date and id, each once when plans are filed under their ids |
| Projects.FactRowsShow | backend/app/routers/projects.py:517-536 | the rows of the project's payments show exactly those payments |
| Projects.DuePlanRowsShow | backend/app/routers/projects.py:520-546 | the negated rows of the project's due plans show exactly those plans |
| Projects.StoredWhere | backend/app/routers/projects.py:517-525 | the rows kept are exactly the stored rows that pass the filter |
| Projects.FactRowsAt | backend/app/routers/projects.py:527-536 | one fact row per payment, in order |
| Projects.PlanRowsAt | backend/app/routers/projects.py:537-546 | one negated plan row per plan, in order |
| Projects.FactRows | backend/app/routers/projects.py:517-536 | the rows show exactly the project's actual payments |
| Projects.DuePlanRows | backend/app/routers/projects.py:520-546 | the rows show exactly the project's plans dated on or before today |
| Projects.FactListing | backend/app/routers/projects.py:513-547 | the fact listing is sorted by date and id and holds exactly the project's payments and its due plans, each once when both tables are filed under their ids |
| Projects.ListedRowsDistinct | backend/app/routers/projects.py:513-547 | with payments and plans filed under their positive ids, the payment rows and the negated due plan rows never repeat a row |
| Projects.PlanShownIffNotAfter | backend/app/routers/projects.py:520-525 | a plan of the project shows in the fact listing exactly when it is not dated after today |
| Projects.PlanListedOnce | backend/app/routers/projects.py:465-547 | every plan of the project is in exactly one of the plan listing and the fact listing |
| Projects.FactTarget | backend/app/routers/projects.py:564-609 | a negative id names the plan with the negated id, a non-negative one an actual payment, each only within the project; otherwise not found |
| Projects.ShownRowRoutesBack | backend/app/routers/projects.py:537-592 | a row that shows a payment or due plan routes back to that same record |
| Projects.ListedIdsRouteBack | backend/app/routers/projects.py:513-592 | every id of the fact listing routes back to the row it shows |
| Projects.PatchPayment | backend/app/routers/projects.py:496-497 | a patch keeps the payment's id, project and stable id and sets only the given fields |
| Projects.ProjectStore.constructor | backend/app/models.py:33-54 | a store with the given projects and groups and no items, adjustments or payments is valid |
| Projects.ProjectStore.CreateItem | backend/app/routers/projects.py:313-353 | the result is the specified created item; on success it is stored and its discount applied, on error nothing changes; the rules are kept |
| Projects.ProjectStore.UpdateItem | backend/app/routers/projects.py:354-403 | the result is the specified update; on success the item is replaced and the adjustments updated, on error nothing changes; the rules are kept |
| Projects.ProjectStore.DeleteItem | backend/app/routers/projects.py:404-415 | an item outside the project is not found; otherwise the item, its children and their adjustments go |
| Projects.ProjectStore.DeleteGroup | backend/app/routers/projects.py:298-304 | a group outside the project is not found; otherwise the group and its items and their adjustments go, and every item left has a group |
| Projects.ProjectStore.DeleteProject | backend/app/routers/projects.py:254-260 | a missing project is not found; otherwise it goes with its groups, items, adjustments, plans and payments, and nothing of it remains |
| Projects.ProjectStore.ListPlans | backend/app/routers/projects.py:465-473 | a missing project is not found, otherwise the plan listing |
| Projects.ProjectStore.ListFacts | backend/app/routers/projects.py:513-547 | a missing project is not found, otherwise the fact listing |
| Projects.ProjectStore.CreatePlan | backend/app/routers/projects.py:476-488 | a missing project is not found; otherwise the new plan is stored under the fresh id |
| Projects.ProjectStore.CreateFact | backend/app/routers/projects.py:550-561 | a missing project is not found; otherwise the new payment is stored under the fresh id |
| Projects.ProjectStore.UpdatePlan | backend/app/routers/projects.py:491-500 | the project is checked first, then the plan within it; a plan of the project is always found and patched in place, and nothing else changes |
| Projects.ProjectStore.DeletePlan | backend/app/routers/projects.py:503-510 | the project is checked first, then the plan within it; a plan of the project is always found and removed, and nothing else changes |
| Projects.ProjectStore.UpdateFact | backend/app/routers/projects.py:564-590 | an id that routes to a record of the project always succeeds: a negative id patches the plan, a non-negative one the payment; anything else is not found and changes nothing |
| Projects.ProjectStore.DeleteFact | backend/app/routers/projects.py:593-609 | an id that routes to a record of the project always succeeds: a negative id removes the plan, a non-negative one the payment; anything else is not found and changes nothing |
| SheetLayout.Pad | backend/app/sheets_service.py:350 | a row is padded with empty cells to eleven, keeping every cell it had |
| SheetLayout.PadReadsSame | backend/app/sheets_service.py:350 | padding changes no cell the reader looks at |
| SheetLayout.LastAnchor | backend/app/sheets_service.py:352-359 | the anchor index found is a row of the sheet |
| SheetLayout.LastAnchorSpec | backend/app/sheets_service.py:352-359 | the row found holds the anchor and no later row does; when none is found no row holds it |
| SheetLayout.LastAnchorIs | backend/app/sheets_service.py:352-359 | a row holding the anchor with none after it is the one the loop ends on |
| SheetLayout.FindAnchors | backend/app/sheets_service.py:352-359 | the anchor loop leaves each index on the last row carrying that marker |
| SheetLayout.ParseSheet | backend/app/sheets_service.py:349-406 | the sheet is refused with SHEET_FORMAT_INVALID exactly when an anchor is missing or the payments anchor is not below the estimate one; otherwise the rows between and below them are read |
| SheetLayout.ParseBetween | backend/app/sheets_service.py:361-406 | given the two anchor indices, the refusal condition and the error text |
| SheetLayout.ReadEstimateRow | backend/app/sheets_service.py:366-384 | an estimate row is kept exactly when it is not blank and has an item id, with its text columns stripped |
| SheetLayout.ReadEstimateRows | backend/app/sheets_service.py:364-384 | the estimate loop yields the rows the specification reads between the anchors |
| SheetLayout.ReadPaymentRow | backend/app/sheets_service.py:388-396 | a payment row is kept exactly when one of its first four cells is not blank |
| SheetLayout.ReadPaymentRows | backend/app/sheets_service.py:386-396 | the payments loop yields the rows the specification reads below the header |
| SheetLayout.ParseSheetValues | backend/app/sheets_service.py:349-406 | the loops compute the specified reading |
| SheetLayout.Head | backend/app/sheets_service.py:425-432 | six head rows, the fifth being the estimate anchor |
| SheetLayout.EstimateLine | backend/app/sheets_service.py:437-449 | a written estimate row has eleven cells |
| SheetLayout.EstimateLines | backend/app/sheets_service.py:434-449 | one written row per estimate row, numbered from the start row on |
| SheetLayout.PaymentLines | backend/app/sheets_service.py:458-466 | one written row per payment row, in order |
| SheetLayout.BuildLayout | backend/app/sheets_service.py:424-477 | the head, the estimate rows from sheet row 7, two blank rows, the payments anchor and header, then the payment rows, with the start, end and anchor row numbers the source reports |
| SheetLayout.LayoutRowsAt | backend/app/sheets_service.py:425-466 | where each block of the written grid sits |
| SheetLayout.WriteEstimateLines | backend/app/sheets_service.py:434-449 | the estimate loop writes the specified rows |
| SheetLayout.WritePaymentLines | backend/app/sheets_service.py:458-466 | the payments loop writes the specified rows |
| SheetLayout.BuildSheetRows | backend/app/sheets_service.py:424-477 | the building loops compute the specified layout |
| SheetLayout.ReadBackAll | backend/app/sheets_service.py:437-449 | reading back keeps every typed cell of each written estimate row |
| SheetLayout.EstimateLineReadsBack | backend/app/sheets_service.py:366-384 | a written estimate row is kept by the reader and gives back its cells, the totals columns holding the formulas |
| SheetLayout.PaymentLineReadsBack | backend/app/sheets_service.py:388-396 | a written payment row is kept by the reader and gives back its cells |
| SheetLayout.EstimateRowsAllKept | backend/app/sheets_service.py:365-384 | written estimate rows are read back one for one |
| SheetLayout.EstimateRowKept | backend/app/sheets_service.py:365-384 | one more written estimate row reads back as one more estimate row |
| SheetLayout.PaymentRowsAllKept | backend/app/sheets_service.py:387-396 | written payment rows are read back one for one |
| SheetLayout.BlankRowsSkipped | backend/app/sheets_service.py:367-368 | the two blank rows add nothing to the estimate rows |
| SheetLayout.AnchorLengths | backend/app/sheets_service.py:356-358 | the anchors and header cells differ in length, so none is mistaken for another |
| SheetLayout.HeadMarkers | backend/app/sheets_service.py:430-431 | the head's fifth row is the estimate anchor and its sixth no anchor |
| SheetLayout.MiddleMarkers | backend/app/sheets_service.py:453-456 | the blank rows are blank, then the payments anchor, then a header that is no anchor |
| SheetLayout.LayoutShaped | backend/app/sheets_service.py:424-477 | the written grid has the shape the reader expects |
| SheetLayout.AnchorsFound | backend/app/sheets_service.py:352-359 | in a written grid the anchors are found on the rows where they were written |
| SheetLayout.MarkerBelowHead | backend/app/sheets_service.py:352-359 | no later row repeats an anchor |
| SheetLayout.ParseAt | backend/app/sheets_service.py:361-396 | with both anchors found in order, the sheet is read between and below them |
| SheetLayout.EstimateBlock | backend/app/sheets_service.py:365-384 | the estimate block and the blank rows read back as the written estimate |
| SheetLayout.PaymentBlock | backend/app/sheets_service.py:387-396 | the payment block reads back as the written payments |
| SheetLayout.ShapedEstimates | backend/app/sheets_service.py:365-384 | the estimate block of a written grid reads back as the written estimate |
| SheetLayout.ShapedPayments | backend/app/sheets_service.py:387-396 | the payment block of a written grid reads back as the written payments |
| SheetLayout.ParseShaped | backend/app/sheets_service.py:349-406 | a grid of that shape with exchangeable rows parses back into them |
| SheetLayout.ParseBuildRoundTrip | backend/app/sheets_service.py:424-477 | publishing then reading back gives the published estimate (totals as formulas) and payment rows |
| SheetImport.ItemSheetValues | backend/app/sheets_service.py:250-274 | quantity is the item's for QTY_PRICE and 1 otherwise; prices come from the adjustment when there is one, else the billable price is the full base price; totals are quantity times price |
| SheetImport.DeltaIsUnitDiscount | backend/app/sheets_service.py:262-273 | the delta column is quantity times the per-unit discount, and zero without an adjustment |
| SheetImport.NumberText | backend/app/sheets_service.py:668-670 | the text handed to the number parser holds no space and no comma and is no longer than the cell |
| SheetImport.NumberTextKeepsPlain | backend/app/sheets_service.py:668-670 | text without spaces or commas is passed on unchanged |
| SheetImport.NumberTextIdempotent | backend/app/sheets_service.py:668-670 | preparing the text twice is preparing it once |
| SheetImport.SafeNumber | backend/app/sheets_service.py:667-679 | a cell that does not parse is reported as `<field>_INVALID`, a negative one as `<field>_NEGATIVE`; an accepted value is the parsed, non-negative number |
| SheetImport.ErrorsOf | backend/app/sheets_service.py:674-677 | a failed read appends exactly its error, a successful one nothing |
| SheetImport.AdjustmentOf | backend/app/sheets_service.py:715-718 | an item's adjustment is found exactly when one is stored for it |
| SheetImport.RowAdjustmentType | backend/app/sheets_service.py:754-765 | an empty type is DISCOUNT when the billable price equals the full one and ADJUSTMENT_TYPE_REQUIRED otherwise; a non-empty one is accepted exactly when its upper-cased text names a type, else ADJUSTMENT_TYPE_INVALID |
| SheetImport.ItemChanges | backend/app/sheets_service.py:767-783 | each field is listed as changed exactly when it differs, the quantity only for QTY_PRICE items |
| SheetImport.EstimateRowOutcome | backend/app/sheets_service.py:736-798 | a proposed item change names at least one changed field, and a row reports at most two errors |
| SheetImport.EstimateRowKeys | backend/app/sheets_service.py:738-745 | a row without item id is skipped silently; one naming no stored item reports ITEM_NOT_FOUND with the key |
| SheetImport.EstimateRowDiff | backend/app/sheets_service.py:747-798 | a readable row proposes a change exactly when some field differs, writing the row's values with the item's current full price; only a SINGLE_TOTAL quantity other than 1 is reported, and the row is still compared |
| SheetImport.EmptyTypeNeedsFullPrice | backend/app/sheets_service.py:756-760 | an empty type is refused exactly when the billable price differs from the full one, and otherwise stands for DISCOUNT |
| SheetImport.UnknownTypeRefused | backend/app/sheets_service.py:761-765 | an unknown adjustment type ends the row with ADJUSTMENT_TYPE_INVALID |
| SheetImport.PaymentChanges | backend/app/sheets_service.py:823-829 | the date, amount and note are listed as changed exactly when they differ from the stored plan |
| SheetImport.PaymentRowOutcome | backend/app/sheets_service.py:800-848 | a payment row reports at most one error and then proposes nothing; a proposed update names a changed field |
| SheetImport.PaymentRowErrors | backend/app/sheets_service.py:802-822 | a bad amount is reported first, a blank row is skipped, then a bad date and an unknown pay id are reported |
| SheetImport.PaymentRowChange | backend/app/sheets_service.py:818-848 | a readable dated row without pay id adds that payment; one with a known pay id updates the plan exactly when a field differs, writing the row's values |
| SheetImport.EstimateRows | backend/app/sheets_service.py:736-798 | every proposed item update is paired with its operation and names a changed field, at most one per row |
| SheetImport.PaymentRows | backend/app/sheets_service.py:800-848 | every proposed payment update is paired with its operation, at most one proposal and one error per row |
| SheetImport.EstimateRowsStep | backend/app/sheets_service.py:736-798 | taking one more estimate row adds its outcome to the lists |
| SheetImport.PaymentRowsStep | backend/app/sheets_service.py:800-848 | taking one more payment row adds its outcome to the lists |
| SheetImport.PreviewOf | backend/app/sheets_service.py:850-861 | the public preview lists as many item and payment updates as the operations, and the same new payments |
| SheetImport.EmptySheetNoChange | backend/app/sheets_service.py:727-861 | an empty sheet proposes nothing and reports nothing |
| SheetImport.QuietRowsNoOps | backend/app/sheets_service.py:785-798 | rows that each propose nothing leave nothing to apply |
| SheetImport.ValuesAt | backend/app/sheets_service.py:711-722 | one stored value per requested id, in order |
| SheetImport.ValuesAtCovers | backend/app/sheets_service.py:711-722 | looking up every key yields every stored value |
| SheetImport.InIdOrder | backend/app/sheets_service.py:711-722 | every stored row is in the query result |
| SheetImport.ItemsByStable | backend/app/sheets_service.py:711-714 | every item of the project is found under its stable id, and only the project's items are |
| SheetImport.AdjustmentsByItem | backend/app/sheets_service.py:715-718 | each adjustment is found under its item's id |
| SheetImport.PlansByStable | backend/app/sheets_service.py:720-723 | every plan of the project is found under its stable pay id, and only the project's plans are |
| SheetImport.ReadEstimateChanges | backend/app/sheets_service.py:736-798 | the estimate loop computes the specified lists |
| SheetImport.ReadPaymentChanges | backend/app/sheets_service.py:800-848 | the payment loop computes the specified lists |
| SheetImport.ComputePreview | backend/app/sheets_service.py:704-861 | the loops compute the specified preview and operations |
| SheetCaches.Unexpired | backend/app/sheets_service.py:122-126 | the clean-up keeps exactly the states recorded no more than ten minutes before now, with their times |
| SheetCaches.CleanupIdempotent | backend/app/sheets_service.py:122-126 | a second clean-up at the same time removes nothing more |
| SheetCaches.CleanupMonotone | backend/app/sheets_service.py:122-126 | a later clean-up keeps no state an earlier one removed |
| SheetCaches.Registered | backend/app/sheets_service.py:129-131 | after registering, the state is recorded at now and every other state is an unexpired one as it was |
| SheetCaches.ConsumeVerdict | backend/app/sheets_service.py:134-142 | a state missing after the clean-up is invalid; one that survived it but is older than the TTL at the second clock reading is expired; otherwise accepted |
| SheetCaches.Consumed | backend/app/sheets_service.py:134-142 | whatever the verdict, the state is gone afterwards and the other entries are stored ones, unchanged |
| SheetCaches.OneInstantNeverLate | backend/app/sheets_service.py:135-141 | with one clock reading for both checks a state is never reported expired |
| SheetCaches.FreshStateAccepted | backend/app/sheets_service.py:129-142 | a state registered and consumed within the TTL is accepted |
| SheetCaches.StateSingleUse | backend/app/sheets_service.py:134-142 | a consumed state is unknown to every later consume |
| SheetCaches.ConsumeSparesOthers | backend/app/sheets_service.py:134-142 | consuming one state leaves every other state as the clean-up leaves it |
| SheetCaches.OAuthStates.constructor | backend/app/sheets_service.py:32-33 | the state store starts empty |
| SheetCaches.OAuthStates.Cleanup | backend/app/sheets_service.py:122-126 | the collect-then-pop loop leaves the specified unexpired states |
| SheetCaches.OAuthStates.Register | backend/app/sheets_service.py:129-131 | the store becomes the specified registered map |
| SheetCaches.OAuthStates.Consume | backend/app/sheets_service.py:134-142 | success exactly when the verdict accepts, the matching error text otherwise, and the store becomes the specified remainder |
| SheetCaches.CachedWith | backend/app/sheets_service.py:682-690 | the project's entry is replaced by the new token, time and payload, and every other project's entry is untouched |
| SheetCaches.TakeResult | backend/app/sheets_service.py:693-701 | a take succeeds exactly when the token matches and the entry is within the TTL, handing out its payload; a missing or other token is PREVIEW_CONFIRM_REQUIRED, otherwise PREVIEW_TOKEN_EXPIRED |
| SheetCaches.AfterTake | backend/app/sheets_service.py:693-701 | once the token matched the entry is removed, expired or not; otherwise the cache is unchanged |
| SheetCaches.CacheThenTake | backend/app/sheets_service.py:682-701 | confirming within the TTL hands out what was previewed and empties the project's slot |
| SheetCaches.NewPreviewReplacesToken | backend/app/sheets_service.py:682-701 | a newer preview of the same project invalidates the older token |
| SheetCaches.PreviewSingleUse | backend/app/sheets_service.py:693-701 | a preview is confirmed at most once |
| SheetCaches.TakeSparesOthers | backend/app/sheets_service.py:693-701 | a take leaves the other projects' previews alone |
| SheetCaches.PreviewCache.constructor | backend/app/sheets_service.py:30-31 | the preview cache starts empty |
| SheetCaches.PreviewCache.Cache | backend/app/sheets_service.py:682-690 | returns the drawn token and stores the specified entry |
| SheetCaches.PreviewCache.Take | backend/app/sheets_service.py:693-701 | returns the specified take result and leaves the specified cache |
| SheetApply.AppliedItem | backend/app/sheets_service.py:940-945 | only a QTY_PRICE item changes, taking the operation's quantity; only its quantity and base change, and a current base stays current |
| SheetApply.AppliedAdjustment | backend/app/sheets_service.py:947-963 | the adjustment gets the operation's prices, type and reason; an existing one keeps its item and discount, a new one is created for the item with no discount |
| SheetApply.AppliedPlan | backend/app/sheets_service.py:969-974 | an updated plan keeps its id, stable id and project and no longer differs from the row it was updated from |
| SheetApply.ReimportSeesNoItemChange | backend/app/sheets_service.py:736-798 | after applying an estimate row's change, reading the same row again proposes nothing and reports the same errors |
| SheetApply.ReimportSeesNoPaymentChange | backend/app/sheets_service.py:818-837 | after applying a payment row's update, reading the same row again proposes nothing |
| SheetApply.StoredAdjustment | backend/app/sheets_service.py:947-949 | the item's adjustment is found exactly when one is stored |
| SheetApply.ApplyItemOps | backend/app/sheets_service.py:934-965 | the item operations keep the set of stored items and count at most one per operation |
| SheetApply.ApplyItemOp | backend/app/sheets_service.py:936-965 | an operation whose item is gone is skipped, otherwise it is applied and counted |
| SheetApply.ItemOpsPrefix | backend/app/sheets_service.py:935-965 | applying one more operation is one more step |
| SheetApply.ItemOpsCount | backend/app/sheets_service.py:934-965 | the count is the number of operations whose item is still stored |
| SheetApply.ReplaceKeepsRules | backend/app/sheets_service.py:940-945 | replacing an item by one of the same shape with a current base keeps the store's rules |
| SheetApply.ItemOpsKeepRules | backend/app/sheets_service.py:934-965 | the item operations keep every rule the store keeps |
| SheetApply.ApplyPaymentUpdates | backend/app/sheets_service.py:967-975 | the updates keep the set of plans and their ids and count at most one per update |
| SheetApply.ApplyPaymentUpdate | backend/app/sheets_service.py:969-975 | an update whose plan is gone is skipped, otherwise it is applied and counted |
| SheetApply.PaymentUpdatesPrefix | backend/app/sheets_service.py:968-975 | applying one more update is one more step |
| SheetApply.AddNewPlans | backend/app/sheets_service.py:977-987 | the stored plans stay, each new payment becomes a plan of the project under the next fresh id with a generated stable id, and nothing else is added |
| SheetApply.AddNewPlansStep | backend/app/sheets_service.py:978-987 | one more new payment adds one plan under the next fresh id |
| SheetApply.EnsuredLink | backend/app/sheets_service.py:92-103 | the project's link is returned, or a new one on the PROJECT tab, never published or imported, whose spreadsheet id is `mock-sheet-` followed by the project id written so that it reads back as that id |
| SheetApply.SheetLinks.constructor | backend/app/models.py:154-165 | the link table starts empty |
| SheetApply.SheetLinks.RecordImport | backend/app/sheets_service.py:989-993 | the project's link, ensured, records the import time, and no other link changes |
| SheetApply.PreviewImport | backend/app/sheets_service.py:922-928 | a missing project is refused and nothing is cached; otherwise the preview is cached under the drawn token, which is returned with it |
| SheetApply.ApplyItems | backend/app/sheets_service.py:934-965 | the item loop leaves the specified items and adjustments, returns the specified count and keeps the store's rules |
| SheetApply.ApplyItem | backend/app/sheets_service.py:936-965 | an operation hits exactly when its item is stored, then updates the item and its adjustment as specified |
| SheetApply.ApplyPaymentUpdateOps | backend/app/sheets_service.py:967-975 | the payment-update loop leaves the specified plans and returns the specified count |
| SheetApply.RewritePlan | backend/app/sheets_service.py:969-975 | an update hits exactly when its plan is stored and rewrites it as specified |
| SheetApply.AddPlans | backend/app/sheets_service.py:977-987 | the new-payment loop leaves the specified plans |
| SheetApply.ApplyImport | backend/app/sheets_service.py:931-1003 | a failed take ends with its error and changes nothing stored; otherwise items, updates and new payments are applied in order, the counts and preview errors returned, and the link records the import time exactly when anything was applied |
| SheetApply.ConfirmAppliesPreviewed | backend/app/sheets_service.py:922-1003 | confirming within the TTL applies exactly the operations that preview computed |
| Calendar.MinDate | backend/app/utils.py:119-124 | the earliest date of a non-empty set is in the set and no later than any of its dates |
| Backup.LastSlash | backend/app/routers/backup.py:61 | the position found is a slash, or -1, and no slash follows it |
| Backup.TimeOfStamp | backend/app/routers/backup.py:67-74 | the stamp of a valid date and time of day reads back as that time |
| Backup.FirstIsNewest | backend/app/routers/backup.py:107-111 | when a backup file exists, the first listed copy is the newest one |
| Backup.FoundOlderCount | backend/app/routers/backup.py:120-131 | counting copies older than the cutoff in the listing counts the expired backup files |
| Backup.NameOfShape | backend/app/routers/backup.py:676 | an archive name is 32 characters: the fixed prefix, the stamp and `.zip` |
| Backup.CreatedAtFromName | backend/app/routers/backup.py:88-94 | a file named like a backup archive is listed as a backup copy |
| Backup.KeptWhenCreatedAt | backend/app/routers/backup.py:120-131 | a copy created at the pruning time is kept by that prune, whatever the retention |
| Backup.BackupStore.constructor | backend/app/routers/backup.py:53-57 | the backup directory holds the given files |
| Backup.IdTexts | backend/app/routers/backup.py:776 | each id written in decimal is a non-empty entry without comma or surrounding space |
| Backup.Database.constructor | backend/app/models.py:33-213 | the database holds the given tables |
| BackupScheduler.Scheduler.constructor | backend/app/backup_scheduler.py:54-68 | the scheduler starts from the given settings and backup directory |
| Text.Strip | backend/app/sheets_service.py:345-346 | stripping never lengthens the text; what it leaves is characterised by the three lemmas below |
| Text.StripTrimmed | backend/app/sheets_service.py:345-346 | what stripping leaves neither starts nor ends with white space |
| Text.StripEmpty | backend/app/sheets_service.py:345-346 | stripping leaves nothing exactly when the text is all white space |
| Text.StripIdempotent | backend/app/sheets_service.py:345-346 | stripping twice changes nothing more |
| Text.StripNoSpace | backend/app/routers/life.py:48 | text that neither starts nor ends with white space is left as it is |
| Text.UpperChar | backend/app/backup_scheduler.py:24 | a character and its capital lower-case to the same character (ASCII and basic Cyrillic letters only) |
| Text.Upper | backend/app/sheets_service.py:754 | upper-casing works character by character and keeps the length |
| Text.Lower | backend/app/routers/exports.py:309 | lower-casing works character by character and keeps the length |
| Text.Split | backend/app/routers/life.py:48 | the pieces joined with the separator give the text back, and no piece holds the separator |
| Text.SplitJoin | backend/app/routers/life.py:34 | splitting a join gives the pieces back when none holds the separator |
| Text.FormatInt | backend/app/routers/life.py:29-30 | a non-negative integer formats as its zero-padded digits, a negative one as a minus sign before its magnitude padded to one less |
| Text.ParseFormatInt | backend/app/routers/life.py:33-34 | parsing a zero-padded integer gives the integer back |
| Text.ParseDigits | backend/app/routers/life.py:51-53 | a non-empty string of decimal digits parses as its value |
| Text.ParseNegative | backend/app/routers/life.py:51-53 | a minus sign followed by digits parses as the negated value |
| Text.StrLeTotalOrder | backend/app/routers/life.py:127 | string comparison is a total order |
| Text.DigitStringsOrder | backend/app/routers/life.py:127 | equal-length digit strings compare as their values do |
| MonthKeyLaws.FixedWidth | backend/app/routers/life.py:29-30 | a number below the width's power of ten formats to exactly that many digits |
| MonthKeyLaws.StripFormatted | backend/app/routers/life.py:48 | a formatted `year-month` has no surrounding white space |
| MonthKeyLaws.SplitTwo | backend/app/routers/life.py:48 | `a-b` splits on the dash into `a` and `b` when neither holds a dash |
| MonthKeyLaws.DashedOrder | backend/app/routers/life.py:170 | `a-x` against `b-y` for fixed-width digit strings compares by `a` first, then by `x` |
| MonthKeyLaws.DashedEqual | backend/app/routers/life.py:154 | `a-x` and `b-y` for fixed-width digit strings are equal exactly when both parts have equal values |
| MonthKeys.MonthIndexInjective | backend/app/routers/life.py:33-44 | a month index names exactly one year and month |
| Sorting.InsertBy | backend/app/routers/discounts.py:54-61 | inserting adds exactly one element to the multiset |
| Sorting.InsertBySorted | backend/app/routers/discounts.py:54-61 | inserting into a sorted list under a total preorder keeps it sorted |
| Sorting.SortBy | backend/app/routers/discounts.py:54-61 | `list.sort(key=...)`: a sorted permutation of the input |
| Sorting.InsertFirst | backend/app/routers/discounts.py:54-61 | inserting the head into the sorted tail gives a sorted permutation of the whole |
| Sorting.TiesOf | backend/app/routers/discounts.py:54-61 | the elements tied with a given one are a sub-list |
| Sorting.InsertByTies | backend/app/routers/discounts.py:54-61 | insertion puts an element before the elements it is tied with |
| Sorting.TiesOfCons | backend/app/routers/discounts.py:54-61 | the ties of a list with a new head start with that head when it is tied |
| Sorting.NotTiedPast | backend/app/routers/discounts.py:54-61 | an element that sorts strictly before another is not tied with the same third element |
| Sorting.SortByStable | backend/app/routers/discounts.py:54-61 | the sort is stable: elements with equal keys keep their input order |
| Sorting.LemmaHasMinBy | backend/app/routers/life.py:231 | a non-empty finite set has a least element under a total order |
| Sorting.MinBy | backend/app/routers/life.py:231 | the chosen element is a least one |
| Sorting.SortedSet | backend/app/routers/life.py:209-231 | `sorted(set)`: every element once, strictly ascending |
| Sorting.IntLeTotalOrder | backend/app/routers/life.py:177 | integer order is total |
| Sorting.MinInt | backend/app/routers/life.py:127-143 | the least element of a non-empty set of integers |
| Sorting.SortedInts | backend/app/routers/life.py:127-177 | every element of the set once |
| Sorting.SortedIntsAscending | backend/app/routers/life.py:127-177 | the sorted integers ascend strictly |
| Sorting.MinBelowRest | backend/app/routers/life.py:127 | the least element is below every other |
| Sorting.ConsAscending | backend/app/routers/life.py:127 | a least element in front of an ascending list keeps it ascending |

## Left out

- Floating point: money is exact `real`, and every `round(x, 2)` of a figure the source reports is the exact value, in overview, life, discounts, financials, estimate and exports.
- SheetImport.RowAdjustmentType: compares the billable and full unit prices exactly, where the source compares them rounded to six places (sheets_service.py:757), so prices that differ below 1e-6 need a type here and not in the source.
- SheetImport.ItemChanges: compares quantity and billable price exactly, where the source rounds both sides to six places (sheets_service.py:771, 776).
- SheetImport.EstimateRowOutcome: the SINGLE_TOTAL quantity test is `qty != 1`, where the source tests `round(qty, 6) != 1.0` (sheets_service.py:773).
- SheetImport.PaymentChanges: compares the amount exactly, where the source rounds both sides to six places (sheets_service.py:826).
- SheetImport.SafeNumber: the number parser is a parameter returning a `real`, so NaN and infinities, which Python's `float()` accepts from text such as "nan" or "inf" (sheets_service.py:667-679), are not modelled.
- Discounts.Listed: drops a row whose discount is exactly zero, where the source drops any discount with absolute value below 1e-9 (discounts.py:38).
- Discounts.SummaryOf: entry amounts, organisation totals and the total discount are the unrounded sums; the source rounds each entry amount and each total to two places (discounts.py:50, 63, 66), so the source's total is the sum of rounded amounts.
- LifeDraw.TakeOne: removes a balance drawn down to zero, where the source removes any balance at or below 1e-9 (life.py:185), so a remainder in (0, 1e-9] stays in its bucket here and is dropped there.
- Text.Lower: lower-cases ASCII and basic Cyrillic letters only. Python's `str.lower` covers all of Unicode, so the export's organisation order (exports.py:309) can differ for other scripts.
- Text.Upper: upper-cases ASCII and basic Cyrillic letters only. BackupScheduler.NormalizeFrequency therefore maps "daıly" (dotless i) to WEEKLY, where Python's `upper()` gives DAILY (backup_scheduler.py:24).
- Text.ParseInt: accepts surrounding white space, an optional sign and ASCII digits only. Python's `int()` also takes underscores between digits ("1_0") and non-ASCII decimal digits. MonthKeys.MonthKeyToStart therefore refuses "2024-0_3", which life.py:51-53 accepts, and Backup.ParseProjectIds refuses "1_0", which backup.py:776 accepts.
- Backup.Restored: the payload's records are appended to the tables. The source inserts them with their explicit ids (backup.py:341-443), so an id that collides with a record kept by a partial restore raises an integrity error and nothing is committed; the model has no such failure.
- Backup.Database.Restore: inherits that simplification; a failed commit is not modelled.
- Backup.ParseNameTimestamp: times are a date and a second of the day (`Calendar.DateTime`); microseconds are dropped, so copies listed by their file time within one second order as equal.
- Backup.ParseNameTimestamp: an archive name's digits are the ASCII digits `0`-`9`; the source's pattern `\d` and `strptime` also accept any other Unicode decimal digit (backend/app/routers/backup.py:38, 72), so a name written with such digits is a copy there and not here.
- BackupScheduler.NextDue, BackupScheduler.AddMonth, Backup.MonthShift: years are unbounded; past year 9999 the source raises `OverflowError` or `ValueError` (backend/app/backup_scheduler.py:36, 46-51; backend/app/routers/backup.py:77-82), where the model returns a date in year 10000.
- LifeRun.OrderedKeys: rows with equal sort keys (same month bucket and same project title) are ordered by project id and month; the source sorts a set, so its order among such ties follows set iteration order (backend/app/routers/life.py:209-231).
- SheetCaches.Registered: takes one `now` for the clean-up and the recorded time, where `_register_oauth_state` reads the clock twice (sheets_service.py:123, 131); the consume does take its two readings as separate parameters.
- BackupScheduler.Scheduler.RunBackupCycle: takes one `now`. The source reads the clock separately for the cycle (backup_scheduler.py:72), for the archive name (backup.py:676) and for the pruning cutoff (backup.py:121).
- SheetImport.ItemChanges: a change records which fields differ; the preview's `from`/`to` values (rounded to two places) are not carried.
- SheetImport.PaymentChanges: likewise records which fields differ, not their `from`/`to` values.
- Life.LifeForMonth: selects the month by its index (year and month), where the source compares the selected key string with the keys it generates (life.py:154, 165). The source's comparison is the one listed under Findings. The model uses the corrected comparison, so for an accepted key that is not in canonical form ("2024-1", " 2024-03", "+2024-03") it reports the selected month's draw, where the source reports nothing covered, no reserve used and the whole target as the gap.
- LifeRun.LifeFor: the same selection by month index.
- LifeRun.LifeFor: takes the selected key as input. `previous_month_life` and `month_life` (life.py:276-293), which pick the key from today's date, are not modelled.
- Projects.PlanListing, Projects.FactListing: that no row appears twice is stated for tables that file each payment under its positive id, as `ProjectStore.Valid` keeps them; for an arbitrary map two keys could hold the same row.
- Overview.OverviewMap: captions keep the source's Russian titles, with each figure and each project line held as its title and numbers; Python's text rendering of the float values (`f"...: {value}"`, overview.py:83-96) is not modelled.
- Projects: listing, creating and updating projects and groups, `project_computed`, and the adjustment endpoints `get/upsert/delete_item_adjustment` (projects.py:209-297, 416-464) are not modelled. They are thin reads and field writes, except the adjustment discount fields, which `Projects.ApplyDiscount` models.
- Projects.ProjectStore.DeleteProject: removes the project's sheet link only by the database cascade, which the store does not hold. Links live in `SheetApply.SheetLinks`.
- Discounts: the rows come from `effective_project_expense_rows`, which is not part of this model. Each project's discounted rows are an input.
- Queries without `ORDER BY` are taken to return rows in id order.
- Text.Strip: proved to remove exactly the surrounding white space through StripTrimmed, StripEmpty and StripIdempotent; the statement that the result is a contiguous slice of the input is not proved.
- Spreadsheet cells are text. Numbers written by the publisher are read back through the number parser parameter, and formulas are opaque strings.
- The Google Sheets API, OAuth credential and token files, the mock spreadsheet file and the remote reads (sheets_service.py:36-247, 409-421, 480-664) are left out: they are network and file I/O.
- Import jobs, raw import rows and item candidates (models.py:168-213) are not modelled; no core operation uses them.
- Archive packaging (ZIP, JSON, XLSX and CSV writers, backup.py:570-716) and the disk itself are left out: the backup directory is a sequence of named, dated files.
- The HTML estimate page and the Excel styling (estimate.py:161-338, exports.py:332-412) are presentation only and are left out.
- The asynchronous scheduler loop and its task globals (backup_scheduler.py:85-116) are concurrency and timing; only one cycle is modelled.
- The SQLite column migrations (projects.py:48-99, settings.py:15-36) are left out; the columns they add are plain fields of the records.
- Integers are unbounded; the source's integers are Python integers, so nothing wraps.

## Findings

| source | as written | input that shows it | evidently intended | confidence | as-written member | corrected member |
|---|---|---|---|---|---|---|
| backend/app/routers/life.py:154-165 | the selected month is recognised by comparing the requested key string with the canonical keys the projector generates | month "2024-1": `_month_key_to_start` accepts it, the projector generates "2024-01", and the strings never match, so the selected month's coverage, reserve and breakdown stay empty | recognise the selected month by the month the key names | not executed | SelectedMonth.NonCanonicalSelectedNeverMatches | SelectedMonth.SelectedMatchesAccepted |

=== FILE: backup.dfy ===
/**
 * The rules of the backup router (backend/app/routers/backup.py) that do not
 * depend on the file system or on archive formats: copy names, the
 * timestamped archive name, month shifting, the newest-first listing of the
 * backup directory, retention pruning, narrowing a payload to some projects,
 * the partial-restore id list and what a restore does to the stored tables.
 */
module Backup {
  import opened Wrappers
  import opened Calendar
  import opened Sorting
  import opened Collections
  import opened Text
  import opened Models

  /** Copies older than this many months are pruned. */
  const RetentionMonths: int := 4

  const NamePrefix: string := "cxema-backup-"

  /** The `detail` strings of the errors the router raises. */
  datatype BackupError = CopyInvalid | CopyNotFound | ProjectIdsRequiredForPartial | ProjectIdsInvalid | ProjectIdsEmpty

  function ErrorDetail(e: BackupError): string {
    match e
    case CopyInvalid => "BACKUP_COPY_INVALID"
    case CopyNotFound => "BACKUP_COPY_NOT_FOUND"
    case ProjectIdsRequiredForPartial => "PROJECT_IDS_REQUIRED_FOR_PARTIAL"
    case ProjectIdsInvalid => "PROJECT_IDS_INVALID"
    case ProjectIdsEmpty => "PROJECT_IDS_EMPTY"
  }

  // ---------------------------------------------------------------------------
  // Copy names

  /** The position of the last `/` in `s`, or -1 when there is none. */
  function LastSlash(s: string): (k: int)
    ensures -1 <= k < |s|
    ensures k >= 0 ==> s[k] == '/'
    ensures forall j :: k < j < |s| ==> s[j] != '/'
  {
    if |s| == 0 then -1
    else if s[|s| - 1] == '/' then |s| - 1
    else LastSlash(s[..|s| - 1])
  }

  /**
   * `Path(s).name` for a POSIX path: its last component once trailing
   * slashes and `.` components are dropped, or `""` when none is left.
   */
  function PathName(s: string): (r: string)
    ensures '/' !in r && r != "."
    decreases |s|
  {
    if |s| == 0 then ""
    else if s[|s| - 1] == '/' then PathName(s[..|s| - 1])
    else
      var k := LastSlash(s);
      var last := s[k + 1..];
      if last == "." then (if k < 0 then "" else PathName(s[..k]))
      else
        NoSlashAfter(s, k);
        last
  }

  /** Past the last `/`, the rest of the path holds none. */
  lemma NoSlashAfter(s: string, k: int)
    requires -1 <= k < |s|
    requires forall j :: k < j < |s| ==> s[j] != '/'
    ensures '/' !in s[k + 1..]
  {
    var rest := s[k + 1..];
    assert forall j :: 0 <= j < |rest| ==> rest[j] == s[k + 1 + j];
  }

  /**
   * `_safe_copy_name`: a copy name is accepted exactly when it is a single
   * path component: not empty, without `/`, and not `.`.
   */
  function SafeCopyName(name: string): (r: Result<string, BackupError>)
    ensures r.Ok? <==> name != "" && '/' !in name && name != "."
    ensures r.Ok? ==> r.value == name
    ensures r.Err? ==> r.error == CopyInvalid
  {
    var value := PathName(name);
    if value == "" || value != name then Err(CopyInvalid) else Ok(value)
  }

  // ---------------------------------------------------------------------------
  // Timestamped archive names

  /** `f"{n:02d}"` and friends for the fields of a timestamp. */
  function Pad(n: nat, width: nat): string {
    FormatNat(n, width)
  }

  /** The six digit fields of a name shaped `cxema-backup-DDDDDDDD-DDDDDD.zip`. */
  datatype Fields = Fields(year: string, month: string, day: string, hour: string, minute: string, second: string)

  predicate FieldWidths(f: Fields) {
    |f.year| == 4 && |f.month| == 2 && |f.day| == 2 && |f.hour| == 2 && |f.minute| == 2 && |f.second| == 2
  }

  /** The name spelled by six fields. */
  function NameOf(f: Fields): string {
    NamePrefix + (f.year + (f.month + (f.day + ("-" + (f.hour + (f.minute + (f.second + ".zip")))))))
  }

  /** The six fields of a date and time of day given by its numbers, each zero-padded to its width. */
  function Stamp(year: nat, month: nat, day: nat, hour: nat, minute: nat, second: nat): (f: Fields)
    ensures year < 10000 && month < 100 && day < 100 && hour < 100 && minute < 100 && second < 100 ==> FieldWidths(f)
  {
    var f := Fields(Pad(year, 4), Pad(month, 2), Pad(day, 2), Pad(hour, 2), Pad(minute, 2), Pad(second, 2));
    assert year < 10000 && month < 100 && day < 100 && hour < 100 && minute < 100 && second < 100 ==> FieldWidths(f) by {
      if year < 10000 && month < 100 && day < 100 && hour < 100 && minute < 100 && second < 100 {
        Pow10Widths();
        FormatWidth(year, 4);
        FormatWidth(month, 2);
        FormatWidth(day, 2);
        FormatWidth(hour, 2);
        FormatWidth(minute, 2);
        FormatWidth(second, 2);
      }
    }
    f
  }

  /** Numbers that fit their widths are read back from their stamp. */
  lemma StampValues(year: nat, month: nat, day: nat, hour: nat, minute: nat, second: nat)
    requires year < 10000 && month < 100 && day < 100 && hour < 100 && minute < 100 && second < 100
    ensures var f := Stamp(year, month, day, hour, minute, second);
      AllFieldsDigits(f)
      && DigitsValue(f.year) == year && DigitsValue(f.month) == month && DigitsValue(f.day) == day
      && DigitsValue(f.hour) == hour && DigitsValue(f.minute) == minute && DigitsValue(f.second) == second
  {
  }

  /** Digit fields of the right widths are the stamp of the numbers they spell. */
  lemma StampBack(f: Fields)
    requires FieldWidths(f) && AllFieldsDigits(f)
    ensures Stamp(DigitsValue(f.year), DigitsValue(f.month), DigitsValue(f.day),
      DigitsValue(f.hour), DigitsValue(f.minute), DigitsValue(f.second)) == f
  {
    FormatDigits(f.year);
    FormatDigits(f.month);
    FormatDigits(f.day);
    FormatDigits(f.hour);
    FormatDigits(f.minute);
    FormatDigits(f.second);
  }

  /** The fields `strftime` writes for a valid time. */
  function FieldsOf(t: DateTime): (f: Fields)
    requires ValidDateTime(t)
    ensures FieldWidths(f)
  {
    Stamp(t.date.year, t.date.month, t.date.day, t.second / 3600, t.second % 3600 / 60, t.second % 60)
  }

  /** The archive name `build_backup_archive` gives a backup taken at `t`: `cxema-backup-%Y%m%d-%H%M%S.zip`. */
  function BackupName(t: DateTime): string
    requires ValidDateTime(t)
  {
    NameOf(FieldsOf(t))
  }

  /** Cuts a name into the prefix, the six fixed-width fields, the dash and the suffix. */
  function NameFields(name: string): Option<Fields> {
    if |name| != 32 || name[..13] != NamePrefix then None
    else
      var r1 := name[13..];
      var r2 := r1[4..];
      var r3 := r2[2..];
      var r4 := r3[2..];
      var r5 := r4[1..];
      var r6 := r5[2..];
      var r7 := r6[2..];
      if r4[..1] != "-" || r7[2..] != ".zip" then None
      else Some(Fields(r1[..4], r2[..2], r3[..2], r5[..2], r6[..2], r7[..2]))
  }

  /** The fields of a name put back together give the name. */
  lemma NameFieldsJoin(name: string)
    requires NameFields(name).Some?
    ensures FieldWidths(NameFields(name).value) && name == NameOf(NameFields(name).value)
  {
    var r1 := name[13..];
    var r2 := r1[4..];
    var r3 := r2[2..];
    var r4 := r3[2..];
    var r5 := r4[1..];
    var r6 := r5[2..];
    var r7 := r6[2..];
    assert r7 == r7[..2] + r7[2..] && r6 == r6[..2] + r7 && r5 == r5[..2] + r6;
    assert r4 == r4[..1] + r5 && r3 == r3[..2] + r4 && r2 == r2[..2] + r3;
    assert r1 == r1[..4] + r2 && name == name[..13] + r1;
  }

  /** Fields of the right widths are cut back out of the name they spell. */
  lemma NameFieldsOf(f: Fields)
    requires FieldWidths(f)
    ensures NameFields(NameOf(f)) == Some(f)
  {
  }

  predicate AllFieldsDigits(f: Fields) {
    AllDigits(f.year) && AllDigits(f.month) && AllDigits(f.day)
    && AllDigits(f.hour) && AllDigits(f.minute) && AllDigits(f.second)
  }

  /** The date and time of day six numbers name, when they name a real one. */
  function TimeOfValues(year: nat, month: nat, day: nat, hour: nat, minute: nat, second: nat): (r: Option<DateTime>)
    ensures r.Some? ==> ValidDateTime(r.value)
  {
    var d := Date(year, month, day);
    if ValidDate(d) && hour < 24 && minute < 60 && second < 60 then Some(DateTime(d, hour * 3600 + minute * 60 + second))
    else None
  }

  /** The time six digit fields spell, when they form a real date and time of day (`strptime`). */
  function TimeOf(f: Fields): (r: Option<DateTime>)
    ensures r.Some? ==> ValidDateTime(r.value)
  {
    if !AllFieldsDigits(f) then None
    else TimeOfValues(DigitsValue(f.year), DigitsValue(f.month), DigitsValue(f.day),
      DigitsValue(f.hour), DigitsValue(f.minute), DigitsValue(f.second))
  }

  /**
   * `_parse_name_timestamp`: the time encoded in an archive name of the
   * expected shape, when its digits form a real date and time of day.
   */
  function ParseNameTimestamp(name: string): (r: Option<DateTime>)
    ensures r.Some? ==> ValidDateTime(r.value)
  {
    match NameFields(name)
    case None => None
    case Some(f) => TimeOf(f)
  }

  /** A second of the day is its hours, minutes and seconds. */
  lemma ClockSplit(sec: int)
    requires 0 <= sec < 86400
    ensures sec / 3600 < 24 && sec % 3600 / 60 < 60
    ensures sec == (sec / 3600) * 3600 + (sec % 3600 / 60) * 60 + sec % 60
  {
  }

  /** Hours, minutes and seconds are read back from the second of the day they make. */
  lemma ClockJoin(h: int, m: int, s: int)
    requires 0 <= h < 24 && 0 <= m < 60 && 0 <= s < 60
    ensures (h * 3600 + m * 60 + s) / 3600 == h
    ensures (h * 3600 + m * 60 + s) % 3600 / 60 == m
    ensures (h * 3600 + m * 60 + s) % 60 == s
  {
    var x := h * 3600 + m * 60 + s;
    assert x % 3600 == m * 60 + s;
  }

  /** Formatting a time's fields and reading them back gives the time. */
  lemma TimeOfFieldsOf(t: DateTime)
    requires ValidDateTime(t)
    ensures TimeOf(FieldsOf(t)) == Some(t)
  {
    var h, m, sec := t.second / 3600, t.second % 3600 / 60, t.second % 60;
    ClockSplit(t.second);
    TimeOfStamp(t.date, h, m, sec);
    DateTimeOfClock(t, h, m, sec);
  }

  /** A time is its date with the second its hours, minutes and seconds make. */
  lemma DateTimeOfClock(t: DateTime, h: int, m: int, sec: int)
    requires t.second == h * 3600 + m * 60 + sec
    ensures DateTime(t.date, h * 3600 + m * 60 + sec) == t
  {
  }

  /** Reading the stamp of a valid date and time of day. */
  lemma TimeOfStamp(d: Date, h: nat, m: nat, sec: nat)
    requires ValidDate(d) && h < 24 && m < 60 && sec < 60
    ensures TimeOf(Stamp(d.year, d.month, d.day, h, m, sec)) == Some(DateTime(d, h * 3600 + m * 60 + sec))
  {
    var f := Stamp(d.year, d.month, d.day, h, m, sec);
    StampValues(d.year, d.month, d.day, h, m, sec);
    assert TimeOf(f) == TimeOfValues(d.year, d.month, d.day, h, m, sec);
  }

  /** Fields that spell a time are that time's formatted fields. */
  lemma FieldsOfTimeOf(f: Fields)
    requires FieldWidths(f) && TimeOf(f).Some?
    ensures FieldsOf(TimeOf(f).value) == f
  {
    var h, m, sec := DigitsValue(f.hour), DigitsValue(f.minute), DigitsValue(f.second);
    var d := Date(DigitsValue(f.year), DigitsValue(f.month), DigitsValue(f.day));
    var t := DateTime(d, h * 3600 + m * 60 + sec);
    assert TimeOf(f) == TimeOfValues(d.year, d.month, d.day, h, m, sec);
    assert TimeOf(f) == Some(t);
    ClockJoin(h, m, sec);
    assert t.second / 3600 == h && t.second % 3600 / 60 == m && t.second % 60 == sec;
    assert FieldsOf(t) == Stamp(d.year, d.month, d.day, h, m, sec);
    StampBack(f);
  }

  /** Only archive names are read: a name that yields a time is the archive name of that time. */
  lemma ParsedNameIsBackupName(name: string)
    requires ParseNameTimestamp(name).Some?
    ensures name == BackupName(ParseNameTimestamp(name).value)
  {
    NameFieldsJoin(name);
    FieldsOfTimeOf(NameFields(name).value);
  }

  /** Every valid time's archive name reads back as that time. */
  lemma NameTimestampRoundTrip(t: DateTime)
    requires ValidDateTime(t)
    ensures ParseNameTimestamp(BackupName(t)) == Some(t)
  {
    NameFieldsOf(FieldsOf(t));
    TimeOfFieldsOf(t);
  }

  // ---------------------------------------------------------------------------
  // Month shifting

  /**
   * `_month_shift`: the same day and time `delta` months later (earlier when
   * negative), the day clamped to the length of the target month.
   */
  function MonthShift(dt: DateTime, delta: int): (r: DateTime)
    requires ValidDateTime(dt)
    ensures 1 <= r.date.month <= 12 && 1 <= r.date.day <= DaysInMonth(r.date.year, r.date.month)
    ensures MonthIndex(r.date.year, r.date.month) == MonthIndex(dt.date.year, dt.date.month) + delta
    ensures r.date.day == (if dt.date.day <= DaysInMonth(r.date.year, r.date.month) then dt.date.day else DaysInMonth(r.date.year, r.date.month))
    ensures r.second == dt.second
  {
    var month0 := (dt.date.month - 1) + delta;
    var year := dt.date.year + month0 / 12;
    var month := month0 % 12 + 1;
    var lengths := [31, if IsLeap(year) then 29 else 28, 31, 30, 31, 30, 31, 31, 30, 31, 30, 31];
    assert lengths[month - 1] == DaysInMonth(year, month);
    var day := if dt.date.day <= lengths[month - 1] then dt.date.day else lengths[month - 1];
    DateTime(Date(year, month, day), dt.second)
  }

  /** A later month index means a later date. */
  lemma MonthIndexOrder(a: Date, b: Date)
    requires 1 <= a.month <= 12 && 1 <= b.month <= 12
    requires MonthIndex(a.year, a.month) < MonthIndex(b.year, b.month)
    ensures DateLt(a, b)
  {
  }

  /** The pruning cut-off: `now` moved back by at least one month. */
  function Cutoff(now: DateTime, months: int): (c: DateTime)
    requires ValidDateTime(now)
    ensures DateTimeLt(c, now)
  {
    var c := MonthShift(now, -(if months >= 1 then months else 1));
    MonthIndexOrder(c.date, now.date);
    c
  }

  // ---------------------------------------------------------------------------
  // The backup directory

  /** A file in the backup directory, with its modification time and size. */
  datatype StoredFile = StoredFile(name: string, modifiedAt: DateTime, sizeBytes: nat)

  /** An entry of the copy listing. */
  datatype Copy = Copy(name: string, createdAt: DateTime, sizeBytes: nat)

  /** `glob("cxema-backup-*.zip")`. */
  predicate IsBackupFile(f: StoredFile) {
    |f.name| >= 17 && f.name[..13] == NamePrefix && f.name[|f.name| - 4..] == ".zip"
  }

  /** A copy's creation time: the one in its name, else the file's modification time. */
  function CopyOf(f: StoredFile): Copy {
    Copy(f.name, ParseNameTimestamp(f.name).GetOr(f.modifiedAt), f.sizeBytes)
  }

  /** The listing order, `reverse=True` on `created_at`: newer first. */
  predicate NewerOrSame(a: Copy, b: Copy) {
    DateTimeLe(b.createdAt, a.createdAt)
  }

  lemma NewerOrSamePreorder()
    ensures TotalPreorder(NewerOrSame)
  {
    forall a: Copy, b: Copy, c: Copy | NewerOrSame(a, b) && NewerOrSame(b, c) ensures NewerOrSame(a, c) {
      DateTimeLeTrans(c.createdAt, b.createdAt, a.createdAt);
    }
    forall a: Copy, b: Copy ensures NewerOrSame(a, b) || NewerOrSame(b, a) {
      DateLeTotal(a.createdAt.date, b.createdAt.date);
    }
  }

  /** The copies in the directory, in the order the files are found. */
  function FoundCopies(files: seq<StoredFile>): seq<Copy> {
    MapFilter(files, IsBackupFile, CopyOf)
  }

  /** `list_backup_copies`: every backup file's copy, newest first. */
  function CopiesOf(files: seq<StoredFile>): seq<Copy> {
    NewerOrSamePreorder();
    SortBy(FoundCopies(files), NewerOrSame)
  }

  /** The listing has one entry per backup file, made by `CopyOf`. */
  lemma CopiesMembers(files: seq<StoredFile>)
    ensures |CopiesOf(files)| == |Filter(files, IsBackupFile)|
    ensures forall c :: c in CopiesOf(files) <==> exists f :: f in files && IsBackupFile(f) && c == CopyOf(f)
  {
    var found := FoundCopies(files);
    var kept := Filter(files, IsBackupFile);
    MapFilterAt(files, IsBackupFile, CopyOf);
    forall c ensures c in found <==> exists f :: f in files && IsBackupFile(f) && c == CopyOf(f) {
      if c in found {
        var i :| 0 <= i < |found| && found[i] == c;
        assert kept[i] in kept;
      }
      if f :| f in files && IsBackupFile(f) && c == CopyOf(f) {
        assert f in kept;
        var i :| 0 <= i < |kept| && kept[i] == f;
        assert found[i] == c;
      }
    }
  }

  /** The listing is ordered newest first. */
  lemma CopiesNewestFirst(files: seq<StoredFile>)
    ensures forall i, j :: 0 <= i < j < |CopiesOf(files)| ==> DateTimeLe(CopiesOf(files)[j].createdAt, CopiesOf(files)[i].createdAt)
  {
    var copies := CopiesOf(files);
    assert SortedBy(copies, NewerOrSame);
  }

  /** `latest`: the first copy of the listing, or none when the directory has no backup. */
  function Latest(files: seq<StoredFile>): (r: Option<Copy>)
    ensures r.None? <==> forall f :: f in files ==> !IsBackupFile(f)
    ensures r.Some? ==> r.value in CopiesOf(files) && forall c :: c in CopiesOf(files) ==> DateTimeLe(c.createdAt, r.value.createdAt)
  {
    var copies := CopiesOf(files);
    if |copies| == 0 then
      NoCopies(files);
      None
    else
      FirstIsNewest(files);
      Some(copies[0])
  }

  lemma NoCopies(files: seq<StoredFile>)
    requires |CopiesOf(files)| == 0
    ensures forall f :: f in files ==> !IsBackupFile(f)
  {
    CopiesMembers(files);
    assert Filter(files, IsBackupFile) == [];
  }

  lemma FirstIsNewest(files: seq<StoredFile>)
    requires |CopiesOf(files)| > 0
    ensures exists f :: f in files && IsBackupFile(f)
    ensures forall c :: c in CopiesOf(files) ==> DateTimeLe(c.createdAt, CopiesOf(files)[0].createdAt)
  {
    var copies := CopiesOf(files);
    CopiesMembers(files);
    CopiesNewestFirst(files);
    assert copies[0] in copies;
    forall c | c in copies ensures DateTimeLe(c.createdAt, copies[0].createdAt) {
      var j :| 0 <= j < |copies| && copies[j] == c;
      if j == 0 { assert c == copies[0]; }
    }
  }

  /**
   * `_copy_path_or_404`: `latest` names the newest copy; any other name must
   * be a safe copy name; either way the file must exist.
   */
  function ResolveCopy(files: seq<StoredFile>, copyName: string): (r: Result<string, BackupError>)
    ensures r.Ok? ==> exists f :: f in files && f.name == r.value
    ensures r.Ok? && copyName != "latest" ==> r.value == copyName
    ensures r.Ok? && copyName == "latest" ==> Latest(files).Some? && r.value == Latest(files).value.name
    ensures copyName != "latest" && SafeCopyName(copyName).Err? ==> r == Err(CopyInvalid)
    ensures copyName == "latest" && Latest(files).None? ==> r == Err(CopyNotFound)
    ensures copyName == "latest" && Latest(files).Some? ==> r == Ok(Latest(files).value.name)
    ensures copyName != "latest" && SafeCopyName(copyName).Ok? ==>
      r == (if exists f :: f in files && f.name == copyName then Ok(copyName) else Err(CopyNotFound))
  {
    CopiesMembers(files);
    var name :=
      if copyName == "latest" then
        match Latest(files)
        case None => Err(CopyNotFound)
        case Some(c) => Ok(c.name)
      else SafeCopyName(copyName);
    if name.Err? then name
    else if exists f :: f in files && f.name == name.value then name
    else Err(CopyNotFound)
  }

  /** A backup file older than the cut-off: what pruning deletes. */
  function Expired(cutoff: DateTime): StoredFile -> bool {
    (f: StoredFile) => IsBackupFile(f) && DateTimeLt(CopyOf(f).createdAt, cutoff)
  }

  /** What pruning keeps. */
  function Survives(cutoff: DateTime): StoredFile -> bool {
    (f: StoredFile) => !Expired(cutoff)(f)
  }

  /** The listed copies older than the cut-off. */
  function OlderThan(cutoff: DateTime): Copy -> bool {
    (c: Copy) => DateTimeLt(c.createdAt, cutoff)
  }

  /** Pruned and kept files together are all the files. */
  lemma {:induction false} PruneSplit(files: seq<StoredFile>, cutoff: DateTime)
    ensures |Filter(files, Expired(cutoff))| + |Filter(files, Survives(cutoff))| == |files|
    decreases |files|
  {
    if |files| > 0 {
      PruneSplit(files[..|files| - 1], cutoff);
    }
  }

  /** Counting old copies in the unsorted listing counts expired files. */
  lemma {:induction false} FoundOlderCount(files: seq<StoredFile>, cutoff: DateTime)
    ensures |Filter(FoundCopies(files), OlderThan(cutoff))| == |Filter(files, Expired(cutoff))|
    decreases |files|
  {
    if |files| > 0 {
      FoundOlderCount(files[..|files| - 1], cutoff);
      FoundOlderStep(files, cutoff);
    }
  }

  /** The step of `FoundOlderCount`: the last file counts on both sides or on neither. */
  lemma FoundOlderStep(files: seq<StoredFile>, cutoff: DateTime)
    requires |files| > 0
    requires |Filter(FoundCopies(files[..|files| - 1]), OlderThan(cutoff))| == |Filter(files[..|files| - 1], Expired(cutoff))|
    ensures |Filter(FoundCopies(files), OlderThan(cutoff))| == |Filter(files, Expired(cutoff))|
  {
    var f := files[|files| - 1];
    var init := FoundCopies(files[..|files| - 1]);
    if IsBackupFile(f) {
      assert FoundCopies(files) == init + [CopyOf(f)];
      FilterSnoc(init, CopyOf(f), OlderThan(cutoff));
    } else {
      assert FoundCopies(files) == init;
    }
  }

  /** Counting old copies in the listing counts the files pruning deletes. */
  lemma OlderCount(files: seq<StoredFile>, cutoff: DateTime)
    ensures |Filter(CopiesOf(files), OlderThan(cutoff))| == |files| - |Filter(files, Survives(cutoff))|
  {
    NewerOrSamePreorder();
    FilterPermutation(CopiesOf(files), FoundCopies(files), OlderThan(cutoff));
    FoundOlderCount(files, cutoff);
    PruneSplit(files, cutoff);
  }

  /** The directory after writing `name` (replacing any file of that name). */
  function WithFile(files: seq<StoredFile>, f: StoredFile): (r: seq<StoredFile>)
    ensures f in r
    ensures forall g :: g in r && g != f ==> g in files && g.name != f.name
    ensures forall g :: g in files && g.name != f.name ==> g in r
  {
    Filter(files, NameIsNot(f.name)) + [f]
  }

  function NameIsNot(name: string): StoredFile -> bool {
    (g: StoredFile) => g.name != name
  }

  /** A copy saved at `now` is a backup file dated `now`, so pruning at `now` keeps it. */
  lemma FreshCopySurvives(now: DateTime, sizeBytes: nat, months: int)
    requires ValidDateTime(now)
    ensures IsBackupFile(StoredFile(BackupName(now), now, sizeBytes))
    ensures CopyOf(StoredFile(BackupName(now), now, sizeBytes)).createdAt == now
    ensures Survives(Cutoff(now, months))(StoredFile(BackupName(now), now, sizeBytes))
  {
    var name := BackupName(now);
    NameOfShape(FieldsOf(now));
    NameTimestampRoundTrip(now);
    CreatedAtFromName(name, now, sizeBytes);
    KeptWhenCreatedAt(StoredFile(name, now, sizeBytes), now, months);
  }

  /** Names of the archive shape are listed as backup files. */
  lemma NameOfShape(f: Fields)
    requires FieldWidths(f)
    ensures var name := NameOf(f); |name| == 32 && name[..13] == NamePrefix && name[28..] == ".zip"
  {
  }

  /** A file whose name reads as a time is dated by that time. */
  lemma CreatedAtFromName(name: string, t: DateTime, sizeBytes: nat)
    requires ParseNameTimestamp(name) == Some(t)
    requires |name| == 32 && name[..13] == NamePrefix && name[28..] == ".zip"
    ensures IsBackupFile(StoredFile(name, t, sizeBytes))
    ensures CopyOf(StoredFile(name, t, sizeBytes)).createdAt == t
  {
    assert name[|name| - 4..] == name[28..];
  }

  /** A backup file created at `now` is kept by a prune at `now`. */
  lemma KeptWhenCreatedAt(f: StoredFile, now: DateTime, months: int)
    requires ValidDateTime(now) && CopyOf(f).createdAt == now
    ensures Survives(Cutoff(now, months))(f)
  {
    var c := Cutoff(now, months);
    assert !DateTimeLt(now, c) by { DateLeTotal(now.date, c.date); }
    assert !Expired(c)(f);
  }

  /** The loop of the pruning: counts the listed copies created before the cut-off. */
  method CountOlder(listing: seq<Copy>, cutoff: DateTime) returns (n: nat)
    ensures n == |Filter(listing, OlderThan(cutoff))|
  {
    n := 0;
    var j := 0;
    while j < |listing|
      invariant j <= |listing|
      invariant n == |Filter(listing[..j], OlderThan(cutoff))|
    {
      PrefixStep(listing, j);
      if DateTimeLt(listing[j].createdAt, cutoff) {
        n := n + 1;
      }
      j := j + 1;
    }
    assert listing[..j] == listing;
  }

  /** The backup directory, as `list_backup_copies`, pruning and saving see it. */
  class BackupStore {
    var files: seq<StoredFile>

    constructor (files: seq<StoredFile>)
      ensures this.files == files
    {
      this.files := files;
    }

    /** The loop of `list_backup_copies`: a copy per backup file, in the order the files are found. */
    method CollectCopies() returns (found: seq<Copy>)
      ensures found == FoundCopies(files)
    {
      found := [];
      for j := 0 to |files|
        invariant found == FoundCopies(files[..j])
      {
        MapFilterPrefix(files, IsBackupFile, CopyOf, j);
        if IsBackupFile(files[j]) {
          found := found + [CopyOf(files[j])];
        }
      }
      assert files[..|files|] == files;
    }

    /** `list_backup_copies`: the copies, sorted newest first. */
    method ListCopies() returns (copies: seq<Copy>)
      ensures copies == CopiesOf(files)
    {
      var found := CollectCopies();
      NewerOrSamePreorder();
      copies := SortBy(found, NewerOrSame);
    }

    /**
     * `prune_backups_older_than_months`: deletes exactly the copies created
     * before the cut-off and returns how many it deleted.
     */
    method Prune(now: DateTime, months: int) returns (removed: nat)
      requires ValidDateTime(now)
      modifies this
      ensures files == Filter(old(files), Survives(Cutoff(now, months)))
      ensures removed == |old(files)| - |files|
    {
      var cutoff := Cutoff(now, months);
      var listing := ListCopies();
      removed := CountOlder(listing, cutoff);
      OlderCount(files, cutoff);
      files := Filter(files, Survives(cutoff));
    }

    /** `save_backup_to_disk`: writes the archive of a backup taken at `now`, then prunes. */
    method Save(now: DateTime, sizeBytes: nat) returns (name: string)
      requires ValidDateTime(now)
      modifies this
      ensures name == BackupName(now)
      ensures files == Filter(WithFile(old(files), StoredFile(name, now, sizeBytes)), Survives(Cutoff(now, RetentionMonths)))
      ensures StoredFile(name, now, sizeBytes) in files
    {
      name := BackupName(now);
      files := WithFile(files, StoredFile(name, now, sizeBytes));
      FreshCopySurvives(now, sizeBytes, RetentionMonths);
      var _ := Prune(now, RetentionMonths);
    }
  }

  // ---------------------------------------------------------------------------
  // Payloads and restore

  /** The stored tables a backup covers. */
  datatype Tables = Tables(
    settings: Option<AppSettings>,
    projects: seq<Project>,
    groups: seq<ExpenseGroup>,
    items: seq<ExpenseItem>,
    adjustments: seq<Adjustment>,
    plans: seq<Payment>,
    facts: seq<Payment>,
    links: seq<SheetLink>)

  /** A backup's payload: its schema version and its tables. */
  datatype Payload = Payload(schemaVersion: int, tables: Tables)

  function ProjectIn(ids: set<int>): Project -> bool { (p: Project) => p.id in ids }
  function GroupIn(ids: set<int>): ExpenseGroup -> bool { (g: ExpenseGroup) => g.projectId in ids }
  function ItemIn(ids: set<int>, groupIds: set<int>): ExpenseItem -> bool { (it: ExpenseItem) => it.projectId in ids && it.groupId in groupIds }
  function AdjustmentIn(itemIds: set<int>): Adjustment -> bool { (a: Adjustment) => a.itemId in itemIds }
  function PaymentIn(ids: set<int>): Payment -> bool { (pay: Payment) => pay.projectId in ids }
  function LinkIn(ids: set<int>): SheetLink -> bool { (l: SheetLink) => l.projectId in ids }

  function GroupIds(groups: seq<ExpenseGroup>): set<int> { set g | g in groups :: g.id }
  function ItemIds(items: seq<ExpenseItem>): set<int> { set it | it in items :: it.id }

  /**
   * `_filter_payload_by_projects`: the selected projects and their groups,
   * payments and sheet links; the items of those projects whose group is
   * kept; the adjustments of kept items. Every list keeps only elements of
   * the original one; the schema version and the settings are unchanged.
   */
  function FilterPayload(p: Payload, ids: set<int>): (r: Payload)
    ensures r.schemaVersion == p.schemaVersion && r.tables.settings == p.tables.settings
    ensures forall x :: x in r.tables.projects <==> x in p.tables.projects && x.id in ids
    ensures forall g :: g in r.tables.groups <==> g in p.tables.groups && g.projectId in ids
    ensures forall it :: it in r.tables.items <==>
      it in p.tables.items && it.projectId in ids && exists g :: g in r.tables.groups && g.id == it.groupId
    ensures forall a :: a in r.tables.adjustments <==>
      a in p.tables.adjustments && exists it :: it in r.tables.items && it.id == a.itemId
    ensures forall pay :: pay in r.tables.plans <==> pay in p.tables.plans && pay.projectId in ids
    ensures forall pay :: pay in r.tables.facts <==> pay in p.tables.facts && pay.projectId in ids
    ensures forall l :: l in r.tables.links <==> l in p.tables.links && l.projectId in ids
    ensures multiset(r.tables.projects) <= multiset(p.tables.projects) && multiset(r.tables.groups) <= multiset(p.tables.groups)
    ensures multiset(r.tables.items) <= multiset(p.tables.items) && multiset(r.tables.adjustments) <= multiset(p.tables.adjustments)
    ensures multiset(r.tables.plans) <= multiset(p.tables.plans) && multiset(r.tables.facts) <= multiset(p.tables.facts)
    ensures multiset(r.tables.links) <= multiset(p.tables.links)
  {
    var t := p.tables;
    var groups := Filter(t.groups, GroupIn(ids));
    var items := Filter(t.items, ItemIn(ids, GroupIds(groups)));
    var adjustments := Filter(t.adjustments, AdjustmentIn(ItemIds(items)));
    FilterSubMultiset(t.projects, ProjectIn(ids));
    FilterSubMultiset(t.groups, GroupIn(ids));
    FilterSubMultiset(t.items, ItemIn(ids, GroupIds(groups)));
    FilterSubMultiset(t.adjustments, AdjustmentIn(ItemIds(items)));
    FilterSubMultiset(t.plans, PaymentIn(ids));
    FilterSubMultiset(t.facts, PaymentIn(ids));
    FilterSubMultiset(t.links, LinkIn(ids));
    Payload(p.schemaVersion, Tables(
      t.settings,
      Filter(t.projects, ProjectIn(ids)),
      groups,
      items,
      adjustments,
      Filter(t.plans, PaymentIn(ids)),
      Filter(t.facts, PaymentIn(ids)),
      Filter(t.links, LinkIn(ids))))
  }

  /**
   * `_delete_projects_with_children`: removes the projects, their groups,
   * items, payments and sheet links, and the adjustments of their items.
   */
  function DeleteProjects(t: Tables, ids: set<int>): (r: Tables)
    ensures r.settings == t.settings
    ensures forall x :: x in r.projects <==> x in t.projects && x.id !in ids
    ensures forall g :: g in r.groups <==> g in t.groups && g.projectId !in ids
    ensures forall it :: it in r.items <==> it in t.items && it.projectId !in ids
    ensures forall a :: a in r.adjustments <==>
      a in t.adjustments && !exists it :: it in t.items && it.projectId in ids && it.id == a.itemId
    ensures forall pay :: pay in r.plans <==> pay in t.plans && pay.projectId !in ids
    ensures forall pay :: pay in r.facts <==> pay in t.facts && pay.projectId !in ids
    ensures forall l :: l in r.links <==> l in t.links && l.projectId !in ids
  {
    if ids == {} then t
    else
      var itemIds := ItemIds(Filter(t.items, (it: ExpenseItem) => it.projectId in ids));
      Tables(
        t.settings,
        Filter(t.projects, (p: Project) => p.id !in ids),
        Filter(t.groups, (g: ExpenseGroup) => g.projectId !in ids),
        Filter(t.items, (it: ExpenseItem) => it.projectId !in ids),
        Filter(t.adjustments, (a: Adjustment) => a.itemId !in itemIds),
        Filter(t.plans, (pay: Payment) => pay.projectId !in ids),
        Filter(t.facts, (pay: Payment) => pay.projectId !in ids),
        Filter(t.links, (l: SheetLink) => l.projectId !in ids))
  }

  /** The settings row `_insert_payload` writes from a payload's settings (the last backup time is not carried). */
  function RestoredSettings(s: AppSettings): AppSettings {
    s.(lastBackupAt := None)
  }

  /**
   * `_insert_payload`: adds every record of the payload; with the global
   * settings included, the payload's settings (when present) become the row.
   */
  function InsertPayload(t: Tables, p: Tables, includeSettings: bool): (r: Tables)
    ensures !includeSettings ==> r.settings == t.settings
    ensures includeSettings && p.settings.Some? ==> r.settings == Some(RestoredSettings(p.settings.value))
    ensures includeSettings && p.settings.None? ==> r.settings == t.settings
    ensures r.projects == t.projects + p.projects && r.groups == t.groups + p.groups
    ensures r.items == t.items + p.items && r.adjustments == t.adjustments + p.adjustments
    ensures r.plans == t.plans + p.plans && r.facts == t.facts + p.facts && r.links == t.links + p.links
  {
    Tables(
      if includeSettings && p.settings.Some? then Some(RestoredSettings(p.settings.value)) else t.settings,
      t.projects + p.projects, t.groups + p.groups, t.items + p.items, t.adjustments + p.adjustments,
      t.plans + p.plans, t.facts + p.facts, t.links + p.links)
  }

  /** The two restore modes. */
  datatype RestoreMode = Full | Partial

  /** The ids of the projects a payload holds. */
  function PayloadProjectIds(t: Tables): set<int> {
    set p | p in t.projects :: p.id
  }

  /**
   * The tables after a restore that is not a dry run: the payload's projects
   * are deleted with their children, full mode also deletes the settings row,
   * and the payload is inserted.
   */
  function Restored(t: Tables, p: Tables, mode: RestoreMode): Tables {
    var cleared := DeleteProjects(t, PayloadProjectIds(p));
    var base := if mode == Full then cleared.(settings := None) else cleared;
    InsertPayload(base, p, mode == Full)
  }

  /**
   * A restore replaces exactly the payload's projects: afterwards the
   * projects with a payload id are the payload's, the others are as before;
   * full mode takes the settings from the payload (none if it has none) and
   * partial mode keeps them.
   */
  lemma RestoreReplacesProjects(t: Tables, p: Tables, mode: RestoreMode)
    ensures forall x: Project :: x.id in PayloadProjectIds(p) ==> (x in Restored(t, p, mode).projects <==> x in p.projects)
    ensures forall x: Project :: x.id !in PayloadProjectIds(p) ==> (x in Restored(t, p, mode).projects <==> x in t.projects)
    ensures mode == Partial ==> Restored(t, p, mode).settings == t.settings
    ensures mode == Full ==> Restored(t, p, mode).settings == if p.settings.Some? then Some(RestoredSettings(p.settings.value)) else None
  {
    var ids := PayloadProjectIds(p);
    forall x: Project | x.id !in ids ensures x in p.projects ==> false {}
  }

  /** The `counts` of a restore summary. */
  datatype Counts = Counts(projects: nat, groups: nat, items: nat, adjustments: nat, plans: nat, facts: nat, links: nat)

  function CountsOf(t: Tables): Counts {
    Counts(|t.projects|, |t.groups|, |t.items|, |t.adjustments|, |t.plans|, |t.facts|, |t.links|)
  }

  /** A non-empty, stripped entry of the comma-separated id list. */
  function IdEntries(parts: seq<string>): (r: seq<string>)
    ensures forall e :: e in r ==> e != "" && Strip(e) == e
  {
    if |parts| == 0 then []
    else
      var e := Strip(parts[0]);
      StripIdempotent(parts[0]);
      (if e == "" then [] else [e]) + IdEntries(parts[1..])
  }

  /** `{int(x) for x in entries}`, or none when some entry is not an integer. */
  function ParseIds(entries: seq<string>): (r: Option<set<int>>)
    ensures r.Some? ==> forall e :: e in entries ==> ParseInt(e).Some? && ParseInt(e).value in r.value
    ensures r.Some? ==> forall id :: id in r.value ==> exists e :: e in entries && ParseInt(e) == Some(id)
    ensures r.None? ==> exists e :: e in entries && ParseInt(e).None?
    ensures r == Some({}) ==> entries == []
  {
    if |entries| == 0 then Some({})
    else
      match ParseInt(entries[0])
      case None => None
      case Some(id) =>
        match ParseIds(entries[1..])
        case None => None
        case Some(rest) => Some({id} + rest)
  }

  /**
   * The `project_ids` query parameter of a partial restore: required, split
   * on commas, blank entries dropped, each entry an integer, and at least one.
   */
  function ParseProjectIds(raw: Option<string>): (r: Result<set<int>, BackupError>)
    ensures raw.None? || raw == Some("") ==> r == Err(ProjectIdsRequiredForPartial)
    ensures r.Ok? ==> r.value != {}
    ensures r.Ok? ==> forall id :: id in r.value <==> exists e :: e in IdEntries(Split(raw.value, ',')) && ParseInt(e) == Some(id)
    ensures r == Err(ProjectIdsEmpty) <==> raw.Some? && raw.value != "" && IdEntries(Split(raw.value, ',')) == []
    ensures r == Err(ProjectIdsInvalid) <==> raw.Some? && raw.value != "" && ParseIds(IdEntries(Split(raw.value, ','))).None?
  {
    if raw.None? || raw.value == "" then Err(ProjectIdsRequiredForPartial)
    else
      var entries := IdEntries(Split(raw.value, ','));
      match ParseIds(entries)
      case None => Err(ProjectIdsInvalid)
      case Some(ids) => if ids == {} then Err(ProjectIdsEmpty) else Ok(ids)
  }

  /** The ids written out in decimal, one entry each. */
  function IdTexts(ids: seq<int>): (r: seq<string>)
    ensures |r| == |ids|
    ensures forall t :: t in r ==> ',' !in t && t != "" && Strip(t) == t
  {
    if |ids| == 0 then []
    else
      FormattedIsClean(ids[0]);
      [FormatInt(ids[0], 0)] + IdTexts(ids[1..])
  }

  /** The text `",".join(str(i) for i in ids)`. */
  function IdList(ids: seq<int>): string {
    Join(IdTexts(ids), ',')
  }

  /** The written ids parse back as the set of those ids. */
  lemma {:induction false} ParseIdTexts(ids: seq<int>)
    ensures ParseIds(IdTexts(ids)) == Some(set i | i in ids)
    decreases |ids|
  {
    var texts := IdTexts(ids);
    if |ids| == 0 {
      assert (set i | i in ids) == {};
    } else {
      ParseFormatInt(ids[0], 0);
      ParseIdTexts(ids[1..]);
      assert texts[0] == FormatInt(ids[0], 0) && texts[1..] == IdTexts(ids[1..]);
      SetOfCons(ids);
    }
  }

  /** The members of a non-empty sequence are its head and the members of its tail. */
  lemma SetOfCons(s: seq<int>)
    requires |s| > 0
    ensures (set x | x in s) == {s[0]} + (set x | x in s[1..])
  {
    assert s == [s[0]] + s[1..];
  }

  /** A non-empty list of ids written with commas reads back as the set of those ids. */
  lemma IdListRoundTrip(ids: seq<int>)
    requires |ids| > 0
    ensures ParseProjectIds(Some(IdList(ids))) == Ok(set i | i in ids)
  {
    var texts := IdTexts(ids);
    SplitJoin(texts, ',');
    JoinNonEmpty(texts);
    CleanEntries(texts);
    ParseIdTexts(ids);
    assert ids[0] in set i | i in ids;
  }

  /** A formatted integer is a non-empty run of digits, possibly after a minus sign. */
  lemma FormattedIsClean(n: int)
    ensures ',' !in FormatInt(n, 0) && FormatInt(n, 0) != "" && Strip(FormatInt(n, 0)) == FormatInt(n, 0)
  {
    var s := FormatInt(n, 0);
    forall i | 0 <= i < |s| ensures s[i] != ',' && !IsSpace(s[i]) {
      if n < 0 && i > 0 { assert s[i] == s[1..][i - 1]; }
    }
    StripNoSpace(s);
  }

  lemma JoinNonEmpty(parts: seq<string>)
    requires |parts| > 0 && parts[0] != ""
    ensures Join(parts, ',') != ""
  {
  }

  /** Entries that are already clean pass through unchanged. */
  lemma {:induction false} CleanEntries(parts: seq<string>)
    requires forall t :: t in parts ==> t != "" && Strip(t) == t
    ensures IdEntries(parts) == parts
    decreases |parts|
  {
    if |parts| > 0 {
      assert parts[0] in parts;
      forall t | t in parts[1..] ensures t != "" && Strip(t) == t { assert t in parts; }
      CleanEntries(parts[1..]);
    }
  }

  /** The outcome of a restore request. */
  datatype Summary = Summary(mode: RestoreMode, dryRun: bool, counts: Counts, projectTitles: seq<string>, schemaVersion: int, imported: bool)

  /** The payload a restore works with: the whole backup, or its selected projects in partial mode. */
  function SelectedPayload(p: Payload, mode: RestoreMode, projectIds: Option<string>): (r: Result<Payload, BackupError>)
    ensures mode == Full ==> r == Ok(p)
    ensures mode == Partial ==> (r.Ok? <==> ParseProjectIds(projectIds).Ok?)
    ensures mode == Partial && r.Ok? ==> r.value == FilterPayload(p, ParseProjectIds(projectIds).value)
  {
    if mode == Full then Ok(p)
    else
      match ParseProjectIds(projectIds)
      case Err(e) => Err(e)
      case Ok(ids) => Ok(FilterPayload(p, ids))
  }

  function ProjectTitles(projects: seq<Project>): (r: seq<string>)
    ensures |r| == |projects| && forall i :: 0 <= i < |projects| ==> r[i] == projects[i].title
  {
    seq(|projects|, i requires 0 <= i < |projects| => projects[i].title)
  }

  /** The database the restore endpoints write to. */
  class Database {
    var tables: Tables

    constructor (tables: Tables)
      ensures this.tables == tables
    {
      this.tables := tables;
    }

    /**
     * `restore_from_copy` and `import_backup` once the payload is read: a dry
     * run only reports the counts of the (possibly narrowed) payload; otherwise
     * the payload replaces its projects and, in full mode, the settings.
     */
    method Restore(payload: Payload, mode: RestoreMode, dryRun: bool, projectIds: Option<string>) returns (r: Result<Summary, BackupError>)
      modifies this
      ensures r.Err? <==> SelectedPayload(payload, mode, projectIds).Err?
      ensures r.Err? || dryRun ==> tables == old(tables)
      ensures r.Ok? ==> var p := SelectedPayload(payload, mode, projectIds).value;
        r.value.counts == CountsOf(p.tables) && r.value.projectTitles == ProjectTitles(p.tables.projects)
        && r.value.imported == !dryRun && r.value.schemaVersion == p.schemaVersion
        && (!dryRun ==> tables == Restored(old(tables), p.tables, mode))
    {
      var selected := SelectedPayload(payload, mode, projectIds);
      if selected.Err? {
        return Err(selected.error);
      }
      var p := selected.value;
      var summary := Summary(mode, dryRun, CountsOf(p.tables), ProjectTitles(p.tables.projects), p.schemaVersion, false);
      if dryRun {
        return Ok(summary);
      }
      tables := Restored(tables, p.tables, mode);
      r := Ok(summary.(imported := true));
    }
  }
}

=== FILE: backup_scheduler.dfy ===
/**
 * The automatic backup cycle (backend/app/backup_scheduler.py): reading the
 * stored frequency, the next-month step, the due-time rule and what one
 * cycle does to the settings row and to the backup directory.
 */
module BackupScheduler {
  import opened Wrappers
  import opened Calendar
  import opened Collections
  import opened Text
  import opened Models
  import opened Backup

  /** What the settings row's frequency column can hold: a member of the enumeration, some text, or nothing. */
  datatype RawFrequency = Member(f: BackupFrequency) | Text(s: string) | Missing

  /**
   * `_normalize_frequency`: a member gives its value; text is stripped and
   * upper-cased; nothing, empty text and anything that is not one of the
   * four values give "WEEKLY".
   */
  function NormalizeFrequency(raw: RawFrequency): (r: string)
    ensures ParseFrequency(r).Some?
    ensures raw.Member? ==> r == FrequencyValue(raw.f)
    ensures raw.Text? && raw.s != "" && ParseFrequency(Upper(Strip(raw.s))).Some? ==> r == Upper(Strip(raw.s))
    ensures raw.Missing? || raw == Text("") || (raw.Text? && ParseFrequency(Upper(Strip(raw.s))).None?) ==> r == "WEEKLY"
  {
    match raw
    case Member(f) => FrequencyValue(f)
    case Missing => "WEEKLY"
    case Text(s) =>
      var text := if s == "" then "WEEKLY" else Upper(Strip(s));
      if ParseFrequency(text).None? then "WEEKLY" else text
  }

  /** The stored values are already normal: each reads back as itself. */
  lemma StoredValueIsNormal(f: BackupFrequency)
    ensures NormalizeFrequency(Text(FrequencyValue(f))) == FrequencyValue(f)
  {
    var v := FrequencyValue(f);
    StripNoSpace(v);
    UpperOfCapitals(v);
  }

  /** Text made of capital Latin letters is its own upper case. */
  lemma UpperOfCapitals(s: string)
    requires forall i :: 0 <= i < |s| ==> 'A' <= s[i] <= 'Z'
    ensures Upper(s) == s
  {
  }

  /** Normalising a normalised value changes nothing. */
  lemma NormalizeIdempotent(raw: RawFrequency)
    ensures NormalizeFrequency(Text(NormalizeFrequency(raw))) == NormalizeFrequency(raw)
  {
    var r := NormalizeFrequency(raw);
    StoredValueIsNormal(ParseFrequency(r).value);
  }

  /** The frequency the cycle reads from a settings row. */
  function FrequencyField(row: AppSettings): (r: RawFrequency)
    ensures r.Missing? <==> row.backupFrequency.None?
    ensures row.backupFrequency.Some? ==> r == Member(row.backupFrequency.value)
  {
    match row.backupFrequency
    case None => Missing
    case Some(f) => Member(f)
  }

  /**
   * `_add_month`: the same day and time in the next month, rolling the year
   * after December and clamping the day to the length of that month.
   */
  function AddMonth(dt: DateTime): (r: DateTime)
    requires ValidDateTime(dt)
    ensures 1 <= r.date.month <= 12 && 1 <= r.date.day <= DaysInMonth(r.date.year, r.date.month)
    ensures MonthIndex(r.date.year, r.date.month) == MonthIndex(dt.date.year, dt.date.month) + 1
    ensures r.date.day == (if dt.date.day <= DaysInMonth(r.date.year, r.date.month) then dt.date.day else DaysInMonth(r.date.year, r.date.month))
    ensures r.second == dt.second
    ensures DateTimeLt(dt, r)
  {
    var month := dt.date.month + 1;
    var year := if month > 12 then dt.date.year + 1 else dt.date.year;
    var month' := if month > 12 then 1 else month;
    var day := if dt.date.day <= DaysInMonth(year, month') then dt.date.day else DaysInMonth(year, month');
    DateTime(Date(year, month', day), dt.second)
  }

  /** Two months of the year with the same index are the same month. */
  lemma MonthIndexInjective(y1: int, m1: int, y2: int, m2: int)
    requires 1 <= m1 <= 12 && 1 <= m2 <= 12
    requires MonthIndex(y1, m1) == MonthIndex(y2, m2)
    ensures y1 == y2 && m1 == m2
  {
  }

  /** The scheduler's next month is the backup router's month shift by one. */
  lemma AddMonthIsMonthShift(dt: DateTime)
    requires ValidDateTime(dt)
    ensures AddMonth(dt) == MonthShift(dt, 1)
  {
    var a, b := AddMonth(dt), MonthShift(dt, 1);
    MonthIndexInjective(a.date.year, a.date.month, b.date.year, b.date.month);
  }

  /**
   * The time from which a backup after the one at `last` is due: a month
   * later for "MONTHLY", otherwise the same time of day one day ("DAILY") or
   * seven days (every other frequency) further along the day axis.
   */
  function NextDue(last: DateTime, frequency: string): (r: DateTime)
    requires ValidDateTime(last)
    ensures DateTimeLt(last, r)
    ensures WellFormedDate(r.date)
    ensures frequency == "MONTHLY" ==> r == AddMonth(last)
    ensures frequency != "MONTHLY" ==>
      r.second == last.second && DayOrdinal(r.date) == DayOrdinal(last.date) + (if frequency == "DAILY" then 1 else 7)
  {
    if frequency == "DAILY" then AddDays(last, 1)
    else if frequency == "WEEKLY" then AddDays(last, 7)
    else if frequency == "MONTHLY" then AddMonth(last)
    else AddDays(last, 7)
  }

  /** For a daily or weekly step, the time of day and the day count pin the next due time down. */
  lemma NextDueDetermined(last: DateTime, frequency: string, t: DateTime)
    requires ValidDateTime(last) && frequency != "MONTHLY"
    requires WellFormedDate(t.date) && t.second == last.second
    requires DayOrdinal(t.date) == DayOrdinal(last.date) + (if frequency == "DAILY" then 1 else 7)
    ensures t == NextDue(last, frequency)
  {
    DayOrdinalInjective(t.date, NextDue(last, frequency).date);
  }

  /**
   * `_is_due`: never when the frequency is "OFF", always when no backup was
   * taken yet, otherwise once `now` reaches the next due time.
   */
  function IsDue(now: DateTime, last: Option<DateTime>, frequency: string): (r: bool)
    requires last.Some? ==> ValidDateTime(last.value)
    ensures frequency == "OFF" ==> !r
    ensures frequency != "OFF" && last.None? ==> r
    ensures r && last.Some? ==> DateTimeLt(last.value, now)
    ensures frequency != "OFF" && last.Some? ==> (r <==> DateTimeLe(NextDue(last.value, frequency), now))
  {
    if frequency == "OFF" then false
    else if last.None? then true
    else
      var next := NextDue(last.value, frequency);
      var due := DateTimeLe(next, now);
      assert due ==> DateTimeLt(last.value, now) by {
        if due {
          DateTimeLeTrans(last.value, next, now);
          DateLeTotal(last.value.date, next.date);
        }
      }
      due
  }

  /** Once a backup is due it stays due at every later time. */
  lemma IsDueMonotone(now: DateTime, later: DateTime, last: Option<DateTime>, frequency: string)
    requires last.Some? ==> ValidDateTime(last.value)
    requires IsDue(now, last, frequency) && DateTimeLe(now, later)
    ensures IsDue(later, last, frequency)
  {
    if last.Some? {
      DateTimeLeTrans(NextDue(last.value, frequency), now, later);
    }
  }

  /** Right after a backup at `now`, none is due at `now`, whatever the frequency. */
  lemma NotDueRightAfterBackup(now: DateTime, frequency: string)
    requires ValidDateTime(now)
    ensures !IsDue(now, Some(now), frequency)
  {
  }

  /** A frequency other than the four stored values is treated as weekly. */
  lemma UnknownFrequencyIsWeekly(now: DateTime, last: Option<DateTime>, frequency: string)
    requires last.Some? ==> ValidDateTime(last.value)
    requires ParseFrequency(frequency).None?
    ensures IsDue(now, last, frequency) == IsDue(now, last, "WEEKLY")
  {
  }

  /** The settings row the cycle works on: the stored one, else a fresh default. */
  function SettingsRow(settings: Option<AppSettings>): (row: AppSettings)
    ensures settings.Some? ==> row == settings.value
    ensures settings.None? ==> row.backupFrequency == Some(Weekly) && row.lastBackupAt.None?
  {
    settings.GetOr(DefaultSettings())
  }

  /** The settings row (id 1) and the backup directory the automatic cycle works on. */
  class Scheduler {
    var settings: Option<AppSettings>
    const store: BackupStore

    /** The stored time of the last backup, when there is one, is a real date and time. */
    predicate Valid()
      reads this
    {
      settings.Some? && settings.value.lastBackupAt.Some? ==> ValidDateTime(settings.value.lastBackupAt.value)
    }

    constructor (settings: Option<AppSettings>, store: BackupStore)
      ensures this.settings == settings && this.store == store
    {
      this.settings := settings;
      this.store := store;
    }

    /** `_get_or_create_settings`: the stored row, or a default row that is stored first. */
    method GetOrCreateSettings() returns (row: AppSettings)
      modifies this
      ensures row == SettingsRow(old(settings))
      ensures settings == Some(row)
    {
      if settings.None? {
        settings := Some(DefaultSettings());
      }
      row := settings.value;
    }

    /**
     * `run_backup_cycle`: prunes the directory, reads the settings and, when
     * a backup is due, saves one and records `now` as the last backup time.
     * Afterwards no backup is due at `now`.
     */
    method RunBackupCycle(now: DateTime, sizeBytes: nat) returns (saved: Option<string>)
      requires Valid() && ValidDateTime(now)
      modifies this, store
      ensures Valid()
      ensures var row := SettingsRow(old(settings));
        saved.Some? <==> IsDue(now, row.lastBackupAt, NormalizeFrequency(FrequencyField(row)))
      ensures var row := SettingsRow(old(settings));
        saved.None? ==> (settings == Some(row)
          && store.files == Filter(old(store.files), Survives(Cutoff(now, RetentionMonths))))
      ensures var row := SettingsRow(old(settings));
        var cutoff := Cutoff(now, RetentionMonths);
        saved.Some? ==> (saved.value == BackupName(now)
          && settings == Some(row.(lastBackupAt := Some(now)))
          && store.files == Filter(WithFile(Filter(old(store.files), Survives(cutoff)), StoredFile(BackupName(now), now, sizeBytes)), Survives(cutoff)))
      ensures settings.Some? && !IsDue(now, settings.value.lastBackupAt, NormalizeFrequency(FrequencyField(settings.value)))
    {
      var _ := store.Prune(now, RetentionMonths);
      var row := GetOrCreateSettings();
      var frequency := NormalizeFrequency(FrequencyField(row));
      if !IsDue(now, row.lastBackupAt, frequency) {
        return None;
      }
      var name := store.Save(now, sizeBytes);
      settings := Some(row.(lastBackupAt := Some(now)));
      NotDueRightAfterBackup(now, frequency);
      saved := Some(name);
    }
  }
}

=== FILE: calendar.dfy ===
/**
 * Python's `date` and `datetime` values as the model uses them: the proleptic
 * Gregorian calendar, dates compared as (year, month, day) tuples and
 * date-times at a resolution of one second.
 */
module Calendar {
  import opened Sorting

  datatype Date = Date(year: int, month: int, day: int)

  /** A date-time: a date plus the number of seconds since midnight. */
  datatype DateTime = DateTime(date: Date, second: int)

  predicate IsLeap(y: int) {
    y % 4 == 0 && (y % 100 != 0 || y % 400 == 0)
  }

  /** `calendar.monthrange(y, m)[1]`: the number of days in month `m` of year `y`. */
  function DaysInMonth(y: int, m: int): (n: int)
    requires 1 <= m <= 12
    ensures 28 <= n <= 31
    ensures n == 29 <==> m == 2 && IsLeap(y)
    ensures n == 28 <==> m == 2 && !IsLeap(y)
    ensures n == 30 <==> m == 4 || m == 6 || m == 9 || m == 11
  {
    if m == 2 then (if IsLeap(y) then 29 else 28)
    else if m == 4 || m == 6 || m == 9 || m == 11 then 30
    else 31
  }

  /** The dates Python's `date(y, m, d)` accepts (`MINYEAR` 1 to `MAXYEAR` 9999). */
  predicate ValidDate(d: Date) {
    1 <= d.year <= 9999 && 1 <= d.month <= 12 && 1 <= d.day <= DaysInMonth(d.year, d.month)
  }

  predicate ValidDateTime(t: DateTime) {
    ValidDate(t.date) && 0 <= t.second < 86400
  }

  /** `a <= b` on dates. */
  predicate DateLe(a: Date, b: Date) {
    a.year < b.year || (a.year == b.year && (a.month < b.month || (a.month == b.month && a.day <= b.day)))
  }

  predicate DateLt(a: Date, b: Date) {
    DateLe(a, b) && a != b
  }

  /** `a <= b` on date-times. */
  predicate DateTimeLe(a: DateTime, b: DateTime) {
    DateLt(a.date, b.date) || (a.date == b.date && a.second <= b.second)
  }

  predicate DateTimeLt(a: DateTime, b: DateTime) {
    DateTimeLe(a, b) && a != b
  }

  /** The index of a month on a single axis: consecutive months differ by one. */
  function MonthIndex(year: int, month: int): int {
    year * 12 + month - 1
  }

  /** The day after `d`, rolling over month and year ends. */
  function NextDay(d: Date): (r: Date)
    requires 1 <= d.month <= 12 && 1 <= d.day <= DaysInMonth(d.year, d.month)
    ensures 1 <= r.month <= 12 && 1 <= r.day <= DaysInMonth(r.year, r.month)
    ensures DateLt(d, r)
    ensures forall x :: DateLt(d, x) && 1 <= x.month <= 12 && 1 <= x.day <= DaysInMonth(x.year, x.month) ==> DateLe(r, x)
  {
    if d.day < DaysInMonth(d.year, d.month) then Date(d.year, d.month, d.day + 1)
    else if d.month < 12 then Date(d.year, d.month + 1, 1)
    else Date(d.year + 1, 1, 1)
  }

  /** A date whose month and day exist in its year; the year itself is unbounded. */
  predicate WellFormedDate(d: Date) {
    1 <= d.month <= 12 && 1 <= d.day <= DaysInMonth(d.year, d.month)
  }

  /** The number of days in year `y`. */
  function YearLength(y: int): int {
    if IsLeap(y) then 366 else 365
  }

  /**
   * The days of the proleptic Gregorian calendar before 1 January of year
   * `y`, counted from 1 January of year 1 (negative before it), year by year.
   * `DaysBeforeYearFormula` is the closed form Python computes it with.
   */
  function DaysBeforeYear(y: int): int
    decreases if y >= 1 then y - 1 else 1 - y
  {
    if y == 1 then 0
    else if y > 1 then DaysBeforeYear(y - 1) + YearLength(y - 1)
    else DaysBeforeYear(y + 1) - YearLength(y)
  }

  /** The days of a common year before the first of each month, January first. */
  const CommonDaysBeforeMonth: seq<int> := [0, 31, 59, 90, 120, 151, 181, 212, 243, 273, 304, 334]

  /** The days of year `y` before the first of month `m`: the common-year count, plus one after February of a leap year. */
  function DaysBeforeMonth(y: int, m: int): int
    requires 1 <= m <= 12
  {
    CommonDaysBeforeMonth[m - 1] + (if m > 2 && IsLeap(y) then 1 else 0)
  }

  /** Each month starts where the previous one ends. */
  lemma DaysBeforeNextMonth(y: int, m: int)
    requires 1 <= m < 12
    ensures DaysBeforeMonth(y, m + 1) == DaysBeforeMonth(y, m) + DaysInMonth(y, m)
  {
  }

  /**
   * `date.toordinal()`: the position of a date on a single day axis, 1 January
   * of year 1 being day 1. Adding `timedelta(days=n)` moves it by `n`
   * (`AddDays`), and it orders dates as `DateLe` does (`DayOrdinalOrders`).
   */
  function DayOrdinal(d: Date): int
    requires WellFormedDate(d)
  {
    DaysBeforeYear(d.year) + DaysBeforeMonth(d.year, d.month) + d.day
  }

  /** A year takes up `YearLength` days of the day axis. */
  lemma DaysBeforeNextYear(y: int)
    ensures DaysBeforeYear(y + 1) == DaysBeforeYear(y) + YearLength(y)
  {
  }

  /** Stepping an integer past a multiple of a leap-year divisor raises its quotient by one; any other step keeps it. */
  lemma QuotientStep(y: int, c: int)
    requires c == 4 || c == 100 || c == 400
    ensures y / c - (y - 1) / c == (if y % c == 0 then 1 else 0)
  {
  }

  /** A year's length counts the multiples of 4, 100 and 400 it steps over. */
  lemma YearLengthByQuotients(x: int)
    ensures YearLength(x) == 365 + (x / 4 - (x - 1) / 4) - (x / 100 - (x - 1) / 100) + (x / 400 - (x - 1) / 400)
  {
    QuotientStep(x, 4);
    QuotientStep(x, 100);
    QuotientStep(x, 400);
  }

  /** The year-by-year count agrees with the closed form `365 * k + k / 4 - k / 100 + k / 400`, `k = y - 1`. */
  lemma {:induction false} DaysBeforeYearFormula(y: int)
    requires y >= 1
    ensures DaysBeforeYear(y) == 365 * (y - 1) + (y - 1) / 4 - (y - 1) / 100 + (y - 1) / 400
    decreases y
  {
    if y > 1 {
      DaysBeforeYearFormula(y - 1);
      YearLengthByQuotients(y - 1);
    }
  }

  /** December ends the year: the months before it and its 31 days fill the year. */
  lemma DaysBeforeDecember(y: int)
    ensures DaysBeforeMonth(y, 12) + 31 == YearLength(y)
  {
  }

  /** The months before `m` take no more of the year than those before a later month `m'`, less `m`'s own days. */
  lemma {:induction false} DaysBeforeMonthGrows(y: int, m: int, m': int)
    requires 1 <= m < m' <= 12
    ensures DaysBeforeMonth(y, m) + DaysInMonth(y, m) <= DaysBeforeMonth(y, m')
    decreases m' - m
  {
    DaysBeforeNextMonth(y, m);
    if m + 1 < m' {
      DaysBeforeMonthGrows(y, m + 1, m');
      DaysBeforeNextMonth(y, m + 1);
    }
  }

  /** A later year starts no earlier on the day axis than an earlier year ends. */
  lemma {:induction false} DaysBeforeYearGrows(y: int, y': int)
    requires y < y'
    ensures DaysBeforeYear(y) + YearLength(y) <= DaysBeforeYear(y')
    decreases y' - y
  {
    DaysBeforeNextYear(y);
    if y + 1 < y' {
      DaysBeforeYearGrows(y + 1, y');
    }
  }

  /** The next day is the next point of the day axis. */
  lemma NextDayOrdinal(d: Date)
    requires WellFormedDate(d)
    ensures DayOrdinal(NextDay(d)) == DayOrdinal(d) + 1
  {
    if d.day == DaysInMonth(d.year, d.month) {
      if d.month < 12 {
        MonthEndOrdinal(d.year, d.month);
      } else {
        YearEndOrdinal(d.year);
      }
    }
  }

  /** The first of the next month follows the last day of a month other than December. */
  lemma MonthEndOrdinal(y: int, m: int)
    requires 1 <= m < 12
    ensures DayOrdinal(Date(y, m + 1, 1)) == DayOrdinal(Date(y, m, DaysInMonth(y, m))) + 1
  {
    DaysBeforeNextMonth(y, m);
  }

  /** New Year's Day follows 31 December of the year before. */
  lemma YearEndOrdinal(y: int)
    ensures DayOrdinal(Date(y + 1, 1, 1)) == DayOrdinal(Date(y, 12, 31)) + 1
  {
    DaysBeforeNextYear(y);
    DaysBeforeDecember(y);
  }

  /** The day axis orders well-formed dates as `DateLe` does, strictly. */
  lemma DayOrdinalOrders(a: Date, b: Date)
    requires WellFormedDate(a) && WellFormedDate(b)
    ensures DateLt(a, b) <==> DayOrdinal(a) < DayOrdinal(b)
  {
    if DateLt(a, b) {
      DayOrdinalIncreases(a, b);
    } else if DateLt(b, a) {
      DayOrdinalIncreases(b, a);
    } else {
      DateLeTotal(a, b);
    }
  }

  /** Two well-formed dates at the same point of the day axis are the same date. */
  lemma DayOrdinalInjective(a: Date, b: Date)
    requires WellFormedDate(a) && WellFormedDate(b)
    requires DayOrdinal(a) == DayOrdinal(b)
    ensures a == b
  {
    DayOrdinalOrders(a, b);
    DayOrdinalOrders(b, a);
    DateLeTotal(a, b);
  }

  /** A strictly later well-formed date lies further along the day axis. */
  lemma DayOrdinalIncreases(a: Date, b: Date)
    requires WellFormedDate(a) && WellFormedDate(b) && DateLt(a, b)
    ensures DayOrdinal(a) < DayOrdinal(b)
  {
    if a.year < b.year {
      if a.month < 12 {
        DaysBeforeMonthGrows(a.year, a.month, 12);
      }
      DaysBeforeDecember(a.year);
      DaysBeforeYearGrows(a.year, b.year);
    } else if a.month < b.month {
      DaysBeforeMonthGrows(a.year, a.month, b.month);
    }
  }

  /**
   * `t + timedelta(days=n)`: the same time of day, `n` days further along the
   * day axis. By `DayOrdinalInjective` those two facts fix the result.
   */
  function AddDays(t: DateTime, n: nat): (r: DateTime)
    requires WellFormedDate(t.date)
    ensures WellFormedDate(r.date)
    ensures r.second == t.second
    ensures DayOrdinal(r.date) == DayOrdinal(t.date) + n
    ensures n > 0 ==> DateLt(t.date, r.date)
    ensures n == 0 ==> r == t
    decreases n
  {
    if n == 0 then t
    else
      var s := AddDays(t, n - 1);
      OrdinalStep(s.date, t.date, n);
      DateTime(NextDay(s.date), t.second)
  }

  /** One day on from a date `n - 1` days after `t` is `n` days after `t`. */
  lemma OrdinalStep(s: Date, t: Date, n: int)
    requires WellFormedDate(s) && WellFormedDate(t)
    requires DayOrdinal(s) == DayOrdinal(t) + n - 1
    ensures DayOrdinal(NextDay(s)) == DayOrdinal(t) + n
  {
    NextDayOrdinal(s);
  }

  lemma DateLeTotal(a: Date, b: Date)
    ensures DateLe(a, b) || DateLe(b, a)
    ensures DateLe(a, b) && DateLe(b, a) ==> a == b
  {
  }

  lemma DateLeTrans(a: Date, b: Date, c: Date)
    requires DateLe(a, b) && DateLe(b, c)
    ensures DateLe(a, c)
  {
  }

  lemma DateTimeLeTrans(a: DateTime, b: DateTime, c: DateTime)
    requires DateTimeLe(a, b) && DateTimeLe(b, c)
    ensures DateTimeLe(a, c)
  {
  }

  lemma DateLeIsTotalOrder()
    ensures TotalOrder(DateLe)
  {
  }

  /** The earliest of a non-empty set of dates. */
  function MinDate(s: set<Date>): (m: Date)
    requires s != {}
    ensures m in s && forall x :: x in s ==> DateLe(m, x)
  {
    DateLeIsTotalOrder();
    MinBy(s, DateLe)
  }

  /** `sorted(dates)` for a set of distinct dates; that it ascends is `SortedDatesAscending`. */
  function SortedDates(s: set<Date>): (r: seq<Date>)
    ensures |r| == |s| && forall x :: x in r <==> x in s
    decreases |s|
  {
    if s == {} then []
    else
      var m := MinDate(s);
      [m] + SortedDates(s - {m})
  }

  /** `sorted(dates)` ascends strictly. */
  lemma {:induction false} SortedDatesAscending(s: set<Date>)
    ensures forall i, j :: 0 <= i < j < |SortedDates(s)| ==> DateLt(SortedDates(s)[i], SortedDates(s)[j])
    decreases |s|
  {
    if s != {} {
      var m := MinDate(s);
      var t := SortedDates(s - {m});
      SortedDatesAscending(s - {m});
      assert SortedDates(s) == [m] + t;
      forall k | 0 <= k < |t| ensures DateLt(m, t[k]) {
        assert t[k] in t;
      }
      ConsDatesAscending(m, t);
    }
  }

  /** A date before every date of an ascending sequence ascends in front of it. */
  lemma ConsDatesAscending(m: Date, t: seq<Date>)
    requires forall k :: 0 <= k < |t| ==> DateLt(m, t[k])
    requires forall i, j :: 0 <= i < j < |t| ==> DateLt(t[i], t[j])
    ensures forall i, j :: 0 <= i < j < |[m] + t| ==> DateLt(([m] + t)[i], ([m] + t)[j])
  {
  }
}

=== FILE: cash_engine.dfy ===
/**
 * The cash-allocation engine of backend/app/utils.py
 * (`project_pocket_monthly_components`): client payments fill a wallet that
 * pays, date by date and in fixed priority, the project's expenses, then the
 * agency fee claim, then the extra-profit claim. What is paid to the agency
 * and as extra profit lands in per-month buckets ("in pocket").
 */
module CashEngine {
  import opened Wrappers
  import opened Calendar
  import opened Models
  import opened Collections
  import opened EffectiveRows

  /** A date-indexed accumulator (`defaultdict(float)` keyed by date). */
  type Ledger = map<Date, real>

  function At(m: Ledger, d: Date): real {
    if d in m then m[d] else 0.0
  }

  /** `m[d] += x`. */
  function AddAt(m: Ledger, d: Date, x: real): (r: Ledger)
    ensures At(r, d) == At(m, d) + x
    ensures forall e :: e != d ==> At(r, e) == At(m, e)
    ensures r.Keys == m.Keys + {d}
  {
    m[d := At(m, d) + x]
  }

  /** The four event accumulators: payments, expenses, agency claims, extra claims. */
  datatype EventBook = EventBook(pay: Ledger, expense: Ledger, agencyClaim: Ledger, extraClaim: Ledger)

  const NoEvents: EventBook := EventBook(map[], map[], map[], map[])

  predicate PositiveLedger(m: Ledger) {
    forall d :: d in m ==> m[d] > 0.0
  }

  predicate NonNegativeLedger(m: Ledger) {
    forall d :: d in m ==> m[d] >= 0.0
  }

  /** No recorded event amount is negative. */
  predicate NonNegativeBook(book: EventBook) {
    NonNegativeLedger(book.pay) && NonNegativeLedger(book.expense)
    && NonNegativeLedger(book.agencyClaim) && NonNegativeLedger(book.extraClaim)
  }

  predicate LedgerUpTo(m: Ledger, asOf: Date) {
    forall d :: d in m ==> DateLe(d, asOf)
  }

  /** Every event is dated on or before `asOf`. */
  predicate UpTo(book: EventBook, asOf: Date) {
    LedgerUpTo(book.pay, asOf) && LedgerUpTo(book.expense, asOf)
    && LedgerUpTo(book.agencyClaim, asOf) && LedgerUpTo(book.extraClaim, asOf)
  }

  function EventDates(book: EventBook): set<Date> {
    book.pay.Keys + book.expense.Keys + book.agencyClaim.Keys + book.extraClaim.Keys
  }

  /**
   * A payment the engine counts: it belongs to the project and is dated on
   * or before `asOf` (the database query), and its amount is positive.
   */
  predicate Counts(p: Payment, projectId: int, asOf: Date) {
    p.projectId == projectId && DateLe(p.payDate, asOf) && p.amount > 0.0
  }

  function RecordPayment(book: EventBook, p: Payment, rate: real): EventBook {
    book.(pay := AddAt(book.pay, p.payDate, p.amount),
          agencyClaim := AddAt(book.agencyClaim, p.payDate, Fee(p.amount, rate)))
  }

  /**
   * The payment loops: each counted payment adds its amount to the inflow
   * and `amount * rate` to the agency claim on its date.
   */
  function AddPayments(book: EventBook, ps: seq<Payment>, projectId: int, asOf: Date, rate: real): (r: EventBook)
    ensures r.expense == book.expense && r.extraClaim == book.extraClaim
  {
    if |ps| == 0 then book
    else
      var b := AddPayments(book, ps[..|ps| - 1], projectId, asOf, rate);
      var p := ps[|ps| - 1];
      if Counts(p, projectId, asOf) then RecordPayment(b, p, rate) else b
  }

  /**
   * Recording payments keeps every amount positive (non-negative for the
   * agency claim when the rate is zero) and records nothing after `asOf`.
   */
  lemma {:induction false} PaymentsKeepSign(book: EventBook, ps: seq<Payment>, projectId: int, asOf: Date, rate: real)
    ensures PositiveLedger(book.pay) ==> PositiveLedger(AddPayments(book, ps, projectId, asOf, rate).pay)
    ensures NonNegativeBook(book) && rate >= 0.0 ==> NonNegativeBook(AddPayments(book, ps, projectId, asOf, rate))
    ensures UpTo(book, asOf) ==> UpTo(AddPayments(book, ps, projectId, asOf, rate), asOf)
    decreases |ps|
  {
    if |ps| > 0 {
      var b := AddPayments(book, ps[..|ps| - 1], projectId, asOf, rate);
      PaymentsKeepSign(book, ps[..|ps| - 1], projectId, asOf, rate);
      if Counts(ps[|ps| - 1], projectId, asOf) {
        PaymentKeepsSign(b, ps[|ps| - 1], asOf, rate);
      }
    }
  }

  lemma PaymentKeepsSign(book: EventBook, p: Payment, asOf: Date, rate: real)
    requires p.amount > 0.0 && DateLe(p.payDate, asOf)
    ensures PositiveLedger(book.pay) ==> PositiveLedger(RecordPayment(book, p, rate).pay)
    ensures NonNegativeBook(book) && rate >= 0.0 ==> NonNegativeBook(RecordPayment(book, p, rate))
    ensures UpTo(book, asOf) ==> UpTo(RecordPayment(book, p, rate), asOf)
  {
  }

  /** The amount a payment contributes to the inflow on date `d`. */
  function PayOnDate(projectId: int, asOf: Date, d: Date): Payment -> real {
    p => if Counts(p, projectId, asOf) && p.payDate == d then p.amount else 0.0
  }

  /**
   * Cash events: the inflow recorded on any date is the sum of the amounts of
   * the counted payments dated that day; nothing else is recorded.
   */
  lemma {:induction false} PayLedgerIsSum(book: EventBook, ps: seq<Payment>, projectId: int, asOf: Date, rate: real, d: Date)
    ensures At(AddPayments(book, ps, projectId, asOf, rate).pay, d) == At(book.pay, d) + SumOf(ps, PayOnDate(projectId, asOf, d))
    decreases |ps|
  {
    if |ps| > 0 {
      PayLedgerIsSum(book, ps[..|ps| - 1], projectId, asOf, rate, d);
    }
  }

  /** The agency fee a payment claims on date `d`. */
  function AgencyOnDate(projectId: int, asOf: Date, rate: real, d: Date): Payment -> real {
    p => if Counts(p, projectId, asOf) && p.payDate == d then Fee(p.amount, rate) else 0.0
  }

  /**
   * Agency fee claims: the claim recorded on any date is the sum of
   * `amount * rate` over the counted payments dated that day.
   */
  lemma {:induction false} AgencyLedgerIsSum(book: EventBook, ps: seq<Payment>, projectId: int, asOf: Date, rate: real, d: Date)
    ensures At(AddPayments(book, ps, projectId, asOf, rate).agencyClaim, d)
      == At(book.agencyClaim, d) + SumOf(ps, AgencyOnDate(projectId, asOf, rate, d))
    decreases |ps|
  {
    if |ps| > 0 {
      AgencyLedgerIsSum(book, ps[..|ps| - 1], projectId, asOf, rate, d);
    }
  }

  /** On every date the agency fee claim is `rate` times the inflow of that date. */
  lemma {:induction false} AgencyIsRateOfInflow(ps: seq<Payment>, projectId: int, asOf: Date, rate: real, d: Date)
    ensures SumOf(ps, AgencyOnDate(projectId, asOf, rate, d)) == rate * SumOf(ps, PayOnDate(projectId, asOf, d))
  {
    forall p: Payment ensures AgencyOnDate(projectId, asOf, rate, d)(p) == rate * PayOnDate(projectId, asOf, d)(p) {
      AgencyOfPayment(projectId, asOf, rate, d, p);
    }
    SumOfScaled(ps, PayOnDate(projectId, asOf, d), AgencyOnDate(projectId, asOf, rate, d), rate);
  }

  /** One payment's fee claim on a date is `rate` times its inflow on that date. */
  lemma AgencyOfPayment(projectId: int, asOf: Date, rate: real, d: Date, p: Payment)
    ensures AgencyOnDate(projectId, asOf, rate, d)(p) == rate * PayOnDate(projectId, asOf, d)(p)
  {
  }

  /** When an expense row falls due: its planned date, else the project's creation date. */
  function DueDate(r: EffectiveRow, created: Date): Date {
    r.plannedPayDate.GetOr(created)
  }

  function RecordRow(book: EventBook, r: EffectiveRow, created: Date, asOf: Date): EventBook {
    var due := DueDate(r, created);
    if !DateLe(due, asOf) then book
    else
      var b := if r.baseTotal > 0.0 then book.(expense := AddAt(book.expense, due, r.baseTotal)) else book;
      if r.extraTotal > 0.0 then b.(extraClaim := AddAt(b.extraClaim, due, r.extraTotal)) else b
  }

  /**
   * The expense loop: a row due by `asOf` adds its positive base total to the
   * expenses and its positive extra total to the extra claims of its due date.
   * The base total is used as is: no discount is taken off here.
   */
  function AddRows(book: EventBook, rows: seq<EffectiveRow>, created: Date, asOf: Date): (r: EventBook)
    ensures r.pay == book.pay && r.agencyClaim == book.agencyClaim
  {
    if |rows| == 0 then book
    else RecordRow(AddRows(book, rows[..|rows| - 1], created, asOf), rows[|rows| - 1], created, asOf)
  }

  /**
   * Recording rows keeps expense and extra claims positive, keeps the book
   * non-negative and records nothing after `asOf`.
   */
  lemma {:induction false} RowsKeepSign(book: EventBook, rows: seq<EffectiveRow>, created: Date, asOf: Date)
    ensures PositiveLedger(book.expense) ==> PositiveLedger(AddRows(book, rows, created, asOf).expense)
    ensures PositiveLedger(book.extraClaim) ==> PositiveLedger(AddRows(book, rows, created, asOf).extraClaim)
    ensures NonNegativeBook(book) ==> NonNegativeBook(AddRows(book, rows, created, asOf))
    ensures UpTo(book, asOf) ==> UpTo(AddRows(book, rows, created, asOf), asOf)
    decreases |rows|
  {
    if |rows| > 0 {
      RowsKeepSign(book, rows[..|rows| - 1], created, asOf);
      RowKeepsSign(AddRows(book, rows[..|rows| - 1], created, asOf), rows[|rows| - 1], created, asOf);
    }
  }

  lemma RowKeepsSign(book: EventBook, r: EffectiveRow, created: Date, asOf: Date)
    ensures PositiveLedger(book.expense) ==> PositiveLedger(RecordRow(book, r, created, asOf).expense)
    ensures PositiveLedger(book.extraClaim) ==> PositiveLedger(RecordRow(book, r, created, asOf).extraClaim)
    ensures NonNegativeBook(book) ==> NonNegativeBook(RecordRow(book, r, created, asOf))
    ensures UpTo(book, asOf) ==> UpTo(RecordRow(book, r, created, asOf), asOf)
  {
    var due := DueDate(r, created);
    if DateLe(due, asOf) {
      if r.baseTotal > 0.0 {
        AddAtKeepsSign(book.expense, due, r.baseTotal, asOf);
      }
      if r.extraTotal > 0.0 {
        AddAtKeepsSign(book.extraClaim, due, r.extraTotal, asOf);
      }
    }
  }

  /** Adding a positive amount on a date up to `asOf` keeps a ledger positive, non-negative and dated up to `asOf`. */
  lemma AddAtKeepsSign(m: Ledger, d: Date, x: real, asOf: Date)
    requires x > 0.0 && DateLe(d, asOf)
    ensures PositiveLedger(m) ==> PositiveLedger(AddAt(m, d, x))
    ensures NonNegativeLedger(m) ==> NonNegativeLedger(AddAt(m, d, x))
    ensures LedgerUpTo(m, asOf) ==> LedgerUpTo(AddAt(m, d, x), asOf)
  {
  }

  function ExpenseOnDate(created: Date, asOf: Date, d: Date): EffectiveRow -> real {
    r => if DueDate(r, created) == d && DateLe(d, asOf) && r.baseTotal > 0.0 then r.baseTotal else 0.0
  }

  function ExtraOnDate(created: Date, asOf: Date, d: Date): EffectiveRow -> real {
    r => if DueDate(r, created) == d && DateLe(d, asOf) && r.extraTotal > 0.0 then r.extraTotal else 0.0
  }

  /**
   * Expense events: on any date, the expense claim is the sum of the positive
   * base totals of the rows falling due that day (undated rows on the
   * creation date), and the extra claim likewise; later rows add nothing.
   */
  lemma {:induction false} ExpenseLedgersAreSums(book: EventBook, rows: seq<EffectiveRow>, created: Date, asOf: Date, d: Date)
    ensures At(AddRows(book, rows, created, asOf).expense, d) == At(book.expense, d) + SumOf(rows, ExpenseOnDate(created, asOf, d))
    ensures At(AddRows(book, rows, created, asOf).extraClaim, d) == At(book.extraClaim, d) + SumOf(rows, ExtraOnDate(created, asOf, d))
    decreases |rows|
  {
    if |rows| > 0 {
      ExpenseLedgersAreSums(book, rows[..|rows| - 1], created, asOf, d);
    }
  }

  datatype Balances = Balances(wallet: real, pendingExpense: real, pendingAgency: real, pendingExtra: real)

  predicate NonNegative(b: Balances) {
    b.wallet >= 0.0 && b.pendingExpense >= 0.0 && b.pendingAgency >= 0.0 && b.pendingExtra >= 0.0
  }

  /** The balances after one date and what was paid on it, per class. */
  datatype Settlement = Settlement(after: Balances, paidExpense: real, paidAgency: real, paidExtra: real)

  /**
   * One date of the loop: the date's events are added, then the wallet pays
   * `min(wallet, pending)` of the expenses, then of the agency claim, then of
   * the extra claim.
   */
  function Settle(b: Balances, pay: real, expense: real, agency: real, extra: real): (s: Settlement)
    ensures s.after.wallet + s.paidExpense + s.paidAgency + s.paidExtra == b.wallet + pay
    ensures s.after.pendingExpense == b.pendingExpense + expense - s.paidExpense
    ensures s.after.pendingAgency == b.pendingAgency + agency - s.paidAgency
    ensures s.after.pendingExtra == b.pendingExtra + extra - s.paidExtra
    ensures s.paidAgency > 0.0 ==> s.after.pendingExpense == 0.0
    ensures NonNegative(b) && pay >= 0.0 && expense >= 0.0 && agency >= 0.0 && extra >= 0.0 ==>
      NonNegative(s.after) && s.paidExpense >= 0.0 && s.paidAgency >= 0.0 && s.paidExtra >= 0.0
      && (s.paidExtra > 0.0 ==> s.after.pendingExpense == 0.0 && s.after.pendingAgency == 0.0)
      && (s.after.wallet == 0.0
          || (s.after.pendingExpense == 0.0 && s.after.pendingAgency == 0.0 && s.after.pendingExtra == 0.0))
  {
    var w0 := b.wallet + pay;
    var e0 := b.pendingExpense + expense;
    var a0 := b.pendingAgency + agency;
    var x0 := b.pendingExtra + extra;
    var pe := Min(w0, e0);
    var w1 := w0 - pe;
    var pa := Min(w1, a0);
    var w2 := w1 - pa;
    var px := Min(w2, x0);
    Settlement(Balances(w2 - px, e0 - pe, a0 - pa, x0 - px), pe, pa, px)
  }

  /** A month bucket: cleared agency fee, cleared extra profit and their total. */
  datatype Bucket = Bucket(agency: real, extra: real, inPocket: real)

  /** `out[key]["agency"] += a` and so on, starting a missing bucket at zero. */
  function Credit(out: map<int, Bucket>, key: int, a: real, x: real): map<int, Bucket> {
    var b := if key in out then out[key] else Bucket(0.0, 0.0, 0.0);
    out[key := Bucket(b.agency + a, b.extra + x, b.inPocket + (a + x))]
  }

  /** The month bucket of a date: `_month_key(d)`, as a month index. */
  function BucketKey(d: Date): int {
    MonthIndex(d.year, d.month)
  }

  datatype EngineState = EngineState(balances: Balances, out: map<int, Bucket>)

  const Start: EngineState := EngineState(Balances(0.0, 0.0, 0.0, 0.0), map[])

  function SettleOn(st: EngineState, book: EventBook, d: Date): Settlement {
    Settle(st.balances, At(book.pay, d), At(book.expense, d), At(book.agencyClaim, d), At(book.extraClaim, d))
  }

  function Step(st: EngineState, book: EventBook, d: Date): EngineState {
    var s := SettleOn(st, book, d);
    var out := if s.paidAgency > 0.0 || s.paidExtra > 0.0 then Credit(st.out, BucketKey(d), s.paidAgency, s.paidExtra) else st.out;
    EngineState(s.after, out)
  }

  /** A bucket holds non-negative parts that add up to a positive total. */
  predicate GoodBuckets(out: map<int, Bucket>) {
    forall k :: k in out ==>
      out[k].inPocket == out[k].agency + out[k].extra && out[k].agency >= 0.0 && out[k].extra >= 0.0 && out[k].inPocket > 0.0
  }

  /** The state after processing `dates` in order from empty balances. */
  function Replay(book: EventBook, dates: seq<Date>): EngineState {
    if |dates| == 0 then Start
    else Step(Replay(book, dates[..|dates| - 1]), book, dates[|dates| - 1])
  }

  /** A non-negative book records no negative amount on any date. */
  lemma AtNonNegative(book: EventBook, d: Date)
    requires NonNegativeBook(book)
    ensures At(book.pay, d) >= 0.0 && At(book.expense, d) >= 0.0 && At(book.agencyClaim, d) >= 0.0 && At(book.extraClaim, d) >= 0.0
  {
  }

  /** One date keeps the balances non-negative and the buckets good. */
  lemma StepKeepsBuckets(st: EngineState, book: EventBook, d: Date)
    requires NonNegativeBook(book) && NonNegative(st.balances) && GoodBuckets(st.out)
    ensures NonNegative(Step(st, book, d).balances) && GoodBuckets(Step(st, book, d).out)
  {
    AtNonNegative(book, d);
  }

  /** One date writes at most the bucket of its own month. */
  lemma StepKeys(st: EngineState, book: EventBook, d: Date)
    ensures forall k :: k in Step(st, book, d).out ==> k in st.out || k == BucketKey(d)
  {
  }

  /**
   * With non-negative events the balances stay non-negative and every bucket
   * satisfies `in_pocket = agency + extra > 0`.
   */
  lemma {:induction false} ReplayKeepsBuckets(book: EventBook, dates: seq<Date>)
    requires NonNegativeBook(book)
    ensures NonNegative(Replay(book, dates).balances) && GoodBuckets(Replay(book, dates).out)
    decreases |dates|
  {
    if |dates| > 0 {
      ReplayKeepsBuckets(book, dates[..|dates| - 1]);
      StepKeepsBuckets(Replay(book, dates[..|dates| - 1]), book, dates[|dates| - 1]);
    }
  }

  /** Every bucket belongs to the month of one of the processed dates. */
  lemma {:induction false} ReplayKeys(book: EventBook, dates: seq<Date>)
    ensures forall k :: k in Replay(book, dates).out ==> exists i :: 0 <= i < |dates| && BucketKey(dates[i]) == k
    decreases |dates|
  {
    if |dates| > 0 {
      var init := dates[..|dates| - 1];
      ReplayKeys(book, init);
      StepKeys(Replay(book, init), book, dates[|dates| - 1]);
      forall k | k in Replay(book, dates).out
        ensures exists i :: 0 <= i < |dates| && BucketKey(dates[i]) == k
      {
        if k != BucketKey(dates[|dates| - 1]) {
          var i :| 0 <= i < |init| && BucketKey(init[i]) == k;
          assert dates[i] == init[i];
        }
      }
    }
  }

  /** The cumulative amounts paid to each class over `dates`. */
  datatype PaidTotals = PaidTotals(expense: real, agency: real, extra: real)

  ghost function Paid(book: EventBook, dates: seq<Date>): PaidTotals {
    if |dates| == 0 then PaidTotals(0.0, 0.0, 0.0)
    else
      var prev := Paid(book, dates[..|dates| - 1]);
      var s := SettleOn(Replay(book, dates[..|dates| - 1]), book, dates[|dates| - 1]);
      PaidTotals(prev.expense + s.paidExpense, prev.agency + s.paidAgency, prev.extra + s.paidExtra)
  }

  /** What was paid to each class on those of `dates` that fall in month `k`. */
  ghost function PaidInMonth(book: EventBook, dates: seq<Date>, k: int): PaidTotals {
    if |dates| == 0 then PaidTotals(0.0, 0.0, 0.0)
    else
      var prev := PaidInMonth(book, dates[..|dates| - 1], k);
      var s := SettleOn(Replay(book, dates[..|dates| - 1]), book, dates[|dates| - 1]);
      if BucketKey(dates[|dates| - 1]) == k then PaidTotals(prev.expense + s.paidExpense, prev.agency + s.paidAgency, prev.extra + s.paidExtra)
      else prev
  }

  /** The bucket of month `k`, an absent bucket read as zero. */
  function BucketAt(out: map<int, Bucket>, k: int): Bucket {
    if k in out then out[k] else Bucket(0.0, 0.0, 0.0)
  }

  /**
   * Month buckets record payments: with non-negative events, the agency and
   * extra parts of month `k`'s bucket are exactly the agency fee and extra
   * profit the wallet paid on the dates of that month.
   */
  lemma {:induction false} BucketsArePaid(book: EventBook, dates: seq<Date>, k: int)
    requires NonNegativeBook(book)
    ensures BucketAt(Replay(book, dates).out, k).agency == PaidInMonth(book, dates, k).agency
    ensures BucketAt(Replay(book, dates).out, k).extra == PaidInMonth(book, dates, k).extra
    decreases |dates|
  {
    if |dates| > 0 {
      var init := dates[..|dates| - 1];
      BucketsArePaid(book, init, k);
      ReplayKeepsBuckets(book, init);
      StepPaysBucket(Replay(book, init), book, dates[|dates| - 1], k);
    }
  }

  /** One date adds what it paid to the bucket of its own month and nothing to the others. */
  lemma StepPaysBucket(st: EngineState, book: EventBook, d: Date, k: int)
    requires NonNegativeBook(book) && NonNegative(st.balances)
    ensures var s := SettleOn(st, book, d); var b := BucketAt(st.out, k); var b' := BucketAt(Step(st, book, d).out, k);
      if BucketKey(d) == k then b'.agency == b.agency + s.paidAgency && b'.extra == b.extra + s.paidExtra
      else b' == b
  {
    AtNonNegative(book, d);
  }

  function PayIn(book: EventBook): Date -> real { d => At(book.pay, d) }
  function ExpenseIn(book: EventBook): Date -> real { d => At(book.expense, d) }
  function AgencyIn(book: EventBook): Date -> real { d => At(book.agencyClaim, d) }
  function ExtraIn(book: EventBook): Date -> real { d => At(book.extraClaim, d) }

  /**
   * Conservation: after any prefix of dates, the inflow so far equals the
   * wallet plus everything paid, and each pending balance equals that class's
   * claims so far minus what was paid to it.
   */
  lemma {:induction false} Conservation(book: EventBook, dates: seq<Date>)
    ensures var st := Replay(book, dates); var p := Paid(book, dates);
      st.balances.wallet + p.expense + p.agency + p.extra == SumOf(dates, PayIn(book))
      && st.balances.pendingExpense == SumOf(dates, ExpenseIn(book)) - p.expense
      && st.balances.pendingAgency == SumOf(dates, AgencyIn(book)) - p.agency
      && st.balances.pendingExtra == SumOf(dates, ExtraIn(book)) - p.extra
    decreases |dates|
  {
    if |dates| > 0 {
      Conservation(book, dates[..|dates| - 1]);
    }
  }

  /** Without inflow and with an empty wallet, a date pays nothing and writes no bucket. */
  lemma NoInflowStep(st: EngineState, book: EventBook, d: Date)
    requires book.pay == map[] && NonNegativeBook(book)
    requires st.balances.wallet == 0.0 && NonNegative(st.balances)
    ensures Step(st, book, d).out == st.out && Step(st, book, d).balances.wallet == 0.0
  {
    AtNonNegative(book, d);
  }

  /** With no inflow at all nothing is ever paid, so no bucket is written. */
  lemma {:induction false} NoInflowNoBuckets(book: EventBook, dates: seq<Date>)
    requires book.pay == map[] && NonNegativeBook(book)
    ensures Replay(book, dates).out == map[] && Replay(book, dates).balances.wallet == 0.0
    decreases |dates|
  {
    if |dates| > 0 {
      var init := dates[..|dates| - 1];
      NoInflowNoBuckets(book, init);
      ReplayKeepsBuckets(book, init);
      NoInflowStep(Replay(book, init), book, dates[|dates| - 1]);
    }
  }

  /**
   * Month buckets: replaying a non-negative book dated up to `asOf` writes
   * only buckets with `in_pocket = agency + extra > 0`, each for the month of
   * some event date; with no events at all the result is empty.
   */
  lemma BucketsOfBook(book: EventBook, asOf: Date)
    requires NonNegativeBook(book) && UpTo(book, asOf)
    ensures var out := Replay(book, SortedDates(EventDates(book))).out;
      GoodBuckets(out)
      && (forall k :: k in out ==> exists d :: d in EventDates(book) && DateLe(d, asOf) && BucketKey(d) == k)
      && (EventDates(book) == {} ==> out == map[])
  {
    var dates := SortedDates(EventDates(book));
    ReplayKeepsBuckets(book, dates);
    ReplayKeys(book, dates);
    forall k | k in Replay(book, dates).out
      ensures exists d :: d in EventDates(book) && DateLe(d, asOf) && BucketKey(d) == k
    {
      var i :| 0 <= i < |dates| && BucketKey(dates[i]) == k;
      EventDateUpTo(book, asOf, dates[i]);
    }
  }

  lemma EventDateUpTo(book: EventBook, asOf: Date, d: Date)
    requires UpTo(book, asOf) && d in SortedDates(EventDates(book))
    ensures d in EventDates(book) && DateLe(d, asOf)
  {
  }

  /** The event book of a project's payments, plans and effective rows as of `asOf`. */
  function EventsOf(projectId: int, rate: real, created: Date, facts: seq<Payment>, plans: seq<Payment>, rows: seq<EffectiveRow>, asOf: Date): EventBook {
    var b1 := AddPayments(NoEvents, facts, projectId, asOf, rate);
    var b2 := AddPayments(b1, plans, projectId, asOf, rate);
    AddRows(b2, rows, created, asOf)
  }

  /** Such a book is non-negative (given a non-negative rate) and dated up to `asOf`. */
  lemma EventsWellFormed(projectId: int, rate: real, created: Date, facts: seq<Payment>, plans: seq<Payment>, rows: seq<EffectiveRow>, asOf: Date)
    requires rate >= 0.0
    ensures NonNegativeBook(EventsOf(projectId, rate, created, facts, plans, rows, asOf))
    ensures UpTo(EventsOf(projectId, rate, created, facts, plans, rows, asOf), asOf)
  {
    var b1 := AddPayments(NoEvents, facts, projectId, asOf, rate);
    var b2 := AddPayments(b1, plans, projectId, asOf, rate);
    assert NonNegativeBook(NoEvents) && UpTo(NoEvents, asOf);
    PaymentsKeepSign(NoEvents, facts, projectId, asOf, rate);
    PaymentsKeepSign(b1, plans, projectId, asOf, rate);
    RowsKeepSign(b2, rows, created, asOf);
  }

  /** The whole event book of a project as of `asOf`. */
  function ProjectEvents(project: Project, facts: seq<Payment>, plans: seq<Payment>, items: seq<ExpenseItem>, asOf: Date): EventBook {
    EventsOf(project.id, project.agencyFeePercent / 100.0, project.createdAt.date, facts, plans, EffectiveRowsOf(ProjectItems(items, project.id)), asOf)
  }

  /** A project's event book is non-negative (given a non-negative fee) and dated up to `asOf`. */
  lemma ProjectEventsWellFormed(project: Project, facts: seq<Payment>, plans: seq<Payment>, items: seq<ExpenseItem>, asOf: Date)
    requires project.agencyFeePercent >= 0.0
    ensures NonNegativeBook(ProjectEvents(project, facts, plans, items, asOf))
    ensures UpTo(ProjectEvents(project, facts, plans, items, asOf), asOf)
  {
    EventsWellFormed(project.id, project.agencyFeePercent / 100.0, project.createdAt.date, facts, plans,
      EffectiveRowsOf(ProjectItems(items, project.id)), asOf);
  }

  /** The specification of `project_pocket_monthly_components`. */
  function PocketMonthly(project: Project, facts: seq<Payment>, plans: seq<Payment>, items: seq<ExpenseItem>, asOf: Date): map<int, Bucket> {
    var book := ProjectEvents(project, facts, plans, items, asOf);
    Replay(book, SortedDates(EventDates(book))).out
  }

  /** One payment loop: records each counted payment in turn. */
  method RecordPayments(book0: EventBook, ps: seq<Payment>, projectId: int, asOf: Date, rate: real)
    returns (book: EventBook)
    ensures book == AddPayments(book0, ps, projectId, asOf, rate)
  {
    book := book0;
    for i := 0 to |ps|
      invariant book == AddPayments(book0, ps[..i], projectId, asOf, rate)
    {
      assert ps[..i + 1][..i] == ps[..i];
      var rec := ps[i];
      if Counts(rec, projectId, asOf) {
        book := RecordPayment(book, rec, rate);
      }
    }
    assert ps[..|ps|] == ps;
  }

  /** The expense loop over the effective rows. */
  method RecordRows(book0: EventBook, rows: seq<EffectiveRow>, created: Date, asOf: Date)
    returns (book: EventBook)
    ensures book == AddRows(book0, rows, created, asOf)
  {
    book := book0;
    for i := 0 to |rows|
      invariant book == AddRows(book0, rows[..i], created, asOf)
    {
      assert rows[..i + 1][..i] == rows[..i];
      book := RecordRow(book, rows[i], created, asOf);
    }
    assert rows[..|rows|] == rows;
  }

  /** The settlement loop over the event dates in order. */
  method ReplayDates(book: EventBook, dates: seq<Date>) returns (st: EngineState)
    ensures st == Replay(book, dates)
  {
    st := Start;
    for i := 0 to |dates|
      invariant st == Replay(book, dates[..i])
    {
      ReplayPrefix(book, dates, i);
      st := Step(st, book, dates[i]);
    }
    assert dates[..|dates|] == dates;
  }

  /** Replaying one more date applies one more step. */
  lemma ReplayPrefix(book: EventBook, dates: seq<Date>, i: nat)
    requires i < |dates|
    ensures Replay(book, dates[..i + 1]) == Step(Replay(book, dates[..i]), book, dates[i])
  {
    assert dates[..i + 1][..i] == dates[..i];
  }

  /** The three source loops of `project_pocket_monthly_components`: payments, plans, then expense rows. */
  method BuildProjectEvents(project: Project, facts: seq<Payment>, plans: seq<Payment>, items: seq<ExpenseItem>, asOf: Date)
    returns (book: EventBook)
    ensures book == ProjectEvents(project, facts, plans, items, asOf)
  {
    var rows := EffectiveParentItems(ProjectItems(items, project.id));
    book := RecordEvents(project.id, project.agencyFeePercent / 100.0, project.createdAt.date, facts, plans, rows, asOf);
  }

  /** The loops over the payments, the plans and the effective rows, one after the other. */
  method RecordEvents(projectId: int, rate: real, created: Date, facts: seq<Payment>, plans: seq<Payment>, rows: seq<EffectiveRow>, asOf: Date)
    returns (book: EventBook)
    ensures book == EventsOf(projectId, rate, created, facts, plans, rows, asOf)
  {
    var afterFacts := RecordPayments(NoEvents, facts, projectId, asOf, rate);
    var afterPlans := RecordPayments(afterFacts, plans, projectId, asOf, rate);
    book := RecordRows(afterPlans, rows, created, asOf);
  }

  /**
   * `project_pocket_monthly_components`: builds the event book with one loop
   * per source, then walks the event dates in ascending order.
   */
  method ProjectPocketMonthlyComponents(project: Project, facts: seq<Payment>, plans: seq<Payment>, items: seq<ExpenseItem>, asOf: Date)
    returns (out: map<int, Bucket>)
    ensures out == PocketMonthly(project, facts, plans, items, asOf)
  {
    var book := BuildProjectEvents(project, facts, plans, items, asOf);
    var allDates := SortedDates(EventDates(book));
    if |allDates| == 0 {
      return map[];
    }
    var st := ReplayDates(book, allDates);
    out := st.out;
  }
}

=== FILE: collections.dfy ===
/**
 * List comprehensions and `sum(...)` as the Python code writes them:
 * `[x for x in xs if p(x)]` and `sum(f(x) for x in xs)` over money values.
 */
module Collections {

  /** `[x for x in s if p(x)]`: the elements satisfying `p`, in their original order. */
  function Filter<T(!new)>(s: seq<T>, p: T -> bool): (r: seq<T>)
    ensures |r| <= |s|
    ensures forall x :: x in r <==> x in s && p(x)
  {
    if |s| == 0 then []
    else
      var init := s[..|s| - 1];
      assert s == init + [s[|s| - 1]];
      if p(s[|s| - 1]) then Filter(init, p) + [s[|s| - 1]] else Filter(init, p)
  }

  /** `sum(f(x) for x in s)`. */
  function SumOf<T(!new)>(s: seq<T>, f: T -> real): real {
    if |s| == 0 then 0.0 else SumOf(s[..|s| - 1], f) + f(s[|s| - 1])
  }

  lemma {:induction false} FilterAppend<T(!new)>(a: seq<T>, b: seq<T>, p: T -> bool)
    ensures Filter(a + b, p) == Filter(a, p) + Filter(b, p)
    decreases |b|
  {
    if |b| == 0 {
      assert a + b == a;
    } else {
      assert (a + b)[..|a + b| - 1] == a + b[..|b| - 1];
      FilterAppend(a, b[..|b| - 1], p);
    }
  }

  lemma {:induction false} SumOfAppend<T(!new)>(a: seq<T>, b: seq<T>, f: T -> real)
    ensures SumOf(a + b, f) == SumOf(a, f) + SumOf(b, f)
    decreases |b|
  {
    if |b| == 0 {
      assert a + b == a;
    } else {
      assert (a + b)[..|a + b| - 1] == a + b[..|b| - 1];
      SumOfAppend(a, b[..|b| - 1], f);
    }
  }

  /** A sum does not depend on the order of its terms: `sum` over a sorted copy is the same sum. */
  lemma {:induction false} SumOfPermutation<T(!new)>(a: seq<T>, b: seq<T>, f: T -> real)
    requires multiset(a) == multiset(b)
    ensures SumOf(a, f) == SumOf(b, f)
    decreases |a|
  {
    assert |a| == |multiset(a)| == |multiset(b)| == |b|;
    if |a| > 0 {
      var n := |a| - 1;
      var x := a[n];
      assert a == a[..n] + [x];
      assert x in multiset(b);
      var j :| 0 <= j < |b| && b[j] == x;
      var rest := b[..j] + b[j + 1..];
      RemoveAtMultiset(a, b, j);
      SumOfPermutation(a[..n], rest, f);
      SumOfRemoveAt(b, j, f);
      SumOfSnoc(a[..n], x, f);
    }
  }

  /** Taking the same element off two permutations of each other leaves permutations. */
  lemma RemoveAtMultiset<T>(a: seq<T>, b: seq<T>, j: nat)
    requires multiset(a) == multiset(b) && |a| > 0 && j < |b| && b[j] == a[|a| - 1]
    ensures multiset(a[..|a| - 1]) == multiset(b[..j] + b[j + 1..])
  {
    var x := b[j];
    assert a == a[..|a| - 1] + [x];
    assert b == b[..j] + [x] + b[j + 1..];
    calc {
      multiset(a[..|a| - 1]);
      multiset(a) - multiset{x};
      multiset(b) - multiset{x};
      multiset(b[..j]) + multiset{x} + multiset(b[j + 1..]) - multiset{x};
      multiset(b[..j] + b[j + 1..]);
    }
  }

  /** A sequence is its part before position `j`, the element there and its part after. */
  lemma SplitAround<T>(b: seq<T>, j: nat)
    requires j < |b|
    ensures b == b[..j] + [b[j]] + b[j + 1..]
  {
  }

  /** Removing one element from a sequence lowers its sum by that element's value. */
  lemma SumOfRemoveAt<T(!new)>(b: seq<T>, j: nat, f: T -> real)
    requires j < |b|
    ensures SumOf(b, f) == SumOf(b[..j] + b[j + 1..], f) + f(b[j])
  {
    var x, left, right := b[j], b[..j], b[j + 1..];
    SplitAround(b, j);
    SumOfAppend(left + [x], right, f);
    SumOfSnoc(left, x, f);
    SumOfAppend(left, right, f);
  }

  /** Summing the elements that satisfy `p` and those that do not gives the whole sum. */
  lemma {:induction false} SumOfPartition<T(!new)>(s: seq<T>, p: T -> bool, f: T -> real)
    ensures SumOf(s, f) == SumOf(Filter(s, p), f) + SumOf(Filter(s, x => !p(x)), f)
    decreases |s|
  {
    if |s| > 0 {
      var init := s[..|s| - 1];
      var last := s[|s| - 1];
      SumOfPartition(init, p, f);
      if p(last) {
        SumOfAppend(Filter(init, p), [last], f);
      } else {
        SumOfAppend(Filter(init, x => !p(x)), [last], f);
      }
    }
  }

  /** Summing over a filter is summing a function that is zero outside it. */
  lemma {:induction false} SumOfFilter<T(!new)>(s: seq<T>, p: T -> bool, f: T -> real)
    ensures SumOf(Filter(s, p), f) == SumOf(s, x => if p(x) then f(x) else 0.0)
    decreases |s|
  {
    if |s| > 0 {
      var init := s[..|s| - 1];
      SumOfFilter(init, p, f);
      if p(s[|s| - 1]) {
        SumOfAppend(Filter(init, p), [s[|s| - 1]], f);
      }
    }
  }

  /** The sum of a pointwise sum is the sum of the sums. */
  lemma {:induction false} SumOfAdd<T(!new)>(s: seq<T>, f: T -> real, g: T -> real)
    ensures SumOf(s, x => f(x) + g(x)) == SumOf(s, f) + SumOf(s, g)
    decreases |s|
  {
    if |s| > 0 { SumOfAdd(s[..|s| - 1], f, g); }
  }

  /** Sums of pointwise equal functions are equal. */
  lemma {:induction false} SumOfCongruent<T(!new)>(s: seq<T>, f: T -> real, g: T -> real)
    requires forall x :: x in s ==> f(x) == g(x)
    ensures SumOf(s, f) == SumOf(s, g)
    decreases |s|
  {
    if |s| > 0 {
      assert s[|s| - 1] in s;
      forall x | x in s[..|s| - 1] ensures f(x) == g(x) { assert x in s; }
      SumOfCongruent(s[..|s| - 1], f, g);
    }
  }

  lemma {:induction false} SumOfNonNegative<T(!new)>(s: seq<T>, f: T -> real)
    requires forall x :: x in s ==> f(x) >= 0.0
    ensures SumOf(s, f) >= 0.0
    decreases |s|
  {
    if |s| > 0 {
      assert s[|s| - 1] in s;
      forall x | x in s[..|s| - 1] ensures f(x) >= 0.0 { assert x in s; }
      SumOfNonNegative(s[..|s| - 1], f);
    }
  }

  /** Summing over a sequence extended by one element adds that element's term. */
  /** A sum of values scaled by `rate` is `rate` times the sum. */
  lemma {:induction false} SumOfScaled<T(!new)>(s: seq<T>, f: T -> real, g: T -> real, rate: real)
    requires forall x :: g(x) == rate * f(x)
    ensures SumOf(s, g) == rate * SumOf(s, f)
    decreases |s|
  {
    if |s| > 0 {
      SumOfScaled(s[..|s| - 1], f, g, rate);
      ScaledSumStep(s, f, g, rate);
    }
  }

  /** If `g` is `rate` times `f` on the last element and on the sum of the rest, it is on the whole sum. */
  lemma ScaledSumStep<T(!new)>(s: seq<T>, f: T -> real, g: T -> real, rate: real)
    requires |s| > 0 && g(s[|s| - 1]) == rate * f(s[|s| - 1])
    requires SumOf(s[..|s| - 1], g) == rate * SumOf(s[..|s| - 1], f)
    ensures SumOf(s, g) == rate * SumOf(s, f)
  {
    var x, a := SumOf(s[..|s| - 1], f), f(s[|s| - 1]);
    assert SumOf(s, f) == x + a;
    Distribute(rate, x, a);
  }

  lemma Distribute(rate: real, x: real, a: real)
    ensures rate * (x + a) == rate * x + rate * a
  {
  }

  lemma SumOfSnoc<T(!new)>(r: seq<T>, y: T, g: T -> real)
    ensures SumOf(r + [y], g) == SumOf(r, g) + g(y)
  {
    assert (r + [y])[..|r|] == r;
  }

  /** Filtering a sequence extended by one element extends the result by it when it passes. */
  lemma FilterSnoc<T(!new)>(r: seq<T>, y: T, p: T -> bool)
    ensures Filter(r + [y], p) == if p(y) then Filter(r, p) + [y] else Filter(r, p)
  {
    assert (r + [y])[..|r|] == r;
  }

  /** A prefix one element longer is the prefix followed by that element. */
  lemma PrefixStep<T>(s: seq<T>, j: nat)
    requires j < |s|
    ensures s[..j + 1] == s[..j] + [s[j]]
  {
  }

  /** Summing a filter over a non-empty sequence adds its last element exactly when it passes. */
  lemma SumOfFilterLast<T(!new)>(s: seq<T>, p: T -> bool, f: T -> real)
    requires |s| > 0
    ensures SumOf(Filter(s, p), f) == SumOf(Filter(s[..|s| - 1], p), f) + (if p(s[|s| - 1]) then f(s[|s| - 1]) else 0.0)
  {
    var r := Filter(s[..|s| - 1], p);
    if p(s[|s| - 1]) {
      SumOfSnoc(r, s[|s| - 1], f);
    }
  }

  /** Nothing passes a filter that no element satisfies. */
  lemma {:induction false} FilterNone<T(!new)>(s: seq<T>, p: T -> bool)
    requires forall x :: x in s ==> !p(x)
    ensures Filter(s, p) == []
    decreases |s|
  {
    if |s| > 0 {
      assert s[|s| - 1] in s;
      forall x | x in s[..|s| - 1] ensures !p(x) { assert x in s; }
      FilterNone(s[..|s| - 1], p);
    }
  }

  /** A filter keeps every copy of each element that passes and none of the others. */
  lemma {:induction false} FilterMultiplicity<T(!new)>(s: seq<T>, p: T -> bool)
    ensures forall x :: multiset(Filter(s, p))[x] == if p(x) then multiset(s)[x] else 0
    decreases |s|
  {
    if |s| > 0 {
      var n := |s| - 1;
      FilterMultiplicity(s[..n], p);
      assert s == s[..n] + [s[n]];
    }
  }

  /** A filter keeps no more copies of any element than its input has. */
  lemma FilterSubMultiset<T(!new)>(s: seq<T>, p: T -> bool)
    ensures multiset(Filter(s, p)) <= multiset(s)
  {
    FilterMultiplicity(s, p);
  }

  /** Filtering a permutation keeps as many elements. */
  lemma FilterPermutation<T(!new)>(a: seq<T>, b: seq<T>, p: T -> bool)
    requires multiset(a) == multiset(b)
    ensures multiset(Filter(a, p)) == multiset(Filter(b, p))
    ensures |Filter(a, p)| == |Filter(b, p)|
  {
    FilterMultiplicity(a, p);
    FilterMultiplicity(b, p);
    assert multiset(Filter(a, p)) == multiset(Filter(b, p));
    assert |Filter(a, p)| == |multiset(Filter(a, p))|;
  }

  /** `[f(x) for x in s if p(x)]`; `f` need only be defined where `p` holds. */
  function MapFilter<T(!new), U>(s: seq<T>, p: T -> bool, f: T --> U): (r: seq<U>)
    requires forall x :: p(x) ==> f.requires(x)
    ensures |r| == |Filter(s, p)|
  {
    if |s| == 0 then []
    else
      var n := |s| - 1;
      if p(s[n]) then MapFilter(s[..n], p, f) + [f(s[n])] else MapFilter(s[..n], p, f)
  }

  /** Appending `f(x)` to the images and `x` to the sources keeps them paired index by index. */
  lemma AppendPaired<T, U>(r: seq<U>, kept: seq<T>, x: T, f: T --> U)
    requires |r| == |kept| && f.requires(x)
    requires forall i :: 0 <= i < |kept| ==> f.requires(kept[i]) && r[i] == f(kept[i])
    ensures forall i :: 0 <= i < |r| + 1 ==> f.requires((kept + [x])[i]) && (r + [f(x)])[i] == f((kept + [x])[i])
  {
    forall i | 0 <= i < |r| + 1
      ensures f.requires((kept + [x])[i]) && (r + [f(x)])[i] == f((kept + [x])[i])
    {
      if i < |r| {
        assert (r + [f(x)])[i] == r[i] && (kept + [x])[i] == kept[i];
      }
    }
  }

  /** The i-th result is `f` of the i-th element that passes. */
  lemma {:induction false} MapFilterAt<T(!new), U>(s: seq<T>, p: T -> bool, f: T --> U)
    requires forall x :: p(x) ==> f.requires(x)
    ensures forall i :: 0 <= i < |MapFilter(s, p, f)| ==> MapFilter(s, p, f)[i] == f(Filter(s, p)[i])
    decreases |s|
  {
    if |s| > 0 {
      var n := |s| - 1;
      var init := s[..n];
      MapFilterAt(init, p, f);
      var r, kept := MapFilter(init, p, f), Filter(init, p);
      if p(s[n]) {
        assert MapFilter(s, p, f) == r + [f(s[n])];
        assert Filter(s, p) == kept + [s[n]];
        AppendPaired(r, kept, s[n], f);
      } else {
        assert MapFilter(s, p, f) == r && Filter(s, p) == kept;
      }
    }
  }

  /** A prefix one element longer maps to the shorter prefix's result and the new element's image, if it passes. */
  lemma MapFilterPrefix<T(!new), U>(s: seq<T>, p: T -> bool, f: T --> U, j: nat)
    requires j < |s| && forall x :: p(x) ==> f.requires(x)
    ensures MapFilter(s[..j + 1], p, f) == if p(s[j]) then MapFilter(s[..j], p, f) + [f(s[j])] else MapFilter(s[..j], p, f)
  {
    assert s[..j + 1][..j] == s[..j];
  }

  /** Extending the input by one element extends the result by that element's image, if it passes. */
  lemma MapFilterStep<T(!new), U>(s: seq<T>, p: T -> bool, f: T --> U, acc: seq<U>, j: nat)
    requires j < |s| && forall x :: p(x) ==> f.requires(x)
    ensures acc + MapFilter(s[..j + 1], p, f) == acc + MapFilter(s[..j], p, f) + (if p(s[j]) then [f(s[j])] else [])
  {
    assert s[..j + 1][..j] == s[..j];
  }

  /** Every result satisfies `q` when `q` holds of the image of every passing element of `s`. */
  lemma {:induction false} MapFilterAll<T(!new), U>(s: seq<T>, p: T -> bool, f: T --> U, q: U -> bool)
    requires forall x :: p(x) ==> f.requires(x)
    requires forall x :: x in s && p(x) ==> q(f(x))
    ensures forall y :: y in MapFilter(s, p, f) ==> q(y)
    decreases |s|
  {
    if |s| > 0 {
      var n := |s| - 1;
      assert s[n] in s;
      forall x | x in s[..n] && p(x) ensures q(f(x)) { assert x in s; }
      MapFilterAll(s[..n], p, f, q);
    }
  }

  /** Summing `g` over the images is summing `h` over the passing elements, where `g` of the image is `h`. */
  lemma {:induction false} MapFilterSum<T(!new), U(!new)>(s: seq<T>, p: T -> bool, f: T --> U, g: U -> real, h: T -> real)
    requires forall x :: p(x) ==> f.requires(x)
    requires forall x :: p(x) ==> g(f(x)) == h(x)
    ensures SumOf(MapFilter(s, p, f), g) == SumOf(Filter(s, p), h)
    decreases |s|
  {
    if |s| > 0 {
      MapFilterSum(s[..|s| - 1], p, f, g, h);
      MapFilterSumStep(s, p, f, g, h);
    }
  }

  /** The step of `MapFilterSum`: the last element adds the same term to both sums. */
  lemma MapFilterSumStep<T(!new), U(!new)>(s: seq<T>, p: T -> bool, f: T --> U, g: U -> real, h: T -> real)
    requires |s| > 0
    requires forall x :: p(x) ==> f.requires(x)
    requires p(s[|s| - 1]) ==> g(f(s[|s| - 1])) == h(s[|s| - 1])
    requires SumOf(MapFilter(s[..|s| - 1], p, f), g) == SumOf(Filter(s[..|s| - 1], p), h)
    ensures SumOf(MapFilter(s, p, f), g) == SumOf(Filter(s, p), h)
  {
    var x := s[|s| - 1];
    var r := MapFilter(s[..|s| - 1], p, f);
    if p(x) {
      assert MapFilter(s, p, f) == r + [f(x)];
      SumOfSnoc(r, f(x), g);
    } else {
      assert MapFilter(s, p, f) == r;
    }
    SumOfFilterLast(s, p, h);
  }

  /** A sum of terms that are the negations of others is the negated sum. */
  lemma {:induction false} SumOfNegated<T(!new)>(s: seq<T>, g: T -> real, h: T -> real)
    requires forall x :: x in s ==> g(x) == -h(x)
    ensures SumOf(s, g) == -SumOf(s, h)
    decreases |s|
  {
    if |s| > 0 {
      assert s[|s| - 1] in s;
      forall x | x in s[..|s| - 1] ensures g(x) == -h(x) { assert x in s; }
      SumOfNegated(s[..|s| - 1], g, h);
    }
  }

  /** `totals[key(x)] += f(x)` for each `x` of `s` in turn: a `defaultdict(float)` filled in a loop. */
  function GroupSums<T(!new), K(!new)>(s: seq<T>, key: T -> K, f: T -> real): map<K, real> {
    if |s| == 0 then map[]
    else
      var n := |s| - 1;
      AddAt(GroupSums(s[..n], key, f), key(s[n]), f(s[n]))
  }

  /** `totals[k] += v` on a dictionary whose missing entries read as zero. */
  function AddAt<K>(m: map<K, real>, k: K, v: real): (r: map<K, real>)
    ensures r.Keys == m.Keys + {k}
  {
    m[k := (if k in m then m[k] else 0.0) + v]
  }

  lemma GroupSumsStep<T(!new), K(!new)>(s: seq<T>, x: T, key: T -> K, f: T -> real)
    ensures GroupSums(s + [x], key, f) == AddAt(GroupSums(s, key, f), key(x), f(x))
  {
    assert (s + [x])[..|s|] == s;
  }

  /** Exactly the keys of some element have a total. */
  lemma {:induction false} GroupSumsKeys<T(!new), K(!new)>(s: seq<T>, key: T -> K, f: T -> real)
    ensures forall k :: k in GroupSums(s, key, f) <==> exists x :: x in s && key(x) == k
    decreases |s|
  {
    if |s| > 0 {
      var n := |s| - 1;
      GroupSumsKeys(s[..n], key, f);
      assert s == s[..n] + [s[n]];
    }
  }

  /** The elements whose key is `k`. */
  function KeyIs<T, K(==)>(key: T -> K, k: K): T -> bool {
    x => key(x) == k
  }

  /** Each key's total is the sum over the elements with that key. */
  lemma {:induction false} GroupSumsAt<T(!new), K(!new)>(s: seq<T>, key: T -> K, f: T -> real, k: K)
    requires k in GroupSums(s, key, f)
    ensures GroupSums(s, key, f)[k] == SumOf(Filter(s, KeyIs(key, k)), f)
    decreases |s|
  {
    var n := |s| - 1;
    var init, last := s[..n], s[n];
    var sel := KeyIs(key, k);
    SumOfFilterLast(s, sel, f);
    if k in GroupSums(init, key, f) {
      GroupSumsAt(init, key, f, k);
    } else {
      GroupSumsKeys(init, key, f);
      FilterNone(init, sel);
    }
  }

  /** `{key(x): x for x in s}`: a later element replaces an earlier one with the same key. */
  function IndexBy<T(!new), K(!new)>(s: seq<T>, key: T -> K): (m: map<K, T>)
    ensures forall x :: x in s ==> key(x) in m
    ensures forall k :: k in m ==> m[k] in s && key(m[k]) == k
  {
    if |s| == 0 then map[]
    else
      var n := |s| - 1;
      var m := IndexBy(s[..n], key);
      assert forall x :: x in s ==> x in s[..n] || x == s[n];
      m[key(s[n]) := s[n]]
  }

  /** The entries of `m` whose value passes `keep`, each unchanged. */
  function KeepWhere<K(!new), V>(m: map<K, V>, keep: V -> bool): (r: map<K, V>)
    ensures forall k :: k in r <==> k in m && keep(m[k])
    ensures forall k :: k in r ==> r[k] == m[k]
  {
    map k | k in m && keep(m[k]) :: m[k]
  }

  function Max(a: real, b: real): real {
    if a >= b then a else b
  }

  function Min(a: real, b: real): real {
    if a <= b then a else b
  }

  /** Some element of a non-empty set: the next key a loop over a dictionary reaches, in no particular order. */
  method Pick<T>(s: set<T>) returns (x: T)
    requires s != {}
    ensures x in s
  {
    x :| x in s;
  }

  /** No element occurs twice. */
  predicate Distinct<T(==)>(s: seq<T>) {
    forall i, j :: 0 <= i < j < |s| ==> s[i] != s[j]
  }

  /** A permutation of a list without repetitions has none either. */
  lemma {:induction false} DistinctPermutation<T>(a: seq<T>, b: seq<T>)
    requires Distinct(a) && multiset(a) == multiset(b)
    ensures Distinct(b)
  {
    forall i, j | 0 <= i < j < |b| ensures b[i] != b[j] {
      if b[i] == b[j] {
        var x := b[i];
        assert b == b[..i] + [x] + b[i + 1..j] + [x] + b[j + 1..];
        assert multiset(b)[x] >= 2;
        AtMostOnce(a, x);
        assert false;
      }
    }
  }

  lemma {:induction false} AtMostOnce<T>(a: seq<T>, x: T)
    requires Distinct(a)
    ensures multiset(a)[x] <= 1
    decreases |a|
  {
    if |a| > 0 {
      var n := |a| - 1;
      assert a == a[..n] + [a[n]];
      AtMostOnce(a[..n], x);
      if a[n] == x {
        assert x !in a[..n];
      }
    }
  }

  /** Keeping some elements of a list without repetitions keeps it without repetitions. */
  lemma {:induction false} FilterDistinct<T(!new)>(s: seq<T>, p: T -> bool)
    requires Distinct(s)
    ensures Distinct(Filter(s, p))
    decreases |s|
  {
    if |s| > 0 {
      var init := s[..|s| - 1];
      assert s == init + [s[|s| - 1]];
      FilterDistinct(init, p);
      assert s[|s| - 1] !in init;
    }
  }
}

=== FILE: discounts.dfy ===
/**
 * The discount summary of backend/app/routers/discounts.py: every discounted
 * effective row dated on or before the report date becomes an entry, the
 * entries are totalled per organisation, sorted, and summed.
 */
module Discounts {
  import opened Wrappers
  import opened Calendar
  import opened Sorting
  import opened Collections
  import opened Text
  import opened Models

  /**
   * What the summary reads of one effective row of a project: its item, its
   * effective payment date and the discount it carries. The rows themselves
   * come from a resolver that is not part of this model, so they are input.
   */
  datatype DiscountedRow = DiscountedRow(item: ExpenseItem, plannedPayDate: Option<Date>, discountTotal: real)

  datatype DiscountEntry = DiscountEntry(
    projectId: int,
    projectTitle: string,
    organization: Option<string>,
    itemId: int,
    itemTitle: string,
    itemDate: Option<Date>,
    discountAmount: real)

  datatype Counterparty = Counterparty(organization: string, discountTotal: real)

  datatype Summary = Summary(asOf: Date, totalDiscount: real, entries: seq<DiscountEntry>, counterparties: seq<Counterparty>)

  /** The name used for a project without a client. */
  const NoOrganization: string := "—"

  /** The rows of project `id`; a project without rows has none. */
  function RowsOf(rowsOf: map<int, seq<DiscountedRow>>, id: int): seq<DiscountedRow> {
    if id in rowsOf then rowsOf[id] else []
  }

  /**
   * The organisation a project's discounts are totalled under: its client
   * name without surrounding white space, or the dash when the name is
   * missing or blank.
   */
  function OrgKey(clientName: Option<string>): (k: string)
    ensures k != []
    ensures clientName.Some? && !AllSpace(clientName.value) ==> k == Strip(clientName.value)
    ensures clientName.None? || AllSpace(clientName.value) ==> k == NoOrganization
  {
    StripNoSpace(NoOrganization);
    StripEmpty(clientName.GetOr(""));
    var s := Strip(if clientName.Some? && clientName.value != "" then clientName.value else NoOrganization);
    if s == "" then NoOrganization else s
  }

  /** A row is skipped when it is due after the report date or carries no discount. */
  predicate Listed(row: DiscountedRow, asOf: Date) {
    !(row.plannedPayDate.Some? && DateLt(asOf, row.plannedPayDate.value)) && row.discountTotal != 0.0
  }

  function EntryOf(p: Project, row: DiscountedRow): DiscountEntry {
    DiscountEntry(p.id, p.title, p.clientName, row.item.id, row.item.title, row.plannedPayDate, row.discountTotal)
  }

  /** The entries of one project's rows, in row order. */
  function ProjectEntries(p: Project, rows: seq<DiscountedRow>, asOf: Date): seq<DiscountEntry> {
    if |rows| == 0 then []
    else
      var n := |rows| - 1;
      if Listed(rows[n], asOf) then ProjectEntries(p, rows[..n], asOf) + [EntryOf(p, rows[n])] else ProjectEntries(p, rows[..n], asOf)
  }

  /** The entries of all projects, project by project, before sorting. */
  function EntriesOf(projects: seq<Project>, rowsOf: map<int, seq<DiscountedRow>>, asOf: Date): seq<DiscountEntry> {
    if |projects| == 0 then []
    else
      var n := |projects| - 1;
      EntriesOf(projects[..n], rowsOf, asOf) + ProjectEntries(projects[n], RowsOf(rowsOf, projects[n].id), asOf)
  }

  /** The organisation an entry's discount is totalled under. */
  function EntryOrg(e: DiscountEntry): string { OrgKey(e.organization) }

  /** `by_org`: the per-organisation totals, built entry by entry. */
  function OrgTotalsOf(entries: seq<DiscountEntry>): map<string, real> {
    GroupSums(entries, EntryOrg, Amount)
  }

  function Amount(e: DiscountEntry): real { e.discountAmount }

  /** The organisation an entry sorts under: its client name as stored, or the dash when missing or empty. */
  function OrgSortKey(organization: Option<string>): string {
    if organization.Some? && organization.value != "" then organization.value else NoOrganization
  }

  /** An undated entry (an empty ISO text) sorts before every dated one. */
  predicate DateKeyLe(a: Option<Date>, b: Option<Date>) {
    a.None? || (b.Some? && DateLe(a.value, b.value))
  }

  /** The entry order: organisation, project title, date, then item id. */
  predicate EntryLe(a: DiscountEntry, b: DiscountEntry) {
    var ka, kb := OrgSortKey(a.organization), OrgSortKey(b.organization);
    if ka != kb then StrLe(ka, kb)
    else if a.projectTitle != b.projectTitle then StrLe(a.projectTitle, b.projectTitle)
    else if a.itemDate != b.itemDate then DateKeyLe(a.itemDate, b.itemDate)
    else a.itemId <= b.itemId
  }

  lemma EntryLePreorder()
    ensures TotalPreorder(EntryLe)
  {
    StrLeTotalOrder();
    DateLeIsTotalOrder();
  }

  /** `entries.sort(key=...)`: a stable sort by the entry order. */
  function SortEntries(entries: seq<DiscountEntry>): (r: seq<DiscountEntry>)
    ensures multiset(r) == multiset(entries) && SortedBy(r, EntryLe)
  {
    EntryLePreorder();
    SortBy(entries, EntryLe)
  }

  lemma StrLeIsTotalOrder()
    ensures TotalOrder(StrLe)
  {
    StrLeTotalOrder();
  }

  /** One counterparty per organisation, in ascending name order. */
  function CounterpartiesOf(byOrg: map<string, real>): (cs: seq<Counterparty>)
    ensures |cs| == |byOrg.Keys|
    ensures forall i, j :: 0 <= i < j < |cs| ==> StrLt(cs[i].organization, cs[j].organization)
    ensures forall c :: c in cs ==> c.organization in byOrg && c.discountTotal == byOrg[c.organization]
  {
    StrLeIsTotalOrder();
    var orgs := SortedSet(byOrg.Keys, StrLe);
    seq(|orgs|, i requires 0 <= i < |orgs| => Counterparty(orgs[i], byOrg[orgs[i]]))
  }

  /** Every organisation with a total has its counterparty. */
  lemma CounterpartyOf(byOrg: map<string, real>, org: string)
    requires org in byOrg
    ensures Counterparty(org, byOrg[org]) in CounterpartiesOf(byOrg)
  {
    StrLeIsTotalOrder();
    var orgs := SortedSet(byOrg.Keys, StrLe);
    var i :| 0 <= i < |orgs| && orgs[i] == org;
    assert CounterpartiesOf(byOrg)[i] == Counterparty(org, byOrg[org]);
  }

  /** `discount_summary`; the report date defaults to today. */
  function SummaryOf(projects: seq<Project>, rowsOf: map<int, seq<DiscountedRow>>, asOf: Option<Date>, today: Date): Summary {
    var at := asOf.GetOr(today);
    var found := EntriesOf(projects, rowsOf, at);
    var entries := SortEntries(found);
    Summary(at, SumOf(entries, Amount), entries, CounterpartiesOf(OrgTotalsOf(found)))
  }

  lemma ProjectEntriesStep(entries: seq<DiscountEntry>, p: Project, rows: seq<DiscountedRow>, asOf: Date, j: nat)
    requires j < |rows|
    ensures entries + ProjectEntries(p, rows[..j + 1], asOf)
      == entries + ProjectEntries(p, rows[..j], asOf) + (if Listed(rows[j], asOf) then [EntryOf(p, rows[j])] else [])
  {
    assert rows[..j + 1][..j] == rows[..j];
  }

  /** One row of the inner loop: a listed row becomes an entry and is added to its organisation's total. */
  method AddRow(entries: seq<DiscountEntry>, byOrg: map<string, real>, p: Project, row: DiscountedRow, asOf: Date)
    returns (entries': seq<DiscountEntry>, byOrg': map<string, real>)
    requires byOrg == OrgTotalsOf(entries)
    ensures entries' == entries + (if Listed(row, asOf) then [EntryOf(p, row)] else [])
    ensures byOrg' == OrgTotalsOf(entries')
  {
    entries', byOrg' := entries, byOrg;
    if row.plannedPayDate.Some? && DateLt(asOf, row.plannedPayDate.value) {
      return;
    }
    if row.discountTotal == 0.0 {
      return;
    }
    var e := DiscountEntry(p.id, p.title, p.clientName, row.item.id, row.item.title, row.plannedPayDate, row.discountTotal);
    GroupSumsStep(entries, e, EntryOrg, Amount);
    byOrg' := AddAt(byOrg, OrgKey(p.clientName), row.discountTotal);
    entries' := entries + [e];
  }

  /** The inner loop of `discount_summary`: one project's rows, appended and totalled. */
  method CollectProject(entries: seq<DiscountEntry>, byOrg: map<string, real>, p: Project, rows: seq<DiscountedRow>, asOf: Date)
    returns (entries': seq<DiscountEntry>, byOrg': map<string, real>)
    requires byOrg == OrgTotalsOf(entries)
    ensures entries' == entries + ProjectEntries(p, rows, asOf)
    ensures byOrg' == OrgTotalsOf(entries')
  {
    entries', byOrg' := entries, byOrg;
    var j := 0;
    while j < |rows|
      invariant j <= |rows|
      invariant entries' == entries + ProjectEntries(p, rows[..j], asOf)
      invariant byOrg' == OrgTotalsOf(entries')
    {
      ProjectEntriesStep(entries, p, rows, asOf, j);
      entries', byOrg' := AddRow(entries', byOrg', p, rows[j], asOf);
      j := j + 1;
    }
    assert rows[..j] == rows;
  }

  lemma EntriesStep(projects: seq<Project>, rowsOf: map<int, seq<DiscountedRow>>, asOf: Date, i: nat)
    requires i < |projects|
    ensures EntriesOf(projects[..i + 1], rowsOf, asOf)
      == EntriesOf(projects[..i], rowsOf, asOf) + ProjectEntries(projects[i], RowsOf(rowsOf, projects[i].id), asOf)
  {
    assert projects[..i + 1][..i] == projects[..i];
  }

  /** `discount_summary`: the project loop, then the sorts and the sum. */
  method DiscountSummary(projects: seq<Project>, rowsOf: map<int, seq<DiscountedRow>>, asOf: Option<Date>, today: Date)
    returns (out: Summary)
    ensures out == SummaryOf(projects, rowsOf, asOf, today)
  {
    var at := if asOf.None? then today else asOf.value;
    var entries: seq<DiscountEntry> := [];
    var byOrg: map<string, real> := map[];
    var i := 0;
    while i < |projects|
      invariant i <= |projects|
      invariant entries == EntriesOf(projects[..i], rowsOf, at)
      invariant byOrg == OrgTotalsOf(entries)
    {
      EntriesStep(projects, rowsOf, at, i);
      entries, byOrg := CollectProject(entries, byOrg, projects[i], RowsOf(rowsOf, projects[i].id), at);
      i := i + 1;
    }
    assert projects[..i] == projects;
    var sorted := SortEntries(entries);
    out := Summary(at, SumOf(sorted, Amount), sorted, CounterpartiesOf(byOrg));
  }

  /** The entries of one project are exactly its listed rows. */
  lemma {:induction false} ProjectEntriesMembers(p: Project, rows: seq<DiscountedRow>, asOf: Date)
    ensures forall e :: e in ProjectEntries(p, rows, asOf) <==> exists row :: row in rows && Listed(row, asOf) && e == EntryOf(p, row)
    decreases |rows|
  {
    if |rows| > 0 {
      var n := |rows| - 1;
      ProjectEntriesMembers(p, rows[..n], asOf);
      assert rows == rows[..n] + [rows[n]];
    }
  }

  /**
   * An entry is listed exactly when some project has a row dated on or before
   * the report date (or undated) with a non-zero discount.
   */
  lemma {:induction false} EntriesMembers(projects: seq<Project>, rowsOf: map<int, seq<DiscountedRow>>, asOf: Date)
    ensures forall e :: e in EntriesOf(projects, rowsOf, asOf) <==>
      exists p, row :: p in projects && row in RowsOf(rowsOf, p.id) && Listed(row, asOf) && e == EntryOf(p, row)
    decreases |projects|
  {
    if |projects| > 0 {
      var n := |projects| - 1;
      EntriesMembers(projects[..n], rowsOf, asOf);
      ProjectEntriesMembers(projects[n], RowsOf(rowsOf, projects[n].id), asOf);
      assert projects == projects[..n] + [projects[n]];
    }
  }

  /** A listed row is not due after the report date and has a discount. */
  lemma ListedRow(row: DiscountedRow, asOf: Date)
    requires Listed(row, asOf)
    ensures row.discountTotal != 0.0
    ensures row.plannedPayDate.None? || DateLe(row.plannedPayDate.value, asOf)
  {
    if row.plannedPayDate.Some? {
      DateLeTotal(row.plannedPayDate.value, asOf);
    }
  }

  /** Every listed entry has a discount and is not due after the report date. */
  lemma EntriesFiltered(projects: seq<Project>, rowsOf: map<int, seq<DiscountedRow>>, asOf: Date)
    ensures forall e :: e in EntriesOf(projects, rowsOf, asOf) ==>
      e.discountAmount != 0.0 && (e.itemDate.None? || DateLe(e.itemDate.value, asOf))
  {
    EntriesMembers(projects, rowsOf, asOf);
    forall e | e in EntriesOf(projects, rowsOf, asOf)
      ensures e.discountAmount != 0.0 && (e.itemDate.None? || DateLe(e.itemDate.value, asOf))
    {
      var p, row :| p in projects && row in RowsOf(rowsOf, p.id) && Listed(row, asOf) && e == EntryOf(p, row);
      ListedRow(row, asOf);
    }
  }

  /**
   * The summary lists the found entries in entry order, each with a discount
   * and not due after the report date; its total is their sum; its
   * counterparties are the per-organisation sums of those entries.
   */
  lemma SummaryLemma(projects: seq<Project>, rowsOf: map<int, seq<DiscountedRow>>, asOf: Option<Date>, today: Date)
    ensures var s := SummaryOf(projects, rowsOf, asOf, today);
      var found := EntriesOf(projects, rowsOf, s.asOf);
      s.asOf == (if asOf.Some? then asOf.value else today)
      && multiset(s.entries) == multiset(found) && SortedBy(s.entries, EntryLe)
      && s.totalDiscount == SumOf(found, Amount)
      && (forall e :: e in s.entries ==> e.discountAmount != 0.0 && (e.itemDate.None? || DateLe(e.itemDate.value, s.asOf)))
      && s.counterparties == CounterpartiesOf(OrgTotalsOf(found))
  {
    var s := SummaryOf(projects, rowsOf, asOf, today);
    var found := EntriesOf(projects, rowsOf, s.asOf);
    SumOfPermutation(s.entries, found, Amount);
    EntriesFiltered(projects, rowsOf, s.asOf);
    forall e | e in s.entries ensures e in found {
      assert e in multiset(found);
    }
  }

  /** There is one counterparty per organisation with entries, in name order, and no other. */
  lemma CounterpartiesCover(found: seq<DiscountEntry>)
    ensures var cs := CounterpartiesOf(OrgTotalsOf(found));
      (forall i, j :: 0 <= i < j < |cs| ==> StrLt(cs[i].organization, cs[j].organization))
      && (forall e :: e in found ==> exists c :: c in cs && c.organization == EntryOrg(e))
      && (forall c :: c in cs ==> exists e :: e in found && EntryOrg(e) == c.organization)
  {
    var byOrg := OrgTotalsOf(found);
    GroupSumsKeys(found, EntryOrg, Amount);
    forall e | e in found ensures exists c :: c in CounterpartiesOf(byOrg) && c.organization == EntryOrg(e) {
      CounterpartyOf(byOrg, EntryOrg(e));
    }
  }

  /** Each counterparty carries the sum of its organisation's discounts. */
  lemma CounterpartiesAreOrgSums(found: seq<DiscountEntry>)
    ensures forall c :: c in CounterpartiesOf(OrgTotalsOf(found)) ==>
      c.discountTotal == SumOf(Filter(found, KeyIs(EntryOrg, c.organization)), Amount)
  {
    forall c | c in CounterpartiesOf(OrgTotalsOf(found))
      ensures c.discountTotal == SumOf(Filter(found, KeyIs(EntryOrg, c.organization)), Amount)
    {
      GroupSumsAt(found, EntryOrg, Amount, c.organization);
    }
  }
}

=== FILE: effective_rows.dfy ===
/**
 * The effective-row resolver of backend/app/utils.py: a flat list of expense
 * items becomes one accounting row per top-level item, and a parent that has
 * child items takes its base total, extra profit and planned date from them.
 */
module EffectiveRows {
  import opened Wrappers
  import opened Calendar
  import opened Models
  import opened Collections

  /**
   * `_item_base_total` (utils.py): quantity times unit price for a
   * QTY_PRICE item that has both, the unit price alone when the quantity is
   * zero, and the stored base total otherwise.
   */
  function ItemBaseTotal(it: ExpenseItem): real {
    if it.mode == QtyPrice && it.qty.Some? && it.unitPriceBase.Some? then
      (if it.qty.value == 0.0 then it.unitPriceBase.value else it.qty.value * it.unitPriceBase.value)
    else it.baseTotal
  }

  /** The extra profit an item contributes: its amount when enabled, else nothing. */
  function ExtraOf(it: ExpenseItem): real {
    if it.extraProfitEnabled then it.extraProfitAmount else 0.0
  }

  /** One accounting row: the top-level item and the figures it stands for. */
  datatype EffectiveRow = EffectiveRow(item: ExpenseItem, baseTotal: real, extraTotal: real, plannedPayDate: Option<Date>)

  /** The ids of the listed items (`by_id`). */
  function IdsOf(items: seq<ExpenseItem>): (ids: set<int>)
    ensures forall it :: it in items ==> it.id in ids
  {
    if |items| == 0 then {}
    else
      var init := items[..|items| - 1];
      assert items == init + [items[|items| - 1]];
      IdsOf(init) + {items[|items| - 1].id}
  }

  /** Every collected id is the id of a listed item. */
  lemma {:induction false} IdsOfMembers(items: seq<ExpenseItem>)
    ensures forall x :: x in IdsOf(items) ==> exists it :: it in items && it.id == x
    decreases |items|
  {
    if |items| > 0 {
      var init := items[..|items| - 1];
      IdsOfMembers(init);
      assert items == init + [items[|items| - 1]];
    }
  }

  /** The item names a parent that is among the listed items. */
  predicate IsChildIn(it: ExpenseItem, ids: set<int>) {
    it.parentItemId.Some? && it.parentItemId.value in ids
  }

  /** The top-level items (`top_level`), in input order. */
  function TopLevel(items: seq<ExpenseItem>, ids: set<int>): seq<ExpenseItem> {
    if |items| == 0 then []
    else
      var last := items[|items| - 1];
      if IsChildIn(last, ids) then TopLevel(items[..|items| - 1], ids) else TopLevel(items[..|items| - 1], ids) + [last]
  }

  /** The items filed under `parentId` (`children_by_parent[parentId]`), in input order. */
  function ChildrenOf(items: seq<ExpenseItem>, parentId: int, ids: set<int>): seq<ExpenseItem> {
    if |items| == 0 then []
    else
      var last := items[|items| - 1];
      if IsChildIn(last, ids) && last.parentItemId.value == parentId then ChildrenOf(items[..|items| - 1], parentId, ids) + [last]
      else ChildrenOf(items[..|items| - 1], parentId, ids)
  }

  lemma {:induction false} TopLevelMembers(items: seq<ExpenseItem>, ids: set<int>)
    ensures forall x :: x in TopLevel(items, ids) <==> x in items && !IsChildIn(x, ids)
    decreases |items|
  {
    if |items| > 0 {
      TopLevelMembers(items[..|items| - 1], ids);
      assert items == items[..|items| - 1] + [items[|items| - 1]];
    }
  }

  lemma {:induction false} ChildrenMembers(items: seq<ExpenseItem>, parentId: int, ids: set<int>)
    ensures forall x :: x in ChildrenOf(items, parentId, ids) <==>
      x in items && IsChildIn(x, ids) && x.parentItemId.value == parentId
    decreases |items|
  {
    if |items| > 0 {
      ChildrenMembers(items[..|items| - 1], parentId, ids);
      assert items == items[..|items| - 1] + [items[|items| - 1]];
    }
  }

  /** The planned dates the children have, in order. */
  function ChildDates(children: seq<ExpenseItem>): (ds: seq<Date>)
    ensures forall d :: d in ds <==> exists c :: c in children && c.plannedPayDate == Some(d)
  {
    if |children| == 0 then []
    else
      var init := children[..|children| - 1];
      var last := children[|children| - 1];
      assert children == init + [last];
      if last.plannedPayDate.Some? then ChildDates(init) + [last.plannedPayDate.value] else ChildDates(init)
  }

  /** `max(dates)`: a listed date no listed date is after. */
  function LatestDate(ds: seq<Date>): (d: Date)
    requires |ds| > 0
    ensures d in ds && forall x :: x in ds ==> DateLe(x, d)
  {
    if |ds| == 1 then ds[0]
    else
      var m := LatestDate(ds[1..]);
      assert forall x :: x in ds ==> x == ds[0] || x in ds[1..];
      if DateLe(ds[0], m) then m else ds[0]
  }

  /** The date of a row with children: the parent's own date, falling back to the latest child date. */
  function RowDate(parent: ExpenseItem, children: seq<ExpenseItem>): Option<Date> {
    var ds := ChildDates(children);
    if parent.plannedPayDate.Some? then parent.plannedPayDate
    else if |ds| > 0 then Some(LatestDate(ds)) else None
  }

  /**
   * The row for a top-level item given its children. With children: the sum
   * of their bases, the sum of their enabled extra profit, and the row date.
   * Without children: the item's own figures and date.
   */
  function RowFor(parent: ExpenseItem, children: seq<ExpenseItem>): (r: EffectiveRow)
    ensures r.item == parent
    ensures |children| > 0 ==> r.baseTotal == SumOf(children, ItemBaseTotal) && r.extraTotal == SumOf(children, ExtraOf)
    ensures |children| == 0 ==> r.baseTotal == ItemBaseTotal(parent) && r.extraTotal == ExtraOf(parent)
    ensures |children| == 0 || parent.plannedPayDate.Some? ==> r.plannedPayDate == parent.plannedPayDate
  {
    if |children| > 0 then
      EffectiveRow(parent, SumOf(children, ItemBaseTotal), SumOf(children, ExtraOf), RowDate(parent, children))
    else
      EffectiveRow(parent, ItemBaseTotal(parent), ExtraOf(parent), parent.plannedPayDate)
  }

  /**
   * An undated parent with children takes the latest date any child has, and
   * no date when none of them has one.
   */
  lemma RowDateIsLatest(parent: ExpenseItem, children: seq<ExpenseItem>)
    requires |children| > 0 && parent.plannedPayDate.None?
    ensures var r := RowFor(parent, children);
      (r.plannedPayDate.None? <==> forall c :: c in children ==> c.plannedPayDate.None?)
      && (r.plannedPayDate.Some? ==>
        (exists c :: c in children && c.plannedPayDate == r.plannedPayDate)
        && forall c :: c in children && c.plannedPayDate.Some? ==> DateLe(c.plannedPayDate.value, r.plannedPayDate.value))
  {
    var ds := ChildDates(children);
    assert forall c :: c in children && c.plannedPayDate.Some? ==> c.plannedPayDate.value in ds;
  }

  /**
   * The specification of `_effective_parent_items`: one row per top-level
   * item, in input order, built from the items filed under it.
   */
  function EffectiveRowsOf(items: seq<ExpenseItem>): (rows: seq<EffectiveRow>)
    ensures |rows| == |TopLevel(items, IdsOf(items))|
    ensures forall i :: 0 <= i < |rows| ==> rows[i].item == TopLevel(items, IdsOf(items))[i]
  {
    var ids := IdsOf(items);
    var top := TopLevel(items, ids);
    seq(|top|, i requires 0 <= i < |top| => RowFor(top[i], ChildrenOf(items, top[i].id, ids)))
  }

  /**
   * `_effective_parent_items`: partitions the items into top-level rows and
   * children filed by parent id, then builds each top-level item's row.
   */
  method EffectiveParentItems(items: seq<ExpenseItem>) returns (out: seq<EffectiveRow>)
    ensures out == EffectiveRowsOf(items)
  {
    var byId := IdsOf(items);
    var topLevel, childrenByParent := PartitionByParent(items, byId);
    out := [];
    var j := 0;
    while j < |topLevel|
      invariant 0 <= j <= |topLevel|
      invariant Filed(items, byId, childrenByParent)
      invariant out == EffectiveRowsOf(items)[..j]
    {
      var parent := topLevel[j];
      var children := if parent.id in childrenByParent then childrenByParent[parent.id] else [];
      RowStep(items, childrenByParent, j);
      out := out + [RowFor(parent, children)];
      j := j + 1;
    }
  }

  /** The children map holds exactly the items filed under each parent id. */
  ghost predicate Filed(items: seq<ExpenseItem>, ids: set<int>, childrenByParent: map<int, seq<ExpenseItem>>) {
    forall p :: (if p in childrenByParent then childrenByParent[p] else []) == ChildrenOf(items, p, ids)
  }

  /** One step of the row loop: the next row is built from the next top-level item and its filed children. */
  lemma RowStep(items: seq<ExpenseItem>, childrenByParent: map<int, seq<ExpenseItem>>, j: nat)
    requires Filed(items, IdsOf(items), childrenByParent)
    requires j < |TopLevel(items, IdsOf(items))|
    ensures var parent := TopLevel(items, IdsOf(items))[j];
      EffectiveRowsOf(items)[..j + 1] == EffectiveRowsOf(items)[..j]
        + [RowFor(parent, if parent.id in childrenByParent then childrenByParent[parent.id] else [])]
  {
    var ids := IdsOf(items);
    var parent := TopLevel(items, ids)[j];
    var rows := EffectiveRowsOf(items);
    RowAt(items, j);
    FiledAt(items, ids, childrenByParent, parent.id);
    PrefixStep(rows, j);
  }

  lemma RowAt(items: seq<ExpenseItem>, j: nat)
    requires j < |TopLevel(items, IdsOf(items))|
    ensures EffectiveRowsOf(items)[j]
      == RowFor(TopLevel(items, IdsOf(items))[j], ChildrenOf(items, TopLevel(items, IdsOf(items))[j].id, IdsOf(items)))
  {
  }

  lemma FiledAt(items: seq<ExpenseItem>, ids: set<int>, childrenByParent: map<int, seq<ExpenseItem>>, p: int)
    requires Filed(items, ids, childrenByParent)
    ensures (if p in childrenByParent then childrenByParent[p] else []) == ChildrenOf(items, p, ids)
  {
  }

  /**
   * Resolver partition: a listed item heads an accounting row exactly when
   * its parent id is null or names no listed item.
   */
  lemma RowItemsAreTopLevel(items: seq<ExpenseItem>, it: ExpenseItem)
    requires it in items
    ensures (exists r :: r in EffectiveRowsOf(items) && r.item == it) <==> it.parentItemId.None? || it.parentItemId.value !in IdsOf(items)
  {
    var ids := IdsOf(items);
    var rows := EffectiveRowsOf(items);
    var top := TopLevel(items, ids);
    TopLevelMembers(items, ids);
    if !IsChildIn(it, ids) {
      var i :| 0 <= i < |top| && top[i] == it;
      assert rows[i] in rows;
    }
    if exists r :: r in rows && r.item == it {
      var r :| r in rows && r.item == it;
      var i :| 0 <= i < |rows| && rows[i] == r;
      assert top[i] in top;
    }
  }

  /**
   * The partition loop of `_effective_parent_items`: items whose parent id is
   * listed are filed under it, all others become top-level rows.
   */
  method PartitionByParent(items: seq<ExpenseItem>, byId: set<int>)
    returns (topLevel: seq<ExpenseItem>, childrenByParent: map<int, seq<ExpenseItem>>)
    ensures topLevel == TopLevel(items, byId)
    ensures Filed(items, byId, childrenByParent)
  {
    childrenByParent := map[];
    topLevel := [];
    var i := 0;
    while i < |items|
      invariant 0 <= i <= |items|
      invariant topLevel == TopLevel(items[..i], byId)
      invariant Filed(items[..i], byId, childrenByParent)
    {
      var it := items[i];
      if it.parentItemId.Some? && it.parentItemId.value in byId {
        var p := it.parentItemId.value;
        var prev := if p in childrenByParent then childrenByParent[p] else [];
        FileChild(items, i, byId, childrenByParent);
        childrenByParent := childrenByParent[p := prev + [it]];
      } else {
        FileTopLevel(items, i, byId, childrenByParent);
        topLevel := topLevel + [it];
      }
      i := i + 1;
    }
    assert items[..|items|] == items;
  }

  /** Filing a child appends it to its parent's list and leaves the top level alone. */
  lemma FileChild(items: seq<ExpenseItem>, i: nat, ids: set<int>, childrenByParent: map<int, seq<ExpenseItem>>)
    requires i < |items| && IsChildIn(items[i], ids)
    requires Filed(items[..i], ids, childrenByParent)
    ensures TopLevel(items[..i + 1], ids) == TopLevel(items[..i], ids)
    ensures var p := items[i].parentItemId.value;
      Filed(items[..i + 1], ids, childrenByParent[p := (if p in childrenByParent then childrenByParent[p] else []) + [items[i]]])
  {
    PartitionStep(items, i, ids);
  }

  /** Filing a top-level item appends it to the top level and leaves the children alone. */
  lemma FileTopLevel(items: seq<ExpenseItem>, i: nat, ids: set<int>, childrenByParent: map<int, seq<ExpenseItem>>)
    requires i < |items| && !IsChildIn(items[i], ids)
    requires Filed(items[..i], ids, childrenByParent)
    ensures TopLevel(items[..i + 1], ids) == TopLevel(items[..i], ids) + [items[i]]
    ensures Filed(items[..i + 1], ids, childrenByParent)
  {
    PartitionStep(items, i, ids);
  }

  /** Filing one more item extends exactly one of the two kinds of list. */
  lemma PartitionStep(items: seq<ExpenseItem>, i: nat, ids: set<int>)
    requires i < |items|
    ensures TopLevel(items[..i + 1], ids)
      == TopLevel(items[..i], ids) + (if IsChildIn(items[i], ids) then [] else [items[i]])
    ensures forall p ::
      ChildrenOf(items[..i + 1], p, ids) == ChildrenOf(items[..i], p, ids)
        + (if IsChildIn(items[i], ids) && items[i].parentItemId.value == p then [items[i]] else [])
  {
    assert items[..i + 1][..i] == items[..i];
  }

  predicate UniqueIds(items: seq<ExpenseItem>) {
    forall i, j :: 0 <= i < |items| && 0 <= j < |items| && items[i].id == items[j].id ==> i == j
  }

  /**
   * An item whose parent is listed is filed under exactly one listed item:
   * the one carrying its parent id (ids being primary keys).
   */
  lemma ChildOfExactlyOne(items: seq<ExpenseItem>, k: nat)
    requires UniqueIds(items) && k < |items| && IsChildIn(items[k], IdsOf(items))
    ensures exists j :: 0 <= j < |items| && items[k] in ChildrenOf(items, items[j].id, IdsOf(items))
    ensures forall j1, j2 ::
      (0 <= j1 < |items| && 0 <= j2 < |items|
       && items[k] in ChildrenOf(items, items[j1].id, IdsOf(items))
       && items[k] in ChildrenOf(items, items[j2].id, IdsOf(items))) ==> j1 == j2
  {
    var ids := IdsOf(items);
    var p := items[k].parentItemId.value;
    IdsOfMembers(items);
    var par :| par in items && par.id == p;
    var j :| 0 <= j < |items| && items[j] == par;
    ChildrenMembers(items, items[j].id, ids);
    assert items[k] in items;
    forall j1, j2 | 0 <= j1 < |items| && 0 <= j2 < |items|
       && items[k] in ChildrenOf(items, items[j1].id, ids)
       && items[k] in ChildrenOf(items, items[j2].id, ids)
      ensures j1 == j2
    {
      ChildrenMembers(items, items[j1].id, ids);
      ChildrenMembers(items, items[j2].id, ids);
    }
  }

  /**
   * A grandchild (an item whose parent is itself a child) belongs to no
   * accounting row: it is not a row, and it is filed under no row's item.
   */
  lemma GrandchildContributesNothing(items: seq<ExpenseItem>, g: ExpenseItem, c: ExpenseItem)
    requires UniqueIds(items)
    requires g in items && c in items && g.parentItemId == Some(c.id) && IsChildIn(c, IdsOf(items))
    ensures forall r :: r in EffectiveRowsOf(items) ==> r.item != g && g !in ChildrenOf(items, r.item.id, IdsOf(items))
  {
    var ids := IdsOf(items);
    var rows := EffectiveRowsOf(items);
    var top := TopLevel(items, ids);
    TopLevelMembers(items, ids);
    assert IsChildIn(g, ids);
    forall r | r in rows ensures r.item != g && g !in ChildrenOf(items, r.item.id, ids) {
      var i :| 0 <= i < |rows| && rows[i] == r;
      assert r.item == top[i];
      assert top[i] in top;
      ChildrenMembers(items, r.item.id, ids);
    }
  }

  /** The query `ExpenseItem.project_id == project.id`. */
  function ProjectItems(items: seq<ExpenseItem>, projectId: int): seq<ExpenseItem> {
    if |items| == 0 then []
    else if items[|items| - 1].projectId == projectId then ProjectItems(items[..|items| - 1], projectId) + [items[|items| - 1]]
    else ProjectItems(items[..|items| - 1], projectId)
  }

  /** The query selects exactly the listed items of the project. */
  lemma {:induction false} ProjectItemsMembers(items: seq<ExpenseItem>, projectId: int)
    ensures forall it :: it in ProjectItems(items, projectId) <==> it in items && it.projectId == projectId
    decreases |items|
  {
    if |items| > 0 {
      ProjectItemsMembers(items[..|items| - 1], projectId);
      assert items == items[..|items| - 1] + [items[|items| - 1]];
    }
  }
}

=== FILE: estimate.dfy ===
/**
 * The client estimate of backend/app/routers/estimate.py: one row per item
 * included in the estimate, with its base, extra profit and discount, the
 * list of planned payments, and the totals and balance between them.
 */
module Estimate {
  import opened Wrappers
  import opened Calendar
  import opened Sorting
  import opened Collections
  import opened Text
  import opened Models
  import EffectiveRows
  import Discounts

  /** `_fmt_plain`: the text without surrounding white space, or the dash when it is missing or blank. */
  function FmtPlain(value: Option<string>): (r: string)
    ensures r != []
    ensures value.Some? && !AllSpace(value.value) ==> r == Strip(value.value)
    ensures value.None? || AllSpace(value.value) ==> r == "—"
  {
    if value.None? then "—"
    else
      StripEmpty(value.value);
      var text := Strip(value.value);
      if text == "" then "—" else text
  }

  /** The discount summary's organisation key is the plain form of the client name. */
  lemma OrgKeyIsFmtPlain(clientName: Option<string>)
    ensures Discounts.OrgKey(clientName) == FmtPlain(clientName)
  {
  }

  /**
   * `_item_base_total` (estimate.py): a QTY_PRICE item with a unit price is
   * priced from it, a missing quantity counting as zero; any other item keeps
   * its stored base total.
   */
  function EstimateItemBase(it: ExpenseItem): real {
    if it.mode == QtyPrice && it.unitPriceBase.Some? then
      var qty := it.qty.GetOr(0.0);
      var unit := it.unitPriceBase.value;
      if qty == 0.0 then unit else qty * unit
    else it.baseTotal
  }

  /**
   * The estimate's base total agrees with the resolver's whenever the
   * quantity is present; they differ only for a QTY_PRICE item with a unit
   * price and no quantity, which the estimate prices at the unit price and
   * the resolver at its stored base total.
   */
  lemma BaseTotalsCompared(it: ExpenseItem)
    ensures it.qty.Some? || it.mode == SingleTotal || it.unitPriceBase.None? ==>
      EstimateItemBase(it) == EffectiveRows.ItemBaseTotal(it)
    ensures it.mode == SingleTotal || it.unitPriceBase.None? ==> EstimateItemBase(it) == it.baseTotal
    ensures it.mode == QtyPrice && it.qty.None? && it.unitPriceBase.Some? ==>
      EstimateItemBase(it) == it.unitPriceBase.value && EffectiveRows.ItemBaseTotal(it) == it.baseTotal
  {
  }

  datatype EstimateRow = EstimateRow(
    id: int,
    group: string,
    title: string,
    parentTitle: string,
    isSubitem: bool,
    date: Option<Date>,
    qty: Option<real>,
    unitPrice: Option<real>,
    base: real,
    extra: real,
    discount: real,
    rowTotal: real)

  datatype PaymentRow = PaymentRow(id: int, payDate: Date, amount: real, note: string)

  datatype ProjectHeader = ProjectHeader(id: int, title: string, organization: string, email: string, phone: string,
                                         projectPriceTotal: real, generatedAt: DateTime)

  datatype EstimateTotals = EstimateTotals(expensesTotal: real, paymentsPlanTotal: real, balance: real)

  datatype EstimatePayload = EstimatePayload(project: ProjectHeader, expenses: seq<EstimateRow>, paymentsPlan: seq<PaymentRow>, totals: EstimateTotals)

  datatype EstimateError = ProjectNotFound

  /** The lookups the item loop reads: groups and items by id, adjustments by item. */
  datatype Lookups = Lookups(groupsById: map<int, ExpenseGroup>, adjByItem: map<int, Adjustment>, itemsById: map<int, ExpenseItem>)

  function GroupId(g: ExpenseGroup): int { g.id }
  function ItemId(it: ExpenseItem): int { it.id }
  function AdjustmentItem(a: Adjustment): int { a.itemId }

  /** The item query's order: by group, then by id. */
  predicate ItemQueryLe(a: ExpenseItem, b: ExpenseItem) {
    a.groupId < b.groupId || (a.groupId == b.groupId && a.id <= b.id)
  }

  /** The plan query's order: by date, then by id. */
  predicate PlanQueryLe(a: Payment, b: Payment) {
    DateLt(a.payDate, b.payDate) || (a.payDate == b.payDate && a.id <= b.id)
  }

  lemma QueryOrders()
    ensures TotalPreorder(ItemQueryLe) && TotalPreorder(PlanQueryLe)
  {
    DateLeIsTotalOrder();
  }

  /** The items of one project, in stored order. */
  function ItemsOf(items: seq<ExpenseItem>, projectId: int): seq<ExpenseItem> {
    Filter(items, (it: ExpenseItem) => it.projectId == projectId)
  }

  /** The planned payments of one project, in stored order. */
  function PlansOf(plans: seq<Payment>, projectId: int): seq<Payment> {
    Filter(plans, (p: Payment) => p.projectId == projectId)
  }

  /** The project's items in query order. */
  function ProjectItems(items: seq<ExpenseItem>, projectId: int): (r: seq<ExpenseItem>)
    ensures forall it :: it in r <==> it in items && it.projectId == projectId
    ensures SortedBy(r, ItemQueryLe)
  {
    QueryOrders();
    SortBy(ItemsOf(items, projectId), ItemQueryLe)
  }

  /** The project's planned payments in query order. */
  function ProjectPlans(plans: seq<Payment>, projectId: int): (r: seq<Payment>)
    ensures forall p :: p in r <==> p in plans && p.projectId == projectId
    ensures SortedBy(r, PlanQueryLe)
  {
    QueryOrders();
    SortBy(PlansOf(plans, projectId), PlanQueryLe)
  }

  function LookupsOf(groups: seq<ExpenseGroup>, adjustments: seq<Adjustment>, items: seq<ExpenseItem>, projectId: int): Lookups {
    var ids := set it | it in items :: it.id;
    Lookups(
      IndexBy(Filter(groups, (g: ExpenseGroup) => g.projectId == projectId), GroupId),
      IndexBy(Filter(adjustments, (a: Adjustment) => a.itemId in ids), AdjustmentItem),
      IndexBy(items, ItemId))
  }

  /** The discount an item carries: only an enabled discount of an existing adjustment counts. */
  function DiscountOf(lk: Lookups, it: ExpenseItem): real {
    if it.id in lk.adjByItem && lk.adjByItem[it.id].discountEnabled then lk.adjByItem[it.id].discountAmount else 0.0
  }

  /** The parent an item is shown under: its parent, when that is one of the project's items. */
  function ParentOf(lk: Lookups, it: ExpenseItem): Option<ExpenseItem> {
    if it.parentItemId.Some? && it.parentItemId.value in lk.itemsById then Some(lk.itemsById[it.parentItemId.value]) else None
  }

  function RowOf(lk: Lookups, it: ExpenseItem): EstimateRow {
    var base := EstimateItemBase(it);
    var extra := EffectiveRows.ExtraOf(it);
    var discount := DiscountOf(lk, it);
    var parent := ParentOf(lk, it);
    EstimateRow(it.id, if it.groupId in lk.groupsById then lk.groupsById[it.groupId].name else "",
      it.title, if parent.Some? then parent.value.title else "", parent.Some?, it.plannedPayDate,
      it.qty, it.unitPriceBase, base, extra, discount, base + extra - discount)
  }

  /** The rows of the items included in the estimate, in item order. */
  function RowsOf(lk: Lookups, items: seq<ExpenseItem>): seq<EstimateRow> {
    if |items| == 0 then []
    else
      var n := |items| - 1;
      if items[n].includeInEstimate then RowsOf(lk, items[..n]) + [RowOf(lk, items[n])] else RowsOf(lk, items[..n])
  }

  function PaymentRowOf(p: Payment): PaymentRow {
    PaymentRow(p.id, p.payDate, p.amount, p.note)
  }

  function PaymentRowsOf(plans: seq<Payment>): (rows: seq<PaymentRow>)
    ensures |rows| == |plans|
  {
    seq(|plans|, i requires 0 <= i < |plans| => PaymentRowOf(plans[i]))
  }

  function RowTotal(r: EstimateRow): real { r.rowTotal }
  function PlanAmount(p: Payment): real { p.amount }

  /** `_estimate_payload`: the project's rows, payments and totals, or PROJECT_NOT_FOUND. */
  function EstimateOf(projects: map<int, Project>, groups: seq<ExpenseGroup>, items: seq<ExpenseItem>, plans: seq<Payment>,
                      adjustments: seq<Adjustment>, projectId: int, now: DateTime): Result<EstimatePayload, EstimateError> {
    if projectId !in projects then Err(ProjectNotFound)
    else
      var p := projects[projectId];
      var its := ProjectItems(items, projectId);
      var pls := ProjectPlans(plans, projectId);
      var rows := RowsOf(LookupsOf(groups, adjustments, its, projectId), its);
      var expenses := SumOf(rows, RowTotal);
      var payments := SumOf(pls, PlanAmount);
      Ok(EstimatePayload(
        ProjectHeader(p.id, p.title, p.clientName.GetOr(""), p.clientEmail.GetOr(""), p.clientPhone.GetOr(""), p.priceTotal, now),
        rows, PaymentRowsOf(pls),
        EstimateTotals(expenses, payments, payments - expenses)))
  }

  lemma RowsStep(lk: Lookups, items: seq<ExpenseItem>, rows: seq<EstimateRow>, i: nat)
    requires i < |items| && rows == RowsOf(lk, items[..i])
    ensures RowsOf(lk, items[..i + 1]) == rows + (if items[i].includeInEstimate then [RowOf(lk, items[i])] else [])
  {
    assert items[..i + 1][..i] == items[..i];
  }

  lemma SumStep<T(!new)>(s: seq<T>, x: T, f: T -> real)
    ensures SumOf(s + [x], f) == SumOf(s, f) + f(x)
  {
    assert (s + [x])[..|s|] == s;
  }

  /** The expense loop: an included item's row is listed and its total added. */
  method ExpenseRows(lk: Lookups, items: seq<ExpenseItem>) returns (rows: seq<EstimateRow>, total: real)
    ensures rows == RowsOf(lk, items)
    ensures total == SumOf(rows, RowTotal)
  {
    rows, total := [], 0.0;
    var i := 0;
    while i < |items|
      invariant i <= |items|
      invariant rows == RowsOf(lk, items[..i]) && total == SumOf(rows, RowTotal)
    {
      RowsStep(lk, items, rows, i);
      var it := items[i];
      if it.includeInEstimate {
        var row := RowOf(lk, it);
        SumStep(rows, row, RowTotal);
        total := total + row.rowTotal;
        rows := rows + [row];
      }
      i := i + 1;
    }
    assert items[..i] == items;
  }

  /** The payment loop: every planned payment is listed and summed, whatever its date. */
  method PaymentRows(plans: seq<Payment>) returns (rows: seq<PaymentRow>, total: real)
    ensures rows == PaymentRowsOf(plans)
    ensures total == SumOf(plans, PlanAmount)
  {
    rows, total := [], 0.0;
    var i := 0;
    while i < |plans|
      invariant i <= |plans|
      invariant rows == PaymentRowsOf(plans[..i])
      invariant total == SumOf(plans[..i], PlanAmount)
    {
      PrefixStep(plans, i);
      SumStep(plans[..i], plans[i], PlanAmount);
      assert PaymentRowsOf(plans[..i + 1]) == PaymentRowsOf(plans[..i]) + [PaymentRowOf(plans[i])];
      total := total + plans[i].amount;
      rows := rows + [PaymentRow(plans[i].id, plans[i].payDate, plans[i].amount, plans[i].note)];
      i := i + 1;
    }
    assert plans[..i] == plans;
  }

  /** `_estimate_payload`, reading the project's rows from the stored records. */
  method EstimatePayloadFor(projects: map<int, Project>, groups: seq<ExpenseGroup>, items: seq<ExpenseItem>, plans: seq<Payment>,
                            adjustments: seq<Adjustment>, projectId: int, now: DateTime)
    returns (r: Result<EstimatePayload, EstimateError>)
    ensures r == EstimateOf(projects, groups, items, plans, adjustments, projectId, now)
  {
    if projectId !in projects {
      return Err(ProjectNotFound);
    }
    var p := projects[projectId];
    var its := ProjectItems(items, projectId);
    var pls := ProjectPlans(plans, projectId);
    var lk := LookupsOf(groups, adjustments, its, projectId);
    var rows, expenses := ExpenseRows(lk, its);
    var payRows, payments := PaymentRows(pls);
    r := Ok(EstimatePayload(
      ProjectHeader(p.id, p.title, p.clientName.GetOr(""), p.clientEmail.GetOr(""), p.clientPhone.GetOr(""), p.priceTotal, now),
      rows, payRows, EstimateTotals(expenses, payments, payments - expenses)));
    ghost var spec := EstimateOf(projects, groups, items, plans, adjustments, projectId, now);
    assert spec.Ok?;
    assert spec.value.project == r.value.project;
    assert spec.value.expenses == rows;
    assert spec.value.paymentsPlan == payRows;
    assert spec.value.totals == r.value.totals;
  }

  /** The included items, in order. */
  predicate IsIncluded(it: ExpenseItem) { it.includeInEstimate }

  function Included(items: seq<ExpenseItem>): seq<ExpenseItem> {
    Filter(items, IsIncluded)
  }

  /** There is one row per included item, in item order. */
  lemma {:induction false} RowsLemma(lk: Lookups, items: seq<ExpenseItem>)
    ensures var rows := RowsOf(lk, items);
      var inc := Included(items);
      |rows| == |inc| && forall i :: 0 <= i < |rows| ==> rows[i] == RowOf(lk, inc[i])
    decreases |items|
  {
    if |items| > 0 {
      RowsLemma(lk, items[..|items| - 1]);
    }
  }

  /** A row's discount and extra profit come only from an enabled adjustment and an enabled extra profit. */
  lemma RowOfLemma(lk: Lookups, it: ExpenseItem)
    ensures var r := RowOf(lk, it);
      r.id == it.id
      && (r.discount != 0.0 ==> it.id in lk.adjByItem && lk.adjByItem[it.id].discountEnabled && r.discount == lk.adjByItem[it.id].discountAmount)
      && (r.extra != 0.0 ==> it.extraProfitEnabled && r.extra == it.extraProfitAmount)
      && (r.isSubitem <==> it.parentItemId.Some? && it.parentItemId.value in lk.itemsById)
      && r.rowTotal == r.base + r.extra - r.discount
  {
  }

  /** With the lookups of the project's items, a row is a sub-item exactly when its parent is one of them. */
  lemma SubitemLemma(groups: seq<ExpenseGroup>, adjustments: seq<Adjustment>, items: seq<ExpenseItem>, projectId: int, it: ExpenseItem)
    ensures RowOf(LookupsOf(groups, adjustments, items, projectId), it).isSubitem
      <==> it.parentItemId.Some? && exists x :: x in items && x.id == it.parentItemId.value
  {
  }

  /** Every row is that of an included item of the project. */
  lemma RowsAreIncludedItems(lk: Lookups, items: seq<ExpenseItem>, projectId: int)
    ensures forall row :: row in RowsOf(lk, ProjectItems(items, projectId)) ==>
      exists it :: it in items && it.projectId == projectId && it.includeInEstimate && it.id == row.id
  {
    var its := ProjectItems(items, projectId);
    var rows := RowsOf(lk, its);
    RowsLemma(lk, its);
    var inc := Included(its);
    forall row | row in rows
      ensures exists it :: it in items && it.projectId == projectId && it.includeInEstimate && it.id == row.id
    {
      var i :| 0 <= i < |rows| && rows[i] == row;
      assert inc[i] in inc;
    }
  }

  /**
   * A missing project gives PROJECT_NOT_FOUND; otherwise the payload lists
   * one row per included item of the project, sums the rows into the
   * expenses total and every planned payment of the project, whatever its
   * date, into the plan total, and the balance is the difference.
   */
  lemma EstimateLemma(projects: map<int, Project>, groups: seq<ExpenseGroup>, items: seq<ExpenseItem>, plans: seq<Payment>,
                      adjustments: seq<Adjustment>, projectId: int, now: DateTime)
    ensures var r := EstimateOf(projects, groups, items, plans, adjustments, projectId, now);
      (r.Err? <==> projectId !in projects)
      && (r.Ok? ==>
        var its := ProjectItems(items, projectId);
        var p := projects[projectId];
        r.value.project.id == p.id && r.value.project.title == p.title
        && r.value.project.organization == p.clientName.GetOr("")
        && r.value.project.email == p.clientEmail.GetOr("") && r.value.project.phone == p.clientPhone.GetOr("")
        && r.value.project.projectPriceTotal == p.priceTotal && r.value.project.generatedAt == now
        && |r.value.expenses| == |Included(its)|
        && (forall row :: row in r.value.expenses ==> exists it :: it in items && it.projectId == projectId && it.includeInEstimate && it.id == row.id)
        && r.value.totals.expensesTotal == SumOf(r.value.expenses, RowTotal)
        && r.value.totals.paymentsPlanTotal == SumOf(PlansOf(plans, projectId), PlanAmount)
        && r.value.totals.balance == r.value.totals.paymentsPlanTotal - r.value.totals.expensesTotal
        && |r.value.paymentsPlan| == |PlansOf(plans, projectId)|)
  {
    if projectId in projects {
      var its := ProjectItems(items, projectId);
      var lk := LookupsOf(groups, adjustments, its, projectId);
      RowsLemma(lk, its);
      RowsAreIncludedItems(lk, items, projectId);
      QueryOrders();
      SumOfPermutation(ProjectPlans(plans, projectId), PlansOf(plans, projectId), PlanAmount);
    }
  }
}

=== FILE: exports.dfy ===
/**
 * The full registry export of backend/app/routers/exports.py: one operation
 * row per actual payment, planned payment and expense item, sorted by date
 * (undated rows last), project title, source and item title; one summary row
 * per project; and one rollup row per organisation, in case-insensitive name
 * order.
 */
module Exports {
  import opened Wrappers
  import opened Calendar
  import opened Sorting
  import opened Collections
  import opened Text
  import opened Models
  import opened EffectiveRows
  import opened Financials
  import opened MonthKeys
  import MonthKeyLaws
  import Estimate
  import Discounts

  /** `_month_text`: the `YYYY-MM` month of a date, or the empty text without one. */
  function MonthText(d: Option<Date>): (r: string)
    ensures r == "" <==> d.None?
  {
    if d.None? then "" else DateMonthKey(d.value)
  }

  /** The month text of a date reads back as the date's year and month. */
  lemma MonthTextReadsBack(d: Date)
    requires d.year >= 0 && d.month >= 0
    ensures SplitYearMonth(MonthText(Some(d))) == Some(YearMonth(d.year, d.month))
  {
    MonthKeyLaws.SplitMonthKey(d.year, d.month);
  }

  /** The stored records the export reads, each list in the order of its query. */
  datatype Registry = Registry(
    projects: seq<Project>,
    groups: seq<ExpenseGroup>,
    items: seq<ExpenseItem>,
    adjustments: seq<Adjustment>,
    facts: seq<Payment>,
    plans: seq<Payment>)

  function ProjectId(p: Project): int { p.id }

  /** `project_by_id`. */
  function ProjectsById(reg: Registry): map<int, Project> {
    IndexBy(reg.projects, ProjectId)
  }

  /** `group_by_id`, `adjustment_by_item_id` and `item_by_id`, over every stored record. */
  function LookupsOf(reg: Registry): Estimate.Lookups {
    Estimate.Lookups(
      IndexBy(reg.groups, Estimate.GroupId),
      IndexBy(reg.adjustments, Estimate.AdjustmentItem),
      IndexBy(reg.items, Estimate.ItemId))
  }

  /** `project.client_name or "—"`: the name as stored, the dash when it is missing or empty. */
  function OrgName(p: Project): string {
    Discounts.OrgSortKey(p.clientName)
  }

  // ---------------------------------------------------------------------------
  // Operation rows

  datatype Category = Income | Expense

  /** The source column of an operation row; its text takes part in the sort. */
  datatype OpSource = FactPayment | PlanPayment | ItemLine

  function SourceText(s: OpSource): string {
    match s
    case FactPayment => "Оплата факт"
    case PlanPayment => "Оплата план"
    case ItemLine => "Позиция"
  }

  /**
   * One row of the operations sheet. Columns the sheet leaves empty are
   * `None`; the estimate flag of an item row is kept as the boolean it shows.
   */
  datatype OpRow = OpRow(
    date: Option<Date>,
    month: string,
    projectTitle: string,
    organization: string,
    category: Category,
    source: OpSource,
    group: string,
    itemTitle: string,
    parentTitle: string,
    qty: Option<real>,
    unitPrice: Option<real>,
    base: real,
    extra: Option<real>,
    discount: Option<real>,
    rowTotal: real,
    balanceImpact: real,
    inEstimate: Option<bool>,
    note: string)

  /** A payment row: income whose base, total and balance impact are all the amount. */
  function PaymentOp(p: Project, rec: Payment, planned: bool): OpRow {
    OpRow(Some(rec.payDate), MonthText(Some(rec.payDate)), p.title, OrgName(p), Income,
      if planned then PlanPayment else FactPayment, "", "", "", None, None,
      rec.amount, None, None, rec.amount, rec.amount, None, rec.note)
  }

  /**
   * An item row: an expense whose total is base plus extra profit minus the
   * enabled discount, and whose balance impact is the negated total. A zero
   * extra profit and a disabled discount are shown as empty cells.
   */
  function ItemOp(lk: Estimate.Lookups, p: Project, g: ExpenseGroup, it: ExpenseItem): OpRow {
    var parent := Estimate.ParentOf(lk, it);
    var enabled := it.id in lk.adjByItem && lk.adjByItem[it.id].discountEnabled;
    var base := Estimate.EstimateItemBase(it);
    var extra := ExtraOf(it);
    var discount := Estimate.DiscountOf(lk, it);
    var total := base + extra - discount;
    OpRow(it.plannedPayDate, MonthText(it.plannedPayDate), p.title, OrgName(p), Expense, ItemLine,
      g.name, it.title, if parent.Some? then parent.value.title else "", it.qty, it.unitPriceBase,
      base, if extra != 0.0 then Some(extra) else None, if enabled then Some(discount) else None,
      total, -total, Some(it.includeInEstimate), "")
  }

  /** The payments whose project exists: the others are skipped. */
  function HasProject(pb: map<int, Project>): Payment -> bool {
    (rec: Payment) => rec.projectId in pb
  }

  /** The items whose project and group both exist: the others are skipped. */
  function IsPlaced(pb: map<int, Project>, lk: Estimate.Lookups): ExpenseItem -> bool {
    (it: ExpenseItem) => it.projectId in pb && it.groupId in lk.groupsById
  }

  /** The row of a payment of an existing project. */
  function PaymentOpOf(pb: map<int, Project>, planned: bool): Payment --> OpRow {
    (rec: Payment) requires rec.projectId in pb => PaymentOp(pb[rec.projectId], rec, planned)
  }

  /** The row of an item whose project and group exist. */
  function ItemOpOf(pb: map<int, Project>, lk: Estimate.Lookups): ExpenseItem --> OpRow {
    (it: ExpenseItem) requires it.projectId in pb && it.groupId in lk.groupsById =>
      ItemOp(lk, pb[it.projectId], lk.groupsById[it.groupId], it)
  }

  /** The rows of one payment loop, in payment order. */
  function PaymentOps(pb: map<int, Project>, recs: seq<Payment>, planned: bool): seq<OpRow> {
    MapFilter(recs, HasProject(pb), PaymentOpOf(pb, planned))
  }

  /** The rows of the item loop, in item order. */
  function ItemOps(pb: map<int, Project>, lk: Estimate.Lookups, items: seq<ExpenseItem>): seq<OpRow> {
    MapFilter(items, IsPlaced(pb, lk), ItemOpOf(pb, lk))
  }

  /** The rows before sorting: actual payments, then planned payments, then items. */
  function UnsortedOps(reg: Registry): seq<OpRow> {
    var pb := ProjectsById(reg);
    PaymentOps(pb, reg.facts, false) + PaymentOps(pb, reg.plans, true) + ItemOps(pb, LookupsOf(reg), reg.items)
  }

  /** The date key: an undated row takes `"9999-99-99"`, after every dated one. */
  predicate OpDateLe(a: Option<Date>, b: Option<Date>) {
    b.None? || (a.Some? && DateLe(a.value, b.value))
  }

  /** The sort key of the operation rows: date, project title, source text, item title. */
  predicate OpLe(a: OpRow, b: OpRow) {
    if a.date != b.date then OpDateLe(a.date, b.date)
    else if a.projectTitle != b.projectTitle then StrLe(a.projectTitle, b.projectTitle)
    else if SourceText(a.source) != SourceText(b.source) then StrLe(SourceText(a.source), SourceText(b.source))
    else StrLe(a.itemTitle, b.itemTitle)
  }

  lemma OpLePreorder()
    ensures TotalPreorder(OpLe)
  {
    StrLeTotalOrder();
    DateLeIsTotalOrder();
  }

  /** The operations sheet: the rows of the three loops, stably sorted. */
  function OperationsOf(reg: Registry): seq<OpRow> {
    OpLePreorder();
    SortBy(UnsortedOps(reg), OpLe)
  }

  /** One payment loop (`for rec in payments_*`): appends a row per payment of an existing project. */
  method AppendPayments(pb: map<int, Project>, acc: seq<OpRow>, recs: seq<Payment>, planned: bool) returns (rows: seq<OpRow>)
    ensures rows == acc + PaymentOps(pb, recs, planned)
  {
    rows := acc;
    var j := 0;
    while j < |recs|
      invariant j <= |recs|
      invariant rows == acc + PaymentOps(pb, recs[..j], planned)
    {
      MapFilterStep(recs, HasProject(pb), PaymentOpOf(pb, planned), acc, j);
      var rec := recs[j];
      if rec.projectId in pb {
        rows := rows + [PaymentOp(pb[rec.projectId], rec, planned)];
      }
      j := j + 1;
    }
    assert recs[..j] == recs;
  }

  /** The item loop (`for item in items`): appends a row per item whose project and group exist. */
  method AppendItems(pb: map<int, Project>, lk: Estimate.Lookups, acc: seq<OpRow>, items: seq<ExpenseItem>) returns (rows: seq<OpRow>)
    ensures rows == acc + ItemOps(pb, lk, items)
  {
    rows := acc;
    var j := 0;
    while j < |items|
      invariant j <= |items|
      invariant rows == acc + ItemOps(pb, lk, items[..j])
    {
      MapFilterStep(items, IsPlaced(pb, lk), ItemOpOf(pb, lk), acc, j);
      var it := items[j];
      if it.projectId in pb && it.groupId in lk.groupsById {
        rows := rows + [ItemOp(lk, pb[it.projectId], lk.groupsById[it.groupId], it)];
      }
      j := j + 1;
    }
    assert items[..j] == items;
  }

  /** The three loops of the operations sheet, one after the other. */
  method CollectOps(reg: Registry) returns (rows: seq<OpRow>)
    ensures rows == UnsortedOps(reg)
  {
    var pb := ProjectsById(reg);
    var facts := AppendPayments(pb, [], reg.facts, false);
    assert facts == PaymentOps(pb, reg.facts, false);
    var both := AppendPayments(pb, facts, reg.plans, true);
    rows := AppendItems(pb, LookupsOf(reg), both, reg.items);
  }

  /** Builds the operation rows and sorts them (`ops_rows.sort(...)`). */
  method OperationRows(reg: Registry) returns (ops: seq<OpRow>)
    ensures ops == OperationsOf(reg)
  {
    var rows := CollectOps(reg);
    OpLePreorder();
    ops := SortBy(rows, OpLe);
  }

  // ---------------------------------------------------------------------------
  // Properties of the operation rows

  /** An empty cell counts as zero. */
  function Shown(v: Option<real>): real {
    v.GetOr(0.0)
  }

  /**
   * The columns of a row agree: income rows carry their amount as base, total
   * and impact; expense rows total base plus shown extra minus shown discount
   * and lower the balance by that total.
   */
  predicate Balanced(r: OpRow) {
    if r.source == ItemLine then
      r.category == Expense && r.rowTotal == r.base + Shown(r.extra) - Shown(r.discount) && r.balanceImpact == -r.rowTotal
    else
      r.category == Income && r.rowTotal == r.base && r.balanceImpact == r.rowTotal
  }

  /** A payment row: dated income, balanced. */
  predicate IncomeRow(r: OpRow) {
    Balanced(r) && r.source != ItemLine && r.date.Some?
  }

  /** An item row: a balanced expense. */
  predicate ExpenseRow(r: OpRow) {
    Balanced(r) && r.source == ItemLine
  }

  function Impact(r: OpRow): real { r.balanceImpact }
  function RowTotalOf(r: OpRow): real { r.rowTotal }
  function Amount(rec: Payment): real { rec.amount }

  /** The i-th row of a payment loop is the row of the i-th payment of an existing project. */
  lemma PaymentOpsAre(pb: map<int, Project>, recs: seq<Payment>, planned: bool)
    ensures |PaymentOps(pb, recs, planned)| == |Filter(recs, HasProject(pb))|
    ensures forall i :: 0 <= i < |PaymentOps(pb, recs, planned)| ==>
      Filter(recs, HasProject(pb))[i].projectId in pb
      && PaymentOps(pb, recs, planned)[i] == PaymentOp(pb[Filter(recs, HasProject(pb))[i].projectId], Filter(recs, HasProject(pb))[i], planned)
  {
    var kept := Filter(recs, HasProject(pb));
    MapFilterAt(recs, HasProject(pb), PaymentOpOf(pb, planned));
    forall i | 0 <= i < |kept| ensures kept[i].projectId in pb {
      assert kept[i] in kept;
    }
  }

  /** The i-th row of the item loop is the row of the i-th item whose project and group exist. */
  lemma ItemOpsAre(pb: map<int, Project>, lk: Estimate.Lookups, items: seq<ExpenseItem>)
    ensures |ItemOps(pb, lk, items)| == |Filter(items, IsPlaced(pb, lk))|
    ensures forall i :: 0 <= i < |ItemOps(pb, lk, items)| ==>
      IsPlaced(pb, lk)(Filter(items, IsPlaced(pb, lk))[i])
      && ItemOps(pb, lk, items)[i] == ItemOpOf(pb, lk)(Filter(items, IsPlaced(pb, lk))[i])
  {
    var kept := Filter(items, IsPlaced(pb, lk));
    MapFilterAt(items, IsPlaced(pb, lk), ItemOpOf(pb, lk));
    forall i | 0 <= i < |kept| ensures IsPlaced(pb, lk)(kept[i]) {
      assert kept[i] in kept;
    }
  }

  lemma PaymentOpsFacts(pb: map<int, Project>, recs: seq<Payment>, planned: bool)
    ensures forall r :: r in PaymentOps(pb, recs, planned) ==> IncomeRow(r)
    ensures SumOf(PaymentOps(pb, recs, planned), Impact) == SumOf(Filter(recs, HasProject(pb)), Amount)
  {
    MapFilterAll(recs, HasProject(pb), PaymentOpOf(pb, planned), IncomeRow);
    MapFilterSum(recs, HasProject(pb), PaymentOpOf(pb, planned), Impact, Amount);
  }

  lemma ItemOpsFacts(pb: map<int, Project>, lk: Estimate.Lookups, items: seq<ExpenseItem>)
    ensures forall r :: r in ItemOps(pb, lk, items) ==> ExpenseRow(r)
    ensures SumOf(ItemOps(pb, lk, items), Impact) == -SumOf(ItemOps(pb, lk, items), RowTotalOf)
  {
    MapFilterAll(items, IsPlaced(pb, lk), ItemOpOf(pb, lk), ExpenseRow);
    SumOfNegated(ItemOps(pb, lk, items), Impact, RowTotalOf);
  }

  /**
   * The operation rows are sorted by the export's key: undated rows come
   * after all dated ones, and dated rows run in date order.
   */
  lemma OperationsOrder(reg: Registry)
    ensures SortedBy(OperationsOf(reg), OpLe)
    ensures forall i, j :: 0 <= i < j < |OperationsOf(reg)| && OperationsOf(reg)[i].date.None? ==> OperationsOf(reg)[j].date.None?
    ensures forall i, j :: 0 <= i < j < |OperationsOf(reg)| && OperationsOf(reg)[i].date.Some? && OperationsOf(reg)[j].date.Some? ==>
      DateLe(OperationsOf(reg)[i].date.value, OperationsOf(reg)[j].date.value)
  {
    var ops := OperationsOf(reg);
    forall i, j | 0 <= i < j < |ops| && ops[i].date.Some? && ops[j].date.Some?
      ensures DateLe(ops[i].date.value, ops[j].date.value)
    {
      assert OpLe(ops[i], ops[j]);
      DateLeIsTotalOrder();
    }
  }

  /**
   * The operations sheet lists every payment of an existing project and every
   * item of an existing project and group, each once, and every row's columns
   * are balanced.
   */
  lemma OperationsContent(reg: Registry)
    ensures multiset(OperationsOf(reg)) == multiset(UnsortedOps(reg))
    ensures |OperationsOf(reg)| == |Filter(reg.facts, HasProject(ProjectsById(reg)))| + |Filter(reg.plans, HasProject(ProjectsById(reg)))|
      + |Filter(reg.items, IsPlaced(ProjectsById(reg), LookupsOf(reg)))|
    ensures forall r :: r in OperationsOf(reg) ==> Balanced(r)
  {
    var pb, lk := ProjectsById(reg), LookupsOf(reg);
    var facts, plans, its := PaymentOps(pb, reg.facts, false), PaymentOps(pb, reg.plans, true), ItemOps(pb, lk, reg.items);
    PaymentOpsFacts(pb, reg.facts, false);
    PaymentOpsFacts(pb, reg.plans, true);
    ItemOpsFacts(pb, lk, reg.items);
    forall r | r in OperationsOf(reg) ensures Balanced(r) {
      assert r in multiset(UnsortedOps(reg));
      assert r in facts || r in plans || r in its;
    }
  }

  /** The balance impacts add up to the payments kept minus the item row totals. */
  lemma OperationsBalance(reg: Registry)
    ensures SumOf(OperationsOf(reg), Impact)
      == SumOf(Filter(reg.facts, HasProject(ProjectsById(reg))), Amount) + SumOf(Filter(reg.plans, HasProject(ProjectsById(reg))), Amount)
         - SumOf(ItemOps(ProjectsById(reg), LookupsOf(reg), reg.items), RowTotalOf)
  {
    var pb, lk := ProjectsById(reg), LookupsOf(reg);
    var facts, plans, its := PaymentOps(pb, reg.facts, false), PaymentOps(pb, reg.plans, true), ItemOps(pb, lk, reg.items);
    SumOfPermutation(OperationsOf(reg), UnsortedOps(reg), Impact);
    SumOfAppend(facts + plans, its, Impact);
    SumOfAppend(facts, plans, Impact);
    PaymentOpsFacts(pb, reg.facts, false);
    PaymentOpsFacts(pb, reg.plans, true);
    ItemOpsFacts(pb, lk, reg.items);
  }

  /** The source texts sort planned payments first, then actual payments, then items. */
  lemma SourceTextOrder()
    ensures StrLt(SourceText(PlanPayment), SourceText(FactPayment))
    ensures StrLt(SourceText(FactPayment), SourceText(ItemLine))
  {
    assert SourceText(PlanPayment) == "Оплата " + "план" && SourceText(FactPayment) == "Оплата " + "факт";
    StrLeConcat("Оплата ", "Оплата ", "план", "факт");
    assert StrLe("план", "факт");
  }

  // ---------------------------------------------------------------------------
  // Project and organisation rollups

  /** One row of the per-project sheet. */
  datatype ProjectRow = ProjectRow(
    title: string,
    organization: string,
    priceTotal: real,
    received: real,
    expensesTotal: real,
    agencyFee: real,
    extraProfitTotal: real,
    discountTotal: real,
    usnTax: real,
    inPocket: real,
    diff: real,
    closedAt: Option<Date>)

  /** `compute_project_financials` for a stored project. */
  function FiguresOf(p: Project, items: seq<ExpenseItem>): Financials {
    FinancialsOf(p.id, p, EffectiveRowsOf(EffectiveRows.ProjectItems(items, p.id)))
  }

  /**
   * A project's row: its payments of both kinds, whatever their dates, and the
   * figures of `compute_project_financials`. The discount and USN columns read
   * keys those figures do not have, so they are zero.
   */
  function ProjectRowOf(p: Project, reg: Registry): ProjectRow {
    var fin := FiguresOf(p, reg.items);
    ProjectRow(p.title, OrgName(p), p.priceTotal,
      PaymentsSum(reg.facts, p.id, AnyDate()) + PaymentsSum(reg.plans, p.id, AnyDate()),
      fin.expensesTotal, fin.agencyFee, fin.extraProfitTotal, 0.0, 0.0, fin.inPocket, fin.diff, p.closedAt)
  }

  function ProjectRowsOf(reg: Registry): (rows: seq<ProjectRow>)
    ensures |rows| == |reg.projects|
  {
    seq(|reg.projects|, i requires 0 <= i < |reg.projects| => ProjectRowOf(reg.projects[i], reg))
  }

  /**
   * A project's row shows what the overview reports as received and planned at
   * any date, plus its actual payments dated after that date; its pocket is fee
   * plus extra profit and its balance is price minus expenses.
   */
  lemma ProjectRowLemma(p: Project, reg: Registry, at: Date)
    ensures var row := ProjectRowOf(p, reg);
      && row.received == ReceivedToDate(reg.facts, reg.plans, p.id, at) + PlannedToDate(reg.plans, p.id, at)
           + PaymentsSum(reg.facts, p.id, After(at))
      && row.inPocket == row.agencyFee + row.extraProfitTotal
      && row.diff == row.priceTotal - row.expensesTotal
      && row.discountTotal == 0.0 && row.usnTax == 0.0
  {
    ReceivedPlusPlanned(reg.facts, reg.plans, p.id, at);
    PaymentsSplit(reg.facts, p.id, at);
  }

  /** The summed columns of the rollup, in sheet order. */
  datatype Column = PriceCol | ReceivedCol | ExpensesCol | AgencyCol | ExtraCol | DiscountCol | UsnCol | PocketCol | DiffCol

  function Cell(r: ProjectRow, c: Column): real {
    match c
    case PriceCol => r.priceTotal
    case ReceivedCol => r.received
    case ExpensesCol => r.expensesTotal
    case AgencyCol => r.agencyFee
    case ExtraCol => r.extraProfitTotal
    case DiscountCol => r.discountTotal
    case UsnCol => r.usnTax
    case PocketCol => r.inPocket
    case DiffCol => r.diff
  }

  function CellOf(c: Column): ProjectRow -> real {
    r => Cell(r, c)
  }

  /** An organisation's accumulator: a project count and one sum per column. */
  datatype OrgTotals = OrgTotals(
    projects: nat,
    projectTotal: real,
    receivedTotal: real,
    expensesTotal: real,
    agencyFee: real,
    extraProfitTotal: real,
    discountTotal: real,
    usnTax: real,
    inPocket: real,
    diff: real)

  function Total(t: OrgTotals, c: Column): real {
    match c
    case PriceCol => t.projectTotal
    case ReceivedCol => t.receivedTotal
    case ExpensesCol => t.expensesTotal
    case AgencyCol => t.agencyFee
    case ExtraCol => t.extraProfitTotal
    case DiscountCol => t.discountTotal
    case UsnCol => t.usnTax
    case PocketCol => t.inPocket
    case DiffCol => t.diff
  }

  /** The `defaultdict` entry of an organisation not seen yet. */
  const NoTotals := OrgTotals(0, 0.0, 0.0, 0.0, 0.0, 0.0, 0.0, 0.0, 0.0, 0.0)

  /** `agg["projects"] += 1` and every column of the row added to its sum. */
  function Accumulate(t: OrgTotals, r: ProjectRow): (u: OrgTotals)
    ensures u.projects == t.projects + 1
    ensures forall c :: Total(u, c) == Total(t, c) + Cell(r, c)
  {
    OrgTotals(t.projects + 1, t.projectTotal + r.priceTotal, t.receivedTotal + r.received,
      t.expensesTotal + r.expensesTotal, t.agencyFee + r.agencyFee, t.extraProfitTotal + r.extraProfitTotal,
      t.discountTotal + r.discountTotal, t.usnTax + r.usnTax, t.inPocket + r.inPocket, t.diff + r.diff)
  }

  function TotalsAt(m: map<string, OrgTotals>, org: string): OrgTotals {
    if org in m then m[org] else NoTotals
  }

  /** `org_agg` after the rows in turn. */
  function OrgTotalsOf(rows: seq<ProjectRow>): map<string, OrgTotals> {
    if |rows| == 0 then map[]
    else
      var n := |rows| - 1;
      var m := OrgTotalsOf(rows[..n]);
      m[rows[n].organization := Accumulate(TotalsAt(m, rows[n].organization), rows[n])]
  }

  /** The keys of `org_agg` in insertion order: each organisation where it first appears. */
  function OrgOrderOf(rows: seq<ProjectRow>): seq<string> {
    if |rows| == 0 then []
    else
      var n := |rows| - 1;
      var o := OrgOrderOf(rows[..n]);
      if rows[n].organization in o then o else o + [rows[n].organization]
  }

  /** `key=lambda x: x.lower()`. */
  predicate CaseFoldLe(a: string, b: string) {
    StrLe(Lower(a), Lower(b))
  }

  lemma CaseFoldPreorder()
    ensures TotalPreorder(CaseFoldLe)
  {
    StrLeTotalOrder();
  }

  /**
   * `sorted(org_agg.keys(), key=lambda x: x.lower())`: every organisation
   * once, in case-insensitive order, ties kept in order of first appearance.
   */
  function OrgNamesOf(rows: seq<ProjectRow>): (names: seq<string>)
    ensures SortedBy(names, CaseFoldLe)
    ensures Distinct(names)
    ensures forall org :: org in names <==> org in OrgTotalsOf(rows)
  {
    CaseFoldPreorder();
    OrgKeys(rows);
    var names := SortBy(OrgOrderOf(rows), CaseFoldLe);
    DistinctPermutation(OrgOrderOf(rows), names);
    names
  }

  /** One row of the per-organisation sheet. */
  datatype OrgRow = OrgRow(organization: string, totals: OrgTotals)

  /** The per-organisation sheet: each organisation's name and accumulated totals, in name order. */
  function OrgRowsOf(rows: seq<ProjectRow>): seq<OrgRow> {
    var m, names := OrgTotalsOf(rows), OrgNamesOf(rows);
    seq(|names|, i requires 0 <= i < |names| => OrgRow(names[i], m[names[i]]))
  }

  lemma OrgStep(rows: seq<ProjectRow>, row: ProjectRow)
    ensures OrgTotalsOf(rows + [row]) == OrgTotalsOf(rows)[row.organization := Accumulate(TotalsAt(OrgTotalsOf(rows), row.organization), row)]
    ensures OrgOrderOf(rows + [row]) == if row.organization in OrgOrderOf(rows) then OrgOrderOf(rows) else OrgOrderOf(rows) + [row.organization]
  {
    assert (rows + [row])[..|rows|] == rows;
  }

  /** One pass of the project loop's rollup: `org_agg[org_name]` updated with the row. */
  method AddToOrg(totals: map<string, OrgTotals>, order: seq<string>, row: ProjectRow)
    returns (totals': map<string, OrgTotals>, order': seq<string>)
    ensures totals' == totals[row.organization := Accumulate(TotalsAt(totals, row.organization), row)]
    ensures order' == if row.organization in order then order else order + [row.organization]
  {
    var agg := if row.organization in totals then totals[row.organization] else NoTotals;
    agg := agg.(projects := agg.projects + 1, projectTotal := agg.projectTotal + row.priceTotal,
      receivedTotal := agg.receivedTotal + row.received, expensesTotal := agg.expensesTotal + row.expensesTotal,
      agencyFee := agg.agencyFee + row.agencyFee, extraProfitTotal := agg.extraProfitTotal + row.extraProfitTotal,
      discountTotal := agg.discountTotal + row.discountTotal, usnTax := agg.usnTax + row.usnTax,
      inPocket := agg.inPocket + row.inPocket, diff := agg.diff + row.diff);
    totals' := totals[row.organization := agg];
    order' := if row.organization in order then order else order + [row.organization];
  }

  /** A project's row, reading its figures through `compute_project_financials`. */
  method ProjectRowFor(p: Project, reg: Registry) returns (row: ProjectRow)
    ensures row == ProjectRowOf(p, reg)
  {
    var fin := ComputeProjectFinancials(map[p.id := p], p.id, reg.items);
    var received := PaymentsSum(reg.facts, p.id, AnyDate()) + PaymentsSum(reg.plans, p.id, AnyDate());
    row := ProjectRow(p.title, OrgName(p), p.priceTotal, received, fin.expensesTotal, fin.agencyFee,
      fin.extraProfitTotal, 0.0, 0.0, fin.inPocket, fin.diff, p.closedAt);
  }

  /** The project loop: a row per project, each added to its organisation's totals. */
  method ProjectLoop(reg: Registry) returns (projectRows: seq<ProjectRow>, totals: map<string, OrgTotals>, order: seq<string>)
    ensures projectRows == ProjectRowsOf(reg)
    ensures totals == OrgTotalsOf(projectRows) && order == OrgOrderOf(projectRows)
  {
    projectRows, totals, order := [], map[], [];
    var k := 0;
    while k < |reg.projects|
      invariant k <= |reg.projects| && projectRows == ProjectRowsOf(reg)[..k]
      invariant totals == OrgTotalsOf(projectRows) && order == OrgOrderOf(projectRows)
    {
      var row := ProjectRowFor(reg.projects[k], reg);
      PrefixStep(ProjectRowsOf(reg), k);
      OrgStep(projectRows, row);
      totals, order := AddToOrg(totals, order, row);
      projectRows := projectRows + [row];
      k := k + 1;
    }
  }

  /** The organisation loop: one row per name, with that organisation's totals. */
  method OrgSheet(names: seq<string>, totals: map<string, OrgTotals>) returns (orgRows: seq<OrgRow>)
    requires forall org :: org in names ==> org in totals
    ensures |orgRows| == |names| && forall j :: 0 <= j < |names| ==> orgRows[j] == OrgRow(names[j], totals[names[j]])
  {
    orgRows := [];
    var i := 0;
    while i < |names|
      invariant i <= |names| && |orgRows| == i
      invariant forall j :: 0 <= j < i ==> orgRows[j] == OrgRow(names[j], totals[names[j]])
    {
      orgRows := orgRows + [OrgRow(names[i], totals[names[i]])];
      i := i + 1;
    }
  }

  /** The project loop and the organisation sheet. */
  method Rollups(reg: Registry) returns (projectRows: seq<ProjectRow>, orgRows: seq<OrgRow>)
    ensures projectRows == ProjectRowsOf(reg)
    ensures orgRows == OrgRowsOf(projectRows)
  {
    var totals, order;
    projectRows, totals, order := ProjectLoop(reg);
    CaseFoldPreorder();
    var names := SortBy(order, CaseFoldLe);
    assert names == OrgNamesOf(projectRows);
    orgRows := OrgSheet(names, totals);
  }

  /** `export_full_registry_excel`: the three sheets' rows. */
  method ExportRegistry(reg: Registry) returns (ops: seq<OpRow>, projectRows: seq<ProjectRow>, orgRows: seq<OrgRow>)
    ensures ops == OperationsOf(reg)
    ensures projectRows == ProjectRowsOf(reg) && orgRows == OrgRowsOf(projectRows)
  {
    ops := OperationRows(reg);
    projectRows, orgRows := Rollups(reg);
  }

  // ---------------------------------------------------------------------------
  // Properties of the rollup

  /** `org_agg` has a key for exactly the organisations listed in its insertion order, each once. */
  lemma {:induction false} OrgKeys(rows: seq<ProjectRow>)
    ensures forall org :: org in OrgTotalsOf(rows) <==> org in OrgOrderOf(rows)
    ensures forall org :: org in OrgOrderOf(rows) <==> exists r :: r in rows && r.organization == org
    ensures Distinct(OrgOrderOf(rows))
    decreases |rows|
  {
    if |rows| > 0 {
      var n := |rows| - 1;
      OrgKeys(rows[..n]);
      assert rows == rows[..n] + [rows[n]];
    }
  }

  function OrgIs(org: string): ProjectRow -> bool {
    (r: ProjectRow) => r.organization == org
  }

  /** Each organisation's totals count its projects and sum each column over them. */
  lemma {:induction false} OrgTotalsAreSums(rows: seq<ProjectRow>, org: string)
    requires org in OrgTotalsOf(rows)
    ensures OrgTotalsOf(rows)[org].projects == |Filter(rows, OrgIs(org))|
    ensures forall c :: Total(OrgTotalsOf(rows)[org], c) == SumOf(Filter(rows, OrgIs(org)), CellOf(c))
    decreases |rows|
  {
    var n := |rows| - 1;
    var init, last := rows[..n], rows[n];
    var sel := OrgIs(org);
    var t := OrgTotalsOf(rows)[org];
    var before := TotalsAt(OrgTotalsOf(init), org);
    if org in OrgTotalsOf(init) {
      OrgTotalsAreSums(init, org);
    } else {
      OrgKeys(init);
      FilterNone(init, sel);
      assert forall c :: Total(before, c) == 0.0 by {
        forall c ensures Total(before, c) == 0.0 { }
      }
    }
    forall c ensures Total(t, c) == SumOf(Filter(rows, sel), CellOf(c)) {
      SumOfFilterLast(rows, sel, CellOf(c));
    }
  }


  /**
   * Each row of the organisation sheet counts that organisation's projects and
   * sums every column over them; every project's organisation has a row.
   */
  lemma OrgRowsLemma(rows: seq<ProjectRow>)
    ensures forall r :: r in rows ==> r.organization in OrgNamesOf(rows)
    ensures forall i :: 0 <= i < |OrgRowsOf(rows)| ==>
      OrgRowsOf(rows)[i].organization == OrgNamesOf(rows)[i]
      && OrgRowsOf(rows)[i].totals.projects == |Filter(rows, OrgIs(OrgNamesOf(rows)[i]))|
      && forall c :: Total(OrgRowsOf(rows)[i].totals, c) == SumOf(Filter(rows, OrgIs(OrgNamesOf(rows)[i])), CellOf(c))
  {
    var out, names := OrgRowsOf(rows), OrgNamesOf(rows);
    OrgKeys(rows);
    forall i | 0 <= i < |out|
      ensures out[i].totals.projects == |Filter(rows, OrgIs(names[i]))|
      ensures forall c :: Total(out[i].totals, c) == SumOf(Filter(rows, OrgIs(names[i])), CellOf(c))
    {
      OrgTotalsAreSums(rows, names[i]);
    }
  }

  /** No organisation accumulates anything in a column that is zero in every row. */
  lemma {:induction false} ZeroTotals(rows: seq<ProjectRow>)
    requires forall r :: r in rows ==> r.discountTotal == 0.0 && r.usnTax == 0.0
    ensures forall org :: org in OrgTotalsOf(rows) ==> OrgTotalsOf(rows)[org].discountTotal == 0.0 && OrgTotalsOf(rows)[org].usnTax == 0.0
    decreases |rows|
  {
    if |rows| > 0 {
      var n := |rows| - 1;
      assert rows[n] in rows;
      forall r | r in rows[..n] ensures r.discountTotal == 0.0 && r.usnTax == 0.0 { assert r in rows; }
      ZeroTotals(rows[..n]);
    }
  }

  /** The discount and USN columns of the organisation sheet are zero. */
  lemma MissingColumnsZero(reg: Registry)
    ensures forall o :: o in OrgRowsOf(ProjectRowsOf(reg)) ==> o.totals.discountTotal == 0.0 && o.totals.usnTax == 0.0
  {
    var rows := ProjectRowsOf(reg);
    ZeroTotals(rows);
  }
}

=== FILE: financials.dfy ===
/**
 * Per-project figures of backend/app/utils.py: the financial summary, the
 * spending to a date, the active-project rule and the received / planned
 * payment sums.
 */
module Financials {
  import opened Wrappers
  import opened Calendar
  import opened Models
  import opened EffectiveRows

  /** The sum of the base totals of the rows. */
  function BaseSum(rows: seq<EffectiveRow>): real {
    if |rows| == 0 then 0.0 else BaseSum(rows[..|rows| - 1]) + rows[|rows| - 1].baseTotal
  }

  /** The sum of the extra-profit totals of the rows. */
  function ExtraSum(rows: seq<EffectiveRow>): real {
    if |rows| == 0 then 0.0 else ExtraSum(rows[..|rows| - 1]) + rows[|rows| - 1].extraTotal
  }

  /** The internal cost of the rows: base plus extra profit, row by row. */
  function CostSum(rows: seq<EffectiveRow>): real {
    if |rows| == 0 then 0.0
    else CostSum(rows[..|rows| - 1]) + (rows[|rows| - 1].baseTotal + rows[|rows| - 1].extraTotal)
  }

  /** The internal cost is the base sum plus the extra-profit sum. */
  lemma {:induction false} CostIsBasePlusExtra(rows: seq<EffectiveRow>)
    ensures CostSum(rows) == BaseSum(rows) + ExtraSum(rows)
    decreases |rows|
  {
    if |rows| > 0 {
      CostIsBasePlusExtra(rows[..|rows| - 1]);
    }
  }

  datatype Financials = Financials(
    projectId: int,
    expensesTotal: real,
    agencyFee: real,
    extraProfitTotal: real,
    inPocket: real,
    diff: real)

  /**
   * The figures of an existing project over its effective rows: internal
   * expenses (base plus extra), the fee on the project price, the pocket
   * (fee plus extra profit) and the margin of price over expenses.
   */
  function FinancialsOf(projectId: int, p: Project, rows: seq<EffectiveRow>): (f: Financials)
    ensures f.projectId == projectId
    ensures f.expensesTotal == BaseSum(rows) + ExtraSum(rows) && f.extraProfitTotal == ExtraSum(rows)
    ensures f.agencyFee == p.priceTotal * (p.agencyFeePercent / 100.0)
    ensures f.inPocket == f.agencyFee + f.extraProfitTotal
    ensures f.diff == p.priceTotal - BaseSum(rows) - ExtraSum(rows)
    ensures p.priceTotal >= 0.0 && p.agencyFeePercent >= 0.0 ==> f.agencyFee >= 0.0
  {
    CostIsBasePlusExtra(rows);
    var agencyFee := Fee(p.priceTotal, p.agencyFeePercent / 100.0);
    Financials(projectId, CostSum(rows), agencyFee, ExtraSum(rows), agencyFee + ExtraSum(rows), p.priceTotal - CostSum(rows))
  }

  /** The summing loop of `compute_project_financials`. */
  method RowTotals(rows: seq<EffectiveRow>) returns (expensesTotal: real, extraProfitTotal: real)
    ensures expensesTotal == BaseSum(rows) + ExtraSum(rows) && extraProfitTotal == ExtraSum(rows)
  {
    expensesTotal := 0.0;
    extraProfitTotal := 0.0;
    var i := 0;
    while i < |rows|
      invariant 0 <= i <= |rows|
      invariant expensesTotal == CostSum(rows[..i]) && extraProfitTotal == ExtraSum(rows[..i])
    {
      assert rows[..i + 1][..i] == rows[..i];
      expensesTotal := expensesTotal + (rows[i].baseTotal + rows[i].extraTotal);
      extraProfitTotal := extraProfitTotal + rows[i].extraTotal;
      i := i + 1;
    }
    assert rows[..|rows|] == rows;
    CostIsBasePlusExtra(rows);
  }

  /**
   * `compute_project_financials`: the running sums over the project's
   * effective rows, then the fee, pocket and difference of the project; all
   * zero when the project does not exist.
   */
  method ComputeProjectFinancials(projects: map<int, Project>, projectId: int, items: seq<ExpenseItem>)
    returns (f: Financials)
    ensures f.projectId == projectId
    ensures projectId !in projects ==> f == Financials(projectId, 0.0, 0.0, 0.0, 0.0, 0.0)
    ensures projectId in projects ==> f == FinancialsOf(projectId, projects[projectId], EffectiveRowsOf(ProjectItems(items, projectId)))
  {
    var rows := EffectiveParentItems(ProjectItems(items, projectId));
    f := FinancialsFromRows(projects, projectId, rows);
  }

  /** The sums over the given effective rows, then the project's figures. */
  method FinancialsFromRows(projects: map<int, Project>, projectId: int, rows: seq<EffectiveRow>)
    returns (f: Financials)
    ensures projectId !in projects ==> f == Financials(projectId, 0.0, 0.0, 0.0, 0.0, 0.0)
    ensures projectId in projects ==> f == FinancialsOf(projectId, projects[projectId], rows)
  {
    var expensesTotal, extraProfitTotal := RowTotals(rows);
    if projectId !in projects {
      return Financials(projectId, 0.0, 0.0, 0.0, 0.0, 0.0);
    }
    var project := projects[projectId];
    var projectTotal := project.priceTotal;
    var agencyFee := Fee(projectTotal, project.agencyFeePercent / 100.0);
    var inPocket := agencyFee + extraProfitTotal;
    var diff := projectTotal - expensesTotal;
    f := Financials(projectId, expensesTotal, agencyFee, extraProfitTotal, inPocket, diff);
  }

  /** A row counts toward spending at `at` unless it is planned for a later date. */
  predicate DueBy(r: EffectiveRow, at: Date) {
    r.plannedPayDate.None? || DateLe(r.plannedPayDate.value, at)
  }

  function BaseDueBy(rows: seq<EffectiveRow>, at: Date): real {
    if |rows| == 0 then 0.0
    else BaseDueBy(rows[..|rows| - 1], at) + (if DueBy(rows[|rows| - 1], at) then rows[|rows| - 1].baseTotal else 0.0)
  }

  function ExtraDueBy(rows: seq<EffectiveRow>, at: Date): real {
    if |rows| == 0 then 0.0
    else ExtraDueBy(rows[..|rows| - 1], at) + (if DueBy(rows[|rows| - 1], at) then rows[|rows| - 1].extraTotal else 0.0)
  }

  /** The base totals of the rows planned strictly after `at`. */
  function BaseDueAfter(rows: seq<EffectiveRow>, at: Date): real {
    if |rows| == 0 then 0.0
    else
      var r := rows[|rows| - 1];
      BaseDueAfter(rows[..|rows| - 1], at) + (if r.plannedPayDate.Some? && DateLt(at, r.plannedPayDate.value) then r.baseTotal else 0.0)
  }

  /**
   * Spending to a date and spending after it partition the base totals: every
   * row falls on exactly one side of `at`, undated rows on the spent side.
   */
  lemma {:induction false} SpentPartition(rows: seq<EffectiveRow>, at: Date)
    ensures BaseDueBy(rows, at) + BaseDueAfter(rows, at) == BaseSum(rows)
    decreases |rows|
  {
    if |rows| > 0 {
      SpentPartition(rows[..|rows| - 1], at);
      var r := rows[|rows| - 1];
      if r.plannedPayDate.Some? {
        DateLeTotal(r.plannedPayDate.value, at);
      }
    }
  }

  /** Once every dated row is on or before `at`, everything counts as spent. */
  lemma {:induction false} SpentWhenAllDue(rows: seq<EffectiveRow>, at: Date)
    requires forall r :: r in rows ==> DueBy(r, at)
    ensures BaseDueBy(rows, at) == BaseSum(rows)
    ensures ExtraDueBy(rows, at) == ExtraSum(rows)
    decreases |rows|
  {
    if |rows| > 0 {
      assert rows[|rows| - 1] in rows;
      forall r | r in rows[..|rows| - 1] ensures DueBy(r, at) {
        assert r in rows;
      }
      SpentWhenAllDue(rows[..|rows| - 1], at);
    }
  }

  /**
   * `expense_breakdown_to_date`: the base totals ("spent") and the extra
   * profit of the project's effective rows that are undated or dated on or
   * before `at`.
   */
  method ExpenseBreakdownToDate(items: seq<ExpenseItem>, projectId: int, at: Date)
    returns (spentBase: real, extraProfit: real)
    ensures var rows := EffectiveRowsOf(ProjectItems(items, projectId));
      spentBase == BaseDueBy(rows, at) && extraProfit == ExtraDueBy(rows, at)
  {
    var rows := EffectiveParentItems(ProjectItems(items, projectId));
    spentBase, extraProfit := DueTotals(rows, at);
  }

  /** The summing loop of `expense_breakdown_to_date`. */
  method DueTotals(rows: seq<EffectiveRow>, at: Date) returns (spentBase: real, extraProfit: real)
    ensures spentBase == BaseDueBy(rows, at) && extraProfit == ExtraDueBy(rows, at)
  {
    spentBase := 0.0;
    extraProfit := 0.0;
    var i := 0;
    while i < |rows|
      invariant 0 <= i <= |rows|
      invariant spentBase == BaseDueBy(rows[..i], at) && extraProfit == ExtraDueBy(rows[..i], at)
    {
      assert rows[..i + 1][..i] == rows[..i];
      var dueDate := rows[i].plannedPayDate;
      if dueDate.Some? && DateLt(at, dueDate.value) {
      } else {
        spentBase := spentBase + rows[i].baseTotal;
        extraProfit := extraProfit + rows[i].extraTotal;
      }
      i := i + 1;
    }
    assert rows[..|rows|] == rows;
  }

  /**
   * `is_project_active`: a project is active on `at` from its creation date
   * up to and including its closing date, if any.
   */
  function IsProjectActive(p: Project, at: Date): (active: bool)
    ensures active <==> DateLe(p.createdAt.date, at) && (p.closedAt.None? || DateLe(at, p.closedAt.value))
  {
    if DateLt(at, p.createdAt.date) then false
    else if p.closedAt.Some? && DateLt(p.closedAt.value, at) then false
    else true
  }

  /** Activity is an interval of dates: active on two dates means active on every date between them. */
  lemma ActiveIsInterval(p: Project, a: Date, b: Date, c: Date)
    requires IsProjectActive(p, a) && IsProjectActive(p, c)
    requires DateLe(a, b) && DateLe(b, c)
    ensures IsProjectActive(p, b)
  {
    DateLeTrans(p.createdAt.date, a, b);
    if p.closedAt.Some? {
      DateLeTrans(b, c, p.closedAt.value);
    }
  }

  /** `SUM(amount)` over a project's payments whose date satisfies `sel`, zero when none. */
  function PaymentsSum(ps: seq<Payment>, projectId: int, sel: Date -> bool): real {
    if |ps| == 0 then 0.0
    else
      var p := ps[|ps| - 1];
      PaymentsSum(ps[..|ps| - 1], projectId, sel) + (if p.projectId == projectId && sel(p.payDate) then p.amount else 0.0)
  }

  function OnOrBefore(at: Date): Date -> bool { d => DateLe(d, at) }
  function After(at: Date): Date -> bool { d => DateLt(at, d) }
  function AnyDate(): Date -> bool { d => true }

  /** `received_to_date`: actual and planned payments dated on or before `at`. */
  function ReceivedToDate(facts: seq<Payment>, plans: seq<Payment>, projectId: int, at: Date): real {
    PaymentsSum(facts, projectId, OnOrBefore(at)) + PaymentsSum(plans, projectId, OnOrBefore(at))
  }

  /** `planned_to_date`: planned payments dated strictly after `at`. */
  function PlannedToDate(plans: seq<Payment>, projectId: int, at: Date): real {
    PaymentsSum(plans, projectId, After(at))
  }

  lemma {:induction false} PaymentsSplit(ps: seq<Payment>, projectId: int, at: Date)
    ensures PaymentsSum(ps, projectId, OnOrBefore(at)) + PaymentsSum(ps, projectId, After(at))
      == PaymentsSum(ps, projectId, AnyDate())
    decreases |ps|
  {
    if |ps| > 0 {
      PaymentsSplit(ps[..|ps| - 1], projectId, at);
      DateLeTotal(ps[|ps| - 1].payDate, at);
    }
  }

  /**
   * Every planned payment is counted exactly once: received-to-date plus
   * planned-after-date is all actual payments to date plus all planned ones.
   */
  lemma ReceivedPlusPlanned(facts: seq<Payment>, plans: seq<Payment>, projectId: int, at: Date)
    ensures ReceivedToDate(facts, plans, projectId, at) + PlannedToDate(plans, projectId, at)
      == PaymentsSum(facts, projectId, OnOrBefore(at)) + PaymentsSum(plans, projectId, AnyDate())
  {
    PaymentsSplit(plans, projectId, at);
  }
}

=== FILE: life.dfy ===
/**
 * `_life_for_month` of backend/app/routers/life.py as the step-by-step
 * procedure it is: the inflow table built project by project, the timeline
 * grown month by month, each month's deposit and draw, the snapshots around
 * the selected month and the breakdown rows. Each method is proved equal to
 * the function of LifeRun or LifeDraw that specifies it, and the properties
 * of the answer are proved about those functions.
 */
module Life {
  import opened Wrappers
  import opened Calendar
  import opened Sorting
  import opened Collections
  import opened Models
  import opened MonthKeys
  import opened CashEngine
  import opened LifeDraw
  import opened LifeRun

  /** The pocket amounts of one project, month by month, added to `inflow` when positive. */
  method AddProjectMonthly(inflow: Savings, pid: int, monthly: map<int, Bucket>) returns (r: Savings)
    ensures r == AddMonthly(inflow, pid, monthly, SortedInts(monthly.Keys), 0)
  {
    r := inflow;
    var months := SortedInts(monthly.Keys);
    var j := 0;
    while j < |months|
      invariant j <= |months|
      invariant AddMonthly(r, pid, monthly, months, j) == AddMonthly(inflow, pid, monthly, months, 0)
    {
      var m := months[j];
      var amount := monthly[m].inPocket;
      if amount > 0.0 {
        r := AddTo(r, m, pid, amount);
      }
      j := j + 1;
    }
  }

  /** One project more: its monthly amounts added to the table built so far. */
  lemma {:induction false} InflowFromStep(inflow: Savings, next: Savings, projects: seq<Project>, facts: seq<Payment>,
                                          plans: seq<Payment>, items: seq<ExpenseItem>, asOf: Date, i: nat, monthly: map<int, Bucket>)
    requires i < |projects| && monthly == PocketMonthly(projects[i], facts, plans, items, asOf)
    requires next == AddMonthly(inflow, projects[i].id, monthly, SortedInts(monthly.Keys), 0)
    ensures InflowFrom(inflow, projects, facts, plans, items, asOf, i) == InflowFrom(next, projects, facts, plans, items, asOf, i + 1)
  {
  }

  /** One pass of the project loop: the project's positive monthly amounts added to `inflow`. */
  method AddProjectInflow(inflow: Savings, projects: seq<Project>, facts: seq<Payment>, plans: seq<Payment>,
                          items: seq<ExpenseItem>, asOf: Date, i: nat) returns (next: Savings)
    requires i < |projects|
    ensures InflowFrom(inflow, projects, facts, plans, items, asOf, i) == InflowFrom(next, projects, facts, plans, items, asOf, i + 1)
  {
    var monthly := ProjectPocketMonthlyComponents(projects[i], facts, plans, items, asOf);
    next := AddProjectMonthly(inflow, projects[i].id, monthly);
    InflowFromStep(inflow, next, projects, facts, plans, items, asOf, i, monthly);
  }

  /** `inflow_by_month_project`: every project's positive monthly pocket amounts as of `asOf`. */
  method CollectInflow(projects: seq<Project>, facts: seq<Payment>, plans: seq<Payment>, items: seq<ExpenseItem>, asOf: Date)
    returns (inflow: Savings)
    ensures inflow == Inflow(projects, facts, plans, items, asOf)
  {
    inflow := map[];
    for i := 0 to |projects|
      invariant InflowFrom(inflow, projects, facts, plans, items, asOf, i) == Inflow(projects, facts, plans, items, asOf)
    {
      inflow := AddProjectInflow(inflow, projects, facts, plans, items, asOf, i);
    }
  }

  /** The contiguous timeline: start at `first` and append the next month while the last is before `last`. */
  method BuildTimeline(first: int, last: int) returns (timeline: seq<int>)
    ensures timeline == TimelineOf(first, last)
  {
    timeline := [first];
    while timeline[|timeline| - 1] < last
      invariant |timeline| >= 1 && timeline[|timeline| - 1] <= (if first <= last then last else first)
      invariant forall i :: 0 <= i < |timeline| ==> timeline[i] == first + i
      decreases last - timeline[|timeline| - 1]
    {
      timeline := timeline + [timeline[|timeline| - 1] + 1];
    }
    var t := TimelineOf(first, last);
    assert |timeline| == |t|;
    assert forall i :: 0 <= i < |t| ==> timeline[i] == t[i];
  }

  /** A timeline month's own inflow goes into its own bucket, project by project. */
  method DepositMonth(s: Savings, inflow: Savings, month: int) returns (r: Savings)
    ensures r == Deposit(s, inflow, month)
  {
    r := s;
    if month in inflow {
      var bucket := inflow[month];
      var pids := SortedInts(bucket.Keys);
      var j := 0;
      while j < |pids|
        invariant j <= |pids|
        invariant DepositFrom(r, month, bucket, pids, j) == Deposit(s, inflow, month)
      {
        var amount := bucket[pids[j]];
        if amount > 0.0 {
          r := AddTo(r, month, pids[j], amount);
        }
        j := j + 1;
      }
    }
  }

  /** `_copy_savings_state`: the positive balances of every bucket that keeps one, bucket by bucket in any order. */
  method CopySavingsState(source: Savings) returns (snapshot: Savings)
    ensures snapshot == Snapshot(source)
  {
    snapshot := map[];
    var rest := source.Keys;
    while rest != {}
      invariant rest <= source.Keys
      invariant forall m :: m in snapshot ==>
        m in source && m !in rest && PositivePart(source[m]) != map[] && snapshot[m] == PositivePart(source[m])
      invariant forall m :: m in source && m !in rest && PositivePart(source[m]) != map[] ==> m in snapshot
      decreases rest
    {
      var month := Pick(rest);
      var monthSnapshot := PositivePart(source[month]);
      if monthSnapshot != map[] {
        snapshot := snapshot[month := monthSnapshot];
      }
      rest := rest - {month};
    }
    SnapshotExt(source, snapshot);
  }

  lemma SnapshotExt(s: Savings, t: Savings)
    requires forall m :: m in t ==> m in s && PositivePart(s[m]) != map[] && t[m] == PositivePart(s[m])
    requires forall m :: m in s && PositivePart(s[m]) != map[] ==> m in t
    ensures t == Snapshot(s)
  {
    var r := Snapshot(s);
    forall m ensures m in t <==> m in r {
      if m in s && PositivePart(s[m]) != map[] {
        assert m in r && m in t;
      }
    }
    forall m | m in t ensures t[m] == r[m] {
    }
    assert t.Keys == r.Keys;
  }

  lemma DrainPidsStep(st: Draw, month: int, pids: seq<int>, j: nat)
    requires j < |pids|
    ensures DrainPids(st, month, pids, j) == DrainPids(TakeOne(st, month, pids[j]), month, pids, j + 1)
  {
  }

  /**
   * One project's turn in a bucket: skipped when its balance is gone,
   * otherwise it gives up to the open need and a balance drawn to zero is
   * removed.
   */
  method TakeFrom(st: Draw, month: int, pid: int) returns (r: Draw)
    requires st.need > 0.0 && month in st.savings
    ensures r == TakeOne(st, month, pid)
  {
    var available := if pid in st.savings[month] then st.savings[month][pid] else 0.0;
    if available <= 0.0 {
      return st;
    }
    var take := Min(available, st.need);
    var bucket := st.savings[month][pid := available - take];
    if available - take <= 0.0 {
      bucket := st.savings[month] - {pid};
    }
    r := Draw(st.savings[month := bucket], st.need - take, st.takes + [Take(pid, month, take)]);
  }

  /** The projects `pids` of one bucket in turn, until the need is met. */
  method DrainBucketPids(st: Draw, month: int, pids: seq<int>) returns (r: Draw)
    requires month in st.savings
    ensures r == DrainPids(st, month, pids, 0)
  {
    r := st;
    var j := 0;
    while j < |pids|
      invariant j <= |pids| && month in r.savings
      invariant DrainPids(r, month, pids, j) == DrainPids(st, month, pids, 0)
    {
      if r.need <= 0.0 {
        DrainPidsStop(r, month, pids, j);
        break;
      }
      DrainPidsStep(r, month, pids, j);
      r := TakeFrom(r, month, pids[j]);
      j := j + 1;
    }
  }

  /**
   * One bucket's projects in ascending id order, each giving up to the open
   * need; a bucket left empty is removed.
   */
  method DrainOneBucket(st: Draw, month: int) returns (r: Draw)
    requires st.need > 0.0 && month in st.savings && st.savings[month] != map[]
    ensures r == DrainBucket(st, month)
  {
    r := DrainBucketPids(st, month, SortedInts(st.savings[month].Keys));
    if month in r.savings && r.savings[month] == map[] {
      r := Draw(r.savings - {month}, r.need, r.takes);
    }
  }

  /**
   * One timeline month's draw of `target`: the month's own bucket first,
   * then the older buckets newest first, until the need is met.
   */
  method DrainMonth(s: Savings, month: int, target: real) returns (d: Draw)
    ensures d == DrawMonth(s, month, target)
  {
    d := Draw(s, target, []);
    var order := ConsumeOrder(s, month);
    var k := 0;
    while k < |order|
      invariant k <= |order|
      invariant DrainOrder(d, order, k) == DrawMonth(s, month, target)
    {
      if d.need <= 0.0 {
        DrainOrderStop(d, order, k);
        break;
      }
      var monthBucket := order[k];
      if monthBucket in d.savings && d.savings[monthBucket] != map[] {
        d := DrainOneBucket(d, monthBucket);
      }
      k := k + 1;
    }
  }

  /**
   * The timeline loop: deposit, draw, and at the month before the selected
   * one record the savings before the draw and the draw itself, and stop.
   */
  method RunTimeline(inflow: Savings, timeline: seq<int>, target: real, selected: int) returns (run: Run)
    ensures run == RunFrom(map[], inflow, timeline, 0, target, selected)
  {
    var savings: Savings := map[];
    var i := 0;
    while i < |timeline|
      invariant i <= |timeline|
      invariant RunFrom(savings, inflow, timeline, i, target, selected) == RunFrom(map[], inflow, timeline, 0, target, selected)
    {
      var sourceMonth := timeline[i];
      savings := DepositMonth(savings, inflow, sourceMonth);
      var isSelected := sourceMonth + 1 == selected;
      var before: Savings := map[];
      if isSelected {
        before := CopySavingsState(savings);
      }
      var d := DrainMonth(savings, sourceMonth, target);
      savings := d.savings;
      if isSelected {
        return Run(savings, Some(Selection(before, d)));
      }
      i := i + 1;
    }
    run := Run(savings, None);
  }

  /** The keys `(pid, month)` for every project of one bucket, added to `keys`. */
  method AddBucketKeys(keys: set<RowKey>, month: int, bucket: map<int, real>) returns (r: set<RowKey>)
    ensures forall k :: k in r <==> k in keys || (k.month == month && k.pid in bucket)
  {
    r := keys;
    var rest := bucket.Keys;
    while rest != {}
      invariant rest <= bucket.Keys
      invariant forall k :: k in r <==> k in keys || (k.month == month && k.pid in bucket && k.pid !in rest)
      decreases rest
    {
      var pid := Pick(rest);
      r := r + {RowKey(pid, month)};
      rest := rest - {pid};
    }
  }

  /** `keys_for_breakdown`: the source month's inflow, the buckets before the draw, and every take. */
  method CollectBreakdownKeys(lg: Ledgers) returns (keys: set<RowKey>)
    ensures keys == BreakdownKeys(lg)
  {
    keys := {};
    if lg.source in lg.inflow {
      keys := AddBucketKeys(keys, lg.source, lg.inflow[lg.source]);
    }
    ghost var fromInflow := keys;
    var months := lg.before.Keys;
    while months != {}
      invariant months <= lg.before.Keys
      invariant forall k :: k in keys <==>
        k in fromInflow || (k.month in lg.before && k.month !in months && k.pid in lg.before[k.month])
      decreases months
    {
      var month := Pick(months);
      keys := AddBucketKeys(keys, month, lg.before[month]);
      months := months - {month};
    }
    ghost var fromBefore := keys;
    var t := 0;
    while t < |lg.takes|
      invariant t <= |lg.takes|
      invariant forall k :: k in keys <==> k in fromBefore || exists u :: u in lg.takes[..t] && k == RowKey(u.pid, u.month)
    {
      var u := lg.takes[t];
      keys := keys + {RowKey(u.pid, u.month)};
      assert lg.takes[..t + 1] == lg.takes[..t] + [u];
      t := t + 1;
    }
    assert lg.takes[..t] == lg.takes;
    assert forall k :: k in keys <==> k in BreakdownKeys(lg);
  }

  lemma RowsFromStep(byId: map<int, Project>, lg: Ledgers, keys: seq<RowKey>, k: nat)
    requires k < |keys|
    ensures RowsFrom(byId, lg, keys, k)
      == (if RowOf(byId, lg, keys[k]).Some? then [RowOf(byId, lg, keys[k]).value] else []) + RowsFrom(byId, lg, keys, k + 1)
  {
  }

  /** The breakdown rows in sort-key order, skipping unknown projects and rows with nothing positive. */
  method Breakdown(byId: map<int, Project>, lg: Ledgers) returns (rows: seq<BreakdownRow>)
    ensures rows == RowsFrom(byId, lg, OrderedKeys(byId, lg.source, BreakdownKeys(lg)), 0)
  {
    var keys := CollectBreakdownKeys(lg);
    rows := BuildRows(byId, lg, OrderedKeys(byId, lg.source, keys));
  }

  /** One row per key in turn. */
  method BuildRows(byId: map<int, Project>, lg: Ledgers, ordered: seq<RowKey>) returns (rows: seq<BreakdownRow>)
    ensures rows == RowsFrom(byId, lg, ordered, 0)
  {
    rows := [];
    for k := 0 to |ordered|
      invariant rows + RowsFrom(byId, lg, ordered, k) == RowsFrom(byId, lg, ordered, 0)
    {
      var row := BuildRow(byId, lg, ordered[k]);
      RowsAccumulate(byId, lg, ordered, k, rows, row);
      if row.Some? {
        rows := rows + [row.value];
      }
    }
  }

  /** The step of the row loop: the rows so far plus the rows of the later keys stay the same. */
  lemma RowsAccumulate(byId: map<int, Project>, lg: Ledgers, keys: seq<RowKey>, k: nat, rows: seq<BreakdownRow>, row: Option<BreakdownRow>)
    requires k < |keys| && row == RowOf(byId, lg, keys[k])
    ensures row.Some? ==> rows + [row.value] + RowsFrom(byId, lg, keys, k + 1) == rows + RowsFrom(byId, lg, keys, k)
    ensures row.None? ==> rows + RowsFrom(byId, lg, keys, k + 1) == rows + RowsFrom(byId, lg, keys, k)
  {
    RowsFromStep(byId, lg, keys, k);
    if row.Some? {
      assert rows + [row.value] + RowsFrom(byId, lg, keys, k + 1) == rows + ([row.value] + RowsFrom(byId, lg, keys, k + 1));
    }
  }

  /** The body of the row loop: the key's figures, or nothing for an unknown project or an all-zero row. */
  method BuildRow(byId: map<int, Project>, lg: Ledgers, key: RowKey) returns (row: Option<BreakdownRow>)
    ensures row == RowOf(byId, lg, key)
  {
    if key.pid !in byId {
      return None;
    }
    var project := byId[key.pid];
    var opening := Balance(lg.before, key.month, key.pid);
    var used := UsedOf(lg.takes, key.pid, key.month);
    var closing := Balance(lg.after, key.month, key.pid);
    var inflowIn := Balance(lg.inflow, key.month, key.pid);
    if opening <= 0.0 && used <= 0.0 && closing <= 0.0 && inflowIn <= 0.0 {
      return None;
    }
    row := Some(BreakdownRow(key.pid, project.title, project.clientName, key.month, key.month == lg.source,
                             opening, inflowIn, used, closing));
  }

  /**
   * The month setup: the selected month must be accepted, its previous key
   * must exist and be accepted as well, and `as_of` is the source month's
   * last day.
   */
  method MonthSetupOf(selected: string) returns (r: Result<MonthSetup, LifeError>)
    ensures r == SetupOf(selected)
  {
    var start := MonthKeyToStart(selected);
    if start.Err? {
      return Err(BadMonth(start.error));
    }
    var prev := MonthPrev(selected);
    if prev.None? {
      return Err(NotAMonthKey);
    }
    var sourceStart := MonthKeyToStart(prev.value);
    if sourceStart.Err? {
      return Err(BadMonth(sourceStart.error));
    }
    r := Ok(MonthSetup(start.value, sourceStart.value, MonthEnd(sourceStart.value)));
  }

  /** What the selected month covered, the reserve it drew, and the ledgers of its breakdown; zeros when it was never reached. */
  method SelectedFigures(source: int, inflow: Savings, target: real, run: Run) returns (covered: real, reserve: real, lg: Ledgers)
    ensures run.selected.None? ==> covered == 0.0 && reserve == 0.0
    ensures run.selected.Some? ==>
      (covered == target - Max(run.selected.value.draw.need, 0.0) && reserve == ReserveSum(run.selected.value.draw.takes, source))
    ensures lg == LedgersOf(inflow, source, run)
  {
    covered, reserve := 0.0, 0.0;
    lg := Ledgers(inflow, source, map[], map[], []);
    if run.selected.Some? {
      var sel := run.selected.value;
      covered := target - Max(sel.draw.need, 0.0);
      reserve := ReserveSum(sel.draw.takes, source);
      var after := CopySavingsState(sel.draw.savings);
      lg := Ledgers(inflow, source, sel.before, after, sel.draw.takes);
    }
  }

  /** The figures of the selected month after the timeline loop, and its breakdown. */
  method ReportRun(start: Date, source: int, inflow: Savings, target: real, run: Run, byId: map<int, Project>)
    returns (out: LifeOut)
    requires 1 <= start.month <= 12
    ensures out == Report(start, source, inflow, target, run, byId)
  {
    var covered, reserve, lg := SelectedFigures(source, inflow, target, run);
    var lifeCovered := Max(covered, 0.0);
    var rows := Breakdown(byId, lg);
    out := LifeOut(start, MonthEnd(start), target, lifeCovered, Max(target - lifeCovered, 0.0),
                   Max(reserve, 0.0), SavingsTotal(run.savings), rows);
  }

  /**
   * `_life_for_month`: validate the month, collect the inflow, run the
   * timeline up to the source month, and report the selected month's
   * figures and breakdown.
   */
  method LifeForMonth(projects: seq<Project>, facts: seq<Payment>, plans: seq<Payment>, items: seq<ExpenseItem>,
                      target: real, selected: string) returns (r: Result<LifeOut, LifeError>)
    ensures r == LifeFor(projects, facts, plans, items, target, selected)
  {
    var setup := MonthSetupOf(selected);
    if setup.Err? {
      return Err(setup.error);
    }
    var st := setup.value;
    var byId := ProjectsById(projects);
    var inflow := CollectInflow(projects, facts, plans, items, st.asOf);
    if inflow == map[] {
      return Ok(LifeOut(st.start, MonthEnd(st.start), target, 0.0, target, 0.0, 0.0, []));
    }
    var source := MonthIndex(st.sourceStart.year, st.sourceStart.month);
    var timeline := BuildTimeline(SortedInts(inflow.Keys)[0], source);
    var run := RunTimeline(inflow, timeline, target, MonthIndex(st.start.year, st.start.month));
    var out := ReportRun(st.start, source, inflow, target, run, byId);
    r := Ok(out);
  }
}

=== FILE: life_draw.dfy ===
/**
 * The savings buckets of the life projector (backend/app/routers/life.py) and
 * how one month's living cost is drawn from them: the current month's bucket
 * first, then older buckets newest first, and within a bucket the projects in
 * ascending id order, each giving `min(available, need)`.
 *
 * Months are month indices (`MonthIndex`), which order the same way as the
 * `YYYY-MM` keys the source uses (see `MonthKeyLaws.MonthKeyOrder`).
 */
module LifeDraw {
  import opened Wrappers
  import opened Collections
  import opened Sorting

  /** `savings[month][project_id]`: what each project still holds for each source month. */
  type Savings = map<int, map<int, real>>

  /** `savings.get(month, {}).get(pid, 0.0)`. */
  function Balance(s: Savings, month: int, pid: int): real {
    if month in s && pid in s[month] then s[month][pid] else 0.0
  }

  /** Every stored balance is positive. */
  predicate Positive(s: Savings) {
    forall m, p :: m in s && p in s[m] ==> s[m][p] > 0.0
  }

  /** Positive balances and no empty bucket: the state between two months. */
  predicate Healthy(s: Savings) {
    Positive(s) && forall m :: m in s ==> s[m] != map[]
  }

  /** `savings[month][pid] += amount`, creating a missing bucket or balance at zero. */
  function AddTo(s: Savings, month: int, pid: int, amount: real): (r: Savings)
    ensures r.Keys == s.Keys + {month}
  {
    var bucket := if month in s then s[month] else map[];
    s[month := bucket[pid := Balance(s, month, pid) + amount]]
  }

  /** Adding a positive amount keeps the savings healthy and raises exactly one balance. */
  lemma AddToLemma(s: Savings, month: int, pid: int, amount: real)
    requires Healthy(s) && amount > 0.0
    ensures Healthy(AddTo(s, month, pid, amount))
    ensures forall m, p ::
      Balance(AddTo(s, month, pid, amount), m, p) == Balance(s, m, p) + (if m == month && p == pid then amount else 0.0)
  {
    var r := AddTo(s, month, pid, amount);
    assert Balance(s, month, pid) >= 0.0;
    assert pid in r[month];
  }

  /** `_copy_savings_state`: the positive balances only, and only buckets that keep one. */
  function Snapshot(s: Savings): Savings {
    map m | m in s && PositivePart(s[m]) != map[] :: PositivePart(s[m])
  }

  function PositivePart(bucket: map<int, real>): map<int, real> {
    map p | p in bucket && bucket[p] > 0.0 :: bucket[p]
  }

  /** A snapshot reads the positive balances unchanged; of healthy savings it is an exact copy. */
  lemma SnapshotLemma(s: Savings)
    ensures forall m, p :: Balance(Snapshot(s), m, p) == (if Balance(s, m, p) > 0.0 then Balance(s, m, p) else 0.0)
    ensures Healthy(s) ==> Snapshot(s) == s
  {
    forall m, p ensures Balance(Snapshot(s), m, p) == (if Balance(s, m, p) > 0.0 then Balance(s, m, p) else 0.0) {
      if m in s && p in s[m] && s[m][p] > 0.0 {
        assert p in PositivePart(s[m]);
      }
    }
    if Healthy(s) {
      forall m | m in s ensures PositivePart(s[m]) == s[m] {
        forall p | p in s[m] ensures p in PositivePart(s[m]) {
          assert s[m][p] > 0.0;
        }
        assert PositivePart(s[m]).Keys == s[m].Keys;
      }
      forall m | m in s ensures m in Snapshot(s) {
        assert PositivePart(s[m]) == s[m];
      }
      assert Snapshot(s).Keys == s.Keys;
    }
  }

  /** One draw from one project's balance in one bucket (`used_for_selected[(pid, month)] += take`). */
  datatype Take = Take(pid: int, month: int, amount: real)

  /** The total drawn by a list of takes. */
  function TakenSum(takes: seq<Take>): real {
    if |takes| == 0 then 0.0 else TakenSum(takes[..|takes| - 1]) + takes[|takes| - 1].amount
  }

  /** What the takes drew from one project's balance in one bucket. */
  function UsedOf(takes: seq<Take>, pid: int, month: int): real {
    if |takes| == 0 then 0.0
    else
      var t := takes[|takes| - 1];
      UsedOf(takes[..|takes| - 1], pid, month) + (if t.pid == pid && t.month == month then t.amount else 0.0)
  }

  /** What the takes drew from buckets other than `month` (the reserve). */
  function ReserveSum(takes: seq<Take>, month: int): real {
    if |takes| == 0 then 0.0
    else
      var t := takes[|takes| - 1];
      ReserveSum(takes[..|takes| - 1], month) + (if t.month != month then t.amount else 0.0)
  }

  /** The savings, the need still open this month, and the takes so far. */
  datatype Draw = Draw(savings: Savings, need: real, takes: seq<Take>)

  /**
   * One project's balance in one bucket: nothing once the need is met or the
   * balance is not positive, otherwise `take = min(available, need)`, and a
   * balance drawn down to zero is removed from its bucket.
   */
  function TakeOne(st: Draw, month: int, pid: int): Draw {
    if st.need <= 0.0 || month !in st.savings || pid !in st.savings[month] || st.savings[month][pid] <= 0.0 then st
    else
      var available := st.savings[month][pid];
      var take := Min(available, st.need);
      var rest := available - take;
      var bucket := if rest <= 0.0 then st.savings[month] - {pid} else st.savings[month][pid := rest];
      Draw(st.savings[month := bucket], st.need - take, st.takes + [Take(pid, month, take)])
  }

  /** The projects `pids[i..]` of one bucket in turn. */
  function DrainPids(st: Draw, month: int, pids: seq<int>, i: nat): Draw
    requires i <= |pids|
    decreases |pids| - i
  {
    if i == |pids| then st else DrainPids(TakeOne(st, month, pids[i]), month, pids, i + 1)
  }

  /**
   * One bucket of the consume order: skipped once the need is met or when the
   * bucket is missing or empty; otherwise its projects in ascending id order,
   * after which an emptied bucket is removed.
   */
  function DrainBucket(st: Draw, month: int): Draw {
    if st.need <= 0.0 || month !in st.savings || st.savings[month] == map[] then st
    else
      var r := DrainPids(st, month, SortedInts(st.savings[month].Keys), 0);
      if month in r.savings && r.savings[month] == map[] then Draw(r.savings - {month}, r.need, r.takes) else r
  }

  /** The buckets `order[i..]` in turn. */
  function DrainOrder(st: Draw, order: seq<int>, i: nat): Draw
    requires i <= |order|
    decreases |order| - i
  {
    if i == |order| then st else DrainOrder(DrainBucket(st, order[i]), order, i + 1)
  }

  /** `sorted(ks, reverse=True)`; that it descends is `DescendingOrder`. */
  function Descending(ks: set<int>): (r: seq<int>)
    ensures |r| == |ks| && forall x :: x in r <==> x in ks
  {
    var up := SortedInts(ks);
    var r := seq(|up|, k requires 0 <= k < |up| => up[|up| - 1 - k]);
    forall x | x in up ensures x in r {
      var j :| 0 <= j < |up| && up[j] == x;
      assert r[|up| - 1 - j] == x;
    }
    r
  }

  /** `sorted(ks, reverse=True)` descends strictly. */
  lemma DescendingOrder(ks: set<int>)
    ensures forall i, j :: 0 <= i < j < |Descending(ks)| ==> Descending(ks)[i] > Descending(ks)[j]
  {
    SortedIntsAscending(ks);
  }

  /** The buckets strictly older than `month`. */
  function OlderMonths(s: Savings, month: int): set<int> {
    set k | k in s && k < month
  }

  /** `[month] + [k for k in sorted(savings, reverse=True) if k != month and k < month]`. */
  function ConsumeOrder(s: Savings, month: int): seq<int> {
    [month] + Descending(OlderMonths(s, month))
  }

  /** The draw of one timeline month: a fresh `need = target` taken along the consume order. */
  function DrawMonth(s: Savings, month: int, target: real): Draw {
    DrainOrder(Draw(s, target, []), ConsumeOrder(s, month), 0)
  }

  /**
   * Draws conserve money: the need fell by exactly what the new takes drew,
   * and every balance fell by exactly what was drawn from it.
   */
  ghost predicate Conserves(a: Draw, b: Draw) {
    a.need - b.need == TakenSum(b.takes) - TakenSum(a.takes)
    && forall m, p :: Balance(b.savings, m, p) + UsedOf(b.takes, p, m) == Balance(a.savings, m, p) + UsedOf(a.takes, p, m)
  }

  /** Every take drew a positive amount. */
  predicate PositiveTakes(takes: seq<Take>) {
    forall t :: t in takes ==> t.amount > 0.0
  }

  /** Every take drew from the bucket of `month`. */
  predicate AllFrom(takes: seq<Take>, month: int) {
    forall t :: t in takes ==> t.month == month
  }

  /** `b` is `a` with one bucket's balances drawn down: same buckets, the others untouched, no new project. */
  ghost predicate Narrows(a: Savings, b: Savings, month: int) {
    b.Keys == a.Keys
    && (forall k :: k in a && k != month ==> b[k] == a[k])
    && (month in a ==> b[month].Keys <= a[month].Keys)
  }

  /** The sums over a list of takes with one more take. */
  lemma TakesAppend(takes: seq<Take>, t: Take)
    ensures TakenSum(takes + [t]) == TakenSum(takes) + t.amount
    ensures forall m :: ReserveSum(takes + [t], m) == ReserveSum(takes, m) + (if t.month != m then t.amount else 0.0)
    ensures forall p, m :: UsedOf(takes + [t], p, m) == UsedOf(takes, p, m) + (if t.pid == p && t.month == m then t.amount else 0.0)
  {
    assert (takes + [t])[..|takes|] == takes;
  }

  /** One take: balances stay positive, the need stays non-negative, and money is conserved. */
  lemma TakeOneLemma(st: Draw, month: int, pid: int)
    requires Positive(st.savings) && st.need >= 0.0 && PositiveTakes(st.takes)
    ensures var r := TakeOne(st, month, pid);
      Positive(r.savings) && PositiveTakes(r.takes) && 0.0 <= r.need <= st.need
      && Conserves(st, r) && Narrows(st.savings, r.savings, month)
      && (AllFrom(st.takes, month) ==> AllFrom(r.takes, month))
      && (r.need > 0.0 && month in st.savings ==> pid !in r.savings[month])
  {
    if !(st.need <= 0.0 || month !in st.savings || pid !in st.savings[month] || st.savings[month][pid] <= 0.0) {
      TakeActive(st, month, pid);
    }
  }

  /** The take that actually draws: `min(available, need)` leaves both sides non-negative. */
  lemma TakeActive(st: Draw, month: int, pid: int)
    requires Positive(st.savings) && st.need > 0.0 && PositiveTakes(st.takes)
    requires month in st.savings && pid in st.savings[month]
    ensures var r := TakeOne(st, month, pid);
      Positive(r.savings) && PositiveTakes(r.takes) && 0.0 <= r.need <= st.need
      && Conserves(st, r) && Narrows(st.savings, r.savings, month)
      && (AllFrom(st.takes, month) ==> AllFrom(r.takes, month))
      && (r.need > 0.0 ==> pid !in r.savings[month])
  {
    var r := TakeOne(st, month, pid);
    var available := st.savings[month][pid];
    var take := Min(available, st.need);
    var t := Take(pid, month, take);
    assert r.takes == st.takes + [t];
    TakesAppend(st.takes, t);
    forall m, p
      ensures Balance(r.savings, m, p) + UsedOf(r.takes, p, m) == Balance(st.savings, m, p) + UsedOf(st.takes, p, m)
    {
      if m == month && p == pid {
        assert Balance(r.savings, m, p) == available - take;
      } else {
        assert Balance(r.savings, m, p) == Balance(st.savings, m, p);
      }
    }
  }

  /** Conservation composes. */
  lemma ConservesTrans(a: Draw, b: Draw, c: Draw)
    requires Conserves(a, b) && Conserves(b, c)
    ensures Conserves(a, c)
  {
    forall m, p
      ensures Balance(c.savings, m, p) + UsedOf(c.takes, p, m) == Balance(a.savings, m, p) + UsedOf(a.takes, p, m)
    {
      assert Balance(c.savings, m, p) + UsedOf(c.takes, p, m) == Balance(b.savings, m, p) + UsedOf(b.takes, p, m);
    }
  }

  /** A met need stops the draw: the rest of the bucket is left as it is (the source's `break`). */
  lemma {:induction false} DrainPidsStop(st: Draw, month: int, pids: seq<int>, i: nat)
    requires i <= |pids| && st.need <= 0.0
    ensures DrainPids(st, month, pids, i) == st
    decreases |pids| - i
  {
    if i < |pids| {
      DrainPidsStop(TakeOne(st, month, pids[i]), month, pids, i + 1);
    }
  }

  /**
   * A bucket's projects in turn: the facts of one take, and a need still open
   * at the end means every one of those projects was drawn down to nothing.
   */
  lemma {:induction false} DrainPidsLemma(st: Draw, month: int, pids: seq<int>, i: nat)
    requires i <= |pids|
    requires Positive(st.savings) && st.need >= 0.0 && PositiveTakes(st.takes)
    ensures var r := DrainPids(st, month, pids, i);
      Positive(r.savings) && PositiveTakes(r.takes) && 0.0 <= r.need <= st.need
      && Conserves(st, r) && Narrows(st.savings, r.savings, month)
      && (AllFrom(st.takes, month) ==> AllFrom(r.takes, month))
      && (r.need > 0.0 && month in st.savings ==> forall j :: i <= j < |pids| ==> pids[j] !in r.savings[month])
    decreases |pids| - i
  {
    if i < |pids| {
      var s1 := TakeOne(st, month, pids[i]);
      TakeOneLemma(st, month, pids[i]);
      DrainPidsLemma(s1, month, pids, i + 1);
      ConservesTrans(st, s1, DrainPids(s1, month, pids, i + 1));
    }
  }

  /** One bucket of the consume order keeps the buckets healthy and conserves money; an open need means the bucket is gone. */
  lemma DrainBucketLemma(st: Draw, month: int)
    requires Healthy(st.savings) && st.need >= 0.0 && PositiveTakes(st.takes)
    ensures BucketDrained(st, DrainBucket(st, month), month)
  {
    if !(st.need <= 0.0 || month !in st.savings || st.savings[month] == map[]) {
      var pids := SortedInts(st.savings[month].Keys);
      var r := DrainPids(st, month, pids, 0);
      DrainPidsLemma(st, month, pids, 0);
      if r.need > 0.0 {
        forall p | p in pids ensures p !in r.savings[month] {
          var j :| 0 <= j < |pids| && pids[j] == p;
        }
        assert r.savings[month].Keys == {};
      }
      if r.savings[month] == map[] {
        DropEmpty(st, r, month);
      } else {
        KeepBucket(st, r, month);
      }
    }
  }

  /** What one bucket of the consume order guarantees. */
  ghost predicate BucketDrained(st: Draw, r: Draw, month: int) {
    Healthy(r.savings) && PositiveTakes(r.takes) && 0.0 <= r.need <= st.need && Conserves(st, r)
    && r.savings.Keys <= st.savings.Keys
    && (forall k :: k in r.savings && k != month ==> r.savings[k] == st.savings[k])
    && (AllFrom(st.takes, month) ==> AllFrom(r.takes, month))
    && (r.need > 0.0 ==> month !in r.savings)
  }

  /** A bucket drawn down to nothing is removed. */
  lemma DropEmpty(st: Draw, r: Draw, month: int)
    requires Healthy(st.savings) && Positive(r.savings) && PositiveTakes(r.takes) && 0.0 <= r.need <= st.need
    requires Conserves(st, r) && Narrows(st.savings, r.savings, month) && (AllFrom(st.takes, month) ==> AllFrom(r.takes, month))
    requires month in r.savings && r.savings[month] == map[]
    ensures BucketDrained(st, Draw(r.savings - {month}, r.need, r.takes), month)
  {
    var d := Draw(r.savings - {month}, r.need, r.takes);
    forall m, p ensures Balance(d.savings, m, p) == Balance(r.savings, m, p) { }
    assert Conserves(r, d);
    ConservesTrans(st, r, d);
  }

  /** A bucket with balances left stays. */
  lemma KeepBucket(st: Draw, r: Draw, month: int)
    requires Healthy(st.savings) && Positive(r.savings) && PositiveTakes(r.takes) && 0.0 <= r.need <= st.need
    requires Conserves(st, r) && Narrows(st.savings, r.savings, month) && (AllFrom(st.takes, month) ==> AllFrom(r.takes, month))
    requires month in r.savings && r.savings[month] != map[] && r.need <= 0.0
    ensures BucketDrained(st, r, month)
  {
  }

  /** A met need stops the draw of the remaining buckets (the source's outer `break`). */
  lemma {:induction false} DrainOrderStop(st: Draw, order: seq<int>, i: nat)
    requires i <= |order| && st.need <= 0.0
    ensures DrainOrder(st, order, i) == st
    decreases |order| - i
  {
    if i < |order| {
      DrainOrderStop(DrainBucket(st, order[i]), order, i + 1);
    }
  }

  /** What the buckets `order[i..]` guarantee together. */
  ghost predicate OrderDrained(st: Draw, r: Draw, order: seq<int>, i: nat)
    requires i <= |order|
  {
    Healthy(r.savings) && PositiveTakes(r.takes) && 0.0 <= r.need <= st.need && Conserves(st, r)
    && r.savings.Keys <= st.savings.Keys
    && (r.need > 0.0 ==> forall j :: i <= j < |order| ==> order[j] !in r.savings)
  }

  /** The buckets `order[i..]` in turn; an open need at the end means every one of them is gone. */
  lemma {:induction false} DrainOrderLemma(st: Draw, order: seq<int>, i: nat)
    requires i <= |order|
    requires Healthy(st.savings) && st.need >= 0.0 && PositiveTakes(st.takes)
    ensures OrderDrained(st, DrainOrder(st, order, i), order, i)
    decreases |order| - i
  {
    if i < |order| {
      var s1 := DrainBucket(st, order[i]);
      DrainBucketLemma(st, order[i]);
      DrainOrderLemma(s1, order, i + 1);
      OrderStep(st, s1, DrainOrder(s1, order, i + 1), order, i);
    }
  }

  /** One more bucket in front of the rest. */
  lemma OrderStep(st: Draw, s1: Draw, r: Draw, order: seq<int>, i: nat)
    requires i < |order|
    requires BucketDrained(st, s1, order[i]) && OrderDrained(s1, r, order, i + 1)
    ensures OrderDrained(st, r, order, i)
  {
    ConservesTrans(st, s1, r);
  }

  /** The reserve is part of what was drawn. */
  lemma {:induction false} ReserveBounds(takes: seq<Take>, month: int)
    requires PositiveTakes(takes)
    ensures 0.0 <= ReserveSum(takes, month) <= TakenSum(takes)
    decreases |takes|
  {
    if |takes| > 0 {
      assert takes[|takes| - 1] in takes;
      ReserveBounds(takes[..|takes| - 1], month);
    }
  }

  /** Takes all from one bucket are no reserve for that bucket's month. */
  lemma {:induction false} NoReserveFromOwnMonth(takes: seq<Take>, month: int)
    requires AllFrom(takes, month)
    ensures ReserveSum(takes, month) == 0.0
    decreases |takes|
  {
    if |takes| > 0 {
      assert takes[|takes| - 1] in takes;
      NoReserveFromOwnMonth(takes[..|takes| - 1], month);
    }
  }

  /** Every older bucket appears in the consume order, and the current month comes first. */
  lemma ConsumeOrderCovers(s: Savings, month: int)
    ensures ConsumeOrder(s, month)[0] == month
    ensures forall k :: k in s && k <= month ==> k in ConsumeOrder(s, month)
    ensures forall i, j :: 1 <= i < j < |ConsumeOrder(s, month)| ==> ConsumeOrder(s, month)[i] > ConsumeOrder(s, month)[j]
    ensures forall i :: 1 <= i < |ConsumeOrder(s, month)| ==> ConsumeOrder(s, month)[i] < month
  {
    var d := Descending(OlderMonths(s, month));
    DescendingOrder(OlderMonths(s, month));
    forall k | k in s && k <= month ensures k in ConsumeOrder(s, month) {
      if k < month { assert k in d; }
    }
    forall i | 1 <= i < |ConsumeOrder(s, month)| ensures ConsumeOrder(s, month)[i] < month {
      assert ConsumeOrder(s, month)[i] == d[i - 1];
      assert d[i - 1] in OlderMonths(s, month);
    }
  }

  /**
   * One month's draw from healthy savings: the buckets stay healthy, the need
   * stays between 0 and the target, the takes add up to what was covered and
   * each balance fell by exactly what was drawn from it; the month falls short
   * only when no bucket of this month or an older one is left.
   */
  lemma DrawMonthLemma(s: Savings, month: int, target: real)
    requires Healthy(s) && target >= 0.0
    ensures var r := DrawMonth(s, month, target);
      Healthy(r.savings) && PositiveTakes(r.takes)
      && 0.0 <= r.need <= target && TakenSum(r.takes) == target - r.need
      && (forall m, p :: Balance(r.savings, m, p) + UsedOf(r.takes, p, m) == Balance(s, m, p))
      && (r.need > 0.0 ==> forall k :: k in r.savings ==> k > month)
  {
    var init := Draw(s, target, []);
    var order := ConsumeOrder(s, month);
    DrainOrderLemma(init, order, 0);
    ConsumeOrderCovers(s, month);
    var r := DrawMonth(s, month, target);
    if r.need > 0.0 {
      forall k | k in s && k <= month ensures k !in r.savings {
        var j :| 0 <= j < |order| && order[j] == k;
      }
    }
  }

  /**
   * The reserve is drawn only after the current month's bucket is used up,
   * and it never exceeds what was covered.
   */
  lemma ReserveAfterCurrent(s: Savings, month: int, target: real)
    requires Healthy(s) && target >= 0.0
    ensures var r := DrawMonth(s, month, target);
      0.0 <= ReserveSum(r.takes, month) <= TakenSum(r.takes)
      && (ReserveSum(r.takes, month) > 0.0 ==> month !in r.savings)
  {
    var init := Draw(s, target, []);
    var order := ConsumeOrder(s, month);
    var b1 := DrainBucket(init, month);
    DrainBucketLemma(init, month);
    DrainOrderLemma(b1, order, 1);
    var r := DrainOrder(b1, order, 1);
    assert r == DrawMonth(s, month, target);
    ReserveBounds(r.takes, month);
    NoReserveFromOwnMonth(b1.takes, month);
    if b1.need <= 0.0 {
      DrainOrderStop(b1, order, 1);
    }
  }
}

=== FILE: life_run.dfy ===
/**
 * The life projector of backend/app/routers/life.py as a specification: the
 * months it reads, the pocket inflow of every project by month, the timeline
 * of source months, the month-by-month draws from the savings buckets and
 * the figures and breakdown it reports for the selected month.
 */
module LifeRun {
  import opened Wrappers
  import opened Calendar
  import opened Text
  import opened Collections
  import opened Sorting
  import opened Models
  import opened MonthKeys
  import opened MonthKeyLaws
  import opened CashEngine
  import opened LifeDraw

  /**
   * Why the projector answers with an error: a rejected month (HTTP 400), or
   * the `ValueError` `_month_prev` raises on a key it cannot split.
   */
  datatype LifeError = BadMonth(reason: MonthError) | NotAMonthKey

  /** The selected month's first day, the source month's first day, and `as_of`, the source month's last day. */
  datatype MonthSetup = MonthSetup(start: Date, sourceStart: Date, asOf: Date)

  /**
   * The month setup of `_life_for_month`: the selected key must be accepted,
   * the source month is `_month_prev` of it and must be accepted as well,
   * and `as_of` is the last day of the source month.
   */
  function SetupOf(selected: string): (r: Result<MonthSetup, LifeError>)
    ensures r.Ok? ==>
      ValidDate(r.value.start) && r.value.start.day == 1 && ValidDate(r.value.sourceStart)
      && r.value.sourceStart.day == 1 && r.value.asOf == MonthEnd(r.value.sourceStart)
    ensures MonthKeyToStart(selected).Err? ==> r == Err(BadMonth(MonthKeyToStart(selected).error))
  {
    var start := MonthKeyToStart(selected);
    if start.Err? then Err(BadMonth(start.error))
    else
      var prev := MonthPrev(selected);
      if prev.None? then Err(NotAMonthKey)
      else
        var src := MonthKeyToStart(prev.value);
        if src.Err? then Err(BadMonth(src.error))
        else Ok(MonthSetup(start.value, src.value, MonthEnd(src.value)))
  }

  /**
   * For a canonical key after January 1900 the source month is the month
   * before the selected one.
   */
  lemma SetupOfCanonical(year: int, month: int)
    requires 1900 <= year <= 2100 && 1 <= month <= 12 && (year > 1900 || month > 1)
    ensures var p := PrevMonth(YearMonth(year, month));
      SetupOf(MonthKey(year, month)) == Ok(MonthSetup(Date(year, month, 1), Date(p.year, p.month, 1), MonthEnd(Date(p.year, p.month, 1))))
      && MonthIndex(p.year, p.month) + 1 == MonthIndex(year, month)
  {
    var ym := YearMonth(year, month);
    var p := PrevMonth(ym);
    MonthKeyToStartAccepts(year, month);
    MonthPrevStep(ym);
    MonthKeyToStartAccepts(p.year, p.month);
  }

  /** January 1900 is accepted as a month, but its source month, December 1899, is out of range. */
  lemma SetupOfJanuary1900(year: int, month: int)
    requires year == 1900 && month == 1
    ensures SetupOf(MonthKey(year, month)) == Err(BadMonth(OutOfRange))
  {
    var ym := YearMonth(year, month);
    var p := PrevMonth(ym);
    MonthKeyToStartAccepts(year, month);
    MonthPrevStep(ym);
    StripFormatted(p.year, p.month, 4, 2);
    SplitMonthKey(p.year, p.month);
  }

  /** `inflow[month][pid] += amount` for one positive pocket amount of one project's month. */
  function AddMonthly(inflow: Savings, pid: int, monthly: map<int, Bucket>, months: seq<int>, i: nat): Savings
    requires i <= |months|
    decreases |months| - i
  {
    if i == |months| then inflow
    else
      var m := months[i];
      var amount := if m in monthly then monthly[m].inPocket else 0.0;
      AddMonthly(if amount <= 0.0 then inflow else AddTo(inflow, m, pid, amount), pid, monthly, months, i + 1)
  }

  /** The pocket inflow of `projects[i..]` added to `inflow`. */
  function InflowFrom(inflow: Savings, projects: seq<Project>, facts: seq<Payment>, plans: seq<Payment>,
                      items: seq<ExpenseItem>, asOf: Date, i: nat): Savings
    requires i <= |projects|
    decreases |projects| - i
  {
    if i == |projects| then inflow
    else
      var monthly := PocketMonthly(projects[i], facts, plans, items, asOf);
      InflowFrom(AddMonthly(inflow, projects[i].id, monthly, SortedInts(monthly.Keys), 0), projects, facts, plans, items, asOf, i + 1)
  }

  /** `inflow_by_month_project`: each project's positive monthly pocket amounts as of `asOf`. */
  function Inflow(projects: seq<Project>, facts: seq<Payment>, plans: seq<Payment>, items: seq<ExpenseItem>, asOf: Date): Savings {
    InflowFrom(map[], projects, facts, plans, items, asOf, 0)
  }

  lemma {:induction false} AddMonthlyHealthy(inflow: Savings, pid: int, monthly: map<int, Bucket>, months: seq<int>, i: nat)
    requires i <= |months| && Healthy(inflow)
    ensures Healthy(AddMonthly(inflow, pid, monthly, months, i))
    decreases |months| - i
  {
    if i < |months| {
      var m := months[i];
      var amount := if m in monthly then monthly[m].inPocket else 0.0;
      if amount > 0.0 {
        AddToLemma(inflow, m, pid, amount);
      }
      AddMonthlyHealthy(if amount <= 0.0 then inflow else AddTo(inflow, m, pid, amount), pid, monthly, months, i + 1);
    }
  }

  lemma {:induction false} InflowFromHealthy(inflow: Savings, projects: seq<Project>, facts: seq<Payment>, plans: seq<Payment>,
                                             items: seq<ExpenseItem>, asOf: Date, i: nat)
    requires i <= |projects| && Healthy(inflow)
    ensures Healthy(InflowFrom(inflow, projects, facts, plans, items, asOf, i))
    decreases |projects| - i
  {
    if i < |projects| {
      var monthly := PocketMonthly(projects[i], facts, plans, items, asOf);
      AddMonthlyHealthy(inflow, projects[i].id, monthly, SortedInts(monthly.Keys), 0);
      InflowFromHealthy(AddMonthly(inflow, projects[i].id, monthly, SortedInts(monthly.Keys), 0), projects, facts, plans, items, asOf, i + 1);
    }
  }

  /** Every recorded inflow is positive, and every month recorded holds some. */
  lemma InflowHealthy(projects: seq<Project>, facts: seq<Payment>, plans: seq<Payment>, items: seq<ExpenseItem>, asOf: Date)
    ensures Healthy(Inflow(projects, facts, plans, items, asOf))
  {
    InflowFromHealthy(map[], projects, facts, plans, items, asOf, 0);
  }

  /** The inflow of `bucket`'s projects `pids[i..]` credited to `month`. */
  function DepositFrom(s: Savings, month: int, bucket: map<int, real>, pids: seq<int>, i: nat): Savings
    requires i <= |pids|
    decreases |pids| - i
  {
    if i == |pids| then s
    else
      var p := pids[i];
      var amount := if p in bucket then bucket[p] else 0.0;
      DepositFrom(if amount > 0.0 then AddTo(s, month, p, amount) else s, month, bucket, pids, i + 1)
  }

  /** The first step of a timeline month: its own inflow goes into its own bucket. */
  function Deposit(s: Savings, inflow: Savings, month: int): Savings {
    if month in inflow then DepositFrom(s, month, inflow[month], SortedInts(inflow[month].Keys), 0) else s
  }

  lemma {:induction false} DepositFromLemma(s: Savings, month: int, bucket: map<int, real>, pids: seq<int>, i: nat)
    requires i <= |pids| && Healthy(s)
    requires forall j, k :: i <= j < k < |pids| ==> pids[j] != pids[k]
    ensures Healthy(DepositFrom(s, month, bucket, pids, i))
    ensures forall m, p ::
      Balance(DepositFrom(s, month, bucket, pids, i), m, p) == Balance(s, m, p) + (if m == month && p in pids[i..] && p in bucket && bucket[p] > 0.0 then bucket[p] else 0.0)
    decreases |pids| - i
  {
    if i < |pids| {
      var q := pids[i];
      var amount := if q in bucket then bucket[q] else 0.0;
      var s1 := if amount > 0.0 then AddTo(s, month, q, amount) else s;
      if amount > 0.0 {
        AddToLemma(s, month, q, amount);
      }
      DepositFromLemma(s1, month, bucket, pids, i + 1);
      forall m, p ensures Balance(DepositFrom(s, month, bucket, pids, i), m, p)
        == Balance(s, m, p) + (if m == month && p in pids[i..] && p in bucket && bucket[p] > 0.0 then bucket[p] else 0.0)
      {
        assert p in pids[i..] <==> p == q || p in pids[i + 1..] by {
          assert pids[i..] == [q] + pids[i + 1..];
        }
        if p == q {
          assert q !in pids[i + 1..];
        }
      }
    }
  }

  /** Depositing a month's inflow keeps the savings healthy and raises each of its balances by that project's inflow. */
  lemma DepositLemma(s: Savings, inflow: Savings, month: int)
    requires Healthy(s) && Healthy(inflow)
    ensures Healthy(Deposit(s, inflow, month))
    ensures forall m, p :: Balance(Deposit(s, inflow, month), m, p) == Balance(s, m, p) + (if m == month then Balance(inflow, m, p) else 0.0)
  {
    if month in inflow {
      var pids := SortedInts(inflow[month].Keys);
      SortedIntsAscending(inflow[month].Keys);
      DepositFromLemma(s, month, inflow[month], pids, 0);
      assert pids[0..] == pids;
    }
  }

  /** The contiguous months `first..last` (just `[first]` when `last` is earlier). */
  function TimelineOf(first: int, last: int): (t: seq<int>)
    ensures |t| >= 1 && t[0] == first && t[|t| - 1] == (if first <= last then last else first)
    ensures forall i :: 0 <= i < |t| ==> t[i] == first + i
  {
    seq(if first <= last then last - first + 1 else 1, i => first + i)
  }

  /** The selected month's draw: the savings just before it and the draw itself. */
  datatype Selection = Selection(before: Savings, draw: Draw)

  /** The savings after the timeline, and the selected month's draw if it was reached. */
  datatype Run = Run(savings: Savings, selected: Option<Selection>)

  /**
   * The timeline loop from `timeline[i]` on: each month deposits its inflow,
   * then draws `target`; the month before the selected one (index
   * `selected - 1`) records its draw and ends the loop.
   */
  function RunFrom(s: Savings, inflow: Savings, timeline: seq<int>, i: nat, target: real, selected: int): Run
    requires i <= |timeline|
    decreases |timeline| - i
  {
    if i == |timeline| then Run(s, None)
    else
      var m := timeline[i];
      var s1 := Deposit(s, inflow, m);
      var d := DrawMonth(s1, m, target);
      if m + 1 == selected then Run(d.savings, Some(Selection(Snapshot(s1), d)))
      else RunFrom(d.savings, inflow, timeline, i + 1, target, selected)
  }

  /** What the run guarantees: healthy savings throughout, and a selected draw that conserves money. */
  ghost predicate GoodRun(run: Run, target: real) {
    Healthy(run.savings)
    && (run.selected.Some? ==> var sel := run.selected.value;
      Healthy(sel.before) && sel.draw.savings == run.savings && PositiveTakes(sel.draw.takes)
      && 0.0 <= sel.draw.need <= target && TakenSum(sel.draw.takes) == target - sel.draw.need
      && (forall m, p :: Balance(sel.draw.savings, m, p) + UsedOf(sel.draw.takes, p, m) == Balance(sel.before, m, p)))
  }

  lemma {:induction false} RunLemma(s: Savings, inflow: Savings, timeline: seq<int>, i: nat, target: real, selected: int)
    requires i <= |timeline| && Healthy(s) && Healthy(inflow) && target >= 0.0
    ensures GoodRun(RunFrom(s, inflow, timeline, i, target, selected), target)
    decreases |timeline| - i
  {
    if i < |timeline| {
      var m := timeline[i];
      var s1 := Deposit(s, inflow, m);
      DepositLemma(s, inflow, m);
      DrawMonthLemma(s1, m, target);
      var d := DrawMonth(s1, m, target);
      if m + 1 == selected {
        SnapshotLemma(s1);
      } else {
        RunLemma(d.savings, inflow, timeline, i + 1, target, selected);
      }
    }
  }

  /**
   * On a contiguous timeline whose last month is the one before the selected
   * month, the loop reaches the selected month and stops there.
   */
  lemma {:induction false} RunReachesSelected(s: Savings, inflow: Savings, timeline: seq<int>, i: nat, target: real, selected: int)
    requires i < |timeline| && timeline[|timeline| - 1] + 1 == selected
    requires forall j :: 0 <= j < |timeline| ==> timeline[j] == timeline[0] + j
    ensures RunFrom(s, inflow, timeline, i, target, selected).selected.Some?
    decreases |timeline| - i
  {
    if timeline[i] + 1 != selected {
      RunReachesSelected(DrawMonth(Deposit(s, inflow, timeline[i]), timeline[i], target).savings, inflow, timeline, i + 1, target, selected);
    }
  }

  /** `sum(v for by_project in savings.values() for v in by_project.values())`. */
  function SavingsTotal(s: Savings): real {
    MonthsTotal(s, SortedInts(s.Keys), 0)
  }

  function MonthsTotal(s: Savings, months: seq<int>, i: nat): real
    requires i <= |months|
    decreases |months| - i
  {
    if i == |months| then 0.0
    else
      var bucket := if months[i] in s then s[months[i]] else map[];
      BucketTotal(bucket, SortedInts(bucket.Keys), 0) + MonthsTotal(s, months, i + 1)
  }

  function BucketTotal(bucket: map<int, real>, pids: seq<int>, i: nat): real
    requires i <= |pids|
    decreases |pids| - i
  {
    if i == |pids| then 0.0 else (if pids[i] in bucket then bucket[pids[i]] else 0.0) + BucketTotal(bucket, pids, i + 1)
  }

  lemma {:induction false} BucketTotalNonNegative(bucket: map<int, real>, pids: seq<int>, i: nat)
    requires i <= |pids| && forall p :: p in bucket ==> bucket[p] > 0.0
    ensures BucketTotal(bucket, pids, i) >= 0.0
    decreases |pids| - i
  {
    if i < |pids| {
      BucketTotalNonNegative(bucket, pids, i + 1);
    }
  }

  lemma {:induction false} MonthsTotalNonNegative(s: Savings, months: seq<int>, i: nat)
    requires i <= |months| && Positive(s)
    ensures MonthsTotal(s, months, i) >= 0.0
    decreases |months| - i
  {
    if i < |months| {
      var bucket := if months[i] in s then s[months[i]] else map[];
      if months[i] in s {
        var m := months[i];
        forall p | p in s[m] ensures s[m][p] > 0.0 {
          assert m in s && p in s[m];
        }
      }
      BucketTotalNonNegative(bucket, SortedInts(bucket.Keys), 0);
      MonthsTotalNonNegative(s, months, i + 1);
    }
  }

  /** Positive balances total to a non-negative amount. */
  lemma SavingsTotalNonNegative(s: Savings)
    requires Positive(s)
    ensures SavingsTotal(s) >= 0.0
  {
    MonthsTotalNonNegative(s, SortedInts(s.Keys), 0);
  }

  /** A (project, source month) pair of the breakdown. */
  datatype RowKey = RowKey(pid: int, month: int)

  predicate RowKeyLe(a: RowKey, b: RowKey) {
    a.pid < b.pid || (a.pid == b.pid && a.month <= b.month)
  }

  lemma RowKeyLeTotalOrder()
    ensures TotalOrder(RowKeyLe)
  {
  }

  /** `{p.id: p for p in projects}`: a later project with the same id replaces an earlier one. */
  function ProjectsById(projects: seq<Project>): (byId: map<int, Project>)
    ensures forall id :: id in byId ==> byId[id].id == id
  {
    if |projects| == 0 then map[]
    else
      var p := projects[|projects| - 1];
      ProjectsById(projects[..|projects| - 1])[p.id := p]
  }

  function TitleOf(byId: map<int, Project>, pid: int): string {
    if pid in byId then byId[pid].title else ""
  }

  /**
   * `_row_sort_key` as a comparison: rows of the source month first, then
   * reserve rows newest month first, then by project title.
   */
  predicate KeyBefore(byId: map<int, Project>, source: int, a: RowKey, b: RowKey) {
    if (a.month == source) != (b.month == source) then a.month == source
    else if a.month != source && a.month != b.month then a.month > b.month
    else StrLe(TitleOf(byId, a.pid), TitleOf(byId, b.pid))
  }

  lemma KeyBeforePreorder(byId: map<int, Project>, source: int)
    ensures TotalPreorder((a, b) => KeyBefore(byId, source, a, b))
  {
    StrLeTotalOrder();
  }

  /** What the breakdown reads: the inflow, the source month, and the selected month's snapshots and takes. */
  datatype Ledgers = Ledgers(inflow: Savings, source: int, before: Savings, after: Savings, takes: seq<Take>)

  /** `keys_for_breakdown`: the source month's inflow, the buckets before the draw, and every take. */
  function BreakdownKeys(lg: Ledgers): set<RowKey> {
    (set p | lg.source in lg.inflow && p in lg.inflow[lg.source] :: RowKey(p, lg.source))
    + (set m, p | m in lg.before && p in lg.before[m] :: RowKey(p, m))
    + (set t | t in lg.takes :: RowKey(t.pid, t.month))
  }

  /** `sorted(keys_for_breakdown, key=_row_sort_key)`; pairs with equal sort keys stay in (project, month) order. */
  function OrderedKeys(byId: map<int, Project>, source: int, keys: set<RowKey>): (r: seq<RowKey>)
    ensures forall k :: k in r <==> k in keys
    ensures forall i, j :: 0 <= i < j < |r| ==> KeyBefore(byId, source, r[i], r[j])
  {
    RowKeyLeTotalOrder();
    KeyBeforePreorder(byId, source);
    SortBy(SortedSet(keys, RowKeyLe), (a, b) => KeyBefore(byId, source, a, b))
  }

  /** One line of the breakdown: a project's balance in one source month around the selected month's draw. */
  datatype BreakdownRow = BreakdownRow(
    projectId: int,
    title: string,
    organization: Option<string>,
    month: int,
    current: bool,
    opening: real,
    inflow: real,
    used: real,
    closing: real)

  /** The row of one key: none for an unknown project or when all four figures are at most zero. */
  function RowOf(byId: map<int, Project>, lg: Ledgers, k: RowKey): Option<BreakdownRow> {
    if k.pid !in byId then None
    else
      var opening := Balance(lg.before, k.month, k.pid);
      var used := UsedOf(lg.takes, k.pid, k.month);
      var closing := Balance(lg.after, k.month, k.pid);
      var inflow := Balance(lg.inflow, k.month, k.pid);
      if opening <= 0.0 && used <= 0.0 && closing <= 0.0 && inflow <= 0.0 then None
      else Some(BreakdownRow(k.pid, byId[k.pid].title, byId[k.pid].clientName, k.month, k.month == lg.source, opening, inflow, used, closing))
  }

  /** The rows of `keys[i..]` in order. */
  function RowsFrom(byId: map<int, Project>, lg: Ledgers, keys: seq<RowKey>, i: nat): seq<BreakdownRow>
    requires i <= |keys|
    decreases |keys| - i
  {
    if i == |keys| then []
    else
      var row := RowOf(byId, lg, keys[i]);
      (if row.Some? then [row.value] else []) + RowsFrom(byId, lg, keys, i + 1)
  }

  /** The response of `_life_for_month`, without its labels and with exact figures. */
  datatype LifeOut = LifeOut(
    monthStart: Date,
    monthEnd: Date,
    target: real,
    covered: real,
    gap: real,
    reserveUsed: real,
    savingsTotal: real,
    rows: seq<BreakdownRow>)

  /** The ledgers of the breakdown: empty when the selected month was never reached. */
  function LedgersOf(inflow: Savings, source: int, run: Run): Ledgers {
    match run.selected
    case None => Ledgers(inflow, source, map[], map[], [])
    case Some(sel) => Ledgers(inflow, source, sel.before, Snapshot(sel.draw.savings), sel.draw.takes)
  }

  /** The figures and the breakdown after the timeline loop. */
  function Report(start: Date, source: int, inflow: Savings, target: real, run: Run, byId: map<int, Project>): LifeOut
    requires 1 <= start.month <= 12
  {
    var covered := if run.selected.Some? then target - Max(run.selected.value.draw.need, 0.0) else 0.0;
    var reserve := if run.selected.Some? then ReserveSum(run.selected.value.draw.takes, source) else 0.0;
    var lifeCovered := Max(covered, 0.0);
    var lg := LedgersOf(inflow, source, run);
    LifeOut(start, MonthEnd(start), target, lifeCovered, Max(target - lifeCovered, 0.0), Max(reserve, 0.0),
      SavingsTotal(run.savings), RowsFrom(byId, lg, OrderedKeys(byId, source, BreakdownKeys(lg)), 0))
  }

  /**
   * `_life_for_month`: the month setup, the inflow of every project, and
   * either the all-zero answer when there is no inflow at all or the draws
   * along the timeline from the first inflow month to the source month. The
   * selected month is recognised by its month index.
   */
  function LifeFor(projects: seq<Project>, facts: seq<Payment>, plans: seq<Payment>, items: seq<ExpenseItem>,
                   target: real, selected: string): Result<LifeOut, LifeError>
  {
    var setup := SetupOf(selected);
    if setup.Err? then Err(setup.error)
    else
      var st := setup.value;
      var source := MonthIndex(st.sourceStart.year, st.sourceStart.month);
      var inflow := Inflow(projects, facts, plans, items, st.asOf);
      if inflow == map[] then Ok(LifeOut(st.start, MonthEnd(st.start), target, 0.0, target, 0.0, 0.0, []))
      else
        var timeline := TimelineOf(SortedInts(inflow.Keys)[0], source);
        var run := RunFrom(map[], inflow, timeline, 0, target, MonthIndex(st.start.year, st.start.month));
        Ok(Report(st.start, source, inflow, target, run, ProjectsById(projects)))
  }

  /** Every row comes from one of the keys. */
  lemma {:induction false} RowsFromKeys(byId: map<int, Project>, lg: Ledgers, keys: seq<RowKey>, i: nat)
    requires i <= |keys|
    ensures forall r :: r in RowsFrom(byId, lg, keys, i) ==> exists j :: i <= j < |keys| && RowOf(byId, lg, keys[j]) == Some(r)
    decreases |keys| - i
  {
    if i < |keys| {
      RowsFromKeys(byId, lg, keys, i + 1);
    }
  }

  /** The row order: current-month rows first, then reserve rows newest month first, then by title. */
  predicate RowBefore(a: BreakdownRow, b: BreakdownRow) {
    if a.current != b.current then a.current
    else if !a.current && a.month != b.month then a.month > b.month
    else StrLe(a.title, b.title)
  }

  /** A row is built from its key: its project, month and kind. */
  lemma RowOfKey(byId: map<int, Project>, lg: Ledgers, k: RowKey)
    requires RowOf(byId, lg, k).Some?
    ensures var r := RowOf(byId, lg, k).value;
      r.projectId == k.pid && r.month == k.month && r.title == TitleOf(byId, k.pid) && (r.current <==> k.month == lg.source)
  {
  }

  /** Rows of sorted keys are sorted. */
  lemma {:induction false} RowsSorted(byId: map<int, Project>, lg: Ledgers, keys: seq<RowKey>, i: nat)
    requires i <= |keys|
    requires forall a, b :: i <= a < b < |keys| ==> KeyBefore(byId, lg.source, keys[a], keys[b])
    ensures SortedBy(RowsFrom(byId, lg, keys, i), RowBefore)
    decreases |keys| - i
  {
    if i < |keys| {
      RowsSorted(byId, lg, keys, i + 1);
      var row := RowOf(byId, lg, keys[i]);
      if row.Some? {
        var rest := RowsFrom(byId, lg, keys, i + 1);
        RowsFromKeys(byId, lg, keys, i + 1);
        RowOfKey(byId, lg, keys[i]);
        forall r | r in rest ensures RowBefore(row.value, r) {
          var j :| i + 1 <= j < |keys| && RowOf(byId, lg, keys[j]) == Some(r);
          RowOfKey(byId, lg, keys[j]);
          assert KeyBefore(byId, lg.source, keys[i], keys[j]);
        }
        var all := [row.value] + rest;
        forall a, b | 0 <= a < b < |all| ensures RowBefore(all[a], all[b]) {
          if a == 0 {
            assert all[b] in rest;
          } else {
            assert all[a] == rest[a - 1] && all[b] == rest[b - 1];
          }
        }
      }
    }
  }

  /**
   * Every row closes at its opening balance minus what the selected month
   * drew from it, and shows at least one positive figure.
   */
  lemma {:induction false} RowsBalance(byId: map<int, Project>, lg: Ledgers, keys: seq<RowKey>, i: nat)
    requires i <= |keys|
    requires forall m, p :: Balance(lg.after, m, p) + UsedOf(lg.takes, p, m) == Balance(lg.before, m, p)
    ensures forall r :: r in RowsFrom(byId, lg, keys, i) ==>
      r.closing == r.opening - r.used && (r.opening > 0.0 || r.inflow > 0.0 || r.used > 0.0 || r.closing > 0.0)
    decreases |keys| - i
  {
    if i < |keys| {
      RowsBalance(byId, lg, keys, i + 1);
      var k := keys[i];
      assert Balance(lg.after, k.month, k.pid) + UsedOf(lg.takes, k.pid, k.month) == Balance(lg.before, k.month, k.pid);
    }
  }

  /** The ledgers of a good run balance: what was drawn from each entry is its fall from `before` to `after`. */
  lemma LedgersBalance(inflow: Savings, source: int, run: Run, target: real)
    requires GoodRun(run, target)
    ensures var lg := LedgersOf(inflow, source, run);
      forall m, p :: Balance(lg.after, m, p) + UsedOf(lg.takes, p, m) == Balance(lg.before, m, p)
  {
    if run.selected.Some? {
      SnapshotLemma(run.selected.value.draw.savings);
    }
  }

  /**
   * The figures of a good run: `life_covered` is what the selected month's
   * takes drew, the gap is the rest of the target, the reserve is the part
   * drawn from older buckets and never exceeds what was covered, the savings
   * total is not negative, and the breakdown rows balance and are in order.
   */
  lemma ReportLemma(start: Date, source: int, inflow: Savings, target: real, run: Run, byId: map<int, Project>)
    requires 1 <= start.month <= 12 && target >= 0.0 && GoodRun(run, target)
    ensures var r := Report(start, source, inflow, target, run, byId);
      0.0 <= r.covered <= target && r.gap == target - r.covered
      && 0.0 <= r.reserveUsed <= r.covered && r.savingsTotal >= 0.0
      && (run.selected.Some? ==>
            r.covered == TakenSum(run.selected.value.draw.takes)
            && r.reserveUsed == ReserveSum(run.selected.value.draw.takes, source))
      && (run.selected.None? ==> r.covered == 0.0 && r.reserveUsed == 0.0)
      && SortedBy(r.rows, RowBefore)
      && (forall row :: row in r.rows ==>
            row.closing == row.opening - row.used
            && (row.opening > 0.0 || row.inflow > 0.0 || row.used > 0.0 || row.closing > 0.0))
  {
    var lg := LedgersOf(inflow, source, run);
    var keys := OrderedKeys(byId, source, BreakdownKeys(lg));
    if run.selected.Some? {
      ReserveBounds(run.selected.value.draw.takes, source);
    }
    SavingsTotalNonNegative(run.savings);
    LedgersBalance(inflow, source, run, target);
    RowsBalance(byId, lg, keys, 0);
    RowsSorted(byId, lg, keys, 0);
  }

  /**
   * The answer of `_life_for_month` for a non-negative target: with no
   * inflow at all, nothing is covered and the gap is the whole target;
   * otherwise the figures of a good run.
   */
  lemma LifeForLemma(projects: seq<Project>, facts: seq<Payment>, plans: seq<Payment>, items: seq<ExpenseItem>,
                     target: real, selected: string)
    requires target >= 0.0
    ensures var r := LifeFor(projects, facts, plans, items, target, selected);
      r.Ok? ==>
        0.0 <= r.value.covered <= target && r.value.gap == target - r.value.covered
        && 0.0 <= r.value.reserveUsed <= r.value.covered && r.value.savingsTotal >= 0.0
        && SortedBy(r.value.rows, RowBefore)
        && (forall row :: row in r.value.rows ==> row.closing == row.opening - row.used)
    ensures var r := LifeFor(projects, facts, plans, items, target, selected);
      r.Ok? && Inflow(projects, facts, plans, items, SetupOf(selected).value.asOf) == map[] ==>
        r.value.covered == 0.0 && r.value.gap == target && r.value.reserveUsed == 0.0
        && r.value.savingsTotal == 0.0 && r.value.rows == []
  {
    var setup := SetupOf(selected);
    if setup.Ok? {
      var st := setup.value;
      var source := MonthIndex(st.sourceStart.year, st.sourceStart.month);
      var inflow := Inflow(projects, facts, plans, items, st.asOf);
      if inflow != map[] {
        var timeline := TimelineOf(SortedInts(inflow.Keys)[0], source);
        InflowHealthy(projects, facts, plans, items, st.asOf);
        RunLemma(map[], inflow, timeline, 0, target, MonthIndex(st.start.year, st.start.month));
        ReportLemma(st.start, source, inflow, target, RunFrom(map[], inflow, timeline, 0, target, MonthIndex(st.start.year, st.start.month)), ProjectsById(projects));
      }
    }
  }

  /**
   * For a canonical key after January 1900 whose earliest inflow month is not
   * after the source month, the timeline ends at the source month and the
   * loop reaches the selected month, so its draw is what the answer reports.
   */
  lemma LifeReachesSelected(projects: seq<Project>, facts: seq<Payment>, plans: seq<Payment>, items: seq<ExpenseItem>,
                            target: real, year: int, month: int)
    requires 1900 <= year <= 2100 && 1 <= month <= 12 && (year > 1900 || month > 1)
    ensures SetupOf(MonthKey(year, month)).Ok?
    ensures StopsAtSelected(Inflow(projects, facts, plans, items, SetupOf(MonthKey(year, month)).value.asOf), target, MonthIndex(year, month))
  {
    SetupOfCanonical(year, month);
    var asOf := SetupOf(MonthKey(year, month)).value.asOf;
    InflowReachesSelected(Inflow(projects, facts, plans, items, asOf), target, MonthIndex(year, month));
  }

  /**
   * When there is inflow and its first month is before the selected month,
   * the loop from that first month to the month before the selected one
   * stops at the selected month.
   */
  ghost predicate StopsAtSelected(inflow: Savings, target: real, selected: int) {
    inflow != map[] && SortedInts(inflow.Keys)[0] <= selected - 1 ==>
      RunFrom(map[], inflow, TimelineOf(SortedInts(inflow.Keys)[0], selected - 1), 0, target, selected).selected.Some?
  }

  /** Whatever the inflow, a run whose first month precedes the selected one stops at the selected month. */
  lemma InflowReachesSelected(inflow: Savings, target: real, selected: int)
    ensures StopsAtSelected(inflow, target, selected)
  {
    if inflow != map[] && SortedInts(inflow.Keys)[0] <= selected - 1 {
      var timeline := TimelineOf(SortedInts(inflow.Keys)[0], selected - 1);
      RunReachesSelected(map[], inflow, timeline, 0, target, selected);
    }
  }
}

=== FILE: models.dfy ===
/**
 * The stored records of the application (backend/app/models.py): projects,
 * expense groups and items, billing adjustments, planned and actual client
 * payments and sheet links, plus the two enumerations and the column
 * defaults. Money amounts are exact reals; see README for what that leaves out.
 */
module Models {
  import opened Wrappers
  import opened Calendar

  /** How an item's base total is obtained: typed in, or quantity times unit price. */
  datatype ItemMode = SingleTotal | QtyPrice

  /** The kinds of client billing adjustment. */
  datatype AdjustmentType = Discount | CreditFromPrev | CarryToNext

  /** The stored value of an item mode; reading it back gives the same mode. */
  function ItemModeValue(m: ItemMode): string
  {
    match m
    case SingleTotal => "SINGLE_TOTAL"
    case QtyPrice => "QTY_PRICE"
  }

  /** `ItemMode(text)`: only the two stored values name a mode. */
  function ParseItemMode(s: string): (r: Option<ItemMode>)
    ensures r.Some? ==> ItemModeValue(r.value) == s
    ensures r.None? ==> forall m :: ItemModeValue(m) != s
  {
    if s == "SINGLE_TOTAL" then Some(SingleTotal)
    else if s == "QTY_PRICE" then Some(QtyPrice)
    else None
  }

  lemma ItemModeRoundTrip(m: ItemMode)
    ensures ParseItemMode(ItemModeValue(m)) == Some(m)
  {
  }

  /** The stored value of an adjustment type; reading it back gives the same type. */
  function AdjustmentTypeValue(t: AdjustmentType): string
  {
    match t
    case Discount => "DISCOUNT"
    case CreditFromPrev => "CREDIT_FROM_PREV"
    case CarryToNext => "CARRY_TO_NEXT"
  }

  /** `AdjustmentType(text)`: only the three stored values name a type. */
  function ParseAdjustmentType(s: string): (r: Option<AdjustmentType>)
    ensures r.Some? ==> AdjustmentTypeValue(r.value) == s
    ensures r.None? ==> forall t :: AdjustmentTypeValue(t) != s
  {
    if s == "DISCOUNT" then Some(Discount)
    else if s == "CREDIT_FROM_PREV" then Some(CreditFromPrev)
    else if s == "CARRY_TO_NEXT" then Some(CarryToNext)
    else None
  }

  lemma AdjustmentTypeRoundTrip(t: AdjustmentType)
    ensures ParseAdjustmentType(AdjustmentTypeValue(t)) == Some(t)
  {
  }

  datatype Project = Project(
    id: int,
    title: string,
    clientName: Option<string>,
    clientEmail: Option<string>,
    clientPhone: Option<string>,
    priceTotal: real,
    expectedFromClientTotal: real,
    agencyFeePercent: real,
    createdAt: DateTime,
    closedAt: Option<Date>)

  datatype ExpenseGroup = ExpenseGroup(id: int, projectId: int, name: string, sortOrder: int)

  datatype ExpenseItem = ExpenseItem(
    id: int,
    stableItemId: string,
    projectId: int,
    groupId: int,
    parentItemId: Option<int>,
    title: string,
    mode: ItemMode,
    qty: Option<real>,
    unitPriceBase: Option<real>,
    baseTotal: real,
    extraProfitEnabled: bool,
    extraProfitAmount: real,
    includeInEstimate: bool,
    plannedPayDate: Option<Date>)

  /** A client billing adjustment; `itemId` is its (unique) expense item. */
  datatype Adjustment = Adjustment(
    itemId: int,
    unitPriceFull: real,
    unitPriceBillable: real,
    adjustmentType: AdjustmentType,
    reason: string,
    discountEnabled: bool,
    discountAmount: real)

  /**
   * A client payment, planned or actual. Planned payments carry the stable
   * id used by the sheet exchange; actual ones leave it empty.
   */
  datatype Payment = Payment(id: int, stablePayId: string, projectId: int, payDate: Date, amount: real, note: string)

  datatype SheetLink = SheetLink(
    projectId: int,
    spreadsheetId: string,
    sheetTabName: string,
    lastPublishedAt: Option<DateTime>,
    lastImportedAt: Option<DateTime>)

  const DefaultAgencyFeePercent: real := 10.0
  const DefaultSheetTabName: string := "PROJECT"

  /** An agency fee: `amount * rate`, the rate being the fee percent divided by 100. */
  function Fee(amount: real, rate: real): (f: real)
    ensures amount > 0.0 && rate >= 0.0 ==> f >= 0.0
  {
    amount * rate
  }

  /** A project row with only the columns that have no default given. */
  function NewProject(id: int, title: string, createdAt: DateTime): (p: Project)
    ensures p.id == id && p.title == title && p.createdAt == createdAt
    ensures p.agencyFeePercent == 10.0
    ensures p.priceTotal == 0.0 && p.expectedFromClientTotal == 0.0
    ensures p.clientName.None? && p.clientEmail.None? && p.clientPhone.None? && p.closedAt.None?
  {
    Project(id, title, None, None, None, 0.0, 0.0, DefaultAgencyFeePercent, createdAt, None)
  }

  /** An item row with only the columns that have no default given. */
  function NewItem(id: int, stableItemId: string, projectId: int, groupId: int, title: string): (it: ExpenseItem)
    ensures it.id == id && it.stableItemId == stableItemId && it.projectId == projectId
    ensures it.groupId == groupId && it.title == title
    ensures it.mode == SingleTotal && it.baseTotal == 0.0
    ensures !it.extraProfitEnabled && it.extraProfitAmount == 0.0 && it.includeInEstimate
    ensures it.parentItemId.None? && it.qty.None? && it.unitPriceBase.None? && it.plannedPayDate.None?
  {
    ExpenseItem(id, stableItemId, projectId, groupId, None, title, SingleTotal, None, None, 0.0, false, 0.0, true, None)
  }

  /** An adjustment row with only its item given. */
  function NewAdjustment(itemId: int): (a: Adjustment)
    ensures a.itemId == itemId && a.adjustmentType == Discount
    ensures a.unitPriceFull == 0.0 && a.unitPriceBillable == 0.0 && a.reason == ""
    ensures !a.discountEnabled && a.discountAmount == 0.0
  {
    Adjustment(itemId, 0.0, 0.0, Discount, "", false, 0.0)
  }

  /** How often the scheduler takes an automatic backup. */
  datatype BackupFrequency = Off | Daily | Weekly | Monthly

  /** The stored value of a backup frequency. */
  function FrequencyValue(f: BackupFrequency): string
  {
    match f
    case Off => "OFF"
    case Daily => "DAILY"
    case Weekly => "WEEKLY"
    case Monthly => "MONTHLY"
  }

  /** `BackupFrequency(text)`: only the four stored values name a frequency. */
  function ParseFrequency(s: string): (r: Option<BackupFrequency>)
    ensures r.Some? ==> FrequencyValue(r.value) == s
    ensures r.None? ==> forall f :: FrequencyValue(f) != s
  {
    if s == "OFF" then Some(Off)
    else if s == "DAILY" then Some(Daily)
    else if s == "WEEKLY" then Some(Weekly)
    else if s == "MONTHLY" then Some(Monthly)
    else None
  }

  /**
   * The single application settings row (id 1): the USN mode and rate, the
   * automatic backup frequency (a nullable column) and the time of the last
   * backup.
   */
  datatype AppSettings = AppSettings(
    usnMode: string,
    usnRatePercent: real,
    backupFrequency: Option<BackupFrequency>,
    lastBackupAt: Option<DateTime>)

  /** The settings row `_get_or_create_settings` creates when there is none. */
  function DefaultSettings(): (s: AppSettings)
    ensures s.backupFrequency == Some(Weekly) && s.lastBackupAt.None?
    ensures s.usnMode == "OPERATIONAL" && s.usnRatePercent == 6.0
  {
    AppSettings("OPERATIONAL", 6.0, Some(Weekly), None)
  }
}

=== FILE: month_key_laws.dfy ===
/**
 * Laws of the `YYYY-MM` month keys: a key reads back as its year and month,
 * stepping a key is stepping its month, the steps undo each other, every
 * in-range key is accepted, and string order on keys is month order.
 */
module MonthKeyLaws {
  import opened Wrappers
  import opened Calendar
  import opened Text
  import opened MonthKeys

  lemma DigitsNoDash(s: string)
    requires AllDigits(s)
    ensures '-' !in s
  {
  }

  /** `"a-b".split("-") == [a, b]` when neither part holds a dash. */
  lemma SplitTwo(a: string, b: string)
    requires '-' !in a && '-' !in b
    ensures Split(a + "-" + b, '-') == [a, b]
  {
    var s := a + "-" + b;
    IndexOfAfter(a, '-', b);
    assert s[..|a|] == a;
    assert s[|a| + 1..] == b;
  }

  /** `year-month` written with any zero-padding widths reads back as that year and month. */
  lemma SplitFormatted(year: int, month: int, w1: nat, w2: nat)
    requires year >= 0 && month >= 0
    ensures SplitYearMonth(FormatInt(year, w1) + "-" + FormatInt(month, w2)) == Some(YearMonth(year, month))
  {
    DigitsNoDash(FormatInt(year, w1));
    DigitsNoDash(FormatInt(month, w2));
    SplitTwo(FormatInt(year, w1), FormatInt(month, w2));
    ParseFormatInt(year, w1);
    ParseFormatInt(month, w2);
  }

  /** A key built from a non-negative year and month reads back as that year and month. */
  lemma SplitMonthKey(year: int, month: int)
    requires year >= 0 && month >= 0
    ensures SplitYearMonth(MonthKey(year, month)) == Some(YearMonth(year, month))
  {
    SplitFormatted(year, month, 4, 2);
  }

  /** On a canonical key `_month_next` gives the key of the next month. */
  lemma MonthNextStep(ym: YearMonth)
    requires ym.year >= 0 && 1 <= ym.month <= 12
    ensures MonthNext(KeyOf(ym)) == Some(KeyOf(NextMonth(ym)))
  {
    SplitMonthKey(ym.year, ym.month);
    assert SplitYearMonth(KeyOf(ym)) == Some(ym);
  }

  /** On a canonical key of a year after 0, `_month_prev` gives the key of the previous month. */
  lemma MonthPrevStep(ym: YearMonth)
    requires ym.year >= 0 && 1 <= ym.month <= 12
    ensures MonthPrev(KeyOf(ym)) == Some(KeyOf(PrevMonth(ym)))
  {
    SplitMonthKey(ym.year, ym.month);
    assert SplitYearMonth(KeyOf(ym)) == Some(ym);
  }

  /** `_month_next` and `_month_prev` undo each other on canonical keys. */
  lemma NextPrevInverse(ym: YearMonth)
    requires ym.year >= 1 && 1 <= ym.month <= 12
    ensures MonthNext(KeyOf(ym)) == Some(KeyOf(NextMonth(ym))) && MonthPrev(KeyOf(NextMonth(ym))) == Some(KeyOf(ym))
    ensures MonthPrev(KeyOf(ym)) == Some(KeyOf(PrevMonth(ym))) && MonthNext(KeyOf(PrevMonth(ym))) == Some(KeyOf(ym))
  {
    NextPrevMonthInverse(ym);
    MonthNextStep(ym);
    MonthPrevStep(NextMonth(ym));
    MonthPrevStep(ym);
    MonthNextStep(PrevMonth(ym));
  }

  /** `year-month` written with any zero-padding widths has no surrounding white space. */
  lemma StripFormatted(year: int, month: int, w1: nat, w2: nat)
    requires year >= 0 && month >= 0
    ensures var k := FormatInt(year, w1) + "-" + FormatInt(month, w2); Strip(k) == k
  {
    var a, b := FormatInt(year, w1), FormatInt(month, w2);
    var k := a + "-" + b;
    assert k[0] == a[0] && k[|k| - 1] == b[|b| - 1];
    StripNoSpace(k);
  }

  /** A key whose stripped text splits into an in-range year and month is accepted as that month's first day. */
  lemma AcceptedWhenInRange(key: string, year: int, month: int)
    requires 1900 <= year <= 2100 && 1 <= month <= 12
    requires SplitYearMonth(Strip(key)) == Some(YearMonth(year, month))
    ensures MonthKeyToStart(key) == Ok(Date(year, month, 1))
  {
  }

  /** Every canonical key of a year in 1900..2100 is accepted and names its month. */
  lemma MonthKeyToStartAccepts(year: int, month: int)
    requires 1900 <= year <= 2100 && 1 <= month <= 12
    ensures MonthKeyToStart(MonthKey(year, month)) == Ok(Date(year, month, 1))
  {
    StripFormatted(year, month, 4, 2);
    SplitMonthKey(year, month);
    AcceptedWhenInRange(MonthKey(year, month), year, month);
  }

  lemma FixedWidth(n: int, w: nat)
    requires 0 <= n < Pow10(w) && w >= 1
    ensures |FormatInt(n, w)| == w && AllDigits(FormatInt(n, w)) && DigitsValue(FormatInt(n, w)) == n
  {
    DigitsLength(n, w);
  }

  /**
   * Canonical keys sort as their months do: `<=` on the strings is `<=` on
   * the month indices, and equal keys are equal months.
   */
  lemma MonthKeyOrder(y1: int, m1: int, y2: int, m2: int)
    requires CanonicalMonth(y1, m1) && CanonicalMonth(y2, m2)
    ensures StrLe(MonthKey(y1, m1), MonthKey(y2, m2)) <==> MonthIndex(y1, m1) <= MonthIndex(y2, m2)
    ensures MonthKey(y1, m1) == MonthKey(y2, m2) <==> y1 == y2 && m1 == m2
  {
    FixedWidth(y1, 4);
    FixedWidth(y2, 4);
    FixedWidth(m1, 2);
    FixedWidth(m2, 2);
    DashedOrder(FormatInt(y1, 4), FormatInt(y2, 4), FormatInt(m1, 2), FormatInt(m2, 2));
    DashedEqual(FormatInt(y1, 4), FormatInt(y2, 4), FormatInt(m1, 2), FormatInt(m2, 2));
    assert MonthKey(y1, m1) == FormatInt(y1, 4) + ("-" + FormatInt(m1, 2));
    assert MonthKey(y2, m2) == FormatInt(y2, 4) + ("-" + FormatInt(m2, 2));
  }

  /** A common leading dash does not change the order. */
  lemma DashStep(x: string, y: string)
    ensures StrLe("-" + x, "-" + y) == StrLe(x, y)
  {
    assert ("-" + x)[1..] == x && ("-" + y)[1..] == y;
  }

  /** `a-x` against `b-y` for fixed-width digit strings: by `a` first, then by `x`. */
  lemma DashedOrder(a: string, b: string, x: string, y: string)
    requires AllDigits(a) && AllDigits(b) && AllDigits(x) && AllDigits(y) && |a| == |b| && |x| == |y|
    ensures StrLe(a + ("-" + x), b + ("-" + y)) <==>
      DigitsValue(a) < DigitsValue(b) || (DigitsValue(a) == DigitsValue(b) && DigitsValue(x) <= DigitsValue(y))
  {
    DigitStringsOrder(a, b);
    DigitStringsOrder(x, y);
    StrLeConcat(a, b, "-" + x, "-" + y);
    DashStep(x, y);
  }

  /** Two concatenations with equal-length heads are equal exactly when heads and tails are. */
  lemma ConcatEqual(a: string, b: string, x: string, y: string)
    requires |a| == |b|
    ensures a + x == b + y <==> a == b && x == y
  {
    if a + x == b + y {
      assert (a + x)[..|a|] == a && (b + y)[..|b|] == b;
      assert (a + x)[|a|..] == x && (b + y)[|b|..] == y;
    }
  }

  /** `a-x` and `b-y` for fixed-width digit strings are equal exactly when both parts have equal values. */
  lemma DashedEqual(a: string, b: string, x: string, y: string)
    requires AllDigits(a) && AllDigits(b) && AllDigits(x) && AllDigits(y) && |a| == |b| && |x| == |y|
    ensures a + ("-" + x) == b + ("-" + y) <==> DigitsValue(a) == DigitsValue(b) && DigitsValue(x) == DigitsValue(y)
  {
    DigitStringsOrder(a, b);
    DigitStringsOrder(x, y);
    ConcatEqual(a, b, "-" + x, "-" + y);
    ConcatEqual("-", "-", x, y);
  }
}

=== FILE: month_keys.dfy ===
/**
 * The `YYYY-MM` month keys of backend/app/utils.py and
 * backend/app/routers/life.py: formatting, stepping to the next or previous
 * month, validation of a requested month, and the last day of a month. Stepping
 * a key moves it by one on the month axis.
 */
module MonthKeys {
  import opened Wrappers
  import opened Calendar
  import opened Text

  /** `f"{year:04d}-{month:02d}"` (`_month_key`). */
  function MonthKey(year: int, month: int): string {
    FormatInt(year, 4) + "-" + FormatInt(month, 2)
  }

  /** The month key of a date. */
  function DateMonthKey(d: Date): string {
    MonthKey(d.year, d.month)
  }

  datatype YearMonth = YearMonth(year: int, month: int)

  /** Keys the code itself produces: a four-digit year and a month 1..12. */
  predicate CanonicalMonth(year: int, month: int) {
    0 <= year <= 9999 && 1 <= month <= 12
  }

  /**
   * `y, m = [int(x) for x in key.split("-")]`: `None` stands for the
   * `ValueError` raised when there are not exactly two parts or a part is not
   * an integer.
   */
  function SplitYearMonth(key: string): (r: Option<YearMonth>)
    ensures r.Some? ==> |Split(key, '-')| == 2
  {
    var parts := Split(key, '-');
    if |parts| != 2 then None
    else
      var y, m := ParseInt(parts[0]), ParseInt(parts[1]);
      if y.Some? && m.Some? then Some(YearMonth(y.value, m.value)) else None
  }

  /**
   * The month after `ym` as `_month_next` computes it: December rolls over to
   * January of the next year, any other month number is incremented.
   */
  function NextMonth(ym: YearMonth): (r: YearMonth)
    ensures 1 <= ym.month <= 12 ==> 1 <= r.month <= 12 && MonthIndex(r.year, r.month) == MonthIndex(ym.year, ym.month) + 1
  {
    if ym.month == 12 then YearMonth(ym.year + 1, 1) else YearMonth(ym.year, ym.month + 1)
  }

  /**
   * The month before `ym` as `_month_prev` computes it: January rolls back to
   * December of the previous year, any other month number is decremented.
   */
  function PrevMonth(ym: YearMonth): (r: YearMonth)
    ensures 1 <= ym.month <= 12 ==> 1 <= r.month <= 12 && MonthIndex(r.year, r.month) == MonthIndex(ym.year, ym.month) - 1
  {
    if ym.month == 1 then YearMonth(ym.year - 1, 12) else YearMonth(ym.year, ym.month - 1)
  }

  /** A month index names exactly one (year, month 1..12) pair. */
  lemma MonthIndexInjective(a: YearMonth, b: YearMonth)
    requires 1 <= a.month <= 12 && 1 <= b.month <= 12
    requires MonthIndex(a.year, a.month) == MonthIndex(b.year, b.month)
    ensures a == b
  {
  }

  lemma NextPrevMonthInverse(ym: YearMonth)
    requires 1 <= ym.month <= 12
    ensures PrevMonth(NextMonth(ym)) == ym && NextMonth(PrevMonth(ym)) == ym
  {
    MonthIndexInjective(PrevMonth(NextMonth(ym)), ym);
    MonthIndexInjective(NextMonth(PrevMonth(ym)), ym);
  }

  function KeyOf(ym: YearMonth): string {
    MonthKey(ym.year, ym.month)
  }

  /** `_month_prev`: the key of the previous month, rolling January back to December. */
  function MonthPrev(key: string): Option<string> {
    var ym := SplitYearMonth(key);
    if ym.None? then None else Some(KeyOf(PrevMonth(ym.value)))
  }

  /** `_month_next`: the key of the next month, rolling December over to January. */
  function MonthNext(key: string): Option<string> {
    var ym := SplitYearMonth(key);
    if ym.None? then None else Some(KeyOf(NextMonth(ym.value)))
  }

  /** Why `_month_key_to_start` rejects a key; both are HTTP 400 responses. */
  datatype MonthError = Malformed | OutOfRange

  /** The response detail of each rejection. */
  function MonthErrorDetail(e: MonthError): string {
    match e
    case Malformed => "month: expected YYYY-MM"
    case OutOfRange => "month: out of range"
  }

  /**
   * `_month_key_to_start`: the first day of the requested month; a key that
   * does not split into two integers is malformed, a year outside 1900..2100
   * or a month outside 1..12 is out of range.
   */
  function MonthKeyToStart(key: string): (r: Result<Date, MonthError>)
    ensures r.Ok? ==> (ValidDate(r.value) && r.value.day == 1
      && 1900 <= r.value.year <= 2100 && SplitYearMonth(Strip(key)) == Some(YearMonth(r.value.year, r.value.month)))
    ensures r == Err(Malformed) <==> SplitYearMonth(Strip(key)).None?
    ensures r == Err(OutOfRange) <==> (SplitYearMonth(Strip(key)).Some?
      && !(1900 <= SplitYearMonth(Strip(key)).value.year <= 2100 && 1 <= SplitYearMonth(Strip(key)).value.month <= 12))
  {
    var ym := SplitYearMonth(Strip(key));
    if ym.None? then Err(Malformed)
    else if ym.value.year < 1900 || ym.value.year > 2100 || ym.value.month < 1 || ym.value.month > 12 then Err(OutOfRange)
    else Ok(Date(ym.value.year, ym.value.month, 1))
  }

  /** `_month_end`: the last day of the date's month (the day before the next month's first). */
  function MonthEnd(d: Date): (r: Date)
    requires 1 <= d.month <= 12
    ensures r.year == d.year && r.month == d.month && 1 <= r.day <= DaysInMonth(r.year, r.month)
    ensures NextDay(r) == (if d.month == 12 then Date(d.year + 1, 1, 1) else Date(d.year, d.month + 1, 1))
  {
    Date(d.year, d.month, DaysInMonth(d.year, d.month))
  }
}

=== FILE: overview.dfy ===
/**
 * The overview of backend/app/routers/overview.py: the snapshot of the
 * projects active on a date, with per-project received, remaining and pocket
 * figures and their running totals, and the mind-map built from it. The
 * agency part of the pocket is a fixed 10% of what was received, whatever
 * the project's own fee percent.
 */
module Overview {
  import opened Wrappers
  import opened Calendar
  import opened Collections
  import opened Models
  import opened EffectiveRows
  import opened Financials

  /** One listed project (figures unrounded). */
  datatype SnapshotProject = SnapshotProject(
    projectId: int,
    title: string,
    active: bool,
    receivedToDate: real,
    expectedTotal: real,
    remaining: real,
    agencyFeeToDate: real,
    extraProfitToDate: real,
    inPocketToDate: real)

  datatype SnapshotTotals = SnapshotTotals(
    activeProjectsCount: nat,
    receivedTotal: real,
    plannedTotal: real,
    expectedTotal: real,
    agencyFeeToDate: real,
    extraProfitToDate: real,
    inPocketToDate: real)

  datatype OverviewSnapshot = OverviewSnapshot(at: Date, totals: SnapshotTotals, projects: seq<SnapshotProject>)

  /** The agency share the snapshot applies to received money. */
  const SnapshotAgencyRate: real := 0.10

  /** `compute_project_financials(...)["extra_profit_total"]`: the project's whole, undated extra profit. */
  function ExtraProfitTotal(items: seq<ExpenseItem>, projectId: int): real {
    ExtraSum(EffectiveRowsOf(ProjectItems(items, projectId)))
  }

  function ActiveProjects(projects: seq<Project>, at: Date): seq<Project> {
    Filter(projects, p => IsProjectActive(p, at))
  }

  /** What the snapshot reads about one project: received and planned inflow at the date, and its extra profit. */
  datatype ProjectFigures = ProjectFigures(received: real, planned: real, extraProfit: real)

  function FiguresOf(p: Project, facts: seq<Payment>, plans: seq<Payment>, items: seq<ExpenseItem>, at: Date): ProjectFigures {
    ProjectFigures(ReceivedToDate(facts, plans, p.id, at), PlannedToDate(plans, p.id, at), ExtraProfitTotal(items, p.id))
  }

  function FiguresList(active: seq<Project>, facts: seq<Payment>, plans: seq<Payment>, items: seq<ExpenseItem>, at: Date): (figs: seq<ProjectFigures>)
    ensures |figs| == |active|
  {
    seq(|active|, i requires 0 <= i < |active| => FiguresOf(active[i], facts, plans, items, at))
  }

  /** The listed figures of one active project. */
  function ProjectLine(p: Project, f: ProjectFigures): SnapshotProject {
    var agency := SnapshotAgencyRate * f.received;
    SnapshotProject(p.id, p.title, true, f.received, p.expectedFromClientTotal,
      Max(p.expectedFromClientTotal - f.received, 0.0), agency, f.extraProfit, agency + f.extraProfit)
  }

  function Lines(active: seq<Project>, figs: seq<ProjectFigures>): (rows: seq<SnapshotProject>)
    requires |figs| == |active|
    ensures |rows| == |active|
  {
    seq(|active|, i requires 0 <= i < |active| => ProjectLine(active[i], figs[i]))
  }

  /** The running totals after one more project: its listed figures and its planned inflow. */
  function AddProject(t: SnapshotTotals, row: SnapshotProject, planned: real): SnapshotTotals {
    SnapshotTotals(t.activeProjectsCount + 1, t.receivedTotal + row.receivedToDate, t.plannedTotal + planned,
      t.expectedTotal + row.expectedTotal, t.agencyFeeToDate + row.agencyFeeToDate,
      t.extraProfitToDate + row.extraProfitToDate, t.inPocketToDate + row.inPocketToDate)
  }

  const NoTotals: SnapshotTotals := SnapshotTotals(0, 0.0, 0.0, 0.0, 0.0, 0.0, 0.0)

  /** The totals over `active`, project by project. */
  function TotalsOf(active: seq<Project>, figs: seq<ProjectFigures>): SnapshotTotals
    requires |figs| == |active|
  {
    if |active| == 0 then NoTotals
    else
      var n := |active| - 1;
      AddProject(TotalsOf(active[..n], figs[..n]), ProjectLine(active[n], figs[n]), figs[n].planned)
  }

  /** `snapshot`: the active projects in input order, each listed, and the totals over them. */
  function SnapshotOf(projects: seq<Project>, facts: seq<Payment>, plans: seq<Payment>, items: seq<ExpenseItem>, at: Date): OverviewSnapshot {
    var active := ActiveProjects(projects, at);
    var figs := FiguresList(active, facts, plans, items, at);
    OverviewSnapshot(at, TotalsOf(active, figs), Lines(active, figs))
  }

  /** The active projects, in input order. */
  method CollectActive(projects: seq<Project>, at: Date) returns (active: seq<Project>)
    ensures active == ActiveProjects(projects, at)
  {
    active := [];
    var i := 0;
    while i < |projects|
      invariant i <= |projects|
      invariant active == ActiveProjects(projects[..i], at)
    {
      assert projects[..i + 1][..i] == projects[..i];
      if IsProjectActive(projects[i], at) {
        active := active + [projects[i]];
      }
      i := i + 1;
    }
    assert projects[..i] == projects;
  }

  /** The figures of one project, read as the snapshot reads them. */
  method ReadFigures(p: Project, facts: seq<Payment>, plans: seq<Payment>, items: seq<ExpenseItem>, at: Date)
    returns (f: ProjectFigures)
    ensures f == FiguresOf(p, facts, plans, items, at)
  {
    var r := ReceivedToDate(facts, plans, p.id, at);
    var pl := PlannedToDate(plans, p.id, at);
    // the project exists, so its financials are those of its own record
    var comp := ComputeProjectFinancials(map[p.id := p], p.id, items);
    f := ProjectFigures(r, pl, comp.extraProfitTotal);
  }

  lemma TotalsStep(active: seq<Project>, figs: seq<ProjectFigures>, k: nat)
    requires |figs| == |active| && k < |active|
    ensures TotalsOf(active[..k + 1], figs[..k + 1]) == AddProject(TotalsOf(active[..k], figs[..k]), ProjectLine(active[k], figs[k]), figs[k].planned)
    ensures Lines(active[..k + 1], figs[..k + 1]) == Lines(active[..k], figs[..k]) + [ProjectLine(active[k], figs[k])]
  {
    assert active[..k + 1][..k] == active[..k] && figs[..k + 1][..k] == figs[..k];
  }

  /** One step of the `snapshot` loop: the project's figures added to the six running totals, and its line listed. */
  method AddLine(totals: SnapshotTotals, lines: seq<SnapshotProject>, p: Project, f: ProjectFigures)
    returns (totals': SnapshotTotals, lines': seq<SnapshotProject>)
    ensures totals' == AddProject(totals, ProjectLine(p, f), f.planned)
    ensures lines' == lines + [ProjectLine(p, f)]
  {
    var r, pl, ep := f.received, f.planned, f.extraProfit;
    var expected := p.expectedFromClientTotal;
    var agency := SnapshotAgencyRate * r;
    var inPocket := agency + ep;
    totals' := SnapshotTotals(totals.activeProjectsCount + 1, totals.receivedTotal + r, totals.plannedTotal + pl,
      totals.expectedTotal + expected, totals.agencyFeeToDate + agency, totals.extraProfitToDate + ep,
      totals.inPocketToDate + inPocket);
    lines' := lines + [SnapshotProject(p.id, p.title, true, r, expected, Max(expected - r, 0.0), agency, ep, inPocket)];
  }

  /** The main `snapshot` loop over the active projects. */
  method Snapshot(projects: seq<Project>, facts: seq<Payment>, plans: seq<Payment>, items: seq<ExpenseItem>, at: Date)
    returns (snap: OverviewSnapshot)
    ensures snap == SnapshotOf(projects, facts, plans, items, at)
  {
    var active := CollectActive(projects, at);
    ghost var figs := FiguresList(active, facts, plans, items, at);
    var totals := NoTotals;
    var outProjects: seq<SnapshotProject> := [];
    var k := 0;
    while k < |active|
      invariant k <= |active|
      invariant totals == TotalsOf(active[..k], figs[..k]) && outProjects == Lines(active[..k], figs[..k])
    {
      var f := ReadFigures(active[k], facts, plans, items, at);
      TotalsStep(active, figs, k);
      totals, outProjects := AddLine(totals, outProjects, active[k], f);
      k := k + 1;
    }
    assert active[..k] == active && figs[..k] == figs;
    snap := OverviewSnapshot(at, totals, outProjects);
  }

  /** The totals are the sums of the listed lines (and of the planned inflow), and keep the line relations. */
  lemma {:induction false} TotalsAreSums(active: seq<Project>, figs: seq<ProjectFigures>)
    requires |figs| == |active|
    ensures var t := TotalsOf(active, figs);
      var rows := Lines(active, figs);
      t.activeProjectsCount == |active|
      && t.receivedTotal == SumOf(rows, (r: SnapshotProject) => r.receivedToDate)
      && t.expectedTotal == SumOf(rows, (r: SnapshotProject) => r.expectedTotal)
      && t.agencyFeeToDate == SumOf(rows, (r: SnapshotProject) => r.agencyFeeToDate)
      && t.extraProfitToDate == SumOf(rows, (r: SnapshotProject) => r.extraProfitToDate)
      && t.inPocketToDate == SumOf(rows, (r: SnapshotProject) => r.inPocketToDate)
      && t.plannedTotal == SumOf(figs, (f: ProjectFigures) => f.planned)
      && t.inPocketToDate == t.agencyFeeToDate + t.extraProfitToDate
      && t.agencyFeeToDate == SnapshotAgencyRate * t.receivedTotal
    decreases |active|
  {
    if |active| > 0 {
      var n := |active| - 1;
      TotalsAreSums(active[..n], figs[..n]);
      var rows := Lines(active, figs);
      assert rows[..n] == Lines(active[..n], figs[..n]);
    }
  }

  /**
   * The snapshot lists exactly the active projects, in order; each line's
   * agency part is 10% of what it received, its pocket is agency plus extra
   * profit and its remaining amount is the unreceived part of what is
   * expected, never negative; the totals are the sums of the lines, and the
   * count is the number of active projects.
   */
  lemma SnapshotLemma(projects: seq<Project>, facts: seq<Payment>, plans: seq<Payment>, items: seq<ExpenseItem>, at: Date)
    ensures var snap := SnapshotOf(projects, facts, plans, items, at);
      var active := ActiveProjects(projects, at);
      |snap.projects| == |active| == snap.totals.activeProjectsCount
      && (forall i :: 0 <= i < |active| ==> snap.projects[i].projectId == active[i].id && snap.projects[i].active)
      && (forall p :: p in active <==> p in projects && IsProjectActive(p, at))
      && (forall row :: row in snap.projects ==>
            row.agencyFeeToDate == SnapshotAgencyRate * row.receivedToDate
            && row.inPocketToDate == row.agencyFeeToDate + row.extraProfitToDate
            && row.remaining >= 0.0 && row.remaining >= row.expectedTotal - row.receivedToDate
            && (row.remaining == 0.0 || row.remaining == row.expectedTotal - row.receivedToDate))
      && snap.totals.receivedTotal == SumOf(snap.projects, (r: SnapshotProject) => r.receivedToDate)
      && snap.totals.inPocketToDate == SumOf(snap.projects, (r: SnapshotProject) => r.inPocketToDate)
      && snap.totals.inPocketToDate == snap.totals.agencyFeeToDate + snap.totals.extraProfitToDate
  {
    var active := ActiveProjects(projects, at);
    TotalsAreSums(active, FiguresList(active, facts, plans, items, at));
  }

  /**
   * A line of the mind-map: the date heading (`Мир проектов — <at>`), a
   * section, a figure (`<name>: <value>`), or one project
   * (`<title> | получено <received> | осталось <remaining> | in_pocket <in pocket>`).
   */
  datatype Label =
    | Heading(at: Date)
    | Section(name: string)
    | Figure(name: string, value: real)
    | ProjectLabel(title: string, received: real, remaining: real, inPocket: real)

  datatype Node = Node(caption: Label, children: seq<Node>)

  /** `overview_map`: balance and pocket totals of the snapshot, and one node per listed project. */
  function OverviewMap(snap: OverviewSnapshot): Node {
    var t := snap.totals;
    Node(Heading(snap.at), [
      Node(Section("Баланс"), [
        Node(Figure("Получено", t.receivedTotal), []),
        Node(Figure("План до даты", t.plannedTotal), []),
        Node(Figure("Ожидаем всего", t.expectedTotal), [])]),
      Node(Section("В кармане"), [
        Node(Figure("Агентские (to date)", t.agencyFeeToDate), []),
        Node(Figure("Доп прибыль (MVP)", t.extraProfitToDate), []),
        Node(Figure("Итого", t.inPocketToDate), [])]),
      Node(Section("Проекты (активные)"),
        seq(|snap.projects|, i requires 0 <= i < |snap.projects| =>
          Node(ProjectLabel(snap.projects[i].title, snap.projects[i].receivedToDate, snap.projects[i].remaining,
                            snap.projects[i].inPocketToDate), [])))])
  }

  /** The map has one leaf per listed project, in order, and its figures are the snapshot totals. */
  lemma OverviewMapLemma(snap: OverviewSnapshot)
    ensures var root := OverviewMap(snap);
      |root.children| == 3 && |root.children[2].children| == |snap.projects|
      && (forall i :: 0 <= i < |snap.projects| ==>
            root.children[2].children[i].children == []
            && root.children[2].children[i].caption.title == snap.projects[i].title
            && root.children[2].children[i].caption.inPocket == snap.projects[i].inPocketToDate)
      && [root.children[0].children[0].caption.value, root.children[0].children[1].caption.value, root.children[0].children[2].caption.value]
           == [snap.totals.receivedTotal, snap.totals.plannedTotal, snap.totals.expectedTotal]
      && [root.children[1].children[0].caption.value, root.children[1].children[1].caption.value, root.children[1].children[2].caption.value]
           == [snap.totals.agencyFeeToDate, snap.totals.extraProfitToDate, snap.totals.inPocketToDate]
  {
  }
}

=== FILE: projects.dfy ===
/**
 * The item and payment rules of the projects router
 * (backend/app/routers/projects.py): the derived base total, the one-level
 * parent check, the discount fields kept on an item's adjustment, creating,
 * updating and deleting items, and the plan and fact payment listings with
 * due plans shown under negated ids.
 */
module Projects {
  import opened Wrappers
  import opened Calendar
  import opened Sorting
  import opened Models
  import opened EffectiveRows

  /** The `detail` strings of the errors the router raises. */
  datatype ProjectError =
    | ProjectNotFound | GroupNotFound | ItemNotFound
    | ItemModeInvalid | QtyPriceRequiresQtyAndUnitPrice
    | ParentItemSelfRef | ParentItemNotFound | ParentItemGroupMismatch | ParentItemMustBeTopLevel
    | ItemWithSubitemsCannotBeSubitem | ItemWithSubitemsCannotChangeGroup
    | PaymentPlanNotFound | PaymentFactNotFound

  function ErrorDetail(e: ProjectError): string {
    match e
    case ProjectNotFound => "PROJECT_NOT_FOUND"
    case GroupNotFound => "GROUP_NOT_FOUND"
    case ItemNotFound => "ITEM_NOT_FOUND"
    case ItemModeInvalid => "ITEM_MODE_INVALID"
    case QtyPriceRequiresQtyAndUnitPrice => "QTY_PRICE_REQUIRES_QTY_AND_UNIT_PRICE"
    case ParentItemSelfRef => "PARENT_ITEM_SELF_REF"
    case ParentItemNotFound => "PARENT_ITEM_NOT_FOUND"
    case ParentItemGroupMismatch => "PARENT_ITEM_GROUP_MISMATCH"
    case ParentItemMustBeTopLevel => "PARENT_ITEM_MUST_BE_TOP_LEVEL"
    case ItemWithSubitemsCannotBeSubitem => "ITEM_WITH_SUBITEMS_CANNOT_BE_SUBITEM"
    case ItemWithSubitemsCannotChangeGroup => "ITEM_WITH_SUBITEMS_CANNOT_CHANGE_GROUP"
    case PaymentPlanNotFound => "PAYMENT_PLAN_NOT_FOUND"
    case PaymentFactNotFound => "PAYMENT_FACT_NOT_FOUND"
  }

  // ---------------------------------------------------------------------------
  // The derived base total

  /**
   * `_refresh_item_calculated_base`: a QTY_PRICE item needs both its
   * quantity and its unit price, and then stores the total the accounting
   * code computes for it; a SINGLE_TOTAL item is left as it is.
   */
  function RefreshBase(it: ExpenseItem): (r: Result<ExpenseItem, ProjectError>)
    ensures r.Err? <==> it.mode == QtyPrice && (it.qty.None? || it.unitPriceBase.None?)
    ensures r.Err? ==> r.error == QtyPriceRequiresQtyAndUnitPrice
    ensures r.Ok? ==> r.value == it.(baseTotal := ItemBaseTotal(it))
    ensures it.mode == SingleTotal ==> r == Ok(it)
  {
    if it.mode == QtyPrice then
      if it.qty.None? || it.unitPriceBase.None? then Err(QtyPriceRequiresQtyAndUnitPrice)
      else
        var qty, unit := it.qty.value, it.unitPriceBase.value;
        Ok(it.(baseTotal := if qty == 0.0 then unit else qty * unit))
    else Ok(it)
  }

  /** The stored base total is the one the accounting code derives, and a QTY_PRICE item has its two inputs. */
  predicate BaseIsCurrent(it: ExpenseItem) {
    ItemBaseTotal(it) == it.baseTotal && (it.mode == QtyPrice ==> it.qty.Some? && it.unitPriceBase.Some?)
  }

  /** A refreshed item's base is current, and refreshing it again changes nothing. */
  lemma RefreshedBaseIsCurrent(it: ExpenseItem)
    requires RefreshBase(it).Ok?
    ensures BaseIsCurrent(RefreshBase(it).value)
    ensures RefreshBase(RefreshBase(it).value) == RefreshBase(it)
  {
  }

  // ---------------------------------------------------------------------------
  // The one-level parent check

  /** Some stored item names `id` as its parent. */
  predicate HasChildren(items: map<int, ExpenseItem>, id: int) {
    exists k :: k in items && items[k].parentItemId == Some(id)
  }

  predicate InProject(items: map<int, ExpenseItem>, id: int, projectId: int) {
    id in items && items[id].projectId == projectId
  }

  /** What `_validate_parent_item` demands of a parent `p` for an item in `groupId`. */
  predicate ParentAcceptable(items: map<int, ExpenseItem>, projectId: int, groupId: int, p: int, currentId: Option<int>) {
    currentId != Some(p) && InProject(items, p, projectId) && items[p].groupId == groupId
    && items[p].parentItemId.None? && (currentId.Some? ==> !HasChildren(items, currentId.value))
  }

  /**
   * `_validate_parent_item`: no parent is always accepted; otherwise the
   * checks run in this order: not the item itself, a stored item of the same
   * project, in the same group, itself top-level, and the item being edited
   * has no children of its own.
   */
  function ValidateParent(items: map<int, ExpenseItem>, projectId: int, groupId: int, parentId: Option<int>, currentId: Option<int>): (r: Option<ProjectError>)
    ensures r.None? <==> parentId.None? || ParentAcceptable(items, projectId, groupId, parentId.value, currentId)
    ensures r == Some(ParentItemSelfRef) <==> parentId.Some? && currentId == parentId
    ensures r == Some(ParentItemNotFound) <==>
      parentId.Some? && currentId != parentId && !InProject(items, parentId.value, projectId)
    ensures r == Some(ParentItemGroupMismatch) <==>
      parentId.Some? && currentId != parentId && InProject(items, parentId.value, projectId)
      && items[parentId.value].groupId != groupId
    ensures r == Some(ParentItemMustBeTopLevel) <==>
      parentId.Some? && currentId != parentId && InProject(items, parentId.value, projectId)
      && items[parentId.value].groupId == groupId && items[parentId.value].parentItemId.Some?
    ensures r == Some(ItemWithSubitemsCannotBeSubitem) <==>
      parentId.Some? && currentId != parentId && InProject(items, parentId.value, projectId)
      && items[parentId.value].groupId == groupId && items[parentId.value].parentItemId.None?
      && currentId.Some? && HasChildren(items, currentId.value)
  {
    if parentId.None? then None
    else
      var p := parentId.value;
      if currentId == Some(p) then Some(ParentItemSelfRef)
      else if p !in items || items[p].projectId != projectId then Some(ParentItemNotFound)
      else if items[p].groupId != groupId then Some(ParentItemGroupMismatch)
      else if items[p].parentItemId.Some? then Some(ParentItemMustBeTopLevel)
      else if currentId.Some? && HasChildren(items, currentId.value) then Some(ItemWithSubitemsCannotBeSubitem)
      else None
  }

  // ---------------------------------------------------------------------------
  // What the stored rows keep true

  /**
   * A child item's parent is another stored item of the same project and
   * group that is itself top-level, and a child is never in the estimate.
   */
  predicate ChildOk(items: map<int, ExpenseItem>, k: int)
    requires k in items
  {
    items[k].parentItemId.Some? ==>
      var p := items[k].parentItemId.value;
      p != k && p in items && items[p].parentItemId.None?
      && items[p].projectId == items[k].projectId && items[p].groupId == items[k].groupId
      && !items[k].includeInEstimate
  }

  /** Items nest one level deep. */
  predicate OneLevel(items: map<int, ExpenseItem>) {
    forall k :: k in items ==> ChildOk(items, k)
  }

  /** No two items of one project share a stable id (the `(project_id, stable_item_id)` unique constraint). */
  predicate StableIdsUnique(items: map<int, ExpenseItem>) {
    forall a, b :: a in items && b in items && a != b && items[a].projectId == items[b].projectId ==>
      items[a].stableItemId != items[b].stableItemId
  }

  /** No item of the project carries the stable id `s` yet. */
  predicate StableIdFree(items: map<int, ExpenseItem>, projectId: int, s: string) {
    forall k :: k in items && items[k].projectId == projectId ==> items[k].stableItemId != s
  }

  /** Adding an item under a fresh stable id keeps the stable ids unique. */
  lemma InsertKeepsStableIds(items: map<int, ExpenseItem>, id: int, it: ExpenseItem)
    requires StableIdsUnique(items) && id !in items && StableIdFree(items, it.projectId, it.stableItemId)
    ensures StableIdsUnique(items[id := it])
  {
  }

  /** Rewriting an item without touching its project or stable id keeps the stable ids unique. */
  lemma ReplaceKeepsStableIds(items: map<int, ExpenseItem>, k: int, it: ExpenseItem)
    requires StableIdsUnique(items) && k in items
    requires it.projectId == items[k].projectId && it.stableItemId == items[k].stableItemId
    ensures StableIdsUnique(items[k := it])
  {
  }

  predicate GroupInProject(groups: map<int, ExpenseGroup>, g: int, projectId: int) {
    g in groups && groups[g].projectId == projectId
  }

  /** Items are filed under their ids, in a group of their own project, with a current base total. */
  predicate ItemsFiled(groups: map<int, ExpenseGroup>, items: map<int, ExpenseItem>) {
    forall k :: k in items ==>
      items[k].id == k && GroupInProject(groups, items[k].groupId, items[k].projectId) && BaseIsCurrent(items[k])
  }

  /** Each adjustment belongs to a stored item and is filed under that item's id (at most one per item). */
  predicate AdjustmentsFiled(items: map<int, ExpenseItem>, adjustments: map<int, Adjustment>) {
    forall k :: k in adjustments ==> k in items && adjustments[k].itemId == k
  }

  /** Payments are filed under their ids, which are positive. */
  predicate PaymentsFiled(payments: map<int, Payment>) {
    forall k :: k in payments ==> payments[k].id == k && k > 0
  }

  // ---------------------------------------------------------------------------
  // Discount fields

  /** `_attach_item_discounts` for one item: its adjustment's discount fields, else off and zero. */
  function ItemDiscount(adjustments: map<int, Adjustment>, itemId: int): (d: (bool, real))
    ensures itemId !in adjustments ==> d == (false, 0.0)
    ensures itemId in adjustments ==> d == (adjustments[itemId].discountEnabled, adjustments[itemId].discountAmount)
  {
    if itemId in adjustments then (adjustments[itemId].discountEnabled, adjustments[itemId].discountAmount)
    else (false, 0.0)
  }

  /**
   * `_apply_item_discount`: sets the discount fields on the item's
   * adjustment, creating a DISCOUNT adjustment with zero prices and an empty
   * reason when there is none.
   */
  function ApplyDiscount(adjustments: map<int, Adjustment>, itemId: int, enabled: bool, amount: real): (r: map<int, Adjustment>)
    ensures r.Keys == adjustments.Keys + {itemId}
    ensures forall k :: k in adjustments && k != itemId ==> r[k] == adjustments[k]
    ensures ItemDiscount(r, itemId) == (enabled, amount)
    ensures itemId in adjustments ==> r[itemId] == adjustments[itemId].(discountEnabled := enabled, discountAmount := amount)
    ensures itemId !in adjustments ==> r[itemId] == NewAdjustment(itemId).(discountEnabled := enabled, discountAmount := amount)
  {
    var adj := if itemId in adjustments then adjustments[itemId] else NewAdjustment(itemId);
    adjustments[itemId := adj.(discountEnabled := enabled, discountAmount := amount)]
  }

  /**
   * The discount step of `update_item`: nothing happens unless a discount
   * field is given; an omitted field keeps the item's current value, which
   * is off and zero when it has no adjustment.
   */
  function UpdatedAdjustments(adjustments: map<int, Adjustment>, itemId: int, enabled: Option<bool>, amount: Option<real>): (r: map<int, Adjustment>)
    ensures enabled.None? && amount.None? ==> r == adjustments
    ensures enabled.Some? || amount.Some? ==>
      ItemDiscount(r, itemId) == (enabled.GetOr(ItemDiscount(adjustments, itemId).0), amount.GetOr(ItemDiscount(adjustments, itemId).1))
    ensures forall k :: k in adjustments && k != itemId ==> k in r && r[k] == adjustments[k]
    ensures r.Keys <= adjustments.Keys + {itemId}
  {
    if enabled.None? && amount.None? then adjustments
    else
      var current := ItemDiscount(adjustments, itemId);
      ApplyDiscount(adjustments, itemId, enabled.GetOr(current.0), amount.GetOr(current.1))
  }

  // ---------------------------------------------------------------------------
  // Creating an item

  /** The body of a create request; `discountAmount` may be absent. */
  datatype ItemDraft = ItemDraft(
    groupId: int,
    parentItemId: Option<int>,
    title: string,
    mode: string,
    qty: Option<real>,
    unitPriceBase: Option<real>,
    baseTotal: real,
    includeInEstimate: bool,
    extraProfitEnabled: bool,
    extraProfitAmount: real,
    plannedPayDate: Option<Date>,
    discountEnabled: bool,
    discountAmount: Option<real>)

  /** The row `create_item` builds; a child item is kept out of the estimate. */
  function DraftItem(projectId: int, draft: ItemDraft, mode: ItemMode, id: int, stableItemId: string): ExpenseItem {
    ExpenseItem(id, stableItemId, projectId, draft.groupId, draft.parentItemId, draft.title, mode,
      draft.qty, draft.unitPriceBase, draft.baseTotal, draft.extraProfitEnabled, draft.extraProfitAmount,
      if draft.parentItemId.None? then draft.includeInEstimate else false, draft.plannedPayDate)
  }

  /**
   * `create_item`: the project, the group (in that project), the mode and
   * the parent are checked in this order, then the base total is derived.
   */
  function CreatedItem(projects: map<int, Project>, groups: map<int, ExpenseGroup>, items: map<int, ExpenseItem>,
                       projectId: int, draft: ItemDraft, id: int, stableItemId: string): (r: Result<ExpenseItem, ProjectError>)
    ensures projectId !in projects ==> r == Err(ProjectNotFound)
    ensures projectId in projects && !GroupInProject(groups, draft.groupId, projectId) ==> r == Err(GroupNotFound)
    ensures r.Ok? ==> (projectId in projects && GroupInProject(groups, draft.groupId, projectId)
      && ParseItemMode(draft.mode) == Some(r.value.mode))
    ensures r.Ok? ==> (r.value.id == id && r.value.projectId == projectId && r.value.groupId == draft.groupId
      && r.value.parentItemId == draft.parentItemId && r.value.title == draft.title)
    ensures r.Ok? ==> (r.value.includeInEstimate <==> draft.parentItemId.None? && draft.includeInEstimate)
    ensures r.Ok? ==> BaseIsCurrent(r.value)
    ensures r.Ok? && draft.parentItemId.Some? ==> ParentAcceptable(items, projectId, draft.groupId, draft.parentItemId.value, None)
    ensures projectId in projects && GroupInProject(groups, draft.groupId, projectId) && ParseItemMode(draft.mode).None?
      ==> r == Err(ItemModeInvalid)
    ensures projectId in projects && GroupInProject(groups, draft.groupId, projectId) && ParseItemMode(draft.mode).Some?
      && ValidateParent(items, projectId, draft.groupId, draft.parentItemId, None).Some?
      ==> r == Err(ValidateParent(items, projectId, draft.groupId, draft.parentItemId, None).value)
    ensures r.Ok? <==> (projectId in projects && GroupInProject(groups, draft.groupId, projectId) && ParseItemMode(draft.mode).Some?
      && ValidateParent(items, projectId, draft.groupId, draft.parentItemId, None).None?
      && (ParseItemMode(draft.mode) == Some(QtyPrice) ==> draft.qty.Some? && draft.unitPriceBase.Some?))
    ensures r.Ok? ==> (r.value.stableItemId == stableItemId && r.value.qty == draft.qty && r.value.unitPriceBase == draft.unitPriceBase
      && r.value.extraProfitEnabled == draft.extraProfitEnabled && r.value.extraProfitAmount == draft.extraProfitAmount
      && r.value.plannedPayDate == draft.plannedPayDate)
    ensures r.Ok? && r.value.mode == SingleTotal ==> r.value.baseTotal == draft.baseTotal
  {
    if projectId !in projects then Err(ProjectNotFound)
    else if !GroupInProject(groups, draft.groupId, projectId) then Err(GroupNotFound)
    else match ParseItemMode(draft.mode)
      case None => Err(ItemModeInvalid)
      case Some(mode) =>
        match ValidateParent(items, projectId, draft.groupId, draft.parentItemId, None)
        case Some(e) => Err(e)
        case None =>
          var r := RefreshBase(DraftItem(projectId, draft, mode, id, stableItemId));
          if r.Ok? then RefreshedBaseIsCurrent(DraftItem(projectId, draft, mode, id, stableItemId)); r else r
  }

  /** Creating an item with a fresh id keeps every stored-row rule. */
  lemma CreateKeepsRules(projects: map<int, Project>, groups: map<int, ExpenseGroup>, items: map<int, ExpenseItem>,
                         adjustments: map<int, Adjustment>, projectId: int, draft: ItemDraft, id: int, stableItemId: string)
    requires OneLevel(items) && ItemsFiled(groups, items) && AdjustmentsFiled(items, adjustments)
    requires id !in items && CreatedItem(projects, groups, items, projectId, draft, id, stableItemId).Ok?
    ensures var it := CreatedItem(projects, groups, items, projectId, draft, id, stableItemId).value;
      var items' := items[id := it];
      OneLevel(items') && ItemsFiled(groups, items')
      && AdjustmentsFiled(items', ApplyDiscount(adjustments, id, draft.discountEnabled, draft.discountAmount.GetOr(0.0)))
  {
    var it := CreatedItem(projects, groups, items, projectId, draft, id, stableItemId).value;
    var items' := items[id := it];
    forall k | k in items' ensures ChildOk(items', k) {
      if k != id {
        assert ChildOk(items, k);
      }
    }
  }

  // ---------------------------------------------------------------------------
  // Updating an item

  /** The fields an update request gives; `None` means the field is not set, `Some(None)` clears a nullable one. */
  datatype ItemPatch = ItemPatch(
    groupId: Option<int>,
    parentItemId: Option<Option<int>>,
    title: Option<string>,
    mode: Option<string>,
    qty: Option<Option<real>>,
    unitPriceBase: Option<Option<real>>,
    baseTotal: Option<real>,
    includeInEstimate: Option<bool>,
    extraProfitEnabled: Option<bool>,
    extraProfitAmount: Option<real>,
    plannedPayDate: Option<Option<Date>>,
    discountEnabled: Option<bool>,
    discountAmount: Option<real>)

  /** The `setattr` loop of `update_item`, followed by forcing a child out of the estimate. */
  function Patched(it: ExpenseItem, patch: ItemPatch, mode: ItemMode): ExpenseItem {
    var parent := patch.parentItemId.GetOr(it.parentItemId);
    it.(groupId := patch.groupId.GetOr(it.groupId),
        parentItemId := parent,
        title := patch.title.GetOr(it.title),
        mode := mode,
        qty := patch.qty.GetOr(it.qty),
        unitPriceBase := patch.unitPriceBase.GetOr(it.unitPriceBase),
        baseTotal := patch.baseTotal.GetOr(it.baseTotal),
        includeInEstimate := if parent.Some? then false else patch.includeInEstimate.GetOr(it.includeInEstimate),
        extraProfitEnabled := patch.extraProfitEnabled.GetOr(it.extraProfitEnabled),
        extraProfitAmount := patch.extraProfitAmount.GetOr(it.extraProfitAmount),
        plannedPayDate := patch.plannedPayDate.GetOr(it.plannedPayDate))
  }

  /** The group part of an update request is acceptable: a group of the project, and the same group for an item with children. */
  predicate GroupPatchOk(groups: map<int, ExpenseGroup>, items: map<int, ExpenseItem>, projectId: int, itemId: int, patch: ItemPatch)
    requires itemId in items
  {
    patch.groupId.Some? ==>
      GroupInProject(groups, patch.groupId.value, projectId)
      && (HasChildren(items, itemId) ==> patch.groupId.value == items[itemId].groupId)
  }

  /** The mode after an update: the requested one when given (none if it does not parse), else the current one. */
  function PatchedMode(it: ExpenseItem, patch: ItemPatch): Option<ItemMode> {
    if patch.mode.Some? then ParseItemMode(patch.mode.value) else Some(it.mode)
  }

  /**
   * `update_item`: the item must belong to the project; a new group must be
   * one of the project's and cannot differ from the current one when the
   * item has children; a new mode must parse; the resulting parent must pass
   * the parent check; then the fields are set and the base total derived.
   */
  function UpdatedItem(groups: map<int, ExpenseGroup>, items: map<int, ExpenseItem>, projectId: int, itemId: int, patch: ItemPatch): (r: Result<ExpenseItem, ProjectError>)
    ensures !InProject(items, itemId, projectId) ==> r == Err(ItemNotFound)
    ensures InProject(items, itemId, projectId) && patch.groupId.Some? && !GroupInProject(groups, patch.groupId.value, projectId)
      ==> r == Err(GroupNotFound)
    ensures InProject(items, itemId, projectId) && patch.groupId.Some? && GroupInProject(groups, patch.groupId.value, projectId)
      && HasChildren(items, itemId) && patch.groupId.value != items[itemId].groupId
      ==> r == Err(ItemWithSubitemsCannotChangeGroup)
    ensures r.Ok? ==> (InProject(items, itemId, projectId)
      && r.value == items[itemId].(groupId := r.value.groupId, parentItemId := r.value.parentItemId, title := r.value.title,
        mode := r.value.mode, qty := r.value.qty, unitPriceBase := r.value.unitPriceBase, baseTotal := r.value.baseTotal,
        includeInEstimate := r.value.includeInEstimate, extraProfitEnabled := r.value.extraProfitEnabled,
        extraProfitAmount := r.value.extraProfitAmount, plannedPayDate := r.value.plannedPayDate))
    ensures r.Ok? ==> BaseIsCurrent(r.value)
    ensures r.Ok? && patch.groupId.Some? ==> r.value.groupId == patch.groupId.value && GroupInProject(groups, r.value.groupId, projectId)
    ensures r.Ok? && patch.groupId.None? ==> r.value.groupId == items[itemId].groupId
    ensures r.Ok? && HasChildren(items, itemId) ==> r.value.groupId == items[itemId].groupId && r.value.parentItemId.None?
    ensures r.Ok? && r.value.parentItemId.Some? ==>
      !r.value.includeInEstimate && ParentAcceptable(items, projectId, r.value.groupId, r.value.parentItemId.value, Some(itemId))
    ensures (InProject(items, itemId, projectId) && GroupPatchOk(groups, items, projectId, itemId, patch)
      && PatchedMode(items[itemId], patch).None?) ==> r == Err(ItemModeInvalid)
    ensures r.Ok? <==> (InProject(items, itemId, projectId) && GroupPatchOk(groups, items, projectId, itemId, patch)
      && PatchedMode(items[itemId], patch).Some?
      && ValidateParent(items, projectId, patch.groupId.GetOr(items[itemId].groupId),
                        patch.parentItemId.GetOr(items[itemId].parentItemId), Some(itemId)).None?
      && (PatchedMode(items[itemId], patch) == Some(QtyPrice) ==>
            patch.qty.GetOr(items[itemId].qty).Some? && patch.unitPriceBase.GetOr(items[itemId].unitPriceBase).Some?))
    ensures r.Ok? ==> var it := items[itemId];
      r.value.parentItemId == patch.parentItemId.GetOr(it.parentItemId) && r.value.title == patch.title.GetOr(it.title)
      && Some(r.value.mode) == PatchedMode(it, patch)
      && r.value.qty == patch.qty.GetOr(it.qty) && r.value.unitPriceBase == patch.unitPriceBase.GetOr(it.unitPriceBase)
      && r.value.extraProfitEnabled == patch.extraProfitEnabled.GetOr(it.extraProfitEnabled)
      && r.value.extraProfitAmount == patch.extraProfitAmount.GetOr(it.extraProfitAmount)
      && r.value.plannedPayDate == patch.plannedPayDate.GetOr(it.plannedPayDate)
      && (r.value.includeInEstimate <==> r.value.parentItemId.None? && patch.includeInEstimate.GetOr(it.includeInEstimate))
    ensures r.Ok? && r.value.mode == SingleTotal ==> r.value.baseTotal == patch.baseTotal.GetOr(items[itemId].baseTotal)
  {
    if !InProject(items, itemId, projectId) then Err(ItemNotFound)
    else
      var it := items[itemId];
      var hasChildren := HasChildren(items, itemId);
      if patch.groupId.Some? && !GroupInProject(groups, patch.groupId.value, projectId) then Err(GroupNotFound)
      else if patch.groupId.Some? && hasChildren && patch.groupId.value != it.groupId then Err(ItemWithSubitemsCannotChangeGroup)
      else
        var mode := PatchedMode(it, patch);
        if mode.None? then Err(ItemModeInvalid)
        else
          var targetGroup := patch.groupId.GetOr(it.groupId);
          var targetParent := patch.parentItemId.GetOr(it.parentItemId);
          match ValidateParent(items, projectId, targetGroup, targetParent, Some(itemId))
          case Some(e) => Err(e)
          case None =>
            var patched := Patched(it, patch, mode.value);
            var r := RefreshBase(patched);
            if r.Ok? then RefreshedBaseIsCurrent(patched); r else r
  }

  /** Updating an item keeps every stored-row rule. */
  lemma UpdateKeepsRules(groups: map<int, ExpenseGroup>, items: map<int, ExpenseItem>, adjustments: map<int, Adjustment>,
                         projectId: int, itemId: int, patch: ItemPatch)
    requires OneLevel(items) && ItemsFiled(groups, items) && AdjustmentsFiled(items, adjustments)
    requires UpdatedItem(groups, items, projectId, itemId, patch).Ok?
    ensures var it := UpdatedItem(groups, items, projectId, itemId, patch).value;
      var items' := items[itemId := it];
      OneLevel(items') && ItemsFiled(groups, items')
      && AdjustmentsFiled(items', UpdatedAdjustments(adjustments, itemId, patch.discountEnabled, patch.discountAmount))
  {
    var it := UpdatedItem(groups, items, projectId, itemId, patch).value;
    var items' := items[itemId := it];
    forall k | k in items' ensures ChildOk(items', k) {
      if k != itemId {
        assert ChildOk(items, k);
        if items[k].parentItemId == Some(itemId) {
          assert HasChildren(items, itemId);
        }
      }
    }
  }

  // ---------------------------------------------------------------------------
  // Deleting an item

  /** The items left after `delete_item`: all but the item and its direct children. */
  function RemainingItems(items: map<int, ExpenseItem>, itemId: int): (r: map<int, ExpenseItem>)
    ensures forall k :: k in r ==> k in items && r[k] == items[k]
  {
    map k | k in items && k != itemId && items[k].parentItemId != Some(itemId) :: items[k]
  }

  /** The adjustments left: those whose item is left (the item's adjustment goes with it). */
  function RemainingAdjustments(adjustments: map<int, Adjustment>, remaining: map<int, ExpenseItem>): (r: map<int, Adjustment>)
    ensures forall k :: k in r ==> k in adjustments && k in remaining && r[k] == adjustments[k]
  {
    map k | k in adjustments && k in remaining :: adjustments[k]
  }

  /**
   * Deleting an item with its direct children removes exactly those: every
   * other item stays, and no remaining child points at a deleted parent.
   */
  lemma DeleteKeepsRules(groups: map<int, ExpenseGroup>, items: map<int, ExpenseItem>, adjustments: map<int, Adjustment>, itemId: int)
    requires OneLevel(items) && ItemsFiled(groups, items) && AdjustmentsFiled(items, adjustments)
    ensures var items' := RemainingItems(items, itemId);
      OneLevel(items') && ItemsFiled(groups, items') && AdjustmentsFiled(items', RemainingAdjustments(adjustments, items'))
    ensures forall k :: k in items ==> (k in RemainingItems(items, itemId) <==> k != itemId && items[k].parentItemId != Some(itemId))
  {
    var items' := RemainingItems(items, itemId);
    forall k | k in items' ensures ChildOk(items', k) {
      assert ChildOk(items, k);
      if items[k].parentItemId.Some? {
        var p := items[k].parentItemId.value;
        assert p != itemId;
        assert items[p].parentItemId != Some(itemId);
        assert p in items';
      }
    }
  }

  // ---------------------------------------------------------------------------
  // Deleting a group or a project (the delete-orphan cascades)

  /** The items left after `delete_group`: the group's items go with it. */
  function ItemsOutsideGroup(items: map<int, ExpenseItem>, groupId: int): map<int, ExpenseItem> {
    Collections.KeepWhere(items, (it: ExpenseItem) => it.groupId != groupId)
  }

  /** The groups left after `delete_project`. */
  function GroupsOutsideProject(groups: map<int, ExpenseGroup>, projectId: int): map<int, ExpenseGroup> {
    Collections.KeepWhere(groups, (g: ExpenseGroup) => g.projectId != projectId)
  }

  /** The items left after `delete_project`. */
  function ItemsOutsideProject(items: map<int, ExpenseItem>, projectId: int): map<int, ExpenseItem> {
    Collections.KeepWhere(items, (it: ExpenseItem) => it.projectId != projectId)
  }

  /** The payments left after `delete_project`. */
  function PaymentsOutsideProject(payments: map<int, Payment>, projectId: int): map<int, Payment> {
    Collections.KeepWhere(payments, (p: Payment) => p.projectId != projectId)
  }

  /**
   * Deleting a group with its items keeps every stored-row rule: a child
   * shares its parent's group, so no remaining child loses its parent.
   */
  lemma DeleteGroupKeepsRules(groups: map<int, ExpenseGroup>, items: map<int, ExpenseItem>, adjustments: map<int, Adjustment>, groupId: int)
    requires OneLevel(items) && ItemsFiled(groups, items) && AdjustmentsFiled(items, adjustments) && StableIdsUnique(items)
    ensures var items' := ItemsOutsideGroup(items, groupId);
      OneLevel(items') && ItemsFiled(groups - {groupId}, items') && StableIdsUnique(items')
      && AdjustmentsFiled(items', RemainingAdjustments(adjustments, items'))
    ensures forall k :: k in items ==> (k in ItemsOutsideGroup(items, groupId) <==> items[k].groupId != groupId)
  {
    var items' := ItemsOutsideGroup(items, groupId);
    forall k | k in items' ensures ChildOk(items', k) {
      assert ChildOk(items, k);
    }
  }

  /**
   * Deleting a project with its groups, items and payments keeps every
   * stored-row rule: an item sits in a group of its own project, so no
   * remaining item loses its group or its parent.
   */
  lemma DeleteProjectKeepsRules(groups: map<int, ExpenseGroup>, items: map<int, ExpenseItem>, adjustments: map<int, Adjustment>, projectId: int)
    requires OneLevel(items) && ItemsFiled(groups, items) && AdjustmentsFiled(items, adjustments) && StableIdsUnique(items)
    ensures var items' := ItemsOutsideProject(items, projectId);
      OneLevel(items') && ItemsFiled(GroupsOutsideProject(groups, projectId), items') && StableIdsUnique(items')
      && AdjustmentsFiled(items', RemainingAdjustments(adjustments, items'))
    ensures forall k :: k in items ==>
      (k in ItemsOutsideProject(items, projectId) <==> items[k].groupId in GroupsOutsideProject(groups, projectId))
  {
    var items' := ItemsOutsideProject(items, projectId);
    forall k | k in items' ensures ChildOk(items', k) {
      assert ChildOk(items, k);
    }
  }

  // ---------------------------------------------------------------------------
  // Payment listings

  /** A row of the fact listing: an actual payment under its id, or a due plan under its negated id. */
  datatype PaymentRow = PaymentRow(id: int, projectId: int, payDate: Date, amount: real, note: string)

  function FactRow(f: Payment): PaymentRow {
    PaymentRow(f.id, f.projectId, f.payDate, f.amount, f.note)
  }

  function PlanRow(p: Payment): PaymentRow {
    PaymentRow(-p.id, p.projectId, p.payDate, p.amount, p.note)
  }

  /** The rows stored under `ids`, in that order. */
  function RowsAt(table: map<int, Payment>, ids: seq<int>): (r: seq<Payment>)
    requires forall i :: 0 <= i < |ids| ==> ids[i] in table
    ensures |r| == |ids|
    ensures forall i :: 0 <= i < |ids| ==> r[i] == table[ids[i]]
  {
    if ids == [] then [] else [table[ids[0]]] + RowsAt(table, ids[1..])
  }

  /** `p` is the row stored under some key of the table. */
  predicate Stored(table: map<int, Payment>, p: Payment) {
    exists k :: k in table && table[k] == p
  }

  /** Looking up every key of the table, in any order, yields exactly the table's rows. */
  lemma RowsAtCovers(table: map<int, Payment>, ids: seq<int>)
    requires forall i :: 0 <= i < |ids| ==> ids[i] in table
    requires forall k :: k in table ==> k in ids
    ensures forall k :: k in table ==> table[k] in RowsAt(table, ids)
    ensures forall p :: p in RowsAt(table, ids) ==> Stored(table, p)
  {
    var r := RowsAt(table, ids);
    forall k | k in table ensures table[k] in r {
      var i :| 0 <= i < |ids| && ids[i] == k;
      assert r[i] == table[k];
    }
    forall p | p in r ensures Stored(table, p) {
      var i :| 0 <= i < |r| && r[i] == p;
      var k := ids[i];
      assert k in table && table[k] == p;
    }
  }

  /** The rows of a table in id order. */
  function RowsOf(table: map<int, Payment>): (r: seq<Payment>)
    ensures forall k :: k in table ==> table[k] in r
    ensures forall p :: p in r ==> Stored(table, p)
  {
    var ids := SortedInts(table.Keys);
    RowsAtCovers(table, ids);
    RowsAt(table, ids)
  }

  /** `ORDER BY pay_date, id`. */
  predicate PaymentLe(a: Payment, b: Payment) {
    DateLt(a.payDate, b.payDate) || (a.payDate == b.payDate && a.id <= b.id)
  }

  /** The sort key `(pay_date, id)` of the fact listing. */
  predicate RowLe(a: PaymentRow, b: PaymentRow) {
    DateLt(a.payDate, b.payDate) || (a.payDate == b.payDate && a.id <= b.id)
  }

  lemma PaymentLeTotal()
    ensures TotalPreorder(PaymentLe)
  {
    forall a: Payment, b: Payment ensures PaymentLe(a, b) || PaymentLe(b, a) {
      DateLeTotal(a.payDate, b.payDate);
    }
    forall a: Payment, b: Payment, c: Payment | PaymentLe(a, b) && PaymentLe(b, c) ensures PaymentLe(a, c) {
      DateLeTrans(a.payDate, b.payDate, c.payDate);
      DateLeTotal(a.payDate, c.payDate);
    }
  }

  lemma RowLeTotal()
    ensures TotalPreorder(RowLe)
  {
    forall a: PaymentRow, b: PaymentRow ensures RowLe(a, b) || RowLe(b, a) {
      DateLeTotal(a.payDate, b.payDate);
    }
    forall a: PaymentRow, b: PaymentRow, c: PaymentRow | RowLe(a, b) && RowLe(b, c) ensures RowLe(a, c) {
      DateLeTrans(a.payDate, b.payDate, c.payDate);
      DateLeTotal(a.payDate, c.payDate);
    }
  }

  function PlannedAfter(projectId: int, today: Date): Payment -> bool {
    (p: Payment) => p.projectId == projectId && DateLt(today, p.payDate)
  }

  /** `list_payments_plan`: the project's plans dated after `today`, by date and id. */
  function PlanListing(plans: map<int, Payment>, projectId: int, today: Date): (r: seq<Payment>)
    ensures SortedBy(r, PaymentLe)
    ensures forall p :: p in r <==> Stored(plans, p) && p.projectId == projectId && DateLt(today, p.payDate)
    ensures PaymentsFiled(plans) ==> Collections.Distinct(r)
  {
    PaymentLeTotal();
    var found := StoredWhere(plans, PlannedAfter(projectId, today));
    if PaymentsFiled(plans) then
      StoredWhereDistinct(plans, PlannedAfter(projectId, today));
      Collections.DistinctPermutation(found, SortBy(found, PaymentLe));
      SortBy(found, PaymentLe)
    else SortBy(found, PaymentLe)
  }

  /** `x` shows one of the project's actual payments. */
  predicate ShowsFact(facts: map<int, Payment>, projectId: int, x: PaymentRow) {
    exists k :: k in facts && facts[k].projectId == projectId && x == FactRow(facts[k])
  }

  /** `x` shows one of the project's plans dated on or before `today`. */
  predicate ShowsDuePlan(plans: map<int, Payment>, projectId: int, today: Date, x: PaymentRow) {
    exists k :: k in plans && plans[k].projectId == projectId && DateLe(plans[k].payDate, today) && x == PlanRow(plans[k])
  }

  function OfProject(projectId: int): Payment -> bool {
    (p: Payment) => p.projectId == projectId
  }

  function DueBy(projectId: int, today: Date): Payment -> bool {
    (p: Payment) => p.projectId == projectId && DateLe(p.payDate, today)
  }

  /** Fact rows of the stored payments that pass the project filter show exactly the project's payments. */
  lemma FactRowsShow(facts: map<int, Payment>, projectId: int, fs: seq<Payment>, r: seq<PaymentRow>)
    requires forall p :: p in fs <==> Stored(facts, p) && p.projectId == projectId
    requires |r| == |fs| && forall i :: 0 <= i < |fs| ==> r[i] == FactRow(fs[i])
    ensures forall x :: x in r <==> ShowsFact(facts, projectId, x)
  {
    forall x | x in r ensures ShowsFact(facts, projectId, x) {
      var i :| 0 <= i < |r| && r[i] == x;
      assert fs[i] in fs;
      var k :| k in facts && facts[k] == fs[i];
    }
    forall x | ShowsFact(facts, projectId, x) ensures x in r {
      var k :| k in facts && facts[k].projectId == projectId && x == FactRow(facts[k]);
      assert Stored(facts, facts[k]);
      var i :| 0 <= i < |fs| && fs[i] == facts[k];
      assert r[i] == x;
    }
  }

  /** Plan rows of the stored plans that pass the due filter show exactly the project's due plans. */
  lemma DuePlanRowsShow(plans: map<int, Payment>, projectId: int, today: Date, ps: seq<Payment>, r: seq<PaymentRow>)
    requires forall p :: p in ps <==> Stored(plans, p) && p.projectId == projectId && DateLe(p.payDate, today)
    requires |r| == |ps| && forall i :: 0 <= i < |ps| ==> r[i] == PlanRow(ps[i])
    ensures forall x :: x in r <==> ShowsDuePlan(plans, projectId, today, x)
  {
    forall x | x in r ensures ShowsDuePlan(plans, projectId, today, x) {
      var i :| 0 <= i < |r| && r[i] == x;
      assert ps[i] in ps;
      var k :| k in plans && plans[k] == ps[i];
    }
    forall x | ShowsDuePlan(plans, projectId, today, x) ensures x in r {
      var k :| k in plans && plans[k].projectId == projectId && DateLe(plans[k].payDate, today) && x == PlanRow(plans[k]);
      assert Stored(plans, plans[k]);
      var i :| 0 <= i < |ps| && ps[i] == plans[k];
      assert r[i] == x;
    }
  }

  /** The stored rows that pass `keep`. */
  function StoredWhere(table: map<int, Payment>, keep: Payment -> bool): (r: seq<Payment>)
    ensures forall p :: p in r <==> Stored(table, p) && keep(p)
  {
    var rows := RowsOf(table);
    var r := Collections.Filter(rows, keep);
    assert forall p :: Stored(table, p) ==> p in rows by {
      forall p | Stored(table, p) ensures p in rows {
        var k :| k in table && table[k] == p;
      }
    }
    r
  }

  function FactRowsAt(fs: seq<Payment>): (r: seq<PaymentRow>)
    ensures |r| == |fs| && forall i :: 0 <= i < |fs| ==> r[i] == FactRow(fs[i])
  {
    seq(|fs|, i requires 0 <= i < |fs| => FactRow(fs[i]))
  }

  function PlanRowsAt(ps: seq<Payment>): (r: seq<PaymentRow>)
    ensures |r| == |ps| && forall i :: 0 <= i < |ps| ==> r[i] == PlanRow(ps[i])
  {
    seq(|ps|, i requires 0 <= i < |ps| => PlanRow(ps[i]))
  }

  /** The fact rows of the project's actual payments. */
  function FactRows(facts: map<int, Payment>, projectId: int): (r: seq<PaymentRow>)
    ensures forall x :: x in r <==> ShowsFact(facts, projectId, x)
  {
    var fs := StoredWhere(facts, OfProject(projectId));
    FactRowsShow(facts, projectId, fs, FactRowsAt(fs));
    FactRowsAt(fs)
  }

  /** The negated rows of the project's plans dated on or before `today`. */
  function DuePlanRows(plans: map<int, Payment>, projectId: int, today: Date): (r: seq<PaymentRow>)
    ensures forall x :: x in r <==> ShowsDuePlan(plans, projectId, today, x)
  {
    var ps := StoredWhere(plans, DueBy(projectId, today));
    DuePlanRowsShow(plans, projectId, today, ps, PlanRowsAt(ps));
    PlanRowsAt(ps)
  }

  /**
   * `list_payments_fact`: the project's actual payments and, under negated
   * ids, its plans dated on or before `today`, by date and id.
   */
  function FactListing(facts: map<int, Payment>, plans: map<int, Payment>, projectId: int, today: Date): (r: seq<PaymentRow>)
    ensures SortedBy(r, RowLe)
    ensures forall x :: x in r <==> ShowsFact(facts, projectId, x) || ShowsDuePlan(plans, projectId, today, x)
    ensures PaymentsFiled(facts) && PaymentsFiled(plans) ==> Collections.Distinct(r)
  {
    RowLeTotal();
    var rows := FactRows(facts, projectId) + DuePlanRows(plans, projectId, today);
    ListingDistinct(facts, plans, projectId, today);
    SortBy(rows, RowLe)
  }

  /** Sorted by date and id, the rows of filed tables hold no row twice. */
  lemma ListingDistinct(facts: map<int, Payment>, plans: map<int, Payment>, projectId: int, today: Date)
    ensures TotalPreorder(RowLe)
    ensures PaymentsFiled(facts) && PaymentsFiled(plans) ==>
      Collections.Distinct(SortBy(FactRows(facts, projectId) + DuePlanRows(plans, projectId, today), RowLe))
  {
    RowLeTotal();
    var rows := FactRows(facts, projectId) + DuePlanRows(plans, projectId, today);
    if PaymentsFiled(facts) && PaymentsFiled(plans) {
      ListedRowsDistinct(facts, plans, projectId, today);
      Collections.DistinctPermutation(rows, SortBy(rows, RowLe));
    }
  }

  /** In a table filed by id, two different stored rows have different ids. */
  lemma StoredIdsDiffer(table: map<int, Payment>, s: seq<Payment>)
    requires PaymentsFiled(table) && Collections.Distinct(s)
    requires forall x :: x in s ==> Stored(table, x)
    ensures forall i, j :: 0 <= i < j < |s| ==> s[i].id != s[j].id
  {
    forall i, j | 0 <= i < j < |s| ensures s[i].id != s[j].id {
      assert s[i] in s && s[j] in s;
      var a :| a in table && table[a] == s[i];
      var b :| b in table && table[b] == s[j];
    }
  }

  /** Rows stored in a table filed by id have positive ids. */
  lemma PositiveIds(table: map<int, Payment>, s: seq<Payment>)
    requires PaymentsFiled(table) && forall x :: x in s ==> Stored(table, x)
    ensures forall i :: 0 <= i < |s| ==> s[i].id > 0
  {
    forall i | 0 <= i < |s| ensures s[i].id > 0 {
      assert s[i] in s;
      var k :| k in table && table[k] == s[i];
    }
  }

  /** Payments with different positive ids and plans with different positive ids show as different rows. */
  lemma ShownRowsDistinct(fs: seq<Payment>, ps: seq<Payment>)
    requires forall i, j :: 0 <= i < j < |fs| ==> fs[i].id != fs[j].id
    requires forall i, j :: 0 <= i < j < |ps| ==> ps[i].id != ps[j].id
    requires forall i :: 0 <= i < |fs| ==> fs[i].id > 0
    requires forall i :: 0 <= i < |ps| ==> ps[i].id > 0
    ensures Collections.Distinct(FactRowsAt(fs) + PlanRowsAt(ps))
  {
    var a, b := FactRowsAt(fs), PlanRowsAt(ps);
    var rows := a + b;
    forall i, j | 0 <= i < j < |rows| ensures rows[i] != rows[j] {
      if j < |a| {
        assert rows[i].id == fs[i].id && rows[j].id == fs[j].id;
      } else if i >= |a| {
        assert rows[i].id == -ps[i - |a|].id && rows[j].id == -ps[j - |a|].id;
      } else {
        assert rows[i].id == fs[i].id && rows[j].id == -ps[j - |a|].id;
      }
    }
  }

  /** The rows of a table filed by id, read in key order, hold no row twice. */
  lemma RowsOfDistinct(table: map<int, Payment>)
    requires PaymentsFiled(table)
    ensures Collections.Distinct(RowsOf(table))
  {
    var ids := SortedInts(table.Keys);
    SortedIntsAscending(table.Keys);
    var r := RowsAt(table, ids);
    assert RowsOf(table) == r;
    forall i, j | 0 <= i < j < |r| ensures r[i] != r[j] {
      assert r[i].id == ids[i] && r[j].id == ids[j];
    }
  }

  /** Filtering the rows of a table filed by id keeps them free of repetitions. */
  lemma StoredWhereDistinct(table: map<int, Payment>, keep: Payment -> bool)
    requires PaymentsFiled(table)
    ensures Collections.Distinct(StoredWhere(table, keep))
  {
    RowsOfDistinct(table);
    Collections.FilterDistinct(RowsOf(table), keep);
  }

  /**
   * The payment rows and the due plan rows shown together hold no row twice:
   * payment ids are positive and different, plan rows carry the negated,
   * different plan ids.
   */
  lemma ListedRowsDistinct(facts: map<int, Payment>, plans: map<int, Payment>, projectId: int, today: Date)
    requires PaymentsFiled(facts) && PaymentsFiled(plans)
    ensures Collections.Distinct(FactRows(facts, projectId) + DuePlanRows(plans, projectId, today))
  {
    var fs := StoredWhere(facts, OfProject(projectId));
    var ps := StoredWhere(plans, DueBy(projectId, today));
    StoredWhereDistinct(facts, OfProject(projectId));
    StoredWhereDistinct(plans, DueBy(projectId, today));
    StoredIdsDiffer(facts, fs);
    StoredIdsDiffer(plans, ps);
    assert FactRows(facts, projectId) == FactRowsAt(fs) && DuePlanRows(plans, projectId, today) == PlanRowsAt(ps);
    PositiveIds(facts, fs);
    PositiveIds(plans, ps);
    ShownRowsDistinct(fs, ps);
  }

  /** A plan of the project shows in the fact listing exactly when it is not dated after `today`. */
  lemma PlanShownIffNotAfter(facts: map<int, Payment>, plans: map<int, Payment>, projectId: int, today: Date, planId: int)
    requires PaymentsFiled(facts) && PaymentsFiled(plans)
    requires planId in plans && plans[planId].projectId == projectId
    ensures ShowsFact(facts, projectId, PlanRow(plans[planId])) || ShowsDuePlan(plans, projectId, today, PlanRow(plans[planId]))
      <==> !DateLt(today, plans[planId].payDate)
  {
    var p := plans[planId];
    DateLeTotal(p.payDate, today);
    if ShowsDuePlan(plans, projectId, today, PlanRow(p)) {
      var k :| k in plans && plans[k].projectId == projectId && DateLe(plans[k].payDate, today) && PlanRow(p) == PlanRow(plans[k]);
      assert DateLe(p.payDate, today);
    }
  }

  /** Every plan of the project is in exactly one of the two listings. */
  lemma PlanListedOnce(facts: map<int, Payment>, plans: map<int, Payment>, projectId: int, today: Date, planId: int)
    requires PaymentsFiled(facts) && PaymentsFiled(plans)
    requires planId in plans && plans[planId].projectId == projectId
    ensures (PlanRow(plans[planId]) in FactListing(facts, plans, projectId, today)) != (plans[planId] in PlanListing(plans, projectId, today))
  {
    PlanShownIffNotAfter(facts, plans, projectId, today, planId);
    assert Stored(plans, plans[planId]);
  }

  /** Where a fact-listing id points: a plan when negative, an actual payment otherwise. */
  datatype PaymentRef = PlanRef(planId: int) | FactRef(factId: int)

  /**
   * The routing of `update_payment_fact` and `delete_payment_fact`: a
   * negative id addresses the plan with the opposite id; a record that is
   * missing or belongs to another project gives PAYMENT_FACT_NOT_FOUND.
   */
  function FactTarget(facts: map<int, Payment>, plans: map<int, Payment>, projectId: int, factId: int): (r: Result<PaymentRef, ProjectError>)
    ensures r.Err? ==> r.error == PaymentFactNotFound
    ensures factId < 0 ==> (r.Ok? <==> -factId in plans && plans[-factId].projectId == projectId)
    ensures factId < 0 && r.Ok? ==> r.value == PlanRef(-factId)
    ensures factId >= 0 ==> (r.Ok? <==> factId in facts && facts[factId].projectId == projectId)
    ensures factId >= 0 && r.Ok? ==> r.value == FactRef(factId)
  {
    if factId < 0 then
      if -factId in plans && plans[-factId].projectId == projectId then Ok(PlanRef(-factId)) else Err(PaymentFactNotFound)
    else
      if factId in facts && facts[factId].projectId == projectId then Ok(FactRef(factId)) else Err(PaymentFactNotFound)
  }

  /** The listing row of the record a reference points at. */
  function RowAt(facts: map<int, Payment>, plans: map<int, Payment>, ref: PaymentRef): Option<PaymentRow> {
    match ref
    case PlanRef(id) => if id in plans then Some(PlanRow(plans[id])) else None
    case FactRef(id) => if id in facts then Some(FactRow(facts[id])) else None
  }

  /** A row that shows a stored payment or due plan routes back to that record. */
  lemma ShownRowRoutesBack(facts: map<int, Payment>, plans: map<int, Payment>, projectId: int, today: Date, x: PaymentRow)
    requires PaymentsFiled(facts) && PaymentsFiled(plans)
    requires ShowsFact(facts, projectId, x) || ShowsDuePlan(plans, projectId, today, x)
    ensures FactTarget(facts, plans, projectId, x.id).Ok?
    ensures RowAt(facts, plans, FactTarget(facts, plans, projectId, x.id).value) == Some(x)
  {
    if ShowsFact(facts, projectId, x) {
      var k :| k in facts && facts[k].projectId == projectId && x == FactRow(facts[k]);
      assert x.id == k;
    } else {
      var k :| k in plans && plans[k].projectId == projectId && DateLe(plans[k].payDate, today) && x == PlanRow(plans[k]);
      assert x.id == -k;
    }
  }

  /** Every id of the fact listing routes back to the record that row shows. */
  lemma ListedIdsRouteBack(facts: map<int, Payment>, plans: map<int, Payment>, projectId: int, today: Date, x: PaymentRow)
    requires PaymentsFiled(facts) && PaymentsFiled(plans)
    requires x in FactListing(facts, plans, projectId, today)
    ensures FactTarget(facts, plans, projectId, x.id).Ok?
    ensures RowAt(facts, plans, FactTarget(facts, plans, projectId, x.id).value) == Some(x)
  {
    ShownRowRoutesBack(facts, plans, projectId, today, x);
  }

  /** The fields a payment update request gives. */
  datatype PaymentPatch = PaymentPatch(payDate: Option<Date>, amount: Option<real>, note: Option<string>)

  /** The `setattr` loop of the payment updates. */
  function PatchPayment(p: Payment, patch: PaymentPatch): (r: Payment)
    ensures r.id == p.id && r.projectId == p.projectId && r.stablePayId == p.stablePayId
  {
    p.(payDate := patch.payDate.GetOr(p.payDate), amount := patch.amount.GetOr(p.amount), note := patch.note.GetOr(p.note))
  }

  // ---------------------------------------------------------------------------
  // The stored tables

  /** The tables the projects router reads and writes, keyed by id (adjustments by their item's id). */
  class ProjectStore {
    var projects: map<int, Project>
    var groups: map<int, ExpenseGroup>
    var items: map<int, ExpenseItem>
    var adjustments: map<int, Adjustment>
    var plans: map<int, Payment>
    var facts: map<int, Payment>

    predicate Valid()
      reads this
    {
      OneLevel(items) && ItemsFiled(groups, items) && AdjustmentsFiled(items, adjustments) && StableIdsUnique(items)
      && PaymentsFiled(plans) && PaymentsFiled(facts)
    }

    constructor (projects: map<int, Project>, groups: map<int, ExpenseGroup>)
      ensures Valid()
      ensures this.projects == projects && this.groups == groups
      ensures items == map[] && adjustments == map[] && plans == map[] && facts == map[]
    {
      this.projects := projects;
      this.groups := groups;
      items := map[];
      adjustments := map[];
      plans := map[];
      facts := map[];
    }

    /**
     * `create_item`: stores the new item under the fresh `id` the database
     * assigns and sets the discount fields on its new adjustment; on an error
     * nothing is stored.
     */
    method CreateItem(projectId: int, draft: ItemDraft, id: int, stableItemId: string) returns (r: Result<ExpenseItem, ProjectError>)
      requires Valid() && id !in items && StableIdFree(items, projectId, stableItemId)
      modifies this
      ensures Valid()
      ensures r == CreatedItem(old(projects), old(groups), old(items), projectId, draft, id, stableItemId)
      ensures r.Ok? ==> (items == old(items)[id := r.value]
        && adjustments == ApplyDiscount(old(adjustments), id, draft.discountEnabled, draft.discountAmount.GetOr(0.0)))
      ensures r.Err? ==> items == old(items) && adjustments == old(adjustments)
      ensures projects == old(projects) && groups == old(groups) && plans == old(plans) && facts == old(facts)
    {
      r := CreatedItem(projects, groups, items, projectId, draft, id, stableItemId);
      if r.Err? {
        return;
      }
      CreateKeepsRules(projects, groups, items, adjustments, projectId, draft, id, stableItemId);
      InsertKeepsStableIds(items, id, r.value);
      items := items[id := r.value];
      adjustments := ApplyDiscount(adjustments, id, draft.discountEnabled, draft.discountAmount.GetOr(0.0));
    }

    /**
     * `update_item`: writes the updated item and, when a discount field is
     * given, the item's discount; on an error nothing changes.
     */
    method UpdateItem(projectId: int, itemId: int, patch: ItemPatch) returns (r: Result<ExpenseItem, ProjectError>)
      requires Valid()
      modifies this
      ensures Valid()
      ensures r == UpdatedItem(old(groups), old(items), projectId, itemId, patch)
      ensures r.Ok? ==> (items == old(items)[itemId := r.value]
        && adjustments == UpdatedAdjustments(old(adjustments), itemId, patch.discountEnabled, patch.discountAmount))
      ensures r.Err? ==> items == old(items) && adjustments == old(adjustments)
      ensures projects == old(projects) && groups == old(groups) && plans == old(plans) && facts == old(facts)
    {
      r := UpdatedItem(groups, items, projectId, itemId, patch);
      if r.Err? {
        return;
      }
      UpdateKeepsRules(groups, items, adjustments, projectId, itemId, patch);
      ReplaceKeepsStableIds(items, itemId, r.value);
      items := items[itemId := r.value];
      adjustments := UpdatedAdjustments(adjustments, itemId, patch.discountEnabled, patch.discountAmount);
    }

    /** `delete_item`: removes the item, its direct children and their adjustments. */
    method DeleteItem(projectId: int, itemId: int) returns (r: Result<bool, ProjectError>)
      requires Valid()
      modifies this
      ensures Valid()
      ensures r.Err? <==> !InProject(old(items), itemId, projectId)
      ensures r.Err? ==> r.error == ItemNotFound && items == old(items) && adjustments == old(adjustments)
      ensures r.Ok? ==> (items == RemainingItems(old(items), itemId)
        && adjustments == RemainingAdjustments(old(adjustments), items))
      ensures projects == old(projects) && groups == old(groups) && plans == old(plans) && facts == old(facts)
    {
      if !InProject(items, itemId, projectId) {
        return Err(ItemNotFound);
      }
      DeleteKeepsRules(groups, items, adjustments, itemId);
      items := RemainingItems(items, itemId);
      adjustments := RemainingAdjustments(adjustments, items);
      r := Ok(true);
    }

    /** `delete_group`: removes a group of the project together with its items and their adjustments. */
    method DeleteGroup(projectId: int, groupId: int) returns (r: Result<bool, ProjectError>)
      requires Valid()
      modifies this
      ensures Valid()
      ensures r.Err? <==> !GroupInProject(old(groups), groupId, projectId)
      ensures r.Err? ==> r.error == GroupNotFound && groups == old(groups) && items == old(items) && adjustments == old(adjustments)
      ensures r.Ok? ==> (groups == old(groups) - {groupId} && items == ItemsOutsideGroup(old(items), groupId)
        && adjustments == RemainingAdjustments(old(adjustments), items))
      ensures forall k :: k in items ==> items[k].groupId in groups
      ensures projects == old(projects) && plans == old(plans) && facts == old(facts)
    {
      if !GroupInProject(groups, groupId, projectId) {
        return Err(GroupNotFound);
      }
      DeleteGroupKeepsRules(groups, items, adjustments, groupId);
      groups := groups - {groupId};
      items := ItemsOutsideGroup(items, groupId);
      adjustments := RemainingAdjustments(adjustments, items);
      r := Ok(true);
    }

    /**
     * `delete_project`: removes the project with its groups, their items,
     * the items' adjustments and the project's planned and actual payments.
     */
    method DeleteProject(projectId: int) returns (r: Result<bool, ProjectError>)
      requires Valid()
      modifies this
      ensures Valid()
      ensures r.Err? <==> projectId !in old(projects)
      ensures r.Err? ==> (r.error == ProjectNotFound && projects == old(projects) && groups == old(groups)
        && items == old(items) && adjustments == old(adjustments) && plans == old(plans) && facts == old(facts))
      ensures r.Ok? ==> (projects == old(projects) - {projectId}
        && groups == GroupsOutsideProject(old(groups), projectId) && items == ItemsOutsideProject(old(items), projectId)
        && adjustments == RemainingAdjustments(old(adjustments), items)
        && plans == PaymentsOutsideProject(old(plans), projectId) && facts == PaymentsOutsideProject(old(facts), projectId))
      ensures r.Ok? ==> ((forall g :: g in groups ==> groups[g].projectId != projectId)
        && (forall k :: k in items ==> items[k].projectId != projectId)
        && (forall k :: k in plans ==> plans[k].projectId != projectId)
        && (forall k :: k in facts ==> facts[k].projectId != projectId))
    {
      if projectId !in projects {
        return Err(ProjectNotFound);
      }
      DeleteProjectKeepsRules(groups, items, adjustments, projectId);
      projects := projects - {projectId};
      groups := GroupsOutsideProject(groups, projectId);
      items := ItemsOutsideProject(items, projectId);
      adjustments := RemainingAdjustments(adjustments, items);
      plans := PaymentsOutsideProject(plans, projectId);
      facts := PaymentsOutsideProject(facts, projectId);
      r := Ok(true);
    }

    /** `list_payments_plan`. */
    method ListPlans(projectId: int, today: Date) returns (r: Result<seq<Payment>, ProjectError>)
      ensures projectId !in projects ==> r == Err(ProjectNotFound)
      ensures projectId in projects ==> r == Ok(PlanListing(plans, projectId, today))
    {
      if projectId !in projects {
        return Err(ProjectNotFound);
      }
      r := Ok(PlanListing(plans, projectId, today));
    }

    /** `list_payments_fact`. */
    method ListFacts(projectId: int, today: Date) returns (r: Result<seq<PaymentRow>, ProjectError>)
      ensures projectId !in projects ==> r == Err(ProjectNotFound)
      ensures projectId in projects ==> r == Ok(FactListing(facts, plans, projectId, today))
    {
      if projectId !in projects {
        return Err(ProjectNotFound);
      }
      r := Ok(FactListing(facts, plans, projectId, today));
    }

    /** `create_payment_plan`: a new plan under the fresh `id`, with a generated stable pay id. */
    method CreatePlan(projectId: int, id: int, stablePayId: string, payDate: Date, amount: real, note: string) returns (r: Result<Payment, ProjectError>)
      requires Valid() && id > 0 && id !in plans
      modifies this
      ensures Valid()
      ensures projectId !in old(projects) ==> r == Err(ProjectNotFound) && plans == old(plans)
      ensures projectId in old(projects) ==> (r == Ok(Payment(id, stablePayId, projectId, payDate, amount, note))
        && plans == old(plans)[id := r.value])
      ensures projects == old(projects) && groups == old(groups) && items == old(items)
        && adjustments == old(adjustments) && facts == old(facts)
    {
      if projectId !in projects {
        return Err(ProjectNotFound);
      }
      var p := Payment(id, stablePayId, projectId, payDate, amount, note);
      plans := plans[id := p];
      r := Ok(p);
    }

    /** `create_payment_fact`: a new actual payment under the fresh `id`. */
    method CreateFact(projectId: int, id: int, payDate: Date, amount: real, note: string) returns (r: Result<Payment, ProjectError>)
      requires Valid() && id > 0 && id !in facts
      modifies this
      ensures Valid()
      ensures projectId !in old(projects) ==> r == Err(ProjectNotFound) && facts == old(facts)
      ensures projectId in old(projects) ==> (r == Ok(Payment(id, "", projectId, payDate, amount, note))
        && facts == old(facts)[id := r.value])
      ensures projects == old(projects) && groups == old(groups) && items == old(items)
        && adjustments == old(adjustments) && plans == old(plans)
    {
      if projectId !in projects {
        return Err(ProjectNotFound);
      }
      var f := Payment(id, "", projectId, payDate, amount, note);
      facts := facts[id := f];
      r := Ok(f);
    }

    /** `update_payment_plan`: the project first, then a plan of that project. */
    method UpdatePlan(projectId: int, planId: int, patch: PaymentPatch) returns (r: Result<Payment, ProjectError>)
      requires Valid()
      modifies this
      ensures Valid()
      ensures projectId !in old(projects) ==> r == Err(ProjectNotFound)
      ensures projectId in old(projects) && !(planId in old(plans) && old(plans)[planId].projectId == projectId)
        ==> r == Err(PaymentPlanNotFound)
      ensures projectId in old(projects) && planId in old(plans) && old(plans)[planId].projectId == projectId ==> r.Ok?
      ensures r.Ok? ==> (planId in old(plans) && r.value == PatchPayment(old(plans)[planId], patch)
        && plans == old(plans)[planId := r.value])
      ensures r.Err? ==> plans == old(plans)
      ensures projects == old(projects) && groups == old(groups) && items == old(items)
        && adjustments == old(adjustments) && facts == old(facts)
    {
      if projectId !in projects {
        return Err(ProjectNotFound);
      }
      if !(planId in plans && plans[planId].projectId == projectId) {
        return Err(PaymentPlanNotFound);
      }
      var p := PatchPayment(plans[planId], patch);
      plans := plans[planId := p];
      r := Ok(p);
    }

    /** `delete_payment_plan`. */
    method DeletePlan(projectId: int, planId: int) returns (r: Result<bool, ProjectError>)
      requires Valid()
      modifies this
      ensures Valid()
      ensures projectId !in old(projects) ==> r == Err(ProjectNotFound)
      ensures projectId in old(projects) && !(planId in old(plans) && old(plans)[planId].projectId == projectId)
        ==> r == Err(PaymentPlanNotFound)
      ensures projectId in old(projects) && planId in old(plans) && old(plans)[planId].projectId == projectId ==> r.Ok?
      ensures r.Ok? ==> plans == old(plans) - {planId}
      ensures r.Err? ==> plans == old(plans)
      ensures projects == old(projects) && groups == old(groups) && items == old(items)
        && adjustments == old(adjustments) && facts == old(facts)
    {
      if projectId !in projects {
        return Err(ProjectNotFound);
      }
      if !(planId in plans && plans[planId].projectId == projectId) {
        return Err(PaymentPlanNotFound);
      }
      plans := plans - {planId};
      r := Ok(true);
    }

    /**
     * `update_payment_fact`: after the project check, a negative id updates
     * the plan with the opposite id and answers with its negated row; any
     * other id updates the actual payment.
     */
    method UpdateFact(projectId: int, factId: int, patch: PaymentPatch) returns (r: Result<PaymentRow, ProjectError>)
      requires Valid()
      modifies this
      ensures Valid()
      ensures projectId !in old(projects) ==> r == Err(ProjectNotFound)
      ensures projectId in old(projects) && FactTarget(old(facts), old(plans), projectId, factId).Err? ==> r == Err(PaymentFactNotFound)
      ensures projectId in old(projects) && FactTarget(old(facts), old(plans), projectId, factId).Ok? ==> r.Ok?
      ensures r.Ok? && factId < 0 ==> (-factId in old(plans)
        && plans == old(plans)[-factId := PatchPayment(old(plans)[-factId], patch)] && facts == old(facts)
        && r.value == PlanRow(plans[-factId]))
      ensures r.Ok? && factId >= 0 ==> (factId in old(facts)
        && facts == old(facts)[factId := PatchPayment(old(facts)[factId], patch)] && plans == old(plans)
        && r.value == FactRow(facts[factId]))
      ensures r.Err? ==> plans == old(plans) && facts == old(facts)
      ensures projects == old(projects) && groups == old(groups) && items == old(items) && adjustments == old(adjustments)
    {
      if projectId !in projects {
        return Err(ProjectNotFound);
      }
      var target := FactTarget(facts, plans, projectId, factId);
      if target.Err? {
        return Err(target.error);
      }
      match target.value
      case PlanRef(planId) =>
        var p := PatchPayment(plans[planId], patch);
        plans := plans[planId := p];
        r := Ok(PlanRow(p));
      case FactRef(id) =>
        var f := PatchPayment(facts[id], patch);
        facts := facts[id := f];
        r := Ok(FactRow(f));
    }

    /** `delete_payment_fact`: routed like the update; a negative id deletes the plan. */
    method DeleteFact(projectId: int, factId: int) returns (r: Result<bool, ProjectError>)
      requires Valid()
      modifies this
      ensures Valid()
      ensures projectId !in old(projects) ==> r == Err(ProjectNotFound)
      ensures projectId in old(projects) && FactTarget(old(facts), old(plans), projectId, factId).Err? ==> r == Err(PaymentFactNotFound)
      ensures projectId in old(projects) && FactTarget(old(facts), old(plans), projectId, factId).Ok? ==> r.Ok?
      ensures r.Ok? && factId < 0 ==> plans == old(plans) - {-factId} && facts == old(facts)
      ensures r.Ok? && factId >= 0 ==> facts == old(facts) - {factId} && plans == old(plans)
      ensures r.Err? ==> plans == old(plans) && facts == old(facts)
      ensures projects == old(projects) && groups == old(groups) && items == old(items) && adjustments == old(adjustments)
    {
      if projectId !in projects {
        return Err(ProjectNotFound);
      }
      var target := FactTarget(facts, plans, projectId, factId);
      if target.Err? {
        return Err(target.error);
      }
      r := Ok(true);
      match target.value
      case PlanRef(planId) =>
        plans := plans - {planId};
      case FactRef(id) =>
        facts := facts - {id};
    }
  }
}

=== FILE: selected_month.dfy ===
/**
 * How the life projector recognises the selected month among the months it
 * generates (backend/app/routers/life.py): as written, by comparing key
 * strings; as intended, by the month the keys name.
 */
module SelectedMonth {
  import opened Wrappers
  import opened Calendar
  import opened Text
  import opened MonthKeys
  import opened MonthKeyLaws

  /**
   * As written, the life projector compares the selected key with keys it
   * generates itself (`target_month == selected_target_month`).
   */
  predicate SelectedMatchesAsWritten(selected: string, generated: string) {
    generated == selected
  }

  /**
   * A key typed without the month's leading zero, such as `"2024-1"`:
   * `_month_key_to_start` accepts it, but the code never generates it.
   */
  function ShortKey(year: int, month: int): string {
    FormatInt(year, 4) + "-" + FormatInt(month, 1)
  }

  /** A short key of a year in 1900..2100 and a month 1..9 is one character shorter than the canonical key. */
  lemma ShortKeyLength(year: int, month: int)
    requires 1900 <= year <= 2100 && 1 <= month <= 9
    ensures |ShortKey(year, month)| == 6 && |MonthKey(year, month)| == 7
  {
    FixedWidth(year, 4);
    FixedWidth(month, 1);
    FixedWidth(month, 2);
  }

  /** A short key is accepted as the first day of its month. */
  lemma ShortKeyAccepted(year: int, month: int)
    requires 1900 <= year <= 2100 && 1 <= month <= 9
    ensures SplitYearMonth(ShortKey(year, month)) == Some(YearMonth(year, month))
    ensures MonthKeyToStart(ShortKey(year, month)) == Ok(Date(year, month, 1))
  {
    SplitFormatted(year, month, 4, 1);
    StripFormatted(year, month, 4, 1);
    AcceptedWhenInRange(ShortKey(year, month), year, month);
  }

  /** The month the life projector generates for a selected key is `_month_next(_month_prev(key))`. */
  lemma GeneratedForShortKey(year: int, month: int)
    requires 1900 <= year <= 2100 && 1 <= month <= 9
    ensures MonthPrev(ShortKey(year, month)) == Some(KeyOf(PrevMonth(YearMonth(year, month))))
    ensures MonthNext(KeyOf(PrevMonth(YearMonth(year, month)))) == Some(MonthKey(year, month))
  {
    var ym := YearMonth(year, month);
    ShortKeyAccepted(year, month);
    NextPrevMonthInverse(ym);
    MonthNextStep(PrevMonth(ym));
  }

  /**
   * A selected month typed without its leading zero (`"2024-1"`) is accepted,
   * and the month generated for it, `_month_next(_month_prev(key))`, is its
   * canonical key (`"2024-01"`): the as-written comparison never finds the
   * selected month, while the comparison by month does.
   */
  lemma NonCanonicalSelectedNeverMatches(year: int, month: int)
    requires 1900 <= year <= 2100 && 1 <= month <= 9
    ensures MonthKeyToStart(ShortKey(year, month)) == Ok(Date(year, month, 1))
    ensures MonthPrev(ShortKey(year, month)) == Some(KeyOf(PrevMonth(YearMonth(year, month))))
    ensures MonthNext(KeyOf(PrevMonth(YearMonth(year, month)))) == Some(MonthKey(year, month))
    ensures !SelectedMatchesAsWritten(ShortKey(year, month), MonthKey(year, month))
    ensures SelectedMatches(ShortKey(year, month), MonthKey(year, month))
  {
    ShortKeyAccepted(year, month);
    GeneratedForShortKey(year, month);
    ShortKeyLength(year, month);
    StripFormatted(year, month, 4, 1);
    SplitMonthKey(year, month);
  }

  /**
   * The intended comparison: the selected and generated keys name the same
   * month once parsed.
   */
  predicate SelectedMatches(selected: string, generated: string) {
    SplitYearMonth(Strip(selected)).Some? && SplitYearMonth(generated).Some?
    && var a, b := SplitYearMonth(Strip(selected)).value, SplitYearMonth(generated).value;
      MonthIndex(a.year, a.month) == MonthIndex(b.year, b.month)
  }

  /**
   * For every key `_month_key_to_start` accepts, a generated canonical key
   * matches it exactly when it names the same month index; in particular the
   * month generated after its previous month does.
   */
  lemma SelectedMatchesAccepted(selected: string, g: YearMonth)
    requires MonthKeyToStart(selected).Ok?
    requires g.year >= 0 && 1 <= g.month <= 12
    ensures var d := MonthKeyToStart(selected).value;
      SelectedMatches(selected, KeyOf(g)) <==> MonthIndex(g.year, g.month) == MonthIndex(d.year, d.month)
    ensures var d := MonthKeyToStart(selected).value;
      SelectedMatches(selected, KeyOf(NextMonth(PrevMonth(YearMonth(d.year, d.month)))))
  {
    var d := MonthKeyToStart(selected).value;
    SplitMonthKey(g.year, g.month);
    var ym := YearMonth(d.year, d.month);
    NextPrevMonthInverse(ym);
    SplitMonthKey(d.year, d.month);
  }
}

=== FILE: sheet_apply.dfy ===
/**
 * Confirming an import (`apply_import_from_sheets` in
 * backend/app/sheets_service.py): the cached preview is taken by its token,
 * its operations are written to the stored items, adjustments and planned
 * payments, and the project's sheet link records the import time when
 * anything was applied. Also the preview step that caches what is confirmed.
 */
module SheetApply {
  import opened Wrappers
  import opened Text
  import opened Calendar
  import opened Collections
  import opened Models
  import opened EffectiveRows
  import opened Projects
  import opened SheetLayout
  import opened SheetCaches
  import opened SheetImport

  // ---------------------------------------------------------------------------
  // One operation

  /**
   * An item after its operation: a QTY_PRICE item takes the quantity and,
   * when it has a unit price, the base total derived from the two; a
   * SINGLE_TOTAL item is left alone.
   */
  function AppliedItem(item: ExpenseItem, op: ItemOp): (r: ExpenseItem)
    ensures item.mode != QtyPrice ==> r == item
    ensures item.mode == QtyPrice ==> r.qty == Some(op.qty)
    ensures r == item.(qty := r.qty, baseTotal := r.baseTotal)
    ensures BaseIsCurrent(item) ==> BaseIsCurrent(r)
  {
    if item.mode != QtyPrice then item
    else
      var it := item.(qty := Some(op.qty));
      if it.unitPriceBase.None? then it
      else
        var unit := it.unitPriceBase.value;
        it.(baseTotal := if op.qty == 0.0 then unit else op.qty * unit)
  }

  /**
   * The item's adjustment after its operation: the existing one, or a new
   * one for the item, with the four priced fields the operation carries;
   * the discount fields are kept.
   */
  function AppliedAdjustment(adj: Option<Adjustment>, itemId: int, op: ItemOp): (a: Adjustment)
    ensures a.unitPriceFull == op.unitPriceFull && a.unitPriceBillable == op.unitPriceBillable
    ensures a.adjustmentType == op.adjustmentType && a.reason == op.reason
    ensures adj.Some? ==> (a.itemId == adj.value.itemId
      && a.discountEnabled == adj.value.discountEnabled && a.discountAmount == adj.value.discountAmount)
    ensures adj.None? ==> a.itemId == itemId && !a.discountEnabled && a.discountAmount == 0.0
  {
    var base := adj.GetOr(NewAdjustment(itemId));
    base.(unitPriceFull := op.unitPriceFull, unitPriceBillable := op.unitPriceBillable,
      adjustmentType := op.adjustmentType, reason := op.reason)
  }

  /** A planned payment after its update. */
  function AppliedPlan(plan: Payment, op: PaymentUpdateOp): (r: Payment)
    ensures r.id == plan.id && r.stablePayId == plan.stablePayId && r.projectId == plan.projectId
    ensures PaymentChanges(r, op.payDate, op.amount, op.note) == {}
  {
    plan.(payDate := op.payDate, amount := op.amount, note := op.note)
  }

  /**
   * Confirming an estimate row's change and reading the same row again
   * proposes nothing more and reports the same errors: the operation writes
   * exactly what the row shows.
   */
  lemma ReimportSeesNoItemChange(lk: Lookups, idx: nat, row: EstimateCells, parse: string -> Option<real>)
    requires EstimateRowOutcome(lk, idx, row, parse).change.Some?
    ensures Strip(row.itemId) in lk.itemsByStable
    ensures var key := Strip(row.itemId);
      var item := lk.itemsByStable[key];
      var o := EstimateRowOutcome(lk, idx, row, parse);
      var op := o.change.value.op;
      var lk' := lk.(itemsByStable := lk.itemsByStable[key := AppliedItem(item, op)],
        adjustmentByItem := lk.adjustmentByItem[item.id := AppliedAdjustment(AdjustmentOf(lk, item.id), item.id, op)]);
      EstimateRowOutcome(lk', idx, row, parse) == RowOutcome(o.errors, None)
  {
    var key := Strip(row.itemId);
    var item := lk.itemsByStable[key];
    var rowLabel := RowLabel(EstimateRowPrefix, idx);
    assert EstimateRowReads(lk, row, parse, rowLabel);
    EstimateRowDiff(lk, idx, row, parse);
    var o := EstimateRowOutcome(lk, idx, row, parse);
    var op := o.change.value.op;
    var item' := AppliedItem(item, op);
    var adj' := AppliedAdjustment(AdjustmentOf(lk, item.id), item.id, op);
    var lk' := lk.(itemsByStable := lk.itemsByStable[key := item'], adjustmentByItem := lk.adjustmentByItem[item.id := adj']);
    assert AdjustmentOf(lk', item'.id) == Some(adj');
    var current := ItemSheetValues(item, AdjustmentOf(lk, item.id));
    var current' := ItemSheetValues(item', Some(adj'));
    assert current'.unitPriceFull == current.unitPriceFull;
    assert EstimateRowReads(lk', row, parse, rowLabel);
    EstimateRowDiff(lk', idx, row, parse);
  }

  /** Confirming a payment row's update and reading the same row again proposes nothing more. */
  lemma ReimportSeesNoPaymentChange(lk: Lookups, idx: nat, row: PaymentCells, parse: string -> Option<real>, parseDate: string -> Option<Date>)
    requires PaymentRowOutcome(lk, idx, row, parse, parseDate).change.Some?
    requires PaymentRowOutcome(lk, idx, row, parse, parseDate).change.value.Updated?
    ensures Strip(row.payId) in lk.plansByStable
    ensures var payId := Strip(row.payId);
      var op := PaymentRowOutcome(lk, idx, row, parse, parseDate).change.value.op;
      var lk' := lk.(plansByStable := lk.plansByStable[payId := AppliedPlan(lk.plansByStable[payId], op)]);
      PaymentRowOutcome(lk', idx, row, parse, parseDate) == RowOutcome([], None)
  {
  }

  // ---------------------------------------------------------------------------
  // All operations, as stored rows

  /** What the item operations leave, with the number applied. */
  datatype ItemsApplied = ItemsApplied(items: map<int, ExpenseItem>, adjustments: map<int, Adjustment>, count: nat)

  /** The adjustment stored for an item, if any. */
  function StoredAdjustment(adjustments: map<int, Adjustment>, itemId: int): (a: Option<Adjustment>)
    ensures a.Some? <==> itemId in adjustments
    ensures a.Some? ==> a.value == adjustments[itemId]
  {
    if itemId in adjustments then Some(adjustments[itemId]) else None
  }

  /**
   * The item operations in order: an operation whose item is gone is
   * skipped; the others update the item and create or update its adjustment.
   */
  function ApplyItemOps(items: map<int, ExpenseItem>, adjustments: map<int, Adjustment>, ops: seq<ItemOp>): (r: ItemsApplied)
    ensures r.items.Keys == items.Keys
    ensures r.count <= |ops|
    decreases |ops|
  {
    if ops == [] then ItemsApplied(items, adjustments, 0)
    else
      var n := |ops| - 1;
      ApplyItemOp(ApplyItemOps(items, adjustments, ops[..n]), ops[n])
  }

  /** One item operation: skipped when its item is gone, otherwise applied and counted. */
  function ApplyItemOp(r: ItemsApplied, op: ItemOp): (r': ItemsApplied)
    ensures r'.items.Keys == r.items.Keys
    ensures r'.count == if op.dbItemId in r.items then r.count + 1 else r.count
  {
    if op.dbItemId !in r.items then r
    else
      var k := op.dbItemId;
      ItemsApplied(
        r.items[k := AppliedItem(r.items[k], op)],
        r.adjustments[k := AppliedAdjustment(StoredAdjustment(r.adjustments, k), k, op)],
        r.count + 1)
  }

  /** Applying one more operation of the list is one more step. */
  lemma ItemOpsPrefix(items: map<int, ExpenseItem>, adjustments: map<int, Adjustment>, ops: seq<ItemOp>, i: nat)
    requires i < |ops|
    ensures ApplyItemOps(items, adjustments, ops[..i + 1]) == ApplyItemOp(ApplyItemOps(items, adjustments, ops[..i]), ops[i])
  {
    assert ops[..i + 1][..i] == ops[..i];
  }

  function IsStoredItem(items: map<int, ExpenseItem>): ItemOp -> bool {
    (op: ItemOp) => op.dbItemId in items
  }

  /** The number of item operations applied is the number whose item is still stored. */
  lemma {:induction false} ItemOpsCount(items: map<int, ExpenseItem>, adjustments: map<int, Adjustment>, ops: seq<ItemOp>)
    ensures ApplyItemOps(items, adjustments, ops).count == |Filter(ops, IsStoredItem(items))|
    decreases |ops|
  {
    if ops != [] {
      var n := |ops| - 1;
      ItemOpsCount(items, adjustments, ops[..n]);
      assert ops[..n] + [ops[n]] == ops;
    }
  }

  /** An item changed only in its quantity and base total keeps the shape the store's rules look at. */
  predicate SameShape(a: ExpenseItem, b: ExpenseItem) {
    a.id == b.id && a.projectId == b.projectId && a.groupId == b.groupId
    && a.parentItemId == b.parentItemId && a.includeInEstimate == b.includeInEstimate
  }

  /** Replacing a stored item by one of the same shape with a current base keeps the store's rules. */
  lemma ReplaceKeepsRules(groups: map<int, ExpenseGroup>, items: map<int, ExpenseItem>, k: int, it: ExpenseItem)
    requires OneLevel(items) && ItemsFiled(groups, items)
    requires k in items && SameShape(items[k], it) && BaseIsCurrent(it)
    ensures OneLevel(items[k := it]) && ItemsFiled(groups, items[k := it])
  {
    var items' := items[k := it];
    forall j | j in items'
      ensures ChildOk(items', j)
    {
      assert ChildOk(items, j);
    }
  }

  /** The item operations keep every rule the store keeps. */
  lemma {:induction false} ItemOpsKeepRules(groups: map<int, ExpenseGroup>, items: map<int, ExpenseItem>, adjustments: map<int, Adjustment>, ops: seq<ItemOp>)
    requires OneLevel(items) && ItemsFiled(groups, items) && AdjustmentsFiled(items, adjustments)
    ensures var r := ApplyItemOps(items, adjustments, ops);
      OneLevel(r.items) && ItemsFiled(groups, r.items) && AdjustmentsFiled(r.items, r.adjustments)
    decreases |ops|
  {
    if ops != [] {
      var n := |ops| - 1;
      ItemOpsKeepRules(groups, items, adjustments, ops[..n]);
      var r := ApplyItemOps(items, adjustments, ops[..n]);
      var k := ops[n].dbItemId;
      if k in r.items {
        ReplaceKeepsRules(groups, r.items, k, AppliedItem(r.items[k], ops[n]));
      }
    }
  }

  /** What the payment updates leave, with the number applied. */
  datatype PlansApplied = PlansApplied(plans: map<int, Payment>, count: nat)

  /** The payment updates in order; an update whose plan is gone is skipped. */
  function ApplyPaymentUpdates(plans: map<int, Payment>, ops: seq<PaymentUpdateOp>): (r: PlansApplied)
    ensures r.plans.Keys == plans.Keys
    ensures r.count <= |ops|
    ensures forall k :: k in r.plans ==> r.plans[k].id == plans[k].id
    decreases |ops|
  {
    if ops == [] then PlansApplied(plans, 0)
    else
      var n := |ops| - 1;
      ApplyPaymentUpdate(ApplyPaymentUpdates(plans, ops[..n]), ops[n])
  }

  /** One payment update: skipped when its plan is gone, otherwise applied and counted. */
  function ApplyPaymentUpdate(r: PlansApplied, op: PaymentUpdateOp): (r': PlansApplied)
    ensures r'.plans.Keys == r.plans.Keys
    ensures r'.count == if op.dbPaymentId in r.plans then r.count + 1 else r.count
    ensures forall k :: k in r'.plans ==> r'.plans[k].id == r.plans[k].id
  {
    var k := op.dbPaymentId;
    if k !in r.plans then r
    else PlansApplied(r.plans[k := AppliedPlan(r.plans[k], op)], r.count + 1)
  }

  /** Applying one more update of the list is one more step. */
  lemma PaymentUpdatesPrefix(plans: map<int, Payment>, ops: seq<PaymentUpdateOp>, i: nat)
    requires i < |ops|
    ensures ApplyPaymentUpdates(plans, ops[..i + 1]) == ApplyPaymentUpdate(ApplyPaymentUpdates(plans, ops[..i]), ops[i])
  {
    assert ops[..i + 1][..i] == ops[..i];
  }

  /** The plan a new payment becomes: the `i`-th fresh id and the `i`-th generated stable id. */
  function NewPlan(projectId: int, op: NewPayment, id: int, stablePayId: string): Payment {
    Payment(id, stablePayId, projectId, op.payDate, op.amount, op.note)
  }

  /**
   * The new payments added as plans of the project under the fresh ids
   * `firstId`, `firstId + 1`, ...; stored plans are kept.
   */
  function AddNewPlans(plans: map<int, Payment>, projectId: int, ops: seq<NewPayment>, firstId: int, stableId: nat -> string): (r: map<int, Payment>)
    requires forall k :: k in plans ==> k < firstId
    ensures forall k :: k in plans ==> k in r && r[k] == plans[k]
    ensures forall k :: firstId <= k < firstId + |ops| ==> k in r && r[k] == NewPlan(projectId, ops[k - firstId], k, stableId(k - firstId))
    ensures forall k :: k in r ==> k in plans || firstId <= k < firstId + |ops|
    decreases |ops|
  {
    if ops == [] then plans
    else
      var n := |ops| - 1;
      var r := AddNewPlans(plans, projectId, ops[..n], firstId, stableId);
      r[firstId + n := NewPlan(projectId, ops[n], firstId + n, stableId(n))]
  }

  /** One more new payment: the plans so far with the next fresh id added. */
  lemma {:induction false} AddNewPlansStep(plans: map<int, Payment>, projectId: int, ops: seq<NewPayment>, i: nat, firstId: int, stableId: nat -> string)
    requires forall k :: k in plans ==> k < firstId
    requires i < |ops|
    ensures AddNewPlans(plans, projectId, ops[..i + 1], firstId, stableId)
      == AddNewPlans(plans, projectId, ops[..i], firstId, stableId)[firstId + i := NewPlan(projectId, ops[i], firstId + i, stableId(i))]
  {
    assert ops[..i + 1][..i] == ops[..i];
  }

  // ---------------------------------------------------------------------------
  // The sheet link

  const MockSheetPrefix: string := "mock-sheet-"

  /** `_ensure_link`: the project's link, or a new one naming the mock spreadsheet and the default tab. */
  function EnsuredLink(links: map<int, SheetLink>, projectId: int): (l: SheetLink)
    ensures projectId in links ==> l == links[projectId]
    ensures projectId !in links ==> (l.projectId == projectId && l.sheetTabName == DefaultSheetTabName
      && l.lastPublishedAt.None? && l.lastImportedAt.None?)
    ensures projectId !in links ==> (MockSheetPrefix <= l.spreadsheetId
      && ParseInt(l.spreadsheetId[|MockSheetPrefix|..]) == Some(projectId))
  {
    if projectId in links then links[projectId]
    else
      var id := MockSheetPrefix + FormatInt(projectId, 0);
      ParseFormatInt(projectId, 0);
      assert id[|MockSheetPrefix|..] == FormatInt(projectId, 0);
      SheetLink(projectId, id, DefaultSheetTabName, None, None)
  }

  /** The sheet links, one per project. */
  class SheetLinks {
    var links: map<int, SheetLink>

    constructor ()
      ensures links == map[]
    {
      links := map[];
    }

    /** `_ensure_link` followed by recording the import time. */
    method RecordImport(projectId: int, at: DateTime)
      modifies this
      ensures links == old(links)[projectId := EnsuredLink(old(links), projectId).(lastImportedAt := Some(at))]
    {
      var link := EnsuredLink(links, projectId);
      links := links[projectId := link.(lastImportedAt := Some(at))];
    }
  }

  // ---------------------------------------------------------------------------
  // Preview and confirm

  /** What a confirmed import reports. */
  datatype ApplySummary = ApplySummary(
    appliedItems: nat,
    appliedPaymentsUpdated: nat,
    appliedPaymentsNew: nat,
    errors: seq<string>,
    importedAt: Option<DateTime>)

  type CachedImport = (Preview, ApplyOps)

  /**
   * `preview_import_from_sheets`: the preview of the sheet against the
   * project's stored rows, cached under the drawn token, which is returned
   * with it.
   */
  method PreviewImport(store: ProjectStore, cache: PreviewCache<CachedImport>, projectId: int, sheet: ParsedSheet,
                       parse: string -> Option<real>, parseDate: string -> Option<Date>, token: string, now: real)
    returns (r: Result<(string, Preview), string>)
    modifies cache
    ensures projectId !in store.projects ==> r == Err("PROJECT_NOT_FOUND") && cache.entries == old(cache.entries)
    ensures projectId in store.projects ==>
      var pv := PreviewOf(ProjectLookups(store.items, store.adjustments, store.plans, projectId), sheet, parse, parseDate);
      r == Ok((token, pv.0)) && cache.entries == CachedWith(old(cache.entries), projectId, token, now, pv)
  {
    if projectId !in store.projects {
      return Err("PROJECT_NOT_FOUND");
    }
    var lk := ProjectLookups(store.items, store.adjustments, store.plans, projectId);
    var preview, ops := ComputePreview(lk, sheet, parse, parseDate);
    var t := cache.Cache(projectId, token, now, (preview, ops));
    r := Ok((t, preview));
  }

  /** The item loop of `apply_import_from_sheets`. */
  method ApplyItems(store: ProjectStore, ops: seq<ItemOp>) returns (applied: nat)
    requires store.Valid()
    modifies store
    ensures store.Valid()
    ensures var r := ApplyItemOps(old(store.items), old(store.adjustments), ops);
      store.items == r.items && store.adjustments == r.adjustments && applied == r.count
    ensures store.projects == old(store.projects) && store.groups == old(store.groups)
      && store.plans == old(store.plans) && store.facts == old(store.facts)
  {
    ghost var items0, adjustments0 := store.items, store.adjustments;
    applied := 0;
    for i := 0 to |ops|
      invariant store.Valid()
      invariant var r := ApplyItemOps(items0, adjustments0, ops[..i]);
        store.items == r.items && store.adjustments == r.adjustments && applied == r.count
      invariant store.projects == old(store.projects) && store.groups == old(store.groups)
        && store.plans == old(store.plans) && store.facts == old(store.facts)
    {
      ItemOpsPrefix(items0, adjustments0, ops, i);
      var hit := ApplyItem(store, ops[i]);
      if hit {
        applied := applied + 1;
      }
    }
    assert ops[..|ops|] == ops;
  }

  /** The body of the item loop: an operation whose item is stored updates the item and its adjustment. */
  method ApplyItem(store: ProjectStore, op: ItemOp) returns (hit: bool)
    requires store.Valid()
    modifies store
    ensures store.Valid()
    ensures hit <==> op.dbItemId in old(store.items)
    ensures var r := ApplyItemOp(ItemsApplied(old(store.items), old(store.adjustments), 0), op);
      store.items == r.items && store.adjustments == r.adjustments
    ensures store.projects == old(store.projects) && store.groups == old(store.groups)
      && store.plans == old(store.plans) && store.facts == old(store.facts)
  {
    var k := op.dbItemId;
    hit := k in store.items;
    if hit {
      var item := AppliedItem(store.items[k], op);
      var adj := AppliedAdjustment(StoredAdjustment(store.adjustments, k), k, op);
      ReplaceKeepsRules(store.groups, store.items, k, item);
      ReplaceKeepsStableIds(store.items, k, item);
      store.items := store.items[k := item];
      store.adjustments := store.adjustments[k := adj];
    }
  }

  /** The payment-update loop of `apply_import_from_sheets`. */
  method ApplyPaymentUpdateOps(store: ProjectStore, ops: seq<PaymentUpdateOp>) returns (applied: nat)
    requires store.Valid()
    modifies store
    ensures store.Valid()
    ensures var r := ApplyPaymentUpdates(old(store.plans), ops);
      store.plans == r.plans && applied == r.count
    ensures store.projects == old(store.projects) && store.groups == old(store.groups) && store.items == old(store.items)
      && store.adjustments == old(store.adjustments) && store.facts == old(store.facts)
  {
    ghost var plans0 := store.plans;
    applied := 0;
    for i := 0 to |ops|
      invariant store.Valid()
      invariant var r := ApplyPaymentUpdates(plans0, ops[..i]);
        store.plans == r.plans && applied == r.count
      invariant store.projects == old(store.projects) && store.groups == old(store.groups) && store.items == old(store.items)
        && store.adjustments == old(store.adjustments) && store.facts == old(store.facts)
    {
      PaymentUpdatesPrefix(plans0, ops, i);
      var hit := RewritePlan(store, ops[i]);
      if hit {
        applied := applied + 1;
      }
    }
    assert ops[..|ops|] == ops;
  }

  /** The body of the payment-update loop: an update whose plan is stored rewrites the plan. */
  method RewritePlan(store: ProjectStore, op: PaymentUpdateOp) returns (hit: bool)
    requires store.Valid()
    modifies store
    ensures store.Valid()
    ensures hit <==> op.dbPaymentId in old(store.plans)
    ensures store.plans == ApplyPaymentUpdate(PlansApplied(old(store.plans), 0), op).plans
    ensures store.projects == old(store.projects) && store.groups == old(store.groups) && store.items == old(store.items)
      && store.adjustments == old(store.adjustments) && store.facts == old(store.facts)
  {
    var k := op.dbPaymentId;
    hit := k in store.plans;
    if hit {
      store.plans := store.plans[k := AppliedPlan(store.plans[k], op)];
    }
  }

  /** The new-payment loop of `apply_import_from_sheets`; the database hands out ids from `firstId` on. */
  method AddPlans(store: ProjectStore, projectId: int, ops: seq<NewPayment>, firstId: int, stableId: nat -> string)
    requires store.Valid()
    requires firstId > 0 && forall k :: k in store.plans ==> k < firstId
    modifies store
    ensures store.Valid()
    ensures store.plans == AddNewPlans(old(store.plans), projectId, ops, firstId, stableId)
    ensures store.projects == old(store.projects) && store.groups == old(store.groups) && store.items == old(store.items)
      && store.adjustments == old(store.adjustments) && store.facts == old(store.facts)
  {
    ghost var plans0 := store.plans;
    var i := 0;
    while i < |ops|
      invariant 0 <= i <= |ops|
      invariant store.Valid()
      invariant store.plans == AddNewPlans(plans0, projectId, ops[..i], firstId, stableId)
      invariant store.projects == old(store.projects) && store.groups == old(store.groups) && store.items == old(store.items)
        && store.adjustments == old(store.adjustments) && store.facts == old(store.facts)
    {
      AddNewPlansStep(plans0, projectId, ops, i, firstId, stableId);
      store.plans := store.plans[firstId + i := NewPlan(projectId, ops[i], firstId + i, stableId(i))];
      i := i + 1;
    }
    assert ops[..|ops|] == ops;
  }

  /**
   * `apply_import_from_sheets`: the cached preview is taken (a missing,
   * stale or expired token ends it with the cache's error and nothing else
   * changes); then the item operations, the payment updates and the new
   * payments are applied in that order, and when anything was applied the
   * project's link records `importedAt`. The preview's errors are reported
   * with the counts. The store keeps its rules throughout.
   */
  method ApplyImport(store: ProjectStore, cache: PreviewCache<CachedImport>, links: SheetLinks, projectId: int, token: string,
                     now: real, importedAt: DateTime, firstId: int, stableId: nat -> string)
    returns (r: Result<ApplySummary, string>)
    requires store.Valid()
    requires firstId > 0 && forall k :: k in store.plans ==> k < firstId
    modifies store, cache, links
    ensures store.Valid()
    ensures cache.entries == AfterTake(old(cache.entries), projectId, token)
    ensures var taken := TakeResult(old(cache.entries), projectId, token, now);
      taken.Err? ==> (r == Err(taken.error) && links.links == old(links.links)
        && store.items == old(store.items) && store.adjustments == old(store.adjustments) && store.plans == old(store.plans))
    ensures var taken := TakeResult(old(cache.entries), projectId, token, now);
      taken.Ok? ==>
        var ops := taken.value.1;
        var it := ApplyItemOps(old(store.items), old(store.adjustments), ops.items);
        var up := ApplyPaymentUpdates(old(store.plans), ops.paymentsUpdated);
        var any := it.count + up.count + |ops.paymentsNew| > 0;
        && store.items == it.items && store.adjustments == it.adjustments
        && store.plans == AddNewPlans(up.plans, projectId, ops.paymentsNew, firstId, stableId)
        && r == Ok(ApplySummary(it.count, up.count, |ops.paymentsNew|, taken.value.0.errors, if any then Some(importedAt) else None))
        && links.links == (if any then old(links.links)[projectId := EnsuredLink(old(links.links), projectId).(lastImportedAt := Some(importedAt))] else old(links.links))
    ensures store.projects == old(store.projects) && store.groups == old(store.groups) && store.facts == old(store.facts)
  {
    var taken := cache.Take(projectId, token, now);
    if taken.Err? {
      return Err(taken.error);
    }
    var preview, ops := taken.value.0, taken.value.1;
    var appliedItems := ApplyItems(store, ops.items);
    var appliedUpdates := ApplyPaymentUpdateOps(store, ops.paymentsUpdated);
    AddPlans(store, projectId, ops.paymentsNew, firstId, stableId);
    var importedAtOut: Option<DateTime> := None;
    if appliedItems > 0 || appliedUpdates > 0 || |ops.paymentsNew| > 0 {
      links.RecordImport(projectId, importedAt);
      importedAtOut := Some(importedAt);
    }
    r := Ok(ApplySummary(appliedItems, appliedUpdates, |ops.paymentsNew|, preview.errors, importedAtOut));
  }

  /** Confirming a preview within the TTL applies exactly the operations that preview computed. */
  lemma ConfirmAppliesPreviewed(entries: map<int, CachedPreview<CachedImport>>, projectId: int, token: string, t0: real, t1: real, pv: CachedImport)
    requires t1 - t0 <= PreviewTtl
    ensures TakeResult(CachedWith(entries, projectId, token, t0, pv), projectId, token, t1) == Ok(pv)
  {
    CacheThenTake(entries, projectId, token, t0, t1, pv);
  }
}

=== FILE: sheet_caches.dfy ===
/**
 * The two in-memory stores of backend/app/sheets_service.py that expire
 * their entries: the OAuth states handed out when the Google sign-in starts
 * and the import previews waiting for confirmation. The clock (`time.time()`)
 * is a parameter in seconds; the tokens `secrets.token_urlsafe` draws are
 * parameters too.
 */
module SheetCaches {
  import opened Wrappers

  const OAuthStateTtl: real := 600.0
  const PreviewTtl: real := 1800.0

  const StateInvalid: string := "GOOGLE_OAUTH_STATE_INVALID"
  const StateExpired: string := "GOOGLE_OAUTH_STATE_EXPIRED"
  const ConfirmRequired: string := "PREVIEW_CONFIRM_REQUIRED"
  const TokenExpired: string := "PREVIEW_TOKEN_EXPIRED"

  // ---------------------------------------------------------------------------
  // OAuth states

  /** An entry outlives the TTL when more than the TTL has passed since it was recorded. */
  predicate Outlived(recordedAt: real, now: real, ttl: real) {
    now - recordedAt > ttl
  }

  /** `_cleanup_oauth_states`: the states recorded no more than the TTL before `now`, with their times. */
  function Unexpired(issued: map<string, real>, now: real): (r: map<string, real>)
    ensures r.Keys <= issued.Keys
    ensures forall s :: s in r ==> r[s] == issued[s] && !Outlived(r[s], now, OAuthStateTtl)
    ensures forall s :: s in issued && !Outlived(issued[s], now, OAuthStateTtl) ==> s in r
  {
    map s | s in issued && !Outlived(issued[s], now, OAuthStateTtl) :: issued[s]
  }

  /** A second clean-up at the same time removes nothing more. */
  lemma CleanupIdempotent(issued: map<string, real>, now: real)
    ensures Unexpired(Unexpired(issued, now), now) == Unexpired(issued, now)
  {
  }

  /** A later clean-up keeps no state an earlier one removed. */
  lemma CleanupMonotone(issued: map<string, real>, now: real, later: real)
    requires now <= later
    ensures Unexpired(issued, later).Keys <= Unexpired(issued, now).Keys
  {
  }

  /** Two maps with the same keys and the same value at each key are equal. */
  lemma SameEntries(a: map<string, real>, b: map<string, real>)
    requires forall s :: s in a <==> s in b
    requires forall s :: s in a ==> a[s] == b[s]
    ensures a == b
  {
  }

  /** `_register_oauth_state`: clean up, then record the state at `now`. */
  function Registered(issued: map<string, real>, state: string, now: real): (r: map<string, real>)
    ensures state in r && r[state] == now
    ensures forall s :: s in r && s != state ==> s in issued && r[s] == issued[s] && !Outlived(r[s], now, OAuthStateTtl)
  {
    Unexpired(issued, now)[state := now]
  }

  /** The three ways a consume ends. */
  datatype StateVerdict = Accepted | Unknown | Late

  function StateError(v: StateVerdict): string
    requires !v.Accepted?
  {
    if v.Unknown? then StateInvalid else StateExpired
  }

  /**
   * `_consume_oauth_state`: clean up at `cleanupAt`; a state no longer
   * present is unknown; a present one read at `checkAt` more than the TTL
   * after it was recorded is late; anything else is accepted.
   */
  function ConsumeVerdict(issued: map<string, real>, state: string, cleanupAt: real, checkAt: real): (v: StateVerdict)
    ensures v.Unknown? <==> (state !in issued || Outlived(issued[state], cleanupAt, OAuthStateTtl))
    ensures v.Late? <==> (state in issued && !Outlived(issued[state], cleanupAt, OAuthStateTtl)
      && Outlived(issued[state], checkAt, OAuthStateTtl))
  {
    var kept := Unexpired(issued, cleanupAt);
    if state !in kept then Unknown
    else if Outlived(kept[state], checkAt, OAuthStateTtl) then Late
    else Accepted
  }

  /** What a consume leaves behind, whatever its verdict: the clean-up's survivors less the state. */
  function Consumed(issued: map<string, real>, state: string, cleanupAt: real): (r: map<string, real>)
    ensures state !in r
    ensures forall s :: s in r ==> s in issued && r[s] == issued[s]
  {
    Unexpired(issued, cleanupAt) - {state}
  }

  /** With one reading of the clock for both checks, a state is never reported as expired. */
  lemma OneInstantNeverLate(issued: map<string, real>, state: string, now: real)
    ensures ConsumeVerdict(issued, state, now, now) != Late
  {
  }

  /** A state registered at `t0` and consumed while both readings are within the TTL of `t0` is accepted. */
  lemma FreshStateAccepted(issued: map<string, real>, state: string, t0: real, cleanupAt: real, checkAt: real)
    requires cleanupAt - t0 <= OAuthStateTtl && checkAt - t0 <= OAuthStateTtl
    ensures ConsumeVerdict(Registered(issued, state, t0), state, cleanupAt, checkAt) == Accepted
  {
  }

  /** A state is single use: once consumed, consuming it again finds nothing, at any later times. */
  lemma StateSingleUse(issued: map<string, real>, state: string, cleanupAt: real, t1: real, t2: real)
    ensures ConsumeVerdict(Consumed(issued, state, cleanupAt), state, t1, t2) == Unknown
  {
  }

  /** Consuming one state leaves every other state as a clean-up at that time would. */
  lemma ConsumeSparesOthers(issued: map<string, real>, state: string, other: string, cleanupAt: real)
    requires other != state
    ensures other in Consumed(issued, state, cleanupAt) <==> other in Unexpired(issued, cleanupAt)
  {
  }

  /** The OAuth states issued and not yet consumed, each with the time it was recorded. */
  class OAuthStates {
    var issued: map<string, real>

    constructor ()
      ensures issued == map[]
    {
      issued := map[];
    }

    /** `_cleanup_oauth_states`: the expired states are collected first, then popped one at a time. */
    method Cleanup(now: real)
      modifies this
      ensures issued == Unexpired(old(issued), now)
    {
      var expired := set s | s in issued && Outlived(issued[s], now, OAuthStateTtl);
      ghost var start := issued;
      while expired != {}
        invariant forall s :: s in expired ==> s in start && Outlived(start[s], now, OAuthStateTtl)
        invariant forall s :: s in issued <==> s in start && (!Outlived(start[s], now, OAuthStateTtl) || s in expired)
        invariant forall s :: s in issued ==> issued[s] == start[s]
        decreases |expired|
      {
        var s :| s in expired;
        issued := issued - {s};
        expired := expired - {s};
      }
      SameEntries(issued, Unexpired(start, now));
    }

    /** `_register_oauth_state`. */
    method Register(state: string, now: real)
      modifies this
      ensures issued == Registered(old(issued), state, now)
    {
      Cleanup(now);
      issued := issued[state := now];
    }

    /**
     * `_consume_oauth_state`; the clock is read once by the clean-up and
     * once more for the expiry check.
     */
    method Consume(state: string, cleanupAt: real, checkAt: real) returns (r: Result<(), string>)
      modifies this
      ensures r.Ok? <==> ConsumeVerdict(old(issued), state, cleanupAt, checkAt).Accepted?
      ensures r.Err? ==> r.error == StateError(ConsumeVerdict(old(issued), state, cleanupAt, checkAt))
      ensures issued == Consumed(old(issued), state, cleanupAt)
    {
      Cleanup(cleanupAt);
      if state !in issued {
        return Err(StateInvalid);
      }
      var ts := issued[state];
      if Outlived(ts, checkAt, OAuthStateTtl) {
        issued := issued - {state};
        return Err(StateExpired);
      }
      issued := issued - {state};
      r := Ok(());
    }
  }

  // ---------------------------------------------------------------------------
  // Import previews

  /** A cached preview: its token, when it was made, and what confirming it applies. */
  datatype CachedPreview<T> = CachedPreview(token: string, createdAt: real, payload: T)

  /** `_cache_preview`: the project's entry is replaced by one holding the new token. */
  function CachedWith<T>(entries: map<int, CachedPreview<T>>, projectId: int, token: string, now: real, payload: T): (r: map<int, CachedPreview<T>>)
    ensures projectId in r && r[projectId] == CachedPreview(token, now, payload)
    ensures forall p :: p != projectId ==> (p in r <==> p in entries) && (p in r ==> r[p] == entries[p])
  {
    entries[projectId := CachedPreview(token, now, payload)]
  }

  /**
   * `_take_cached_preview`: no entry or another token asks for a fresh
   * confirmation; an entry older than the TTL has expired; otherwise the
   * payload is handed out.
   */
  function TakeResult<T>(entries: map<int, CachedPreview<T>>, projectId: int, token: string, now: real): (r: Result<T, string>)
    ensures r.Ok? <==> (projectId in entries && entries[projectId].token == token
      && !Outlived(entries[projectId].createdAt, now, PreviewTtl))
    ensures r.Ok? ==> r.value == entries[projectId].payload
    ensures r.Err? ==> (r.error == ConfirmRequired <==> projectId !in entries || entries[projectId].token != token)
    ensures r.Err? ==> r.error == ConfirmRequired || r.error == TokenExpired
  {
    if projectId !in entries || entries[projectId].token != token then Err(ConfirmRequired)
    else if Outlived(entries[projectId].createdAt, now, PreviewTtl) then Err(TokenExpired)
    else Ok(entries[projectId].payload)
  }

  /** What a take leaves: the entry is gone once the token matched, and untouched when it did not. */
  function AfterTake<T>(entries: map<int, CachedPreview<T>>, projectId: int, token: string): (r: map<int, CachedPreview<T>>)
    ensures projectId in entries && entries[projectId].token == token ==> r == entries - {projectId}
    ensures !(projectId in entries && entries[projectId].token == token) ==> r == entries
  {
    if projectId in entries && entries[projectId].token == token then entries - {projectId} else entries
  }

  /** Confirming right after previewing, within the TTL, hands out what was previewed. */
  lemma CacheThenTake<T>(entries: map<int, CachedPreview<T>>, projectId: int, token: string, t0: real, t1: real, payload: T)
    requires t1 - t0 <= PreviewTtl
    ensures TakeResult(CachedWith(entries, projectId, token, t0, payload), projectId, token, t1) == Ok(payload)
    ensures AfterTake(CachedWith(entries, projectId, token, t0, payload), projectId, token) == entries - {projectId}
  {
  }

  /** A newer preview of the same project invalidates the older token. */
  lemma NewPreviewReplacesToken<T>(entries: map<int, CachedPreview<T>>, projectId: int, oldToken: string, newToken: string, now: real, later: real, payload: T)
    requires oldToken != newToken
    ensures TakeResult(CachedWith(entries, projectId, newToken, now, payload), projectId, oldToken, later) == Err(ConfirmRequired)
  {
  }

  /** A preview is confirmed at most once: whatever the first take said, a second take with the same token fails. */
  lemma PreviewSingleUse<T>(entries: map<int, CachedPreview<T>>, projectId: int, token: string, t1: real, t2: real)
    requires TakeResult(entries, projectId, token, t1).Ok?
    ensures TakeResult(AfterTake(entries, projectId, token), projectId, token, t2) == Err(ConfirmRequired)
  {
  }

  /** A take for one project leaves the other projects' previews alone. */
  lemma TakeSparesOthers<T>(entries: map<int, CachedPreview<T>>, projectId: int, other: int, token: string)
    requires other != projectId
    ensures (other in AfterTake(entries, projectId, token)) == (other in entries)
    ensures other in entries ==> AfterTake(entries, projectId, token)[other] == entries[other]
  {
  }

  /** The previews waiting for confirmation, one per project. */
  class PreviewCache<T> {
    var entries: map<int, CachedPreview<T>>

    constructor ()
      ensures entries == map[]
    {
      entries := map[];
    }

    /** `_cache_preview`; `token` is the random token drawn for it. */
    method Cache(projectId: int, token: string, now: real, payload: T) returns (t: string)
      modifies this
      ensures t == token
      ensures entries == CachedWith(old(entries), projectId, token, now, payload)
    {
      entries := entries[projectId := CachedPreview(token, now, payload)];
      t := token;
    }

    /** `_take_cached_preview`. */
    method Take(projectId: int, token: string, now: real) returns (r: Result<T, string>)
      modifies this
      ensures r == TakeResult(old(entries), projectId, token, now)
      ensures entries == AfterTake(old(entries), projectId, token)
    {
      if projectId !in entries || entries[projectId].token != token {
        return Err(ConfirmRequired);
      }
      var cached := entries[projectId];
      if Outlived(cached.createdAt, now, PreviewTtl) {
        entries := entries - {projectId};
        return Err(TokenExpired);
      }
      entries := entries - {projectId};
      r := Ok(cached.payload);
    }
  }
}

=== FILE: sheet_import.dfy ===
/**
 * The import preview of backend/app/sheets_service.py: how each estimate
 * and payment row read back from a project sheet is checked against the
 * stored items and planned payments, which errors it reports, and which
 * changes it proposes. Numbers and dates in cells are read by the parsers
 * passed in as `parse` and `parseDate` (Python's `float` and
 * `date.fromisoformat`).
 */
module SheetImport {
  import opened Wrappers
  import opened Text
  import opened Calendar
  import opened Sorting
  import opened Collections
  import opened Models
  import opened SheetLayout

  // ---------------------------------------------------------------------------
  // What the sheet shows for an item

  /** The figures `_item_sheet_values` derives for an item and its adjustment. */
  datatype SheetValues = SheetValues(
    qty: real,
    unitPriceFull: real,
    unitPriceBillable: real,
    adjustmentType: AdjustmentType,
    reason: string,
    totalFull: real,
    totalBillable: real,
    delta: real)

  /**
   * `_item_sheet_values`: a QTY_PRICE item shows its quantity (none reads as
   * 0) and a SINGLE_TOTAL item the quantity 1; the full unit price is the
   * adjustment's, else the item's unit price or its base total; the billable
   * price, type and reason are the adjustment's, else the full price,
   * DISCOUNT and nothing.
   */
  function ItemSheetValues(item: ExpenseItem, adj: Option<Adjustment>): (v: SheetValues)
    ensures v.qty == (if item.mode == QtyPrice then item.qty.GetOr(0.0) else 1.0)
    ensures adj.Some? ==> (v.unitPriceFull == adj.value.unitPriceFull && v.unitPriceBillable == adj.value.unitPriceBillable
      && v.adjustmentType == adj.value.adjustmentType && v.reason == adj.value.reason)
    ensures adj.None? ==> (v.unitPriceFull == (if item.mode == QtyPrice then item.unitPriceBase.GetOr(0.0) else item.baseTotal)
      && v.unitPriceBillable == v.unitPriceFull && v.adjustmentType == Discount && v.reason == "")
    ensures v.totalFull == v.qty * v.unitPriceFull && v.totalBillable == v.qty * v.unitPriceBillable
  {
    var qty := if item.mode == QtyPrice then item.qty.GetOr(0.0) else 1.0;
    var full :=
      if adj.Some? then adj.value.unitPriceFull
      else if item.mode == QtyPrice then item.unitPriceBase.GetOr(0.0)
      else item.baseTotal;
    var billable := if adj.Some? then adj.value.unitPriceBillable else full;
    var kind := if adj.Some? then adj.value.adjustmentType else Discount;
    var reason := if adj.Some? then adj.value.reason else "";
    SheetValues(qty, full, billable, kind, reason, qty * full, qty * billable, qty * full - qty * billable)
  }

  /** The delta column is the quantity times the per-unit discount, and is zero without an adjustment. */
  lemma DeltaIsUnitDiscount(item: ExpenseItem, adj: Option<Adjustment>)
    ensures var v := ItemSheetValues(item, adj);
      v.delta == v.qty * (v.unitPriceFull - v.unitPriceBillable) && v.delta == v.totalFull - v.totalBillable
    ensures adj.None? ==> ItemSheetValues(item, adj).delta == 0.0
  {
    var v := ItemSheetValues(item, adj);
    assert v.qty * (v.unitPriceFull - v.unitPriceBillable) == v.qty * v.unitPriceFull - v.qty * v.unitPriceBillable;
  }

  // ---------------------------------------------------------------------------
  // Numbers in cells

  /** The text `_safe_float` hands to the number parser: spaces dropped, decimal commas made points. */
  function NumberText(s: string): (r: string)
    ensures |r| <= |s|
    ensures ' ' !in r && ',' !in r
    decreases |s|
  {
    if s == [] then []
    else
      var rest := NumberText(s[1..]);
      if s[0] == ' ' then rest
      else if s[0] == ',' then ['.'] + rest
      else [s[0]] + rest
  }

  /** Text without spaces or commas is passed on unchanged. */
  lemma {:induction false} NumberTextKeepsPlain(s: string)
    requires ' ' !in s && ',' !in s
    ensures NumberText(s) == s
    decreases |s|
  {
    if s != [] {
      assert ' ' !in s[1..] && ',' !in s[1..];
      NumberTextKeepsPlain(s[1..]);
    }
  }

  /** Preparing the text twice is preparing it once. */
  lemma NumberTextIdempotent(s: string)
    ensures NumberText(NumberText(s)) == NumberText(s)
  {
    NumberTextKeepsPlain(NumberText(s));
  }

  /** An error message as the preview words it: `f"{row_label}: {what}"`. */
  function Reported(rowLabel: string, what: string): string {
    rowLabel + ": " + what
  }

  function Invalid(rowLabel: string, field: string): string {
    Reported(rowLabel, field + "_INVALID")
  }

  function Negative(rowLabel: string, field: string): string {
    Reported(rowLabel, field + "_NEGATIVE")
  }

  /**
   * `_safe_float`: a cell that does not parse as a number is reported as
   * `<label>: <field>_INVALID`, a negative number as `<field>_NEGATIVE`;
   * what is accepted is never negative.
   */
  function SafeNumber(value: string, field: string, rowLabel: string, parse: string -> Option<real>): (r: Result<real, string>)
    ensures r.Ok? ==> parse(NumberText(value)) == Some(r.value) && r.value >= 0.0
    ensures parse(NumberText(value)).None? ==> r == Err(Invalid(rowLabel, field))
    ensures parse(NumberText(value)).Some? && parse(NumberText(value)).value < 0.0 ==> r == Err(Negative(rowLabel, field))
  {
    var out := parse(NumberText(value));
    if out.None? then Err(Invalid(rowLabel, field))
    else if out.value < 0.0 then Err(Negative(rowLabel, field))
    else Ok(out.value)
  }

  /** The error a failed read appends, if any. */
  function ErrorsOf<T>(r: Result<T, string>): (e: seq<string>)
    ensures r.Err? ==> e == [r.error]
    ensures r.Ok? ==> e == []
  {
    if r.Err? then [r.error] else []
  }

  // ---------------------------------------------------------------------------
  // One estimate row

  const EstimateRowPrefix: string := "ESTIMATE_ROW_"
  const PaymentRowPrefix: string := "PAYMENT_ROW_"

  /** `f"ESTIMATE_ROW_{idx}"`, `f"PAYMENT_ROW_{idx}"`; rows are numbered from 1. */
  function RowLabel(prefix: string, idx: nat): string {
    prefix + Digits(idx)
  }

  /** What the preview looks rows up in: items and plans by stable id, adjustments by item id. */
  datatype Lookups = Lookups(
    itemsByStable: map<string, ExpenseItem>,
    adjustmentByItem: map<int, Adjustment>,
    plansByStable: map<string, Payment>)

  function AdjustmentOf(lk: Lookups, itemId: int): (a: Option<Adjustment>)
    ensures a.Some? <==> itemId in lk.adjustmentByItem
    ensures a.Some? ==> a.value == lk.adjustmentByItem[itemId]
  {
    if itemId in lk.adjustmentByItem then Some(lk.adjustmentByItem[itemId]) else None
  }

  /**
   * The adjustment type a row asks for. Its cell is stripped and upper-cased;
   * an empty cell means DISCOUNT and is allowed only while the billable price
   * equals the full price; anything else must name a type.
   */
  function RowAdjustmentType(text: string, billable: real, full: real): (r: Result<AdjustmentType, string>)
    ensures Strip(text) == "" ==> (r.Ok? <==> billable == full)
    ensures Strip(text) == "" && r.Ok? ==> r.value == Discount
    ensures Strip(text) == "" && r.Err? ==> r.error == "ADJUSTMENT_TYPE_REQUIRED"
    ensures Strip(text) != "" ==> (r.Ok? <==> ParseAdjustmentType(Upper(Strip(text))).Some?)
    ensures Strip(text) != "" && r.Ok? ==> AdjustmentTypeValue(r.value) == Upper(Strip(text))
    ensures Strip(text) != "" && r.Err? ==> r.error == "ADJUSTMENT_TYPE_INVALID"
  {
    var raw := Upper(Strip(text));
    if raw == "" then
      if billable != full then Err("ADJUSTMENT_TYPE_REQUIRED") else Ok(Discount)
    else
      var t := ParseAdjustmentType(raw);
      if t.None? then Err("ADJUSTMENT_TYPE_INVALID") else Ok(t.value)
  }

  /** The fields of an item the preview can propose to change. */
  datatype ItemField = QtyField | BillableField | TypeField | ReasonField

  /**
   * The fields whose sheet value differs from the stored one; the quantity is
   * compared only for QTY_PRICE items.
   */
  function ItemChanges(mode: ItemMode, current: SheetValues, qty: real, billable: real, kind: AdjustmentType, reason: string): (c: set<ItemField>)
    ensures QtyField in c <==> mode == QtyPrice && current.qty != qty
    ensures BillableField in c <==> current.unitPriceBillable != billable
    ensures TypeField in c <==> current.adjustmentType != kind
    ensures ReasonField in c <==> current.reason != reason
  {
    (if mode == QtyPrice && current.qty != qty then {QtyField} else {})
    + (if current.unitPriceBillable != billable then {BillableField} else {})
    + (if current.adjustmentType != kind then {TypeField} else {})
    + (if current.reason != reason then {ReasonField} else {})
  }

  /** A proposed item change as the preview lists it: stable id, title and changed fields. */
  datatype ItemUpdate = ItemUpdate(itemId: string, title: string, changes: set<ItemField>)

  /** What confirming writes for one item. */
  datatype ItemOp = ItemOp(
    dbItemId: int,
    qty: real,
    unitPriceFull: real,
    unitPriceBillable: real,
    adjustmentType: AdjustmentType,
    reason: string)

  datatype ItemChange = ItemChange(update: ItemUpdate, op: ItemOp)

  /** What one row contributes: the errors it appends and the change it proposes, if any. */
  datatype RowOutcome<C> = RowOutcome(errors: seq<string>, change: Option<C>)

  /**
   * One estimate row of `_compute_import_preview_for_snapshot`: a row with
   * no item id is skipped; an unknown item, an unreadable number or a bad
   * adjustment type is reported and ends the row; a SINGLE_TOTAL item with a
   * quantity other than 1 is reported but still compared; a change is
   * proposed only when some field differs.
   */
  function EstimateRowOutcome(lk: Lookups, idx: nat, row: EstimateCells, parse: string -> Option<real>): (o: RowOutcome<ItemChange>)
    ensures o.change.Some? ==> o.change.value.update.changes != {}
    ensures |o.errors| <= 2
  {
    var rowLabel := RowLabel(EstimateRowPrefix, idx);
    var key := Strip(row.itemId);
    if key == "" then RowOutcome([], None)
    else if key !in lk.itemsByStable then RowOutcome([Reported(rowLabel, "ITEM_NOT_FOUND:" + key)], None)
    else
      var item := lk.itemsByStable[key];
      var current := ItemSheetValues(item, AdjustmentOf(lk, item.id));
      var qty := SafeNumber(row.qty, "qty", rowLabel, parse);
      var billable := SafeNumber(row.unitPriceBillable, "unit_price_billable", rowLabel, parse);
      if qty.Err? || billable.Err? then RowOutcome(ErrorsOf(qty) + ErrorsOf(billable), None)
      else
        var kind := RowAdjustmentType(row.adjustmentType, billable.value, current.unitPriceFull);
        if kind.Err? then RowOutcome([Reported(rowLabel, kind.error)], None)
        else
          var errors := if item.mode == SingleTotal && qty.value != 1.0 then [Reported(rowLabel, "QTY_FOR_SINGLE_TOTAL_MUST_BE_1")] else [];
          var changes := ItemChanges(item.mode, current, qty.value, billable.value, kind.value, row.reason);
          if changes == {} then RowOutcome(errors, None)
          else
            var update := ItemUpdate(item.stableItemId, item.title, changes);
            var op := ItemOp(item.id, qty.value, current.unitPriceFull, billable.value, kind.value, row.reason);
            RowOutcome(errors, Some(ItemChange(update, op)))
  }

  /** The numbers and type of an estimate row all read, for an item that is found. */
  predicate EstimateRowReads(lk: Lookups, row: EstimateCells, parse: string -> Option<real>, rowLabel: string) {
    var key := Strip(row.itemId);
    key != "" && key in lk.itemsByStable
    && SafeNumber(row.qty, "qty", rowLabel, parse).Ok?
    && SafeNumber(row.unitPriceBillable, "unit_price_billable", rowLabel, parse).Ok?
    && var item := lk.itemsByStable[key];
      var billable := SafeNumber(row.unitPriceBillable, "unit_price_billable", rowLabel, parse).value;
      RowAdjustmentType(row.adjustmentType, billable, ItemSheetValues(item, AdjustmentOf(lk, item.id)).unitPriceFull).Ok?
  }

  /** A row without an item id is skipped silently; one naming no stored item reports it. */
  lemma EstimateRowKeys(lk: Lookups, idx: nat, row: EstimateCells, parse: string -> Option<real>)
    ensures Strip(row.itemId) == "" ==> EstimateRowOutcome(lk, idx, row, parse) == RowOutcome([], None)
    ensures Strip(row.itemId) != "" && Strip(row.itemId) !in lk.itemsByStable ==>
      EstimateRowOutcome(lk, idx, row, parse) == RowOutcome([Reported(RowLabel(EstimateRowPrefix, idx), "ITEM_NOT_FOUND:" + Strip(row.itemId))], None)
  {
  }

  /**
   * A row whose item is found and whose cells read proposes a change exactly
   * when some field differs, and the change writes what the row says, with
   * the item's current full price; only a SINGLE_TOTAL quantity other than 1
   * is reported, and the row is compared all the same.
   */
  lemma EstimateRowDiff(lk: Lookups, idx: nat, row: EstimateCells, parse: string -> Option<real>)
    requires EstimateRowReads(lk, row, parse, RowLabel(EstimateRowPrefix, idx))
    ensures var rowLabel := RowLabel(EstimateRowPrefix, idx);
      var item := lk.itemsByStable[Strip(row.itemId)];
      var current := ItemSheetValues(item, AdjustmentOf(lk, item.id));
      var qty := SafeNumber(row.qty, "qty", rowLabel, parse).value;
      var billable := SafeNumber(row.unitPriceBillable, "unit_price_billable", rowLabel, parse).value;
      var kind := RowAdjustmentType(row.adjustmentType, billable, current.unitPriceFull).value;
      var o := EstimateRowOutcome(lk, idx, row, parse);
      && (o.errors == if item.mode == SingleTotal && qty != 1.0 then [Reported(rowLabel, "QTY_FOR_SINGLE_TOTAL_MUST_BE_1")] else [])
      && (o.change.Some? <==> ItemChanges(item.mode, current, qty, billable, kind, row.reason) != {})
      && (o.change.Some? ==> o.change.value == ItemChange(
            ItemUpdate(item.stableItemId, item.title, ItemChanges(item.mode, current, qty, billable, kind, row.reason)),
            ItemOp(item.id, qty, current.unitPriceFull, billable, kind, row.reason)))
  {
  }

  /**
   * An empty adjustment type on a row that reads is refused exactly when the
   * billable price differs from the full one; otherwise it stands for DISCOUNT.
   */
  lemma EmptyTypeNeedsFullPrice(lk: Lookups, idx: nat, row: EstimateCells, parse: string -> Option<real>)
    requires var key := Strip(row.itemId); var rowLabel := RowLabel(EstimateRowPrefix, idx);
      key != "" && key in lk.itemsByStable
      && SafeNumber(row.qty, "qty", rowLabel, parse).Ok?
      && SafeNumber(row.unitPriceBillable, "unit_price_billable", rowLabel, parse).Ok?
    requires Strip(row.adjustmentType) == ""
    ensures var rowLabel := RowLabel(EstimateRowPrefix, idx);
      var item := lk.itemsByStable[Strip(row.itemId)];
      var full := ItemSheetValues(item, AdjustmentOf(lk, item.id)).unitPriceFull;
      var billable := SafeNumber(row.unitPriceBillable, "unit_price_billable", rowLabel, parse).value;
      var o := EstimateRowOutcome(lk, idx, row, parse);
      && (billable != full ==> o == RowOutcome([Reported(rowLabel, "ADJUSTMENT_TYPE_REQUIRED")], None))
      && (billable == full && o.change.Some? ==> o.change.value.op.adjustmentType == Discount)
  {
  }

  /** A non-empty adjustment type that names no type ends the row with ADJUSTMENT_TYPE_INVALID. */
  lemma UnknownTypeRefused(lk: Lookups, idx: nat, row: EstimateCells, parse: string -> Option<real>)
    requires var key := Strip(row.itemId); var rowLabel := RowLabel(EstimateRowPrefix, idx);
      key != "" && key in lk.itemsByStable
      && SafeNumber(row.qty, "qty", rowLabel, parse).Ok?
      && SafeNumber(row.unitPriceBillable, "unit_price_billable", rowLabel, parse).Ok?
    requires Strip(row.adjustmentType) != "" && ParseAdjustmentType(Upper(Strip(row.adjustmentType))).None?
    ensures EstimateRowOutcome(lk, idx, row, parse) == RowOutcome([Reported(RowLabel(EstimateRowPrefix, idx), "ADJUSTMENT_TYPE_INVALID")], None)
  {
  }

  // ---------------------------------------------------------------------------
  // One payment row

  /** The fields of a planned payment the preview can propose to change. */
  datatype PaymentField = DateField | AmountField | NoteField

  /** The fields of a stored plan that differ from a row's date, amount and note. */
  function PaymentChanges(plan: Payment, date: Date, amount: real, note: string): (c: set<PaymentField>)
    ensures DateField in c <==> plan.payDate != date
    ensures AmountField in c <==> plan.amount != amount
    ensures NoteField in c <==> plan.note != note
  {
    (if plan.payDate != date then {DateField} else {})
    + (if plan.amount != amount then {AmountField} else {})
    + (if plan.note != note then {NoteField} else {})
  }

  datatype PaymentUpdate = PaymentUpdate(payId: string, changes: set<PaymentField>)
  datatype PaymentUpdateOp = PaymentUpdateOp(dbPaymentId: int, payDate: Date, amount: real, note: string)
  datatype NewPayment = NewPayment(payDate: Date, amount: real, note: string)

  /** A payment row either updates a stored plan or adds a new one. */
  datatype PaymentChange = Updated(update: PaymentUpdate, op: PaymentUpdateOp) | Added(entry: NewPayment)

  /**
   * One payment row of `_compute_import_preview_for_snapshot`: an unreadable
   * amount is reported; a row with no date, no pay id, a zero amount and no
   * note is skipped; then the date must parse; a row without a pay id adds a
   * payment, one with an unknown pay id is reported, and one with a known
   * pay id proposes an update exactly when the date, amount or note differs.
   */
  function PaymentRowOutcome(lk: Lookups, idx: nat, row: PaymentCells, parse: string -> Option<real>, parseDate: string -> Option<Date>): (o: RowOutcome<PaymentChange>)
    ensures |o.errors| <= 1 && (o.errors == [] || o.change.None?)
    ensures o.change.Some? && o.change.value.Updated? ==> o.change.value.update.changes != {}
  {
    var rowLabel := RowLabel(PaymentRowPrefix, idx);
    var payId := Strip(row.payId);
    var dateText := Strip(row.date);
    var amount := SafeNumber(row.amount, "amount", rowLabel, parse);
    if amount.Err? then RowOutcome([amount.error], None)
    else if dateText == "" && payId == "" && amount.value == 0.0 && row.note == "" then RowOutcome([], None)
    else if parseDate(dateText).None? then RowOutcome([Reported(rowLabel, "DATE_INVALID")], None)
    else
      var date := parseDate(dateText).value;
      if payId == "" then RowOutcome([], Some(Added(NewPayment(date, amount.value, row.note))))
      else if payId !in lk.plansByStable then RowOutcome([Reported(rowLabel, "PAY_ID_NOT_FOUND:" + payId)], None)
      else
        var plan := lk.plansByStable[payId];
        var changes := PaymentChanges(plan, date, amount.value, row.note);
        if changes == {} then RowOutcome([], None)
        else RowOutcome([], Some(Updated(PaymentUpdate(payId, changes), PaymentUpdateOp(plan.id, date, amount.value, row.note))))
  }

  /**
   * The error cases of a payment row: a bad amount, then (on a row that is
   * not blank) a bad date, then an unknown pay id; a blank row is skipped.
   */
  lemma PaymentRowErrors(lk: Lookups, idx: nat, row: PaymentCells, parse: string -> Option<real>, parseDate: string -> Option<Date>)
    ensures var rowLabel := RowLabel(PaymentRowPrefix, idx);
      var amount := SafeNumber(row.amount, "amount", rowLabel, parse);
      var o := PaymentRowOutcome(lk, idx, row, parse, parseDate);
      && (amount.Err? ==> o == RowOutcome([amount.error], None))
      && (amount == Ok(0.0) && Strip(row.date) == "" && Strip(row.payId) == "" && row.note == "" ==> o == RowOutcome([], None))
      && ((amount.Ok? && (Strip(row.date) != "" || Strip(row.payId) != "" || amount.value != 0.0 || row.note != "")
          && parseDate(Strip(row.date)).None?) ==> o == RowOutcome([Reported(rowLabel, "DATE_INVALID")], None))
      && (amount.Ok? && parseDate(Strip(row.date)).Some? && Strip(row.payId) != "" && Strip(row.payId) !in lk.plansByStable
          ==> o == RowOutcome([Reported(rowLabel, "PAY_ID_NOT_FOUND:" + Strip(row.payId))], None))
  {
  }

  /**
   * A readable row with a date: without a pay id it adds that payment,
   * whatever is stored; with a known pay id it updates the plan exactly when
   * a field differs, writing the row's values.
   */
  lemma PaymentRowChange(lk: Lookups, idx: nat, row: PaymentCells, parse: string -> Option<real>, parseDate: string -> Option<Date>)
    requires SafeNumber(row.amount, "amount", RowLabel(PaymentRowPrefix, idx), parse).Ok?
    requires parseDate(Strip(row.date)).Some?
    requires Strip(row.date) != "" || Strip(row.payId) != "" || row.note != ""
      || SafeNumber(row.amount, "amount", RowLabel(PaymentRowPrefix, idx), parse).value != 0.0
    ensures var amount := SafeNumber(row.amount, "amount", RowLabel(PaymentRowPrefix, idx), parse).value;
      var date := parseDate(Strip(row.date)).value;
      var payId := Strip(row.payId);
      var o := PaymentRowOutcome(lk, idx, row, parse, parseDate);
      && (payId == "" ==> o == RowOutcome([], Some(Added(NewPayment(date, amount, row.note)))))
      && (payId != "" && payId in lk.plansByStable ==>
          var plan := lk.plansByStable[payId];
          var changes := PaymentChanges(plan, date, amount, row.note);
          && o.errors == []
          && (o.change.Some? <==> changes != {})
          && (o.change.Some? ==> o.change.value == Updated(PaymentUpdate(payId, changes), PaymentUpdateOp(plan.id, date, amount, row.note))))
  {
  }

  // ---------------------------------------------------------------------------
  // The whole preview

  /** The preview shown to the user. */
  datatype Preview = Preview(
    itemsUpdated: seq<ItemUpdate>,
    paymentsUpdated: seq<PaymentUpdate>,
    paymentsNew: seq<NewPayment>,
    errors: seq<string>)

  /** What confirming the preview applies. */
  datatype ApplyOps = ApplyOps(items: seq<ItemOp>, paymentsUpdated: seq<PaymentUpdateOp>, paymentsNew: seq<NewPayment>)

  /** The lists the estimate rows fill. */
  datatype EstimatePass = EstimatePass(errors: seq<string>, updates: seq<ItemUpdate>, ops: seq<ItemOp>)

  /** The lists the payment rows fill. */
  datatype PaymentPass = PaymentPass(errors: seq<string>, updates: seq<PaymentUpdate>, updateOps: seq<PaymentUpdateOp>, added: seq<NewPayment>)

  /** Adding one estimate row's outcome to the lists. */
  function EstimateStep(p: EstimatePass, o: RowOutcome<ItemChange>): EstimatePass {
    if o.change.None? then EstimatePass(p.errors + o.errors, p.updates, p.ops)
    else EstimatePass(p.errors + o.errors, p.updates + [o.change.value.update], p.ops + [o.change.value.op])
  }

  /** Adding one payment row's outcome to the lists. */
  function PaymentStep(p: PaymentPass, o: RowOutcome<PaymentChange>): PaymentPass {
    if o.change.None? then PaymentPass(p.errors + o.errors, p.updates, p.updateOps, p.added)
    else if o.change.value.Updated? then
      PaymentPass(p.errors + o.errors, p.updates + [o.change.value.update], p.updateOps + [o.change.value.op], p.added)
    else PaymentPass(p.errors + o.errors, p.updates, p.updateOps, p.added + [o.change.value.entry])
  }

  /**
   * The estimate rows taken in order, numbered from 1: each proposed update
   * comes with its operation, on the same position, and names a changed field.
   */
  function EstimateRows(lk: Lookups, rows: seq<EstimateCells>, parse: string -> Option<real>): (p: EstimatePass)
    ensures |p.updates| == |p.ops| <= |rows|
    ensures forall i :: 0 <= i < |p.updates| ==> p.updates[i].changes != {}
    decreases |rows|
  {
    if rows == [] then EstimatePass([], [], [])
    else
      var n := |rows| - 1;
      EstimateStep(EstimateRows(lk, rows[..n], parse), EstimateRowOutcome(lk, n + 1, rows[n], parse))
  }

  /** The payment rows taken in order, numbered from 1: each proposed update comes with its operation. */
  function PaymentRows(lk: Lookups, rows: seq<PaymentCells>, parse: string -> Option<real>, parseDate: string -> Option<Date>): (p: PaymentPass)
    ensures |p.updates| == |p.updateOps| && |p.updates| + |p.added| <= |rows|
    ensures |p.errors| <= |rows|
    ensures forall i :: 0 <= i < |p.updates| ==> p.updates[i].changes != {}
    decreases |rows|
  {
    if rows == [] then PaymentPass([], [], [], [])
    else
      var n := |rows| - 1;
      PaymentStep(PaymentRows(lk, rows[..n], parse, parseDate), PaymentRowOutcome(lk, n + 1, rows[n], parse, parseDate))
  }

  /** Taking one more estimate row adds its outcome to the lists. */
  lemma {:induction false} EstimateRowsStep(lk: Lookups, rows: seq<EstimateCells>, i: nat, parse: string -> Option<real>)
    requires i < |rows|
    ensures EstimateRows(lk, rows[..i + 1], parse) == EstimateStep(EstimateRows(lk, rows[..i], parse), EstimateRowOutcome(lk, i + 1, rows[i], parse))
  {
    assert rows[..i + 1][..i] == rows[..i];
  }

  /** Taking one more payment row adds its outcome to the lists. */
  lemma {:induction false} PaymentRowsStep(lk: Lookups, rows: seq<PaymentCells>, j: nat, parse: string -> Option<real>, parseDate: string -> Option<Date>)
    requires j < |rows|
    ensures PaymentRows(lk, rows[..j + 1], parse, parseDate)
      == PaymentStep(PaymentRows(lk, rows[..j], parse, parseDate), PaymentRowOutcome(lk, j + 1, rows[j], parse, parseDate))
  {
    assert rows[..j + 1][..j] == rows[..j];
  }

  /** The preview and its operations: estimate errors come before payment errors. */
  function PreviewOf(lk: Lookups, sheet: ParsedSheet, parse: string -> Option<real>, parseDate: string -> Option<Date>): (r: (Preview, ApplyOps))
    ensures |r.0.itemsUpdated| == |r.1.items| <= |sheet.estimateRows|
    ensures |r.0.paymentsUpdated| == |r.1.paymentsUpdated|
    ensures r.0.paymentsNew == r.1.paymentsNew
  {
    var e := EstimateRows(lk, sheet.estimateRows, parse);
    var p := PaymentRows(lk, sheet.paymentRows, parse, parseDate);
    (Preview(e.updates, p.updates, p.added, e.errors + p.errors), ApplyOps(e.ops, p.updateOps, p.added))
  }

  /** An empty sheet proposes nothing and reports nothing. */
  lemma EmptySheetNoChange(lk: Lookups, parse: string -> Option<real>, parseDate: string -> Option<Date>)
    ensures PreviewOf(lk, ParsedSheet([], []), parse, parseDate) == (Preview([], [], [], []), ApplyOps([], [], []))
  {
    assert EstimateRows(lk, [], parse) == EstimatePass([], [], []);
    assert PaymentRows(lk, [], parse, parseDate) == PaymentPass([], [], [], []);
    var r := PreviewOf(lk, ParsedSheet([], []), parse, parseDate);
    assert r.0.errors == [];
    assert r.0 == Preview([], [], [], []);
    assert r.1 == ApplyOps([], [], []);
  }

  /** A sheet whose rows all propose nothing leaves nothing to apply. */
  lemma {:induction false} QuietRowsNoOps(lk: Lookups, rows: seq<EstimateCells>, parse: string -> Option<real>)
    requires forall i :: 0 <= i < |rows| ==> EstimateRowOutcome(lk, i + 1, rows[i], parse).change.None?
    ensures EstimateRows(lk, rows, parse).ops == [] && EstimateRows(lk, rows, parse).updates == []
    decreases |rows|
  {
    if rows != [] {
      var n := |rows| - 1;
      assert forall i :: 0 <= i < n ==> rows[..n][i] == rows[i];
      QuietRowsNoOps(lk, rows[..n], parse);
    }
  }

  // ---------------------------------------------------------------------------
  // The preview as the service computes it

  /** The values of a table stored under `ids`, in that order. */
  function ValuesAt<V>(table: map<int, V>, ids: seq<int>): (r: seq<V>)
    requires forall i :: 0 <= i < |ids| ==> ids[i] in table
    ensures |r| == |ids| && forall i :: 0 <= i < |ids| ==> r[i] == table[ids[i]]
  {
    if ids == [] then [] else [table[ids[0]]] + ValuesAt(table, ids[1..])
  }

  /** Looking up every key of a table yields every value stored in it. */
  lemma ValuesAtCovers<V>(table: map<int, V>, ids: seq<int>)
    requires forall i :: 0 <= i < |ids| ==> ids[i] in table
    requires forall k :: k in table ==> k in ids
    ensures forall k :: k in table ==> table[k] in ValuesAt(table, ids)
  {
    var r := ValuesAt(table, ids);
    forall k | k in table
      ensures table[k] in r
    {
      var i :| 0 <= i < |ids| && ids[i] == k;
      assert r[i] == table[k];
    }
  }

  /** The rows of a table in id order, the order the unsorted queries are taken to return. */
  function InIdOrder<V>(table: map<int, V>): (r: seq<V>)
    ensures forall k :: k in table ==> table[k] in r
  {
    var ids := SortedInts(table.Keys);
    ValuesAtCovers(table, ids);
    ValuesAt(table, ids)
  }

  /** `{it.stable_item_id: it for it in items}` over the project's items. */
  function ItemsByStable(items: map<int, ExpenseItem>, projectId: int): (m: map<string, ExpenseItem>)
    ensures forall k :: k in items && items[k].projectId == projectId ==> items[k].stableItemId in m
    ensures forall s :: s in m ==> m[s].stableItemId == s && m[s].projectId == projectId
  {
    var inProject := (it: ExpenseItem) => it.projectId == projectId;
    var rows := Filter(InIdOrder(items), inProject);
    assert forall k :: k in items && items[k].projectId == projectId ==> items[k] in rows;
    IndexBy(rows, (it: ExpenseItem) => it.stableItemId)
  }

  /** `{adj.expense_item_id: adj for adj in adjustments}` over the adjustments of the project's items. */
  function AdjustmentsByItem(adjustments: map<int, Adjustment>, items: map<int, ExpenseItem>, projectId: int): (m: map<int, Adjustment>)
    ensures forall k :: k in m ==> m[k].itemId == k
  {
    var rows := Filter(InIdOrder(adjustments),
      (a: Adjustment) => a.itemId in items && items[a.itemId].projectId == projectId);
    IndexBy(rows, (a: Adjustment) => a.itemId)
  }

  /** `{p.stable_pay_id: p for p in plans}` over the project's plans. */
  function PlansByStable(plans: map<int, Payment>, projectId: int): (m: map<string, Payment>)
    ensures forall k :: k in plans && plans[k].projectId == projectId ==> plans[k].stablePayId in m
    ensures forall s :: s in m ==> m[s].stablePayId == s && m[s].projectId == projectId
  {
    var inProject := (p: Payment) => p.projectId == projectId;
    var rows := Filter(InIdOrder(plans), inProject);
    assert forall k :: k in plans && plans[k].projectId == projectId ==> plans[k] in rows;
    IndexBy(rows, (p: Payment) => p.stablePayId)
  }

  /** The three look-up tables the preview builds from what is stored. */
  function ProjectLookups(items: map<int, ExpenseItem>, adjustments: map<int, Adjustment>, plans: map<int, Payment>, projectId: int): Lookups {
    Lookups(ItemsByStable(items, projectId), AdjustmentsByItem(adjustments, items, projectId), PlansByStable(plans, projectId))
  }

  /** The estimate loop of `_compute_import_preview_for_snapshot`, appending to three lists. */
  method ReadEstimateChanges(lk: Lookups, rows: seq<EstimateCells>, parse: string -> Option<real>)
    returns (errors: seq<string>, itemsUpdated: seq<ItemUpdate>, itemOps: seq<ItemOp>)
    ensures EstimatePass(errors, itemsUpdated, itemOps) == EstimateRows(lk, rows, parse)
  {
    errors, itemsUpdated, itemOps := [], [], [];
    var i := 0;
    while i < |rows|
      invariant 0 <= i <= |rows|
      invariant EstimatePass(errors, itemsUpdated, itemOps) == EstimateRows(lk, rows[..i], parse)
    {
      var o := EstimateRowOutcome(lk, i + 1, rows[i], parse);
      EstimateRowsStep(lk, rows, i, parse);
      errors := errors + o.errors;
      if o.change.Some? {
        itemsUpdated := itemsUpdated + [o.change.value.update];
        itemOps := itemOps + [o.change.value.op];
      }
      i := i + 1;
    }
    assert rows[..|rows|] == rows;
  }

  /** The payment loop of `_compute_import_preview_for_snapshot`, appending to four lists. */
  method ReadPaymentChanges(lk: Lookups, rows: seq<PaymentCells>, parse: string -> Option<real>, parseDate: string -> Option<Date>)
    returns (errors: seq<string>, paymentsUpdated: seq<PaymentUpdate>, updateOps: seq<PaymentUpdateOp>, added: seq<NewPayment>)
    ensures PaymentPass(errors, paymentsUpdated, updateOps, added) == PaymentRows(lk, rows, parse, parseDate)
  {
    errors, paymentsUpdated, updateOps, added := [], [], [], [];
    var j := 0;
    while j < |rows|
      invariant 0 <= j <= |rows|
      invariant PaymentPass(errors, paymentsUpdated, updateOps, added) == PaymentRows(lk, rows[..j], parse, parseDate)
    {
      var o := PaymentRowOutcome(lk, j + 1, rows[j], parse, parseDate);
      PaymentRowsStep(lk, rows, j, parse, parseDate);
      errors := errors + o.errors;
      if o.change.Some? {
        match o.change.value
        case Updated(update, op) =>
          paymentsUpdated := paymentsUpdated + [update];
          updateOps := updateOps + [op];
        case Added(entry) =>
          added := added + [entry];
      }
      j := j + 1;
    }
    assert rows[..|rows|] == rows;
  }

  /**
   * `_compute_import_preview_for_snapshot` over the rows of a parsed sheet:
   * the estimate rows, then the payment rows; one error list collects both.
   */
  method ComputePreview(lk: Lookups, sheet: ParsedSheet, parse: string -> Option<real>, parseDate: string -> Option<Date>)
    returns (preview: Preview, ops: ApplyOps)
    ensures (preview, ops) == PreviewOf(lk, sheet, parse, parseDate)
  {
    var estimateErrors, itemsUpdated, itemOps := ReadEstimateChanges(lk, sheet.estimateRows, parse);
    var paymentErrors, paymentsUpdated, updateOps, added := ReadPaymentChanges(lk, sheet.paymentRows, parse, parseDate);
    preview := Preview(itemsUpdated, paymentsUpdated, added, estimateErrors + paymentErrors);
    ops := ApplyOps(itemOps, updateOps, added);
  }
}

=== FILE: sheet_layout.dfy ===
/**
 * The cell layout of a published project sheet (backend/app/sheets_service.py):
 * the rows `_build_real_sheet_rows` writes, and `_parse_real_sheet_values`,
 * which finds the two anchor rows in a grid read back and takes the estimate
 * and payment rows below them. Cells are the text the sheet returns.
 */
module SheetLayout {
  import opened Wrappers
  import opened Text

  type Row = seq<string>

  /** The columns of an estimate row, `A` to `K`. */
  const Width: nat := 11
  const EstimateAnchor: string := "== ESTIMATE =="
  const PaymentsAnchor: string := "== PAYMENTS_PLAN =="
  const FormatInvalid: string := "SHEET_FORMAT_INVALID"

  /** The cells of one estimate row, in column order. */
  datatype EstimateCells = EstimateCells(
    itemId: string,
    group: string,
    name: string,
    qty: string,
    unitPriceBillable: string,
    adjustmentType: string,
    reason: string,
    totalBillable: string,
    unitPriceFull: string,
    totalFull: string,
    delta: string)

  /** The cells of one planned-payment row. */
  datatype PaymentCells = PaymentCells(payId: string, date: string, amount: string, note: string)

  datatype ParsedSheet = ParsedSheet(estimateRows: seq<EstimateCells>, paymentRows: seq<PaymentCells>)

  // ---------------------------------------------------------------------------
  // Reading a grid

  /**
   * The cell in column `k` of a row read back; the reader first pads every
   * row with empty cells up to eleven, so a missing cell reads as empty.
   */
  function Cell(row: Row, k: nat): string {
    if k < |row| then row[k] else ""
  }

  /** A row padded with empty cells up to eleven. */
  function Pad(row: Row): (r: Row)
    ensures |r| == if |row| >= Width then |row| else Width
    ensures forall k :: 0 <= k < |r| ==> r[k] == Cell(row, k)
  {
    if |row| >= Width then row else row + seq(Width - |row|, _ => "")
  }

  /** Padding changes no cell the reader looks at. */
  lemma {:induction false} PadReadsSame(row: Row, k: nat)
    ensures Cell(Pad(row), k) == Cell(row, k)
  {
  }

  /** The first cell, stripped: where the anchors are looked for. */
  function Marker(row: Row): string {
    Strip(Cell(row, 0))
  }

  /** The last row whose marker is `anchor`, as the anchor loop leaves it. */
  function LastAnchor(rows: seq<Row>, anchor: string): (r: Option<nat>)
    ensures r.Some? ==> r.value < |rows|
  {
    if |rows| == 0 then None
    else if Marker(rows[|rows| - 1]) == anchor then Some(|rows| - 1)
    else LastAnchor(rows[..|rows| - 1], anchor)
  }

  /** The row found holds the anchor and no later row does; when none is found, no row holds it. */
  lemma {:induction false} LastAnchorSpec(rows: seq<Row>, anchor: string)
    ensures LastAnchor(rows, anchor).Some? ==>
      (Marker(rows[LastAnchor(rows, anchor).value]) == anchor
      && forall j :: LastAnchor(rows, anchor).value < j < |rows| ==> Marker(rows[j]) != anchor)
    ensures LastAnchor(rows, anchor).None? ==> forall j :: 0 <= j < |rows| ==> Marker(rows[j]) != anchor
  {
    if |rows| > 0 && Marker(rows[|rows| - 1]) != anchor {
      var front := rows[..|rows| - 1];
      LastAnchorSpec(front, anchor);
      assert forall j :: 0 <= j < |front| ==> front[j] == rows[j];
    }
  }

  /** A row holding the anchor with none after it is the one found. */
  lemma {:induction false} LastAnchorIs(rows: seq<Row>, anchor: string, k: nat)
    requires k < |rows| && Marker(rows[k]) == anchor
    requires forall j :: k < j < |rows| ==> Marker(rows[j]) != anchor
    ensures LastAnchor(rows, anchor) == Some(k)
  {
    if k < |rows| - 1 {
      var front := rows[..|rows| - 1];
      assert forall j :: 0 <= j < |front| ==> front[j] == rows[j];
      LastAnchorIs(front, anchor, k);
    }
  }

  /** The first `n` cells are empty once stripped. */
  predicate BlankPrefix(row: Row, n: nat) {
    forall k :: 0 <= k < n ==> Strip(Cell(row, k)) == ""
  }

  /** An estimate row is read unless it is blank or has no item id. */
  predicate KeepsEstimate(row: Row) {
    !BlankPrefix(row, Width) && Marker(row) != ""
  }

  /** The text columns are stripped; the numeric and formula columns are kept as they are. */
  function EstimateOf(row: Row): EstimateCells {
    EstimateCells(Strip(Cell(row, 0)), Strip(Cell(row, 1)), Strip(Cell(row, 2)), Cell(row, 3), Cell(row, 4),
      Strip(Cell(row, 5)), Strip(Cell(row, 6)), Cell(row, 7), Cell(row, 8), Cell(row, 9), Cell(row, 10))
  }

  /** A payment row is read unless its first four cells are blank. */
  predicate KeepsPayment(row: Row) {
    !BlankPrefix(row, 4)
  }

  function PaymentOf(row: Row): PaymentCells {
    PaymentCells(Strip(Cell(row, 0)), Strip(Cell(row, 1)), Cell(row, 2), Strip(Cell(row, 3)))
  }

  /** The estimate rows read from rows `lo` up to (not including) `hi`. */
  function EstimateRowsIn(rows: seq<Row>, lo: nat, hi: nat): (r: seq<EstimateCells>)
    requires hi <= |rows|
    decreases hi
  {
    if hi <= lo then []
    else EstimateRowsIn(rows, lo, hi - 1) + (if KeepsEstimate(rows[hi - 1]) then [EstimateOf(rows[hi - 1])] else [])
  }

  /** The payment rows read from rows `lo` up to (not including) `hi`. */
  function PaymentRowsIn(rows: seq<Row>, lo: nat, hi: nat): (r: seq<PaymentCells>)
    requires hi <= |rows|
    decreases hi
  {
    if hi <= lo then []
    else PaymentRowsIn(rows, lo, hi - 1) + (if KeepsPayment(rows[hi - 1]) then [PaymentOf(rows[hi - 1])] else [])
  }

  /**
   * `_parse_real_sheet_values`: both anchors must be present, the payments
   * anchor below the estimate anchor; estimate rows start two rows below
   * their anchor and end above the payments anchor, payment rows start two
   * rows below theirs and run to the end.
   */
  function ParseSheet(values: seq<Row>): (r: Result<ParsedSheet, string>)
    ensures r.Err? ==> r.error == FormatInvalid
    ensures r.Err? <==>
      LastAnchor(values, EstimateAnchor).None? || LastAnchor(values, PaymentsAnchor).None?
      || LastAnchor(values, PaymentsAnchor).value <= LastAnchor(values, EstimateAnchor).value
  {
    ParseBetween(values, LastAnchor(values, EstimateAnchor), LastAnchor(values, PaymentsAnchor))
  }

  /** The reading once the two anchors are looked up: both must be found, the payments anchor below the estimate one. */
  function ParseBetween(values: seq<Row>, est: Option<nat>, pay: Option<nat>): (r: Result<ParsedSheet, string>)
    requires pay.Some? ==> pay.value < |values|
    ensures r.Err? <==> est.None? || pay.None? || pay.value <= est.value
    ensures r.Err? ==> r.error == FormatInvalid
  {
    if est.None? || pay.None? || pay.value <= est.value then Err(FormatInvalid)
    else Ok(ParsedSheet(EstimateRowsIn(values, est.value + 2, pay.value), PaymentRowsIn(values, pay.value + 2, |values|)))
  }

  /** The anchor loop: each marker remembers the last row it was seen on. */
  method FindAnchors(rows: seq<Row>) returns (est: Option<nat>, pay: Option<nat>)
    ensures est == LastAnchor(rows, EstimateAnchor) && pay == LastAnchor(rows, PaymentsAnchor)
  {
    est, pay := None, None;
    for idx := 0 to |rows|
      invariant est == LastAnchor(rows[..idx], EstimateAnchor)
      invariant pay == LastAnchor(rows[..idx], PaymentsAnchor)
    {
      assert rows[..idx + 1][..idx] == rows[..idx];
      var marker := Strip(Cell(rows[idx], 0));
      if marker == EstimateAnchor {
        est := Some(idx);
      } else if marker == PaymentsAnchor {
        pay := Some(idx);
      }
    }
    assert rows[..|rows|] == rows;
  }

  /** One estimate row: skipped when blank, then skipped when its item id is empty. */
  method ReadEstimateRow(row: Row) returns (kept: Option<EstimateCells>)
    ensures kept.Some? <==> KeepsEstimate(row)
    ensures kept.Some? ==> kept.value == EstimateOf(row)
  {
    if BlankPrefix(row, Width) {
      return None;
    }
    var itemId := Strip(Cell(row, 0));
    if itemId == "" {
      return None;
    }
    return Some(EstimateOf(row));
  }

  /** The estimate loop over the rows between the two anchors. */
  method ReadEstimateRows(rows: seq<Row>, lo: nat, hi: nat) returns (out: seq<EstimateCells>)
    requires hi <= |rows|
    ensures out == EstimateRowsIn(rows, lo, hi)
  {
    out := [];
    if hi <= lo {
      return;
    }
    for idx := lo to hi
      invariant out == EstimateRowsIn(rows, lo, idx)
    {
      var kept := ReadEstimateRow(rows[idx]);
      assert EstimateRowsIn(rows, lo, idx + 1)
        == EstimateRowsIn(rows, lo, idx) + (if kept.Some? then [kept.value] else []);
      if kept.Some? {
        out := out + [kept.value];
      }
    }
  }

  /** One payment row: skipped when its first four cells are blank. */
  method ReadPaymentRow(row: Row) returns (kept: Option<PaymentCells>)
    ensures kept.Some? <==> KeepsPayment(row)
    ensures kept.Some? ==> kept.value == PaymentOf(row)
  {
    if BlankPrefix(row, 4) {
      return None;
    }
    return Some(PaymentOf(row));
  }

  /** The payments loop over the rows below the payments header. */
  method ReadPaymentRows(rows: seq<Row>, lo: nat) returns (out: seq<PaymentCells>)
    ensures out == PaymentRowsIn(rows, lo, |rows|)
  {
    out := [];
    if |rows| <= lo {
      return;
    }
    for idx := lo to |rows|
      invariant out == PaymentRowsIn(rows, lo, idx)
    {
      var kept := ReadPaymentRow(rows[idx]);
      if kept.Some? {
        out := out + [kept.value];
      }
    }
  }

  /** `_parse_real_sheet_values` as the loops compute it. */
  method ParseSheetValues(values: seq<Row>) returns (r: Result<ParsedSheet, string>)
    ensures r == ParseSheet(values)
  {
    var est, pay := FindAnchors(values);
    if est.None? || pay.None? || pay.value <= est.value {
      return Err(FormatInvalid);
    }
    var estimateRows := ReadEstimateRows(values, est.value + 2, pay.value);
    var paymentRows := ReadPaymentRows(values, pay.value + 2);
    r := Ok(ParsedSheet(estimateRows, paymentRows));
  }

  // ---------------------------------------------------------------------------
  // Writing a grid

  const EstimateHeader: Row := ["item_id", "group", "name", "qty", "unit_price_billable", "adjustment_type", "reason",
    "total_billable", "unit_price_full", "total_full", "delta"]
  const PaymentsHeader: Row := ["pay_id", "date", "amount", "note"]
  const Instructions: string := "Редактируйте только qty/price/adjustment/reason и блок платежей."

  /** The six rows above the estimate data. */
  function Head(projectTitle: string, nowIso: string): (r: seq<Row>)
    ensures |r| == 6 && r[4] == [EstimateAnchor]
  {
    [["PROJECT_TITLE:", projectTitle], ["LAST_PUBLISHED_AT:", nowIso], ["INSTRUCTIONS:", Instructions], [],
     [EstimateAnchor], EstimateHeader]
  }

  /** `=IFERROR(<a><row><op><b><row>,0)`: a formula over two cells of sheet row `row`. */
  function Formula(a: char, op: char, b: char, row: nat): string {
    "=IFERROR(" + [a] + Digits(row) + [op] + [b] + Digits(row) + ",0)"
  }

  /** The estimate row written on sheet row `row`; its three formulas refer to that row. */
  function EstimateLine(e: EstimateCells, row: nat): (r: Row)
    ensures |r| == Width
  {
    [e.itemId, e.group, e.name, e.qty, e.unitPriceBillable, e.adjustmentType, e.reason,
     Formula('D', '*', 'E', row), e.unitPriceFull, Formula('D', '*', 'I', row), Formula('J', '-', 'H', row)]
  }

  /** The estimate rows written from sheet row `start` on. */
  function EstimateLines(est: seq<EstimateCells>, start: nat): (r: seq<Row>)
    ensures |r| == |est|
    ensures forall i :: 0 <= i < |est| ==> r[i] == EstimateLine(est[i], start + i)
  {
    if est == [] then []
    else EstimateLines(est[..|est| - 1], start) + [EstimateLine(est[|est| - 1], start + |est| - 1)]
  }

  function PaymentLine(p: PaymentCells): Row {
    [p.payId, p.date, p.amount, p.note]
  }

  function PaymentLines(pays: seq<PaymentCells>): (r: seq<Row>)
    ensures |r| == |pays|
    ensures forall i :: 0 <= i < |pays| ==> r[i] == PaymentLine(pays[i])
  {
    if pays == [] then []
    else PaymentLines(pays[..|pays| - 1]) + [PaymentLine(pays[|pays| - 1])]
  }

  /** The written rows and the 1-based sheet rows of the two blocks. */
  datatype Layout = Layout(
    rows: seq<Row>,
    estimateStartRow: nat,
    estimateEndRow: nat,
    paymentsStartRow: nat,
    paymentsEndRow: nat,
    paymentsAnchorRow: nat)

  const EstimateStartRow: nat := 7

  /**
   * `_build_real_sheet_rows`: the head, one row per estimate row from sheet
   * row 7, two empty rows, the payments anchor and header, then one row per
   * payment. Each block's end row counts at least one row.
   */
  function BuildLayout(est: seq<EstimateCells>, pays: seq<PaymentCells>, projectTitle: string, nowIso: string): (l: Layout)
    ensures |l.rows| == |est| + |pays| + 10 && l.rows[..6] == Head(projectTitle, nowIso)
    ensures l.estimateStartRow == 7 && l.estimateEndRow == 7 + (if |est| > 1 then |est| else 1) - 1
    ensures l.paymentsAnchorRow == l.paymentsStartRow - 2 == |est| + 9
    ensures l.paymentsEndRow == l.paymentsStartRow + (if |pays| > 1 then |pays| else 1) - 1
    ensures forall i :: 0 <= i < |est| ==> l.rows[l.estimateStartRow - 1 + i] == EstimateLine(est[i], l.estimateStartRow + i)
    ensures l.rows[|est| + 6] == [] && l.rows[|est| + 7] == []
    ensures l.rows[l.paymentsAnchorRow - 1] == [PaymentsAnchor] && l.rows[l.paymentsAnchorRow] == PaymentsHeader
    ensures forall i :: 0 <= i < |pays| ==> l.rows[l.paymentsStartRow - 1 + i] == PaymentLine(pays[i])
  {
    var rows := Head(projectTitle, nowIso) + EstimateLines(est, EstimateStartRow) + [[], []]
      + [[PaymentsAnchor]] + [PaymentsHeader] + PaymentLines(pays);
    LayoutRowsAt(Head(projectTitle, nowIso), EstimateLines(est, EstimateStartRow), PaymentLines(pays), rows);
    var estimateEnd := EstimateStartRow + (if |est| > 1 then |est| else 1) - 1;
    var paymentsStart := |est| + 11;
    Layout(rows, EstimateStartRow, estimateEnd, paymentsStart,
      paymentsStart + (if |pays| > 1 then |pays| else 1) - 1, |est| + 9)
  }

  /** Where the head, the estimate lines, the two blank rows, the payments anchor and header and the payment lines sit. */
  lemma LayoutRowsAt(head: seq<Row>, lines: seq<Row>, plines: seq<Row>, rows: seq<Row>)
    requires |head| == 6 && rows == head + lines + [[], []] + [[PaymentsAnchor]] + [PaymentsHeader] + plines
    ensures |rows| == |lines| + |plines| + 10 && rows[..6] == head
    ensures forall i :: 0 <= i < |lines| ==> rows[6 + i] == lines[i]
    ensures rows[|lines| + 6] == [] && rows[|lines| + 7] == []
    ensures rows[|lines| + 8] == [PaymentsAnchor] && rows[|lines| + 9] == PaymentsHeader
    ensures forall i :: 0 <= i < |plines| ==> rows[|lines| + 10 + i] == plines[i]
  {
  }

  /** The estimate loop: one row per estimate row, numbered from sheet row 7. */
  method WriteEstimateLines(est: seq<EstimateCells>) returns (lines: seq<Row>)
    ensures lines == EstimateLines(est, EstimateStartRow)
  {
    lines := [];
    for i := 0 to |est|
      invariant lines == EstimateLines(est[..i], EstimateStartRow)
    {
      assert est[..i + 1][..i] == est[..i];
      lines := lines + [EstimateLine(est[i], EstimateStartRow + i)];
    }
    assert est[..|est|] == est;
  }

  /** The payments loop: one row per payment row. */
  method WritePaymentLines(pays: seq<PaymentCells>) returns (lines: seq<Row>)
    ensures lines == PaymentLines(pays)
  {
    lines := [];
    for i := 0 to |pays|
      invariant lines == PaymentLines(pays[..i])
    {
      assert pays[..i + 1][..i] == pays[..i];
      lines := lines + [PaymentLine(pays[i])];
    }
    assert pays[..|pays|] == pays;
  }

  /** `_build_real_sheet_rows` as it appends the blocks and counts the rows. */
  method BuildSheetRows(est: seq<EstimateCells>, pays: seq<PaymentCells>, projectTitle: string, nowIso: string) returns (l: Layout)
    ensures l == BuildLayout(est, pays, projectTitle, nowIso)
  {
    var estimateLines := WriteEstimateLines(est);
    var rows := Head(projectTitle, nowIso) + estimateLines;
    var estimateEnd := EstimateStartRow + (if |est| > 1 then |est| else 1) - 1;
    rows := rows + [[], []];
    var anchorRow := |rows| + 1;
    rows := rows + [[PaymentsAnchor]];
    rows := rows + [PaymentsHeader];
    var paymentsStart := |rows| + 1;
    var paymentLines := WritePaymentLines(pays);
    rows := rows + paymentLines;
    l := Layout(rows, EstimateStartRow, estimateEnd, paymentsStart,
      paymentsStart + (if |pays| > 1 then |pays| else 1) - 1, anchorRow);
  }

  // ---------------------------------------------------------------------------
  // Writing and reading back

  predicate IsStripped(s: string) {
    Strip(s) == s
  }

  /**
   * An estimate row survives the exchange when its item id is non-empty, is
   * not an anchor and its text columns carry no surrounding white space.
   */
  predicate Exchangeable(e: EstimateCells) {
    e.itemId != "" && e.itemId != EstimateAnchor && e.itemId != PaymentsAnchor
    && IsStripped(e.itemId) && IsStripped(e.group) && IsStripped(e.name)
    && IsStripped(e.adjustmentType) && IsStripped(e.reason)
  }

  /** A payment row survives when one of its cells is non-blank and its first cell is not an anchor. */
  predicate PaymentExchangeable(p: PaymentCells) {
    p.payId != EstimateAnchor && p.payId != PaymentsAnchor
    && IsStripped(p.payId) && IsStripped(p.date) && IsStripped(p.note)
    && (p.payId != "" || p.date != "" || Strip(p.amount) != "" || p.note != "")
  }

  /** What reading back gives for a written estimate row: the totals columns hold the formulas. */
  function ReadBack(e: EstimateCells, row: nat): EstimateCells {
    e.(totalBillable := Formula('D', '*', 'E', row), totalFull := Formula('D', '*', 'I', row),
       delta := Formula('J', '-', 'H', row))
  }

  function ReadBackAll(est: seq<EstimateCells>, start: nat): (r: seq<EstimateCells>)
    ensures |r| == |est|
    ensures forall i :: 0 <= i < |est| ==> (r[i].itemId == est[i].itemId && r[i].qty == est[i].qty
      && r[i].unitPriceBillable == est[i].unitPriceBillable && r[i].unitPriceFull == est[i].unitPriceFull
      && r[i].adjustmentType == est[i].adjustmentType && r[i].reason == est[i].reason)
  {
    if est == [] then []
    else ReadBackAll(est[..|est| - 1], start) + [ReadBack(est[|est| - 1], start + |est| - 1)]
  }

  /** A written estimate row is kept by the reader and gives back its cells. */
  lemma {:induction false} EstimateLineReadsBack(e: EstimateCells, row: nat)
    requires Exchangeable(e)
    ensures KeepsEstimate(EstimateLine(e, row)) && EstimateOf(EstimateLine(e, row)) == ReadBack(e, row)
    ensures Marker(EstimateLine(e, row)) == e.itemId
  {
    var line := EstimateLine(e, row);
    assert Cell(line, 0) == e.itemId && Strip(Cell(line, 0)) != "";
  }

  /** A written payment row is kept by the reader and gives back its cells. */
  lemma {:induction false} PaymentLineReadsBack(p: PaymentCells)
    requires PaymentExchangeable(p)
    ensures KeepsPayment(PaymentLine(p)) && PaymentOf(PaymentLine(p)) == p
    ensures Marker(PaymentLine(p)) == p.payId
  {
    var row := PaymentLine(p);
    assert Cell(row, 0) == p.payId && Cell(row, 1) == p.date && Cell(row, 2) == p.amount && Cell(row, 3) == p.note;
    if p.payId != "" {
      assert Strip(Cell(row, 0)) != "";
    } else if p.date != "" {
      assert Strip(Cell(row, 1)) != "";
    } else if Strip(p.amount) != "" {
      assert Strip(Cell(row, 2)) != "";
    } else {
      assert Strip(Cell(row, 3)) != "";
    }
  }

  /** Rows that all pass the estimate filter are read one for one. */
  lemma {:induction false} EstimateRowsAllKept(rows: seq<Row>, est: seq<EstimateCells>, lo: nat, k: nat)
    requires lo + k <= |rows| && k <= |est|
    requires forall i :: 0 <= i < k ==> Exchangeable(est[i]) && rows[lo + i] == EstimateLine(est[i], EstimateStartRow + i)
    ensures EstimateRowsIn(rows, lo, lo + k) == ReadBackAll(est[..k], EstimateStartRow)
  {
    if k > 0 {
      EstimateRowsAllKept(rows, est, lo, k - 1);
      EstimateRowKept(rows, est, lo, k - 1);
    }
  }

  /** The step of `EstimateRowsAllKept`: one more written row reads back as one more estimate. */
  lemma EstimateRowKept(rows: seq<Row>, est: seq<EstimateCells>, lo: nat, j: nat)
    requires lo + j < |rows| && j < |est|
    requires Exchangeable(est[j]) && rows[lo + j] == EstimateLine(est[j], EstimateStartRow + j)
    requires EstimateRowsIn(rows, lo, lo + j) == ReadBackAll(est[..j], EstimateStartRow)
    ensures EstimateRowsIn(rows, lo, lo + j + 1) == ReadBackAll(est[..j + 1], EstimateStartRow)
  {
    EstimateLineReadsBack(est[j], EstimateStartRow + j);
    assert est[..j + 1][..j] == est[..j];
  }

  /** Rows that all pass the payment filter are read one for one. */
  lemma {:induction false} PaymentRowsAllKept(rows: seq<Row>, pays: seq<PaymentCells>, lo: nat, k: nat)
    requires lo + k <= |rows| && k <= |pays|
    requires forall i :: 0 <= i < k ==> PaymentExchangeable(pays[i]) && rows[lo + i] == PaymentLine(pays[i])
    ensures PaymentRowsIn(rows, lo, lo + k) == pays[..k]
  {
    if k > 0 {
      PaymentRowsAllKept(rows, pays, lo, k - 1);
      PaymentLineReadsBack(pays[k - 1]);
      assert pays[..k] == pays[..k - 1] + [pays[k - 1]];
    }
  }

  /** Blank rows add nothing to the estimate rows. */
  lemma {:induction false} BlankRowsSkipped(rows: seq<Row>, lo: nat, hi: nat)
    requires lo <= hi && hi + 2 <= |rows|
    requires BlankPrefix(rows[hi], Width) && BlankPrefix(rows[hi + 1], Width)
    ensures EstimateRowsIn(rows, lo, hi + 2) == EstimateRowsIn(rows, lo, hi)
  {
  }

  /** The lengths that tell the anchors and the header cells apart. */
  lemma {:induction false} AnchorLengths()
    ensures |EstimateAnchor| == 14 && |PaymentsAnchor| == 19 && |"pay_id"| == 6 && |"item_id"| == 7
  {
  }

  /** The markers of the last two head rows: the estimate anchor, then the header, which is no anchor. */
  lemma {:induction false} HeadMarkers(head: seq<Row>, projectTitle: string, nowIso: string)
    requires head == Head(projectTitle, nowIso)
    ensures Marker(head[4]) == EstimateAnchor && NoAnchor(head[5])
  {
    AnchorLengths();
    StripNoSpace(EstimateAnchor);
    StripNoSpace("item_id");
    assert Cell(head[4], 0) == EstimateAnchor;
    assert Cell(head[5], 0) == "item_id";
  }

  /** The two empty rows, the payments anchor and the payments header, which is no anchor. */
  lemma {:induction false} MiddleMarkers(a: Row, b: Row, c: Row, d: Row)
    requires a == [] && b == [] && c == [PaymentsAnchor] && d == PaymentsHeader
    ensures BlankPrefix(a, Width) && BlankPrefix(b, Width)
    ensures Marker(c) == PaymentsAnchor && NoAnchor(d)
  {
    AnchorLengths();
    assert Strip("") == "";
    StripNoSpace(PaymentsAnchor);
    StripNoSpace("pay_id");
    assert Cell(c, 0) == PaymentsAnchor && Cell(d, 0) == "pay_id";
  }

  /** A row whose marker is neither anchor. */
  predicate NoAnchor(row: Row) {
    Marker(row) != EstimateAnchor && Marker(row) != PaymentsAnchor
  }

  /** What the reader sees of the written rows, block by block. */
  predicate Shaped(rows: seq<Row>, est: seq<EstimateCells>, pays: seq<PaymentCells>) {
    var n := |est|;
    && |rows| == n + |pays| + 10
    && Marker(rows[4]) == EstimateAnchor
    && NoAnchor(rows[5])
    && (forall i :: 0 <= i < n ==> rows[6 + i] == EstimateLine(est[i], EstimateStartRow + i))
    && BlankPrefix(rows[n + 6], Width) && BlankPrefix(rows[n + 7], Width)
    && Marker(rows[n + 8]) == PaymentsAnchor && NoAnchor(rows[n + 9])
    && (forall i :: 0 <= i < |pays| ==> rows[n + 10 + i] == PaymentLine(pays[i]))
  }

  /** The written rows have the shape the reader expects. */
  lemma {:induction false} LayoutShaped(est: seq<EstimateCells>, pays: seq<PaymentCells>, projectTitle: string, nowIso: string)
    ensures Shaped(BuildLayout(est, pays, projectTitle, nowIso).rows, est, pays)
  {
    var rows := BuildLayout(est, pays, projectTitle, nowIso).rows;
    var n := |est|;
    HeadMarkers(rows[..6], projectTitle, nowIso);
    MiddleMarkers(rows[n + 6], rows[n + 7], rows[n + 8], rows[n + 9]);
  }

  /** In a shaped grid the last estimate anchor is on row 4 and the last payments anchor two rows above the payments. */
  lemma {:induction false} AnchorsFound(rows: seq<Row>, est: seq<EstimateCells>, pays: seq<PaymentCells>)
    requires Shaped(rows, est, pays)
    requires forall i :: 0 <= i < |est| ==> Exchangeable(est[i])
    requires forall i :: 0 <= i < |pays| ==> PaymentExchangeable(pays[i])
    ensures LastAnchor(rows, EstimateAnchor) == Some(4)
    ensures LastAnchor(rows, PaymentsAnchor) == Some(|est| + 8)
  {
    var n := |est|;
    forall j | 4 < j < |rows| ensures Marker(rows[j]) != EstimateAnchor && (j > n + 8 ==> Marker(rows[j]) != PaymentsAnchor) {
      MarkerBelowHead(rows, est, pays, j);
    }
    LastAnchorIs(rows, EstimateAnchor, 4);
    LastAnchorIs(rows, PaymentsAnchor, n + 8);
  }

  /** Below the estimate anchor no marker is that anchor, and below the payments anchor neither anchor appears. */
  lemma {:induction false} MarkerBelowHead(rows: seq<Row>, est: seq<EstimateCells>, pays: seq<PaymentCells>, j: nat)
    requires Shaped(rows, est, pays)
    requires forall i :: 0 <= i < |est| ==> Exchangeable(est[i])
    requires forall i :: 0 <= i < |pays| ==> PaymentExchangeable(pays[i])
    requires 4 < j < |rows|
    ensures Marker(rows[j]) != EstimateAnchor
    ensures j > |est| + 8 ==> Marker(rows[j]) != PaymentsAnchor
  {
    var n := |est|;
    AnchorLengths();
    if j < 6 {
    } else if j < n + 6 {
      assert rows[6 + (j - 6)] == EstimateLine(est[j - 6], EstimateStartRow + (j - 6));
      EstimateLineReadsBack(est[j - 6], EstimateStartRow + j - 6);
    } else if j < n + 8 {
      assert Strip(Cell(rows[j], 0)) == "";
    } else if j < n + 10 {
    } else {
      assert rows[n + 10 + (j - n - 10)] == PaymentLine(pays[j - n - 10]);
      PaymentLineReadsBack(pays[j - n - 10]);
    }
  }

  /** With both anchors found in order, the sheet is read between and below them. */
  lemma {:induction false} ParseAt(values: seq<Row>, est: nat, pay: nat)
    requires LastAnchor(values, EstimateAnchor) == Some(est) && LastAnchor(values, PaymentsAnchor) == Some(pay)
    requires est < pay
    ensures pay < |values|
    ensures ParseSheet(values) == Ok(ParsedSheet(EstimateRowsIn(values, est + 2, pay), PaymentRowsIn(values, pay + 2, |values|)))
  {
  }

  /** The estimate block of a shaped grid, with the two blank rows below it, reads back as the written estimate. */
  lemma {:induction false} EstimateBlock(rows: seq<Row>, est: seq<EstimateCells>)
    requires |est| + 8 <= |rows|
    requires forall i :: 0 <= i < |est| ==> Exchangeable(est[i])
    requires forall i :: 0 <= i < |est| ==> rows[6 + i] == EstimateLine(est[i], EstimateStartRow + i)
    requires BlankPrefix(rows[|est| + 6], Width) && BlankPrefix(rows[|est| + 7], Width)
    ensures EstimateRowsIn(rows, 6, |est| + 8) == ReadBackAll(est, EstimateStartRow)
  {
    EstimateRowsAllKept(rows, est, 6, |est|);
    BlankRowsSkipped(rows, 6, |est| + 6);
    assert est[..|est|] == est;
  }

  /** The payment block, running to the end of the grid, reads back as the written payments. */
  lemma {:induction false} PaymentBlock(rows: seq<Row>, pays: seq<PaymentCells>, lo: nat)
    requires lo + |pays| == |rows|
    requires forall i :: 0 <= i < |pays| ==> PaymentExchangeable(pays[i])
    requires forall i :: 0 <= i < |pays| ==> rows[lo + i] == PaymentLine(pays[i])
    ensures PaymentRowsIn(rows, lo, |rows|) == pays
  {
    PaymentRowsAllKept(rows, pays, lo, |pays|);
    assert pays[..|pays|] == pays;
  }

  /** The estimate block of a shaped grid reads back as the written estimate. */
  lemma {:induction false} ShapedEstimates(rows: seq<Row>, est: seq<EstimateCells>, pays: seq<PaymentCells>)
    requires Shaped(rows, est, pays)
    requires forall i :: 0 <= i < |est| ==> Exchangeable(est[i])
    ensures EstimateRowsIn(rows, 6, |est| + 8) == ReadBackAll(est, EstimateStartRow)
  {
    EstimateBlock(rows, est);
  }

  /** The payment block of a shaped grid reads back as the written payments. */
  lemma {:induction false} ShapedPayments(rows: seq<Row>, est: seq<EstimateCells>, pays: seq<PaymentCells>)
    requires Shaped(rows, est, pays)
    requires forall i :: 0 <= i < |pays| ==> PaymentExchangeable(pays[i])
    ensures PaymentRowsIn(rows, |est| + 10, |rows|) == pays
  {
    PaymentBlock(rows, pays, |est| + 10);
  }

  /** A shaped grid holding exchangeable rows parses back into them. */
  lemma {:induction false} ParseShaped(rows: seq<Row>, est: seq<EstimateCells>, pays: seq<PaymentCells>)
    requires Shaped(rows, est, pays)
    requires forall i :: 0 <= i < |est| ==> Exchangeable(est[i])
    requires forall i :: 0 <= i < |pays| ==> PaymentExchangeable(pays[i])
    ensures ParseSheet(rows) == Ok(ParsedSheet(ReadBackAll(est, EstimateStartRow), pays))
  {
    AnchorsFound(rows, est, pays);
    ShapedEstimates(rows, est, pays);
    ShapedPayments(rows, est, pays);
    ParseAt(rows, 4, |est| + 8);
  }

  /**
   * Reading back what was written gives the estimate rows, in order, with
   * their totals columns holding the formulas, and the payment rows
   * unchanged.
   */
  lemma {:induction false} ParseBuildRoundTrip(est: seq<EstimateCells>, pays: seq<PaymentCells>, projectTitle: string, nowIso: string)
    requires forall i :: 0 <= i < |est| ==> Exchangeable(est[i])
    requires forall i :: 0 <= i < |pays| ==> PaymentExchangeable(pays[i])
    ensures ParseSheet(BuildLayout(est, pays, projectTitle, nowIso).rows)
      == Ok(ParsedSheet(ReadBackAll(est, EstimateStartRow), pays))
  {
    LayoutShaped(est, pays, projectTitle, nowIso);
    ParseShaped(BuildLayout(est, pays, projectTitle, nowIso).rows, est, pays);
  }
}

=== FILE: sorting.dfy ===
/**
 * Sorting as the Python code uses it: `sorted(...)`/`list.sort(key=...)` over a
 * sequence (a stable sort by a key comparison) and `sorted(d.keys())` over the
 * keys of a dictionary (a set whose elements are all distinct).
 */
module Sorting {

  /** `le` is total and transitive: the comparison induced by a sort key. */
  ghost predicate TotalPreorder<T(!new)>(le: (T, T) -> bool) {
    (forall a, b :: le(a, b) || le(b, a)) &&
    (forall a, b, c :: le(a, b) && le(b, c) ==> le(a, c))
  }

  /** A total preorder that is also antisymmetric: ties only between equal values. */
  ghost predicate TotalOrder<T(!new)>(le: (T, T) -> bool) {
    TotalPreorder(le) && forall a, b :: le(a, b) && le(b, a) ==> a == b
  }

  predicate SortedBy<T>(s: seq<T>, le: (T, T) -> bool) {
    forall i, j :: 0 <= i < j < |s| ==> le(s[i], s[j])
  }

  /** Every element is strictly below every later one: sorted and without duplicates. */
  predicate StrictlySortedBy<T(==)>(s: seq<T>, le: (T, T) -> bool) {
    forall i, j :: 0 <= i < j < |s| ==> le(s[i], s[j]) && s[i] != s[j]
  }

  /**
   * Inserts `x` in front of the first element it is not above; equal elements
   * already in `s` stay behind it, which keeps a sort built from it stable.
   */
  function InsertBy<T>(x: T, s: seq<T>, le: (T, T) -> bool): (r: seq<T>)
    ensures multiset(r) == multiset(s) + multiset{x}
    ensures |r| == |s| + 1
  {
    if |s| == 0 then [x]
    else if le(x, s[0]) then [x] + s
    else
      assert s == [s[0]] + s[1..];
      [s[0]] + InsertBy(x, s[1..], le)
  }

  lemma {:induction false} InsertBySorted<T(!new)>(x: T, s: seq<T>, le: (T, T) -> bool)
    requires TotalPreorder(le) && SortedBy(s, le)
    ensures SortedBy(InsertBy(x, s, le), le)
    ensures forall y :: y in InsertBy(x, s, le) <==> y == x || y in s
    decreases |s|
  {
    if |s| == 0 {
    } else if le(x, s[0]) {
      var r := [x] + s;
      forall i, j | 0 <= i < j < |r| ensures le(r[i], r[j]) {
        if i == 0 { assert le(x, s[0]); if j > 1 { assert le(s[0], s[j - 1]); } }
      }
    } else {
      InsertBySorted(x, s[1..], le);
      var t := InsertBy(x, s[1..], le);
      var r := [s[0]] + t;
      forall k | 0 <= k < |t| ensures le(s[0], t[k]) {
        assert t[k] in t;
        if t[k] != x {
          var j :| 0 <= j < |s[1..]| && s[1..][j] == t[k];
          assert s[j + 1] == t[k];
        }
      }
      forall i, j | 0 <= i < j < |r| ensures le(r[i], r[j]) {
        if i == 0 { assert r[j] == t[j - 1]; }
      }
      assert forall y :: y in s <==> y == s[0] || y in s[1..] by {
        assert s == [s[0]] + s[1..];
      }
    }
  }

  /**
   * Stable insertion sort by the comparison `le`: a sorted permutation of `s`,
   * which is how `sorted(xs, key=k)` is read throughout the model.
   */
  function SortBy<T(!new)>(s: seq<T>, le: (T, T) -> bool): (r: seq<T>)
    requires TotalPreorder(le)
    ensures multiset(r) == multiset(s) && |r| == |s|
    ensures SortedBy(r, le)
    ensures forall y :: y in r <==> y in s
  {
    if |s| == 0 then []
    else
      var t := SortBy(s[1..], le);
      InsertFirst(s, t, le);
      InsertBy(s[0], t, le)
  }

  /** Inserting the first element into a sorted permutation of the rest sorts the whole. */
  lemma InsertFirst<T(!new)>(s: seq<T>, t: seq<T>, le: (T, T) -> bool)
    requires TotalPreorder(le) && |s| > 0
    requires multiset(t) == multiset(s[1..]) && SortedBy(t, le)
    requires forall y :: y in t <==> y in s[1..]
    ensures multiset(InsertBy(s[0], t, le)) == multiset(s)
    ensures SortedBy(InsertBy(s[0], t, le), le)
    ensures forall y :: y in InsertBy(s[0], t, le) <==> y in s
  {
    InsertBySorted(s[0], t, le);
    assert s == [s[0]] + s[1..];
  }

  /** `a` and `b` have equal sort keys. */
  predicate Tied<T>(le: (T, T) -> bool, a: T, b: T) {
    le(a, b) && le(b, a)
  }

  /** The elements of `s` whose key equals `z`'s, in their order in `s`. */
  function TiesOf<T>(s: seq<T>, le: (T, T) -> bool, z: T): (r: seq<T>)
    ensures |r| <= |s|
  {
    if |s| == 0 then []
    else (if Tied(le, s[0], z) then [s[0]] else []) + TiesOf(s[1..], le, z)
  }

  /** `x` goes in front of the elements tied with it, so it comes first among its ties. */
  lemma {:induction false} InsertByTies<T(!new)>(x: T, t: seq<T>, le: (T, T) -> bool, z: T)
    requires TotalPreorder(le)
    ensures TiesOf(InsertBy(x, t, le), le, z) == (if Tied(le, x, z) then [x] else []) + TiesOf(t, le, z)
    decreases |t|
  {
    if |t| == 0 {
      TiesOfCons(x, [], le, z);
    } else if le(x, t[0]) {
      TiesOfCons(x, t, le, z);
    } else {
      InsertByTies(x, t[1..], le, z);
      TiesOfCons(t[0], InsertBy(x, t[1..], le), le, z);
      TiesOfCons(t[0], t[1..], le, z);
      NotTiedPast(x, t[0], le, z);
      assert t == [t[0]] + t[1..];
    }
  }

  lemma TiesOfCons<T>(h: T, t: seq<T>, le: (T, T) -> bool, z: T)
    ensures TiesOf([h] + t, le, z) == (if Tied(le, h, z) then [h] else []) + TiesOf(t, le, z)
  {
    assert ([h] + t)[0] == h && ([h] + t)[1..] == t;
  }

  /** An element that `x` is not below has a key other than `x`'s. */
  lemma NotTiedPast<T(!new)>(x: T, y: T, le: (T, T) -> bool, z: T)
    requires TotalPreorder(le) && !le(x, y)
    ensures Tied(le, x, z) ==> !Tied(le, y, z)
  {
  }

  /** `SortBy` is stable: elements with equal keys keep their relative order. */
  lemma {:induction false} SortByStable<T(!new)>(s: seq<T>, le: (T, T) -> bool, z: T)
    requires TotalPreorder(le)
    ensures TiesOf(SortBy(s, le), le, z) == TiesOf(s, le, z)
    decreases |s|
  {
    if |s| > 0 {
      SortByStable(s[1..], le, z);
      InsertByTies(s[0], SortBy(s[1..], le), le, z);
    }
  }

  predicate IsMinBy<T>(m: T, s: set<T>, le: (T, T) -> bool) {
    m in s && forall x :: x in s ==> le(m, x)
  }

  lemma {:induction false} LemmaHasMinBy<T(!new)>(s: set<T>, le: (T, T) -> bool)
    requires TotalPreorder(le) && s != {}
    ensures exists m :: IsMinBy(m, s, le)
    decreases |s|
  {
    var y :| y in s;
    if s == {y} {
      assert IsMinBy(y, s, le);
    } else {
      var r := s - {y};
      LemmaHasMinBy(r, le);
      var m :| IsMinBy(m, r, le);
      var w := if le(y, m) then y else m;
      forall x | x in s ensures le(w, x) {
        if x != y { assert x in r; }
      }
      assert IsMinBy(w, s, le);
    }
  }

  /** The least element of a non-empty set; unique because `le` is antisymmetric. */
  function MinBy<T(!new)>(s: set<T>, le: (T, T) -> bool): (m: T)
    requires TotalOrder(le) && s != {}
    ensures IsMinBy(m, s, le)
  {
    LemmaHasMinBy(s, le);
    var m :| IsMinBy(m, s, le); m
  }

  /** `sorted(keys)`: the elements of a set in ascending order, each exactly once. */
  function SortedSet<T(!new)>(s: set<T>, le: (T, T) -> bool): (r: seq<T>)
    requires TotalOrder(le)
    ensures |r| == |s| && forall x :: x in r <==> x in s
    ensures StrictlySortedBy(r, le)
    decreases |s|
  {
    if s == {} then []
    else
      var m := MinBy(s, le);
      [m] + SortedSet(s - {m}, le)
  }

  predicate IntLe(a: int, b: int) { a <= b }

  lemma IntLeTotalOrder()
    ensures TotalOrder(IntLe)
  {
  }

  /** The least of a non-empty set of integers. */
  function MinInt(s: set<int>): (m: int)
    requires s != {}
    ensures m in s && forall x :: x in s ==> m <= x
  {
    IntLeTotalOrder();
    MinBy(s, IntLe)
  }

  /**
   * `sorted(keys)` for integer keys (project ids, month indices); that it
   * ascends is `SortedIntsAscending`.
   */
  function SortedInts(s: set<int>): (r: seq<int>)
    ensures |r| == |s| && forall x :: x in r <==> x in s
    decreases |s|
  {
    if s == {} then []
    else
      var m := MinInt(s);
      [m] + SortedInts(s - {m})
  }

  /** `sorted(keys)` ascends strictly. */
  lemma {:induction false} SortedIntsAscending(s: set<int>)
    ensures forall i, j :: 0 <= i < j < |SortedInts(s)| ==> SortedInts(s)[i] < SortedInts(s)[j]
    decreases |s|
  {
    if s != {} {
      var m := MinInt(s);
      SortedIntsAscending(s - {m});
      MinBelowRest(s);
      assert SortedInts(s) == [m] + SortedInts(s - {m});
      ConsAscending(m, SortedInts(s - {m}));
    }
  }

  /** The least key is below every key sorted after it. */
  lemma MinBelowRest(s: set<int>)
    requires s != {}
    ensures forall k :: 0 <= k < |SortedInts(s - {MinInt(s)})| ==> MinInt(s) < SortedInts(s - {MinInt(s)})[k]
  {
    var m := MinInt(s);
    var t := SortedInts(s - {m});
    forall k | 0 <= k < |t| ensures m < t[k] {
      assert t[k] in t;
    }
  }

  /** An element below every element of an ascending sequence ascends in front of it. */
  lemma ConsAscending(m: int, t: seq<int>)
    requires forall k :: 0 <= k < |t| ==> m < t[k]
    requires forall i, j :: 0 <= i < j < |t| ==> t[i] < t[j]
    ensures forall i, j :: 0 <= i < j < |[m] + t| ==> ([m] + t)[i] < ([m] + t)[j]
  {
  }
}

=== FILE: text.dfy ===
/**
 * The string operations the Python code relies on: `str.strip`, `str.split`,
 * `str.upper`/`str.lower`, `int(text)`, zero-padded formatting (`f"{n:04d}"`)
 * and the code-point order in which `<` and `sorted` compare strings.
 */
module Text {
  import opened Wrappers

  /** The characters `str.strip()` removes (Python's Unicode white space). */
  predicate IsSpace(c: char) {
    var k := c as int;
    (9 <= k <= 13) || (28 <= k <= 32) || k == 0x85 || k == 0xA0 || k == 0x1680
    || (0x2000 <= k <= 0x200A) || k == 0x2028 || k == 0x2029 || k == 0x202F
    || k == 0x205F || k == 0x3000
  }

  predicate AllSpace(s: string) {
    forall i :: 0 <= i < |s| ==> IsSpace(s[i])
  }

  /**
   * `s.strip()`: white space removed from both ends, one character at a
   * time.
   */
  function Strip(s: string): (r: string)
    ensures |r| <= |s|
    decreases |s|
  {
    if s == [] then []
    else if IsSpace(s[0]) then Strip(s[1..])
    else if IsSpace(s[|s| - 1]) then Strip(s[..|s| - 1])
    else s
  }

  /** What stripping leaves neither starts nor ends with white space. */
  lemma {:induction false} StripTrimmed(s: string)
    ensures Strip(s) == [] || (!IsSpace(Strip(s)[0]) && !IsSpace(Strip(s)[|Strip(s)| - 1]))
    decreases |s|
  {
    if s != [] && IsSpace(s[0]) {
      StripTrimmed(s[1..]);
    } else if s != [] && IsSpace(s[|s| - 1]) {
      StripTrimmed(s[..|s| - 1]);
    }
  }

  /** Stripping leaves nothing exactly when the text is all white space. */
  lemma {:induction false} StripEmpty(s: string)
    ensures AllSpace(s) <==> Strip(s) == []
    decreases |s|
  {
    if s == [] {
    } else if IsSpace(s[0]) {
      StripEmpty(s[1..]);
      assert AllSpace(s) <==> AllSpace(s[1..]) by {
        if AllSpace(s[1..]) {
          forall i | 0 <= i < |s| ensures IsSpace(s[i]) {
            if i > 0 { assert s[i] == s[1..][i - 1]; }
          }
        }
      }
    } else if IsSpace(s[|s| - 1]) {
      StripEmpty(s[..|s| - 1]);
      assert s[..|s| - 1][0] == s[0];
    } else {
      assert !IsSpace(s[0]);
    }
  }

  /** Stripping twice changes nothing more. */
  lemma {:induction false} StripIdempotent(s: string)
    ensures Strip(Strip(s)) == Strip(s)
  {
    StripTrimmed(s);
    var r := Strip(s);
    if r != [] { StripNoSpace(r); }
  }

  /** ASCII and basic Cyrillic upper case (`str.upper` on the letters the application stores). */
  function UpperChar(c: char): (u: char)
    ensures LowerChar(u) == LowerChar(c)
  {
    var k := c as int;
    if 'a' <= c <= 'z' then (k - 32) as char
    else if 0x430 <= k <= 0x44F then (k - 32) as char
    else if 0x450 <= k <= 0x45F then (k - 80) as char
    else c
  }

  function LowerChar(c: char): char {
    var k := c as int;
    if 'A' <= c <= 'Z' then (k + 32) as char
    else if 0x410 <= k <= 0x42F then (k + 32) as char
    else if 0x400 <= k <= 0x40F then (k + 80) as char
    else c
  }

  function Upper(s: string): (r: string)
    ensures |r| == |s| && forall i :: 0 <= i < |s| ==> r[i] == UpperChar(s[i])
  {
    seq(|s|, i requires 0 <= i < |s| => UpperChar(s[i]))
  }

  function Lower(s: string): (r: string)
    ensures |r| == |s| && forall i :: 0 <= i < |s| ==> r[i] == LowerChar(s[i])
  {
    seq(|s|, i requires 0 <= i < |s| => LowerChar(s[i]))
  }

  /** The index of the first occurrence of `c` in `s`. */
  function IndexOf(s: string, c: char): (i: nat)
    requires c in s
    ensures i < |s| && s[i] == c && c !in s[..i]
  {
    if s[0] == c then 0 else 1 + IndexOf(s[1..], c)
  }

  /** `sep.join(parts)`. */
  function Join(parts: seq<string>, sep: char): string {
    if |parts| == 0 then ""
    else if |parts| == 1 then parts[0]
    else parts[0] + [sep] + Join(parts[1..], sep)
  }

  /**
   * `s.split(sep)` with a one-character separator: the pieces between
   * separators, at least one (possibly empty) piece, none holding `sep`,
   * and joining them back with `sep` gives `s`.
   */
  function Split(s: string, sep: char): (parts: seq<string>)
    ensures |parts| >= 1
    ensures forall p :: p in parts ==> sep !in p
    ensures Join(parts, sep) == s
    decreases |s|
  {
    if sep !in s then [s]
    else
      var i := IndexOf(s, sep);
      var rest := Split(s[i + 1..], sep);
      assert s == s[..i] + [sep] + s[i + 1..];
      [s[..i]] + rest
  }

  /** Splitting a join gives back the pieces when none of them holds the separator. */
  lemma {:induction false} SplitJoin(parts: seq<string>, sep: char)
    requires |parts| >= 1 && forall p :: p in parts ==> sep !in p
    ensures Split(Join(parts, sep), sep) == parts
    decreases |parts|
  {
    if |parts| > 1 {
      assert parts[0] in parts;
      forall p | p in parts[1..] ensures sep !in p { assert p in parts; }
      SplitCons(parts[0], sep, Join(parts[1..], sep));
      SplitJoin(parts[1..], sep);
      assert parts == [parts[0]] + parts[1..];
    }
  }

  /** Splitting `a + sep + b` when `a` holds no separator gives `a` and then the pieces of `b`. */
  lemma SplitCons(a: string, sep: char, b: string)
    requires sep !in a
    ensures Split(a + [sep] + b, sep) == [a] + Split(b, sep)
  {
    var s := a + [sep] + b;
    IndexOfAfter(a, sep, b);
    assert s[|a| + 1..] == b;
    assert s[..|a|] == a;
  }

  lemma {:induction false} IndexOfAfter(a: string, sep: char, b: string)
    requires sep !in a
    ensures IndexOf(a + [sep] + b, sep) == |a|
    decreases |a|
  {
    if |a| > 0 {
      assert (a + [sep] + b)[1..] == a[1..] + [sep] + b;
      IndexOfAfter(a[1..], sep, b);
    }
  }

  predicate IsDigit(c: char) {
    '0' <= c <= '9'
  }

  predicate AllDigits(s: string) {
    forall i :: 0 <= i < |s| ==> IsDigit(s[i])
  }

  function DigitValue(c: char): nat
    requires IsDigit(c)
  {
    (c as int - '0' as int) as nat
  }

  function DigitChar(d: nat): (c: char)
    requires d < 10
    ensures IsDigit(c) && DigitValue(c) == d
  {
    ('0' as int + d) as char
  }

  /** The value of a string of decimal digits (leading zeros allowed). */
  function DigitsValue(s: string): nat
    requires AllDigits(s)
  {
    if |s| == 0 then 0 else DigitsValue(s[..|s| - 1]) * 10 + DigitValue(s[|s| - 1])
  }

  /** The shortest decimal representation of `n`. */
  function Digits(n: nat): (s: string)
    ensures |s| >= 1 && AllDigits(s)
    ensures DigitsValue(s) == n
    ensures |s| > 1 ==> s[0] != '0'
  {
    if n < 10 then [DigitChar(n)]
    else
      var s := Digits(n / 10) + [DigitChar(n % 10)];
      assert s[..|s| - 1] == Digits(n / 10);
      s
  }

  function Zeros(k: nat): (s: string)
    ensures |s| == k && AllDigits(s) && DigitsValue(s) == 0
  {
    if k == 0 then "" else
      var s := Zeros(k - 1) + "0";
      assert s[..|s| - 1] == Zeros(k - 1);
      s
  }

  lemma {:induction false} DigitsValueConcat(a: string, b: string)
    requires AllDigits(a) && AllDigits(b)
    ensures AllDigits(a + b)
    ensures DigitsValue(a + b) == DigitsValue(a) * Pow10(|b|) + DigitsValue(b)
    decreases |b|
  {
    if |b| == 0 {
      assert a + b == a;
    } else {
      var b' := b[..|b| - 1];
      assert (a + b)[..|a + b| - 1] == a + b';
      assert (a + b)[|a + b| - 1] == b[|b| - 1];
      DigitsValueConcat(a, b');
      ShiftDigit(DigitsValue(a), Pow10(|b'|), DigitsValue(b'), DigitValue(b[|b| - 1]));
    }
  }

  /** Appending a digit to both sides of `x * p + y` multiplies the weight of `x` by ten. */
  lemma ShiftDigit(x: int, p: int, y: int, d: int)
    ensures (x * p + y) * 10 + d == x * (10 * p) + (y * 10 + d)
  {
  }

  function Pow10(k: nat): (p: nat)
    ensures p >= 1
  {
    if k == 0 then 1 else 10 * Pow10(k - 1)
  }

  /** The two powers the fixed-width date fields use. */
  lemma Pow10Widths()
    ensures Pow10(2) == 100 && Pow10(4) == 10000
  {
  }

  /** `f"{n:0{width}d}"` for a natural number: its digits, left-padded with zeros to `width`. */
  function FormatNat(n: nat, width: nat): (s: string)
    ensures AllDigits(s) && |s| >= width && |s| >= 1
    ensures DigitsValue(s) == n
    ensures |s| == if |Digits(n)| < width then width else |Digits(n)|
  {
    var d := Digits(n);
    if |d| < width then
      var s := Zeros(width - |d|) + d;
      DigitsValueConcat(Zeros(width - |d|), d);
      s
    else d
  }

  /** `f"{n:0{width}d}"` for any integer: a negative number's sign counts towards the width. */
  function FormatInt(n: int, width: nat): (s: string)
    ensures |s| >= 1
    ensures n >= 0 ==> s == FormatNat(n, width)
    ensures n < 0 ==> s[0] == '-' && s[1..] == FormatNat(-n, if width > 0 then width - 1 else 0)
  {
    if n >= 0 then FormatNat(n, width)
    else "-" + FormatNat(-n, if width > 0 then width - 1 else 0)
  }

  /**
   * `int(text)` on a string: optional surrounding white space, an optional
   * sign and at least one decimal digit; anything else is a `ValueError`.
   */
  function ParseInt(text: string): Option<int>
  {
    var t := Strip(text);
    if |t| >= 1 && AllDigits(t) then Some(DigitsValue(t))
    else if |t| >= 2 && t[0] == '-' && AllDigits(t[1..]) then Some(0 - DigitsValue(t[1..]) as int)
    else if |t| >= 2 && t[0] == '+' && AllDigits(t[1..]) then Some(DigitsValue(t[1..]))
    else None
  }

  /** `int(f"{n:0{w}d}") == n`: formatting is undone by parsing. */
  lemma ParseFormatInt(n: int, width: nat)
    ensures ParseInt(FormatInt(n, width)) == Some(n)
  {
    if n >= 0 {
      ParseFormatNat(n, width);
    } else {
      ParseFormatNegative(n, width);
    }
  }

  lemma ParseFormatNat(n: nat, width: nat)
    ensures ParseInt(FormatInt(n, width)) == Some(n)
  {
    var t := FormatNat(n, width);
    assert FormatInt(n, width) == t;
    ParseDigits(t);
  }

  lemma ParseFormatNegative(n: int, width: nat)
    requires n < 0
    ensures ParseInt(FormatInt(n, width)) == Some(n)
  {
    var s := FormatInt(n, width);
    var t := FormatNat(-n, if width > 0 then width - 1 else 0);
    assert s[1..] == t && |t| >= 1 && AllDigits(t) && DigitsValue(t) == -n;
    ParseNegative(s);
  }

  /** A non-empty string of decimal digits parses as its value. */
  lemma ParseDigits(s: string)
    requires |s| >= 1 && AllDigits(s)
    ensures ParseInt(s) == Some(DigitsValue(s))
  {
    StripNoSpace(s);
  }

  /** A minus sign followed by decimal digits parses as the negated value. */
  lemma ParseNegative(s: string)
    requires |s| >= 2 && s[0] == '-' && AllDigits(s[1..])
    ensures ParseInt(s) == Some(0 - DigitsValue(s[1..]))
  {
    assert s[|s| - 1] == s[1..][|s| - 2];
    StripNoSpace(s);
    assert !IsDigit(s[0]);
  }

  /** Text that neither starts nor ends with white space is left as it is. */
  lemma StripNoSpace(s: string)
    requires s != [] && !IsSpace(s[0]) && !IsSpace(s[|s| - 1])
    ensures Strip(s) == s
  {
  }

  /**
   * `a <= b` on Python strings: code-point by code-point, a proper prefix
   * coming first.
   */
  predicate StrLe(a: string, b: string) {
    if |a| == 0 then true
    else if |b| == 0 then false
    else if a[0] != b[0] then a[0] < b[0]
    else StrLe(a[1..], b[1..])
  }

  predicate StrLt(a: string, b: string) {
    StrLe(a, b) && a != b
  }

  lemma {:induction false} StrLeTotal(a: string, b: string)
    ensures StrLe(a, b) || StrLe(b, a)
    ensures StrLe(a, b) && StrLe(b, a) ==> a == b
    decreases |a|
  {
    if |a| > 0 && |b| > 0 && a[0] == b[0] {
      StrLeTotal(a[1..], b[1..]);
      if StrLe(a, b) && StrLe(b, a) {
        assert a == [a[0]] + a[1..] && b == [b[0]] + b[1..];
      }
    }
  }

  lemma {:induction false} StrLeTrans(a: string, b: string, c: string)
    requires StrLe(a, b) && StrLe(b, c)
    ensures StrLe(a, c)
    decreases |a|
  {
    if |a| > 0 && |b| > 0 && |c| > 0 && a[0] == b[0] && b[0] == c[0] {
      StrLeTrans(a[1..], b[1..], c[1..]);
    }
  }

  lemma StrLeTotalOrder()
    ensures forall a, b :: StrLe(a, b) || StrLe(b, a)
    ensures forall a, b :: StrLe(a, b) && StrLe(b, a) ==> a == b
    ensures forall a, b, c :: StrLe(a, b) && StrLe(b, c) ==> StrLe(a, c)
  {
    forall a, b ensures StrLe(a, b) || StrLe(b, a) { StrLeTotal(a, b); }
    forall a, b ensures StrLe(a, b) && StrLe(b, a) ==> a == b { StrLeTotal(a, b); }
    forall a, b, c | StrLe(a, b) && StrLe(b, c) ensures StrLe(a, c) { StrLeTrans(a, b, c); }
  }

  /**
   * Equal-length digit strings compare as strings exactly as their values
   * compare as numbers: the reason fixed-width keys such as `"2024-05"`
   * sort chronologically.
   */
  lemma {:induction false} DigitStringsOrder(a: string, b: string)
    requires AllDigits(a) && AllDigits(b) && |a| == |b|
    ensures StrLe(a, b) <==> DigitsValue(a) <= DigitsValue(b)
    ensures a == b <==> DigitsValue(a) == DigitsValue(b)
    decreases |a|
  {
    if |a| > 0 {
      var n := |a| - 1;
      DigitsValueHead(a);
      DigitsValueHead(b);
      DigitsValueBound(a[1..]);
      DigitsValueBound(b[1..]);
      DigitStringsOrder(a[1..], b[1..]);
      var p := Pow10(n);
      if a[0] != b[0] {
        if DigitValue(a[0]) < DigitValue(b[0]) {
          LeadingDigitDecides(DigitValue(a[0]), DigitValue(b[0]), p, DigitsValue(a[1..]), DigitsValue(b[1..]));
        } else {
          LeadingDigitDecides(DigitValue(b[0]), DigitValue(a[0]), p, DigitsValue(b[1..]), DigitsValue(a[1..]));
        }
      } else {
        assert a == [a[0]] + a[1..] && b == [b[0]] + b[1..];
      }
    }
  }

  /** The value of a digit string is its leading digit's weight plus the value of the rest. */
  lemma DigitsValueHead(a: string)
    requires |a| > 0 && AllDigits(a)
    ensures AllDigits(a[1..]) && DigitsValue(a) == DigitValue(a[0]) * Pow10(|a| - 1) + DigitsValue(a[1..])
  {
    DigitsValueConcat(a[..1], a[1..]);
    assert a[..1] + a[1..] == a;
    assert DigitsValue(a[..1]) == DigitValue(a[0]) by { assert a[..1][..0] == []; }
  }

  lemma LeadingDigitDecides(x: nat, y: nat, p: nat, u: nat, v: nat)
    requires x < y && u < p && v < p
    ensures x * p + u < y * p + v
  {
    assert (x + 1) * p <= y * p;
  }

  lemma {:induction false} DigitsValueBound(s: string)
    requires AllDigits(s)
    ensures DigitsValue(s) < Pow10(|s|)
    decreases |s|
  {
    if |s| > 0 { DigitsValueBound(s[..|s| - 1]); }
  }

  /** A number below `10^w` has at most `w` digits. */
  lemma {:induction false} DigitsLength(n: nat, w: nat)
    requires w >= 1 && n < Pow10(w)
    ensures |Digits(n)| <= w
    decreases n
  {
    if n >= 10 {
      assert w >= 2;
      DigitsLength(n / 10, w - 1);
    }
  }

  /** Zero-padding a digit string's value to its own length gives the string back. */
  lemma FormatDigits(s: string)
    requires |s| >= 1 && AllDigits(s)
    ensures FormatNat(DigitsValue(s), |s|) == s
  {
    var v := DigitsValue(s);
    DigitsValueBound(s);
    DigitsLength(v, |s|);
    DigitStringsOrder(FormatNat(v, |s|), s);
  }

  /** A number below `10^w` formats to exactly `w` digits. */
  lemma FormatWidth(n: nat, w: nat)
    requires w >= 1 && n < Pow10(w)
    ensures |FormatNat(n, w)| == w
  {
    DigitsLength(n, w);
  }

  /** Comparing equal-length prefixes decides string order unless they are equal. */
  lemma {:induction false} StrLeConcat(a: string, b: string, x: string, y: string)
    requires |a| == |b|
    ensures StrLe(a + x, b + y) == if a == b then StrLe(x, y) else StrLe(a, b)
    decreases |a|
  {
    if |a| > 0 {
      assert (a + x)[1..] == a[1..] + x && (b + y)[1..] == b[1..] + y;
      StrLeConcat(a[1..], b[1..], x, y);
      if a[0] == b[0] && a[1..] == b[1..] {
        assert a == [a[0]] + a[1..] && b == [b[0]] + b[1..];
      }
    } else {
      assert a + x == x && b + y == y;
    }
  }
}

=== FILE: wrappers.dfy ===
/** Option and Result types used wherever the Python code returns None or raises. */
module Wrappers {

  /** A value that may be absent (Python's `None`). */
  datatype Option<+T> = None | Some(value: T) {
    /** The value, or `default` when absent (Python's `x or default` on a nullable column). */
    function GetOr(default: T): T {
      match this
      case Some(v) => v
      case None => default
    }
  }

  /** The outcome of an operation that either succeeds or raises an error of type E. */
  datatype Result<+T, +E> = Ok(value: T) | Err(error: E)
}
